=== FILE: README.md ===
# freeaiimage, API-monitor and VPS-bot record logic in Dafny

This project models the decision logic and in-memory record stores of a
collection of browser userscripts, a command-line login script and two
Telegram bots that rent out LXC containers. It does not model the network
interception itself. Each source file is one Dafny module. A small set of
shared modules supplies the JavaScript and Python semantics those files
depend on.

Shared modules:

- `Maybe` (maybe.dfy) is the optional value. It stands for `null`,
  `undefined`, Python's `None` and a step that throws.
- `Text` (text.dfy) is substring search, splitting and joining, trimming,
  ASCII case mapping, decimal printing, and Python `int()`.
- `Js` (js.dfy) is the JSON value a script receives from `JSON.parse`. It
  also holds JavaScript truthiness, `a || b`, property access that throws on
  `null`, optional chaining, `===`, string conversion and `JSON.stringify`.
  `JSON.parse` itself is a parameter of the handlers. `None` stands for its
  SyntaxError.
- `Ordered` (ordered.dfy) is the insertion-ordered keyed collection: a
  record array searched with `findIndex`, a JavaScript object, a Python
  dict. Assigning to an existing key keeps its position.
- `Csv` (csv.dfy) is the comma-separated text the export buttons write. A
  reader for section 2 of RFC 4180 is the partner it is proved against.
- `Scan` (scan.dfy) is the run a greedy character-class group captures.
- `Uri` (uri.dfy) is `encodeURIComponent` and the
  `application/x-www-form-urlencoded` body, proved against a decoder.
- `ApiLog` (api_log.dfy) is the recorded call, the monitoring switch, the
  status-range statistics and ordered substring categorisation. The two API
  monitors share it.
- `BotCommon` (bot_common.dfy) holds what the two bots share: the Markdown
  helpers, `truncate_text`, the admin test, Python list indexing and the
  control keyboard.

Modules for the source files:

- `ExtractorV3`, `FinalExtractor`, `Analyzer`, `DebugMonitor` and
  `SessionExtractor` are the five freeaiimage.net userscripts. They cover
  the filters on task URLs, task-id extraction, the "is this a task response"
  tests, field extraction with its `params` fallback, the last-write-wins
  stores, statistics and CSV export.
- `DuckMonitor` and `DigenMonitor` are the DuckDuckGo chat and Digen API
  monitors. They cover categorisation, counting, the monitoring gate and
  request-body parsing.
- `DigenLogin` is the Digen login script. It covers cookie parsing and
  formatting in the `name=value; name=value` shape of section 4.2.1 of RFC
  6265, the CSRF pattern cascade, the form body and the login decision.
- `SoraToken` is the Sora token extractor. It covers `getCookie`, the
  token fallback and the panel-creation guard.
- `ZorvixStore` and `ZorvixPanel` are the ZorvixVM bot:
  - its `user -> [vps]` records;
  - the admin commands (`/admin_add`, `/admin_remove`, `/create`,
    `/delete_vps`, `/restart_vps`, `/suspend_vps`, `/unsuspend_vps`,
    `/serverstats`);
  - its keyboards and `callback_handler`.

  Every LXC call a command makes is a single succeed/fail oracle `ok`.
- `TelBot` is the smaller bot `tel.py`. It covers its callback parsing,
  its three handled actions and `/create` naming.

The clock is a parameter wherever a timestamp is written.

## Model

| member | source | states |
|---|---|---|
| ExtractorV3.IsValidTaskUrl | ai-image-extractor-v3.user.js:308-310 | the filter admits every URL containing `/task?` and nothing without `task?` in it |
| ExtractorV3.ExtractTaskId | ai-image-extractor-v3.user.js:369-372 | the id found is a non-empty run of `[a-zA-Z0-9-]` inside the URL; a `?`/`&` + `task_id`/`taskid`/`task-id` + `=` match wins, otherwise the first 32-character lowercase hex run; no id exactly when neither pattern occurs at any position |
| ExtractorV3.ParamMatchFrom | ai-image-extractor-v3.user.js:370 | the query-parameter match starts at the leftmost position where the pattern matches, no earlier position matches, and there is none exactly when no position matches |
| ExtractorV3.FindHex32 | ai-image-extractor-v3.user.js:370 | the fallback is the 32 characters at the leftmost position starting a lowercase hex run of length 32, none exactly when there is no such position |
| ExtractorV3.ExtractFromQuery | ai-image-extractor-v3.user.js:369-372 | a URL `base?task_id=ID...` (or `&`, `taskid`, `task-id`) whose base has no `?`/`&` yields exactly `ID` |
| ExtractorV3.CamelCaseIdNotMatched | ai-image-extractor-v3.user.js:370 | the match is case-sensitive: `/task?taskId=42` yields no id |
| ExtractorV3.MakeRecord | ai-image-extractor-v3.user.js:316-332 | `task_type` and `status` default to `unknown`; each parameter comes from a truthy `params.X`, else from top-level `X`; `image_urls` is a truthy `data`, else `[]` |
| ExtractorV3.ImagesIgnored | ai-image-extractor-v3.user.js:330 | adding an `images` field to the response changes nothing in the record |
| ExtractorV3.CompletesOnRecord | ai-image-extractor-v3.user.js:345 | the completion test on the record holds exactly when the response's `status` is `completed` and its `data` is non-empty |
| ExtractorV3.MakeSession | ai-image-extractor-v3.user.js:346-355 | a session copies the record's task id, prompt, batch size and image URLs, with dimensions `width + "x" + height` |
| ExtractorV3.ProcessApiData | ai-image-extractor-v3.user.js:313-366 | no task id (or a null body) changes nothing; the session list only grows, by at most one, and grows exactly when the response completes and no session has that task id; the new session carries its task id and the `data` URLs |
| ExtractorV3.ProcessLastWriteWins | ai-image-extractor-v3.user.js:337-342 | afterwards the record under its task id is the new observation, an existing record keeps its position and the list its length, and every other task id's record is unchanged |
| ExtractorV3.Observe | ai-image-extractor-v3.user.js:336-360 | the record is upserted by task id; the session list keeps its prefix and grows by one exactly when the status is `completed`, there are images and no session has its task id, and the new session is the one built from the record with the count of records under that id |
| ExtractorV3.ObserveKeepsInv | ai-image-extractor-v3.user.js:336-360 | the store update keeps one record and one session per task id, a record behind every session and images in every session |
| ExtractorV3.ProcessKeepsInv | ai-image-extractor-v3.user.js:337-363 | one record per task id, one session per task id, a record behind every session, every session with images: all preserved |
| ExtractorV3.HandleXhrResponse | ai-image-extractor-v3.user.js:283-292 | an invalid task URL or an unparseable response text changes nothing |
| ExtractorV3.XhrDoubleDelivery | ai-image-extractor-v3.user.js:249-263 | the second, `loadend`, delivery of a 2xx response leaves the sessions as the first left them and the records as one delivery at the later time would; a non-2xx response is handled once |
| ExtractorV3.OnXhrDone | ai-image-extractor-v3.user.js:249-263 | an invalid task URL or unparseable text changes nothing, and after both listeners have run the sessions are those the first delivery left |
| ExtractorV3.Reprocess | ai-image-extractor-v3.user.js:337-363 | processing the same response twice leaves the sessions as after the first and the records as one processing at the later timestamp |
| ExtractorV3.OnFetchDone | ai-image-extractor-v3.user.js:267-278 | a response that is not `ok` changes nothing; otherwise a valid task URL with parseable text is processed with the options' method (default `GET`), body and status 200 |
| ExtractorV3.SessionRow | ai-image-extractor-v3.user.js:435-445 | a row exists exactly when the prompt is a string and the URLs an array, and it has six cells |
| ExtractorV3.ExportCsv | ai-image-extractor-v3.user.js:418-449 | no sessions, no export; otherwise an export exactly when every session yields a row |
| ExtractorV3.ExportReadsBack | ai-image-extractor-v3.user.js:431-448 | read back under section 2 of RFC 4180, the export is the six-column header plus one record per session holding its timestamp, task id, prompt, dimensions, batch size and `|`-joined URLs |
| FinalExtractor.IsTaskApiUrl | ai-image-final.user.js:377 | the test both wrappers apply (`/api/services/aigc/task?` and `taskType=qwen_image` in the URL) admits only URLs that also pass the other extractor's task-URL filter |
| FinalExtractor.ExtractTaskId | ai-image-final.user.js:422-425 | an id found is the non-empty `[a-fA-F0-9-]` run after `taskId=` at the leftmost position where the pattern matches, as `String.prototype.match` returns it; none exactly when no position starts such a match |
| FinalExtractor.ExtractWritten | ai-image-final.user.js:422-425 | a URL `base taskId=ID rest` with no earlier `taskId=` yields exactly `ID` |
| FinalExtractor.FindSession | ai-image-final.user.js:466 | `findIndex`: the first session whose task id is strictly equal, or none when no session's is |
| FinalExtractor.Save | ai-image-final.user.js:466-471 | an existing task id is replaced in place with the rest unchanged; a new one is appended |
| FinalExtractor.SaveKeepsUnique | ai-image-final.user.js:466-471 | saving keeps task ids unique |
| FinalExtractor.SessionOf | ai-image-final.user.js:438-463 | the session exists exactly when `params` is not null or undefined (otherwise reading `params.prompt` throws); it is `completed` and takes `created_at`, `task_id` and `task_type` from the body, `data` or `[]` as its images, the prompt, negative prompt and batch size from `params`, and dimensions `width + "x" + height` |
| FinalExtractor.ProcessTaskResponse | ai-image-final.user.js:428-471 | no truthy `task_id`, no completion with images, or no `params` changes nothing; otherwise the list grows by at most one |
| FinalExtractor.ProcessIsSave | ai-image-final.user.js:452-471 | processing is exactly saving the response's session when the id is truthy and the response completes, and nothing otherwise |
| FinalExtractor.ProcessKeepsStore | ai-image-final.user.js:452-471 | unique task ids and all-sessions-completed are preserved |
| FinalExtractor.CompletionStored | ai-image-final.user.js:465-471 | a completion replaces the session with that task id in place, leaving the others, or is appended when the id is new |
| FinalExtractor.ObjectIdAppends | ai-image-final.user.js:466 | a task id that is an array or object never equals a stored one under `===`, so its session is always appended |
| FinalExtractor.LengthObjectCompletes | ai-image-final.user.js:452 | an object with a positive own `length` standing for the images passes `task.images.length > 0`, so the completion is stored with it |
| FinalExtractor.OnXhrDone | ai-image-final.user.js:374-386 | a status-200 response to a task URL whose text parses is processed as `processTaskResponse` would; any other response leaves the sessions unchanged |
| FinalExtractor.OnFetchDone | ai-image-final.user.js:403-414 | an `ok` response to a task URL whose text parses is processed as `processTaskResponse` would; any other response leaves the sessions unchanged |
| FinalExtractor.CompletedOnly | ai-image-final.user.js:534 | a session is in the filtered list exactly when it was given and its status is `completed`, and the filter never keeps more than it was given |
| FinalExtractor.CompletedOnlyKeeps | ai-image-final.user.js:534 | every completed session is kept by the filter |
| FinalExtractor.UpdateStatistics | ai-image-final.user.js:511-518 | total is the number of sessions, completed the number of completed sessions, and total images the sum of `images.length` over the completed sessions |
| FinalExtractor.SumImages | ai-image-final.user.js:513 | the sum is a number exactly when every session's `images` has a length, and it is at least the first session's count |
| FinalExtractor.SumImagesAppend | ai-image-final.user.js:513 | the sum over two joined lists is the sum of the two sums |
| FinalExtractor.CompletedOnlyAppend | ai-image-final.user.js:512 | filtering two joined lists joins the two filtered lists, so the kept sessions stay in their order |
| FinalExtractor.StatisticsAfterAppend | ai-image-final.user.js:511-518 | one more session adds one to the total; a completed one also adds one to completed and its image count to total images, and any other leaves both |
| FinalExtractor.HandlersStoreCompletion | ai-image-final.user.js:374-414 | a completed status-200 response to a task URL with a task id stores its session, and the fetch wrapper with an `ok` response does exactly the same |
| FinalExtractor.StatisticsOfStore | ai-image-final.user.js:511-518 | on a store where every session is completed, completed equals total and the image total is at least the number of sessions |
| FinalExtractor.Recent | ai-image-final.user.js:325 | the history shows the last ten sessions (all when fewer), newest first |
| FinalExtractor.SessionRow | ai-image-final.user.js:552-563 | a row exists exactly when prompt and negative prompt are strings and images an array, and it has seven cells |
| FinalExtractor.ExportCsv | ai-image-final.user.js:533-566 | no completed session, no export; otherwise an export exactly when every completed session yields a row |
| FinalExtractor.MissingNegativePromptBreaksExport | ai-image-final.user.js:453-463 | a completed response without `negative_prompt` is stored, and then the CSV export fails |
| FinalExtractor.ExportCsvFixed | ai-image-final.user.js:533-566 | with a missing field written as an empty cell, there is an export exactly when some session is completed, and it agrees with the original whenever that succeeds |
| Analyzer.OnlyObjectsUseful | ai-image-analyzer.user.js:523-530 | a body that is not an object never passes the usefulness test |
| Analyzer.IsUseful | ai-image-analyzer.user.js:523-530 | only an object with at least one property passes the usefulness test |
| Analyzer.EmptyImagesUseful | ai-image-analyzer.user.js:528-530 | an `images` array makes a response useful even when it is empty and nothing else is present |
| Analyzer.StatusAloneNotUseful | ai-image-analyzer.user.js:526-530 | `status: completed` without a prompt is not useful |
| Analyzer.Nested | ai-image-analyzer.user.js:552-567 | a field is a truthy `params.X`, otherwise the top-level `X` |
| Analyzer.ExtractUsefulData | ai-image-analyzer.user.js:552-567 | the record keeps url, source and body; its prompt is the nested prompt or `未知`; its images are a truthy `data`, else a truthy `images`, else `[]`; prompt and images are always truthy |
| Analyzer.NestedPromptWins | ai-image-analyzer.user.js:552-567 | in any body, a non-empty `prompt` in the first `params` object wins over a top-level `prompt` and whatever else the body holds |
| Analyzer.ProcessApiResponse | ai-image-analyzer.user.js:518-549 | a useful response appends exactly its extracted record; any other leaves the results unchanged |
| Analyzer.NoDedupe | ai-image-analyzer.user.js:530-535 | the same useful response processed twice gives two equal records |
| Analyzer.StartAnalysis | ai-image-analyzer.user.js:316-343 | while analysing nothing changes; otherwise analysis starts, the results are kept and one more network hook is installed |
| Analyzer.FinishAnalysis | ai-image-analyzer.user.js:338-341 | the three-second timer clears the analysing flag and changes nothing else |
| Analyzer.Clear | ai-image-analyzer.user.js:300-311 | clearing empties the results and keeps the flag and hooks |
| Analyzer.ProcessByHooks | ai-image-analyzer.user.js:416-434 | with `n` installed hooks a useful response appends `n` copies of its record after the old results, and a useless one none |
| Analyzer.OnXhrDone | ai-image-analyzer.user.js:416-434 | a non-2xx status, blank text or unparseable text changes nothing; a 2xx response with non-blank text that parses is processed by every installed hook; the flag and hooks never change |
| Analyzer.OnFetchDone | ai-image-analyzer.user.js:456-468 | a response that is not `ok`, blank or unparseable changes nothing; an `ok` response with non-blank JSON text is processed by every installed hook; the flag and hooks never change |
| Analyzer.BlankNotParsed | ai-image-analyzer.user.js:425 | a response of spaces is never parsed |
| Analyzer.ReanalyseDoubles | ai-image-analyzer.user.js:316-343 | after a second analysis one useful XHR response is recorded twice |
| Analyzer.StartAnalysisFixed | ai-image-analyzer.user.js:316-343 | with the hooks installed once, a restart keeps exactly one hook |
| Analyzer.FixedRecordsOnce | ai-image-analyzer.user.js:530-535 | after a restart of the corrected analysis a useful response adds exactly one record after the old ones |
| Analyzer.FetchSeenByPage | ai-image-analyzer.user.js:444-479 | a GET whose first argument has no `includes` (a `Request` or `URL` object) throws a TypeError at the page before any request; otherwise the page sees a response unchanged and never sees a network failure |
| Analyzer.FailureSwallowed | ai-image-analyzer.user.js:475-477 | a network failure for a string URL resolves to `undefined` for the page |
| Analyzer.RequestObjectBreaksFetch | ai-image-analyzer.user.js:446-448 | a GET `fetch` given a `Request` object throws at the page whatever the network would have done |
| Analyzer.FetchSeenByPageFixed | ai-image-analyzer.user.js:444-479 | with the URL tested as a string and the error re-thrown, the page sees exactly what the network gave, as before wherever the original neither threw nor hid a failure |
| Analyzer.AppendLog | ai-image-analyzer.user.js:651-669 | for any message, one line or many: the log's lines are the first 50 of the message's lines followed by the old log's; for a one-line message, that line and then the old lines |
| Analyzer.AppendLogShort | ai-image-analyzer.user.js:662 | below the cap the new line is simply prepended |
| ApiLog.SuccessCount | duckduckgo_chat_monitor.user.js:241-243 | the successes, calls whose status lies in [200, 300), number at most the calls |
| ApiLog.SuccessPlusFailure | duckduckgo_chat_monitor.user.js:239-247 | successes plus failures are exactly the recorded calls |
| ApiLog.ComputeStats | digen_api_monitor.user.js:239-247 | the shown total is the number of calls, and success plus fail equals total |
| ApiLog.StatsAfterAppend | digen_api_monitor.user.js:239-247 | one more call raises the total by one and exactly one of success and fail, by its status |
| ApiLog.Record | digen_api_monitor.user.js:315-334 | while monitoring a call is appended after the others; while stopped nothing changes |
| ApiLog.Start | duckduckgo_chat_monitor.user.js:459-471 | the start button turns monitoring on and keeps the calls |
| ApiLog.Stop | duckduckgo_chat_monitor.user.js:474-485 | the stop button turns monitoring off and keeps the calls |
| ApiLog.Clear | digen_api_monitor.user.js:445-448 | clearing leaves no calls and zero counts, and keeps the monitoring flag |
| ApiLog.FirstRule | duckduckgo_chat_monitor.user.js:344-359 | an if/else-if chain: the category of the first rule that fires, the fallback when none does |
| ApiLog.BodyTextShowsKey | duckduckgo_chat_monitor.user.js:346 | the lowercased JSON text of a body contains each lowercase key whose value is defined |
| DuckMonitor.Categorize | duckduckgo_chat_monitor.user.js:344-359 | the category is the first of chat, model and auth whose words occur in the lowercased URL (or, for chat, in the lowercased body text), and `其他` exactly when none does |
| DuckMonitor.ChatUrlWins | duckduckgo_chat_monitor.user.js:348-351 | a URL mentioning `chat` or `vqd` is a chat call whatever the body |
| DuckMonitor.ModelBeforeAuth | duckduckgo_chat_monitor.user.js:352-353 | a URL that is not chat and mentions `model` is a model call, ahead of the auth words |
| DuckMonitor.PromptBodyIsChat | duckduckgo_chat_monitor.user.js:350 | a body with a `prompt` or `message` field makes the call a chat call |
| ApiLog.Verb | duckduckgo_chat_monitor.user.js:374 | a falsy `method` option is `GET`; the Digen monitor computes the same at digen_api_monitor.user.js:320 |
| DuckMonitor.FetchRequestBody | duckduckgo_chat_monitor.user.js:377 | a falsy body is recorded as `null`, a non-string body as it is, and a string body is parsed |
| DuckMonitor.FetchResponseBody | duckduckgo_chat_monitor.user.js:389-404 | a JSON response text is stored parsed, any other text as its first 500 characters, and an unreadable body as nothing |
| DuckMonitor.OnFetch | duckduckgo_chat_monitor.user.js:363-408 | while stopped the response reaches the page untouched; while monitoring the page gets it exactly when the method and the request body can be read, and then one call is appended with the URL, the status, the stored response body and the category of its body; a rejected fetch records nothing |
| DuckMonitor.OnFetchFixed | duckduckgo_chat_monitor.user.js:363-408 | with the corrected body handling the page gets its response whenever the method can be read, and the call recorded keeps a non-JSON body raw |
| DuckMonitor.FetchWhileStopped | duckduckgo_chat_monitor.user.js:369 | while stopped the response is passed through and nothing is recorded |
| DuckMonitor.FetchRecordsOne | duckduckgo_chat_monitor.user.js:363-408 | while monitoring, any fetch with no body whose method is absent or a string and whose response is not JSON appends exactly one call, with a `null` body, its category and the 500-character text |
| DuckMonitor.FetchFormBodyRejected | duckduckgo_chat_monitor.user.js:377 | a form-encoded string body makes `JSON.parse` throw: the page's fetch is rejected and nothing is recorded |
| DuckMonitor.FetchRequestBodyFixed | duckduckgo_chat_monitor.user.js:377 | with the XHR wrapper's fallback, an unparseable string body is kept raw, and every body the original records is recorded the same |
| DuckMonitor.FetchFixedNeverRejectsBody | duckduckgo_chat_monitor.user.js:363-408 | the corrected wrapper always delivers the response and records exactly one call while monitoring, agreeing with the original whenever that delivers |
| DuckMonitor.XhrRequestBody | duckduckgo_chat_monitor.user.js:424-428 | a falsy XHR body is `null`, an unparseable string body is kept raw |
| DuckMonitor.OnXhrLoad | duckduckgo_chat_monitor.user.js:430-452 | while stopped nothing is recorded; a non-empty unparseable response text aborts the listener; otherwise exactly one call is appended with the sent body and its category |
| DigenMonitor.Categorize | digen_api_monitor.user.js:292-305 | the category is the first of check-in, video and image whose words occur in the lowercased URL or body text, and `其他` exactly when none does |
| DigenMonitor.GenerateIsVideo | digen_api_monitor.user.js:298-299 | a URL that is not check-in and mentions `generate` is a video call |
| DigenMonitor.CheckInWins | digen_api_monitor.user.js:296-297 | a URL mentioning `checkin` or `daily` is a check-in call whatever the body |
| DigenMonitor.NoWordIsOther | digen_api_monitor.user.js:292-305 | a call no rule fires on falls to the other category |
| DigenMonitor.ParseBody | digen_api_monitor.user.js:322 | a falsy body is `null`; any other body goes through `JSON.parse` of its string form |
| DigenMonitor.OnFetch | digen_api_monitor.user.js:309-338 | while stopped the response is delivered untouched; while monitoring the page gets it exactly when the method is a string (or absent) and the body is falsy or parses as JSON, and then one call is appended with the upper-cased method, the parsed body, the URL, the status, no response body and its category; a rejected fetch records nothing |
| DigenMonitor.FormBodyBreaksFetch | digen_api_monitor.user.js:322 | while monitoring, a fetch with a form-encoded body is rejected at the page and records nothing |
| DigenMonitor.OnFetchFixed | digen_api_monitor.user.js:309-338 | with the body parse guarded, only a method that is not a string rejects, and wherever the original delivered the result is the same |
| DigenMonitor.XhrSend | digen_api_monitor.user.js:351-353 | `send` throws exactly when the body is truthy and does not parse as JSON |
| DigenMonitor.FormBodyBreaksSend | digen_api_monitor.user.js:353 | a form-encoded login body makes the page's `send` throw |
| DigenMonitor.XhrSendFixed | digen_api_monitor.user.js:351-353 | with a raw fallback `send` always goes through, and agrees with the original whenever that does |
| DigenMonitor.OnXhrLoad | digen_api_monitor.user.js:355-375 | while stopped nothing changes; while monitoring exactly one call is appended, with the upper-cased method, URL, sent body, status and category |
| DigenMonitor.XhrRoundTrip | digen_api_monitor.user.js:351-378 | a `send` that throws records nothing |
| DigenMonitor.XhrRoundTripFixed | digen_api_monitor.user.js:351-378 | with the raw fallback every request completed while monitoring is recorded once |
| DebugMonitor.NonObjectNotTask | ai-image-debug.user.js:262-264 | a value that is not an object is never a task response |
| DebugMonitor.IsTaskResponse | ai-image-debug.user.js:262-282 | only an object with at least one property can be a task response |
| DebugMonitor.NestedTaskIdIsTask | ai-image-debug.user.js:268-269 | a non-empty `params.task_id` alone makes a task response |
| DebugMonitor.StatusNeedsType | ai-image-debug.user.js:271-280 | a status without a task type is not a task response |
| DebugMonitor.ImagesIgnored | ai-image-debug.user.js:275-280 | an `images` array alone is not a task response here, though the analyzer finds it useful |
| DebugMonitor.TaskResponseUsefulUnlessNested | ai-image-debug.user.js:267-280 | a task response with no truthy `params`, and with image data whenever it has no top-level task id, is also useful to the analyzer |
| DebugMonitor.OnXhrDone | ai-image-debug.user.js:90-113 | the listener once `setupMonitors` has run (never, as written: see DebugMonitor.Init): a capture is appended exactly when the status is 2xx, the text parses and it is a task response; otherwise nothing changes |
| DebugMonitor.OnFetchText | ai-image-debug.user.js:143-157 | the fetch wrapper's text callback once `setupMonitors` has run (never, as written: see DebugMonitor.Init): a capture is appended exactly when the response is `ok`, the text parses and it is a task response |
| DebugMonitor.XhrAndFetchAgree | ai-image-debug.user.js:96-154 | the two installed handlers capture the same responses |
| DebugMonitor.FetchSeenByPage | ai-image-debug.user.js:121-168 | the fetch wrapper once `setupMonitors` has run (never, as written: see DebugMonitor.Init): with no body or a string body the page sees exactly the network's result, a failure re-thrown; a truthy non-string body makes the wrapper throw a TypeError |
| DebugMonitor.FailureRethrown | ai-image-debug.user.js:165-168 | through the installed wrapper a network failure reaches the page unchanged |
| DebugMonitor.ObjectBodyBreaksFetch | ai-image-debug.user.js:131-133 | a latent defect: an object body (a `FormData`, say) makes the installed wrapper throw before the request is sent, so it reaches the page once `init` is corrected; as written the page's fetch gets the network's answer |
| DebugMonitor.FetchSeenByPageFixed | ai-image-debug.user.js:121-168 | with the body logged only when it is a string, the installed wrapper always gives the page the network's result, as before wherever it did not throw |
| DebugMonitor.SetRequestHeader | ai-image-debug.user.js:68-71 | the wrapper once `setupMonitors` has run (never, as written: see DebugMonitor.Init): every page call notes the header (the last value per name) and then throws, and the request's real headers stay as they were |
| DebugMonitor.HeaderNeverSent | ai-image-debug.user.js:68-71 | a latent defect: with `init` corrected, setting a content type throws and sends nothing, where forwarding would have sent it; as written the browser's method runs and nothing throws |
| DebugMonitor.SetRequestHeaderFixed | ai-image-debug.user.js:68-71 | forwarding to the saved original sends the header, notes it as before, and never throws; it matters only together with the corrected `init` |
| DebugMonitor.Init | ai-image-debug.user.js:303-305 | as written `init` throws at the `:contains` probe, so the monitors are never in place |
| DebugMonitor.InitFixed | ai-image-debug.user.js:326-338 | with the probe guarded, the timer runs `setupMonitors` and the monitors are in place |
| DebugMonitor.PageFetch | ai-image-debug.user.js:121-168 | the page's fetch gets the network's answer without the monitors, and the wrapper's outcome with them |
| DebugMonitor.PageSetRequestHeader | ai-image-debug.user.js:68-71 | without the monitors the browser's method sends the header and never throws; with them the wrapper runs |
| DebugMonitor.PageXhrDone | ai-image-debug.user.js:90-113 | without the monitors no XHR response is captured; with them the listener decides |
| DebugMonitor.PageFetchText | ai-image-debug.user.js:143-157 | without the monitors no fetch response is captured; with them the callback decides |
| DebugMonitor.MonitorsNeverInstalled | ai-image-debug.user.js:326-338 | as written every fetch gets the network's answer, every header is sent, and nothing is captured |
| DebugMonitor.FixedInitCaptures | ai-image-debug.user.js:326-338 | with `init` corrected a task response is captured once by each handler, where as written neither captures it |
| SessionExtractor.StatusText | ai-image-extractor.user.js:546-554 | any status other than the four known ones is labelled `未知状态` |
| SessionExtractor.StatusClass | ai-image-extractor.user.js:557-565 | the class is always one of pending, success and error |
| SessionExtractor.StatusViewsAgree | ai-image-extractor.user.js:546-565 | the class is success exactly for the `已完成` label and error exactly for the `发生错误` label; an unknown label comes with the pending class; the label is known exactly for the four statuses |
| SessionExtractor.Data | ai-image-extractor.user.js:428-432 | the exported list is the frozen sessions followed by the current session once per push, since the same object is pushed each time |
| SessionExtractor.StartNewSession | ai-image-extractor.user.js:411-421 | a new session is `waiting`, with the prompt, no image, no parameters and no calls; the list is untouched |
| SessionExtractor.CheckPromptInput | ai-image-extractor.user.js:290-311 | no prompt on the page or the current prompt changes nothing; a different prompt starts a new session |
| SessionExtractor.SamePromptKeepsSession | ai-image-extractor.user.js:305-307 | seeing the same prompt again keeps the session |
| SessionExtractor.CompleteSession | ai-image-extractor.user.js:428-435 | with a session, exactly one entry is added after the frozen ones: the session carrying a snapshot of the calls so far; without one nothing changes |
| SessionExtractor.WithStatus | ai-image-extractor.user.js:333 | setting the status changes nothing else |
| SessionExtractor.CheckGenerationStatus | ai-image-extractor.user.js:314-340 | the poll as intended, with the `:contains` selectors read as text tests: without a session nothing changes |
| SessionExtractor.GenerationTransition | ai-image-extractor.user.js:332-338 | with the poll as intended, a session is completed and pushed exactly when it was `generating` and no longer is; while generating it reads `generating` |
| SessionExtractor.RegenerationPushesAgain | ai-image-extractor.user.js:332-338 | with the poll as intended, a completed session that generates again is pushed a second time |
| SessionExtractor.CheckGenerationStatusAsWritten | ai-image-extractor.user.js:314-340 | the poll as written throws exactly when no loading indicator is shown (the `:contains` selector is reached and is not CSS); otherwise it marks the session `generating` and pushes nothing |
| SessionExtractor.StatusPollNeverCompletes | ai-image-extractor.user.js:314-340 | the poll as written never pushes a session and never marks one completed |
| SessionExtractor.Tick | ai-image-extractor.user.js:282-287 | as written, a tick without a loading indicator runs only the prompt check and leaves `extractedData` alone; with one, it does what the intended tick does |
| SessionExtractor.TickFixed | ai-image-extractor.user.js:282-287 | with the intended poll, a session seen generating is pushed on the first tick without an indicator |
| SessionExtractor.TickPushesOnlyImages | ai-image-extractor.user.js:282-365 | as written, a tick pushes a session only while an indicator is shown and a usable image is found |
| SessionExtractor.FinishedGenerationMissed | ai-image-extractor.user.js:315-338 | a generating session whose indicator has gone is left unchanged by the tick as written, and pushed by the intended one |
| SessionExtractor.FirstUsable | ai-image-extractor.user.js:352-364 | the image found is the `src` of the first selector whose first match is neither empty nor `data:`, and none exactly when no selector gives one |
| SessionExtractor.CheckGeneratedImage | ai-image-extractor.user.js:343-365 | given the first usable `src`, a session without an image takes it, is completed and pushed; no image, no session, or a session that already has an image changes nothing |
| SessionExtractor.ImageCompletesOnce | ai-image-extractor.user.js:355-361 | the first image completes the session and pushes it once; later images change nothing |
| SessionExtractor.CheckParameters | ai-image-extractor.user.js:405-407 | with parameters found and a session, the session's parameters become the merge with the new keys winning; otherwise nothing changes |
| SessionExtractor.Intercept | ai-image-extractor.user.js:462 | an intercepted call is appended to the calls and touches nothing else |
| SessionExtractor.FetchDone | ai-image-extractor.user.js:443-466 | a page fetch without options, or one whose request fails, is rejected and records nothing; any other is recorded with `options.method \|\| 'GET'`, `options.headers \|\| {}`, the body, the status and the time, and the page gets the response |
| SessionExtractor.XhrLoadEnd | ai-image-extractor.user.js:470-511 | a finished XHR is recorded with the method and URL of `open`, the data of `send`, empty headers and its status |
| SessionExtractor.WrappersRecordAlike | ai-image-extractor.user.js:443-511 | a fetch with a method and a body but no headers is recorded exactly as an XHR with the same method, URL and body, and a fetch without options is never recorded |
| SessionExtractor.Clear | ai-image-extractor.user.js:249-256 | clearing empties the list and the calls and keeps the current session |
| SessionExtractor.ParamOrEmpty | ai-image-extractor.user.js:590-591 | a missing parameter is written as an empty field |
| SessionExtractor.SessionRow | ai-image-extractor.user.js:585-592 | six cells, the prompt quoted and every other cell bare |
| SessionExtractor.ExportCsv | ai-image-extractor.user.js:568-597 | there is an export exactly when the list is non-empty |
| SessionExtractor.SessionValues | ai-image-extractor.user.js:585-592 | the values a row stands for: the prompt second and the image URL, or empty, fourth |
| SessionExtractor.ExportReadsBack | ai-image-extractor.user.js:580-596 | when no bare field holds a comma, quote or line break, the export reads back under section 2 of RFC 4180 as the header and one record per session |
| SessionExtractor.DataUrlSplitsRow | ai-image-extractor.user.js:589 | an image URL with a comma, as every `data:` URL has, reads back as seven fields, not the session's six values |
| SessionExtractor.SessionRowFixed | ai-image-extractor.user.js:585-592 | quoting every field but the status gives six cells that stand for the session's values |
| SessionExtractor.ExportCsvFixed | ai-image-extractor.user.js:568-597 | there is an export exactly when the list is non-empty |
| SessionExtractor.ExportFixedReadsBack | ai-image-extractor.user.js:580-596 | the corrected export reads back as the header and one six-value record per session, whatever the URLs, prompts and parameters hold |
| SessionExtractor.FixedAgreesWhenReadable | ai-image-extractor.user.js:580-596 | where the original export reads back correctly, the corrected one reads back the same |
| DigenLogin.CookieOf | digen_login_api.js:98-101 | a segment is kept only when its trimmed text is exactly `name=value` with no other `=` |
| DigenLogin.ParseCookies | digen_login_api.js:95-106 | an empty header gives `{}`, and the result has one entry per name |
| DigenLogin.ParseCookiesLast | digen_login_api.js:98-102 | a name takes the value of the last segment that sets it |
| DigenLogin.ParseCookiesAbsent | digen_login_api.js:98-102 | a name no segment sets is absent |
| DigenLogin.ParseCookiesSafe | digen_login_api.js:95-106 | every parsed name and value is free of `;`, `=` and edge whitespace |
| DigenLogin.Entries | digen_login_api.js:110-111 | each entry becomes `name=value`, in order |
| DigenLogin.FormatRoundTrip | digen_login_api.js:95-113 | cookies whose names and values hold no `;`, `=` or edge whitespace, one per name, parse back from their formatted string unchanged |
| DigenLogin.FormatCookies | digen_login_api.js:110-113 | every cookie appears in the header as `name=value`, and the header is empty exactly when there are no cookies |
| DigenLogin.ParseFormatParse | digen_login_api.js:95-113 | formatting parsed cookies and parsing again gives the same cookies |
| DigenLogin.DuplicateLastWins | digen_login_api.js:100 | `sid=a; sid=b` parses to the single cookie `sid=b` |
| DigenLogin.ResponseCookies | digen_login_api.js:139-141 | the cookies of the `Set-Cookie` lines, one per name |
| DigenLogin.SetCookieLines | digen_login_api.js:139-141 | `Set-Cookie` lines `name=value` followed by attributes give back exactly those cookies |
| DigenLogin.PaddedValueDropped | digen_login_api.js:99-101 | a cookie whose value contains `=` (base64 padding) is silently dropped |
| DigenLogin.CookieOfFixed | digen_login_api.js:98-101 | splitting at the first `=` keeps every segment that has one, with a name free of `=` |
| DigenLogin.ParseCookiesFixed | digen_login_api.js:95-106 | an empty header gives `{}`, and names stay unique |
| DigenLogin.FormatRoundTripFixed | digen_login_api.js:95-113 | with the corrected parse, values may contain `=` and still read back unchanged |
| DigenLogin.FixedAgrees | digen_login_api.js:98-101 | on every segment the original keeps, the corrected parse keeps the same cookie |
| DigenLogin.FindToken | digen_login_api.js:147-149 | a token found is the non-empty quote-free run after `name="X" value="` at the leftmost position where the pattern matches; none exactly when no position matches |
| DigenLogin.CsrfToken | digen_login_api.js:147-151 | `csrf_token` is tried first, then `_token`, then `authenticity_token` |
| DigenLogin.FindWritten | digen_login_api.js:147-149 | a page containing `name="X" value="T"` once yields exactly `T` |
| DigenLogin.LoginData | digen_login_api.js:160-172 | email and password are always sent; a token is added under all three names, and without one none of them is present |
| DigenLogin.FormData | digen_login_api.js:175-177 | the form body decodes, under `application/x-www-form-urlencoded`, to exactly the login fields |
| DigenLogin.Post | digen_login_api.js:182-190 | the POST carries the encoded login fields and the cookie header formatted from the page's cookies |
| DigenLogin.Decide | digen_login_api.js:199-257 | 301/302 and a 200 page without `登录`, `Sign in` or `密码错误` save the session; a 200 page with one of them is a wrong login; any other status fails; a redirect's new cookies override the old ones and the rest are kept |
| DigenLogin.Login | digen_login_api.js:116-262 | missing credentials are reported exactly when email or password is missing or empty; a saved session keeps every cookie the login page set |
| DigenLogin.RedirectKeepsCookies | digen_login_api.js:203-208 | a redirect that sets no cookies keeps the page's cookies |
| Ordered.Upsert | ai-image-extractor-v3.user.js:337-342 | assigning to an existing key keeps the length and every other entry; a new key is appended at the end; unique keys stay unique |
| Ordered.LookupUpsertSame | ai-image-extractor-v3.user.js:337-342 | after an upsert the key finds the new entry, at its old position when it existed and at the end otherwise |
| Ordered.LookupUpsertOther | ai-image-extractor-v3.user.js:337-342 | an upsert leaves what every other key finds unchanged |
| Ordered.UpsertTwice | ai-image-extractor-v3.user.js:337-342 | two upserts under one key leave what the second alone leaves: last write wins |
| Ordered.UpsertKeepsKeys | ai-image-extractor-v3.user.js:337-342 | no key is ever lost by an upsert |
| Ordered.Assign | ZorvixVM_Telegram.py:1080-1081 | `d[k] = v`: the key reads back `v`, every other key is unchanged, a new key goes last and an existing one keeps its place |
| Ordered.MergeSpec | digen_login_api.js:205-208 | `Object.assign`: a key of the added object takes its value from it, every other key keeps the old value, the keys are those of either side and stay unique |
| Ordered.MergeIdempotent | digen_login_api.js:205-208 | assigning the same cookies twice reads the same as once |
| Uri.Utf8 | digen_login_api.js:176 | `encodeURIComponent` works on UTF-8: one to four bytes per code point, one exactly for ASCII |
| Uri.EncodeChar | digen_login_api.js:176 | an unreserved character is written as it is, any other as escapes |
| Uri.EncodeHasNoSeparators | digen_login_api.js:176 | an encoded component never contains `&` or `=` |
| Uri.DecodeEncode | digen_login_api.js:176 | percent-decoding an encoded component gives the component back |
| Uri.FormRoundTrip | digen_login_api.js:175-177 | the `&`-joined `key=value` body decodes back to the same pairs, in order |
| Csv.DoubleQuotes | ai-image-extractor-v3.user.js:440 | text without a double quote is unchanged, and doubling never shortens |
| Csv.ReadQuotedDoubled | ai-image-extractor-v3.user.js:440 | a field written as `"` + doubled text + `"` reads back, under section 2 of RFC 4180, as the original text |
| Csv.ReadEncodeTable | ai-image-extractor-v3.user.js:431-448 | rows joined by `,` and lines joined by line breaks read back as the cells' texts, provided bare cells hold no comma, quote or line break |
| SoraToken.GetCookie | sora_token_extractor.user.js:16-21 | a value read never contains `;` |
| SoraToken.GetCookieOnce | sora_token_extractor.user.js:16-21 | when `"; name="` occurs exactly once in `"; " + cookie`, the value is the text after it up to the next `;` |
| SoraToken.GetCookieAbsent | sora_token_extractor.user.js:16-21 | when the marker does not occur the result is `null` |
| SoraToken.GetCookieTwice | sora_token_extractor.user.js:16-21 | a cookie set twice also gives `null` |
| SoraToken.GetCookieWritten | sora_token_extractor.user.js:16-21 | a cookie written once as `name=value` into the cookie string is read back as its value |
| SoraToken.GetCookieFirst | sora_token_extractor.user.js:17 | the first cookie of the string is found like any other, thanks to the `"; "` prefix |
| SoraToken.OrElse | sora_token_extractor.user.js:84 | `a || b` on cookie values: `a` when it is non-empty, otherwise `b` |
| SoraToken.RefreshToken | sora_token_extractor.user.js:84 | the refresh cookie when it is non-empty, otherwise the session-token cookie |
| SoraToken.AccessToken | sora_token_extractor.user.js:83 | the access token holds no `;` and is found only when `"; __Secure-next-auth.session-token="` occurs in `"; " + cookie` |
| SoraToken.NoRefreshCookieSameToken | sora_token_extractor.user.js:83-84 | without a refresh cookie both fields show the access token |
| SoraToken.Shown | sora_token_extractor.user.js:104 | a missing or empty token is shown as `Not found`, any other as itself |
| SoraToken.CreatePanel | sora_token_extractor.user.js:24-26 | an existing panel is kept as it is; otherwise a panel shows the two tokens of the current cookies |
| SoraToken.Close | sora_token_extractor.user.js:76 | the close button leaves no panel |
| SoraToken.CreatePanelIdempotent | sora_token_extractor.user.js:226-230 | the second call, from the load event or the timer, keeps the first panel whatever the cookies are by then |
| SoraToken.ClosedPanelReappears | sora_token_extractor.user.js:226-230 | a panel closed before the timer fires is created again from the cookies of that moment |
| Text.ParseInt | ZorvixVM_Telegram.py:734-746 | the model of `int()` accepts exactly a non-empty run of ASCII digits with an optional leading sign, and gives a negative value only after a `-` |
| BotCommon.Enclose | ZorvixVM_Telegram.py:80-86 | `format_bold` and `format_code`: the text between two asterisks or two backquotes, nothing added or lost |
| BotCommon.CodeBlock | ZorvixVM_Telegram.py:88-90 | the text on its own lines inside a three-backquote fence |
| BotCommon.Section | ZorvixVM_Telegram.py:92-94 | the bold title, a line break, then the content |
| BotCommon.SliceTo | ZorvixVM_Telegram.py:102 | Python `s[:j]`: a prefix of `s`, of length `j` when `0 <= j <= len(s)`, all of it past the end, and `len(s) + j` (at least 0) characters for a negative `j` |
| BotCommon.Truncate | ZorvixVM_Telegram.py:96-102 | empty text or text within the limit is returned unchanged; longer text is a prefix of itself followed by `...`, of exactly the limit's length when the limit is at least 3 |
| BotCommon.TruncateFits | tel.py:84-89 | with a limit of at least 3 the result fits, and truncating again changes nothing |
| BotCommon.TruncateSmallLimitOverflows | ZorvixVM_Telegram.py:101-102 | below a limit of 3 the negative slice makes a long text come back longer than the limit |
| BotCommon.IsAdminOf | tel.py:122-126 | the main admin is an admin; any other user is one exactly when the decimal id is on the admins list |
| BotCommon.PyIndex | ZorvixVM_Telegram.py:776-781 | Python list indexing: a position exactly for `-n <= i < n`, negative indexes counting from the end, an `IndexError` otherwise |
| BotCommon.ControlKeyboard | ZorvixVM_Telegram.py:405-436 | power row, stats and SSH row, a Reinstall row only for an owner who is not managing as an admin, and Back (`vps_back`) always last, each with the caption given for it (ZorvixVM's mojibake text, or tel.py's emoji); every other button sends `action:index` |
| ZorvixStore.MainAdminIsAdmin | ZorvixVM_Telegram.py:138-144 | the main admin is always an admin |
| ZorvixStore.IsAdmin | ZorvixVM_Telegram.py:138-140 | a user is an admin exactly when it is the main admin or its decimal id is on the admins list |
| ZorvixStore.MainAdminKeyIsId | ZorvixVM_Telegram.py:1441 | the text the admin commands compare against, `str(MAIN_ADMIN_ID)`, is the main admin's id in decimal |
| ZorvixStore.AdminAdd | ZorvixVM_Telegram.py:1420-1463 | the id is appended exactly when the main admin asks for an id that is neither the main admin's nor already listed; otherwise nothing changes; the main admin never enters the list and the list stays free of duplicates |
| ZorvixStore.RemoveFirst | ZorvixVM_Telegram.py:1500 | `list.remove`: the first occurrence goes, and only it |
| ZorvixStore.AdminRemove | ZorvixVM_Telegram.py:1465-1505 | an id is removed exactly when the main admin asks for a listed id that is not the main admin's; otherwise nothing changes; afterwards it is gone from a duplicate-free list |
| ZorvixStore.AddThenRemove | ZorvixVM_Telegram.py:1441-1501 | removing an admin just added restores the list |
| ZorvixStore.AdminAddRemoveEffect | ZorvixVM_Telegram.py:1420-1505 | an added user passes the admin test and a removed one no longer does |
| ZorvixStore.InstanceNameInjective | ZorvixVM_Telegram.py:1083-1084 | different counts give different container names |
| ZorvixStore.InstanceName | ZorvixVM_Telegram.py:1083-1084 | the user id and the count read back from the container name |
| ZorvixStore.FreshNumber | ZorvixVM_Telegram.py:1083-1084 | the first count from `n` on whose name is not taken |
| ZorvixStore.FreshName | ZorvixVM_Telegram.py:1083-1084 | a name no instance has, equal to the count-based name whenever that one is free |
| ZorvixStore.NewInstance | ZorvixVM_Telegram.py:1100-1111 | a new record is running, not isolated, unshared, with no history and the creation time; its sizes read back as asked for, and its config text is `<ram> RAM / <cpu> Cores / <storage> Storage` over those fields |
| ZorvixStore.Listed | ZorvixVM_Telegram.py:1080-1081 | the user's key exists afterwards with the same instances; an absent key is added at the end with an empty list; other users are untouched |
| ZorvixStore.AppendInstance | ZorvixVM_Telegram.py:1112 | the record is appended to the user's list, in place when the key exists and as a new last key otherwise; other users are untouched |
| ZorvixStore.CreateWith | ZorvixVM_Telegram.py:1051-1130 | provisioned exactly when an admin gives four arguments with positive whole sizes and LXC succeeds; refused arguments change nothing; a failed LXC call leaves the user's (possibly new, empty) list; success appends one running record with the sizes and the name to that user only |
| ZorvixStore.Create | ZorvixVM_Telegram.py:1083-1084 | the name is `zorvix-instance-<uid>-<count + 1>` |
| ZorvixStore.NameTakenAfterDelete | ZorvixVM_Telegram.py:1083-1084 | after deleting an instance other than the last, the next name is the name of the user's last instance |
| ZorvixStore.CreateFixed | ZorvixVM_Telegram.py:1083-1084 | the name given is never taken, and the command agrees with the original whenever the count-based name is free |
| ZorvixStore.DropInstance | ZorvixVM_Telegram.py:1173-1176 | entry `n - 1` is removed and the others keep their order; the key goes exactly when the list empties; other users are untouched |
| ZorvixStore.DeleteVps | ZorvixVM_Telegram.py:1132-1192 | an instance is removed exactly when an admin names an existing user and a number in `1..len` and LXC succeeds; otherwise nothing changes |
| ZorvixStore.CreateThenDelete | ZorvixVM_Telegram.py:1051-1192 | deleting the instance just created restores every user's list |
| ZorvixStore.LocateFrom | ZorvixVM_Telegram.py:1314-1316 | the first user, in key order, with an instance of that name, and the first such instance in that user's list |
| ZorvixStore.Locate | ZorvixVM_Telegram.py:1314-1316 | a position holding an instance of that name, and none exactly when no instance has it |
| ZorvixStore.SetRecord | ZorvixVM_Telegram.py:1326-1334 | one record is replaced and nothing else changes |
| ZorvixStore.Suspend | ZorvixVM_Telegram.py:1291-1356 | an instance is isolated exactly when an admin names a running instance and the stop succeeds; only that record changes, to `suspended` with one more history entry; not found exactly when no instance has the name |
| ZorvixStore.Reinstate | ZorvixVM_Telegram.py:1391-1392 | a reinstated record is running, not isolated, with its name and history kept |
| ZorvixStore.UnsuspendFrom | ZorvixVM_Telegram.py:1380-1412 | an isolated instance is reinstated before the start is tried, so a failed start still leaves it reinstated and the search goes on to later users |
| ZorvixStore.Unsuspend | ZorvixVM_Telegram.py:1358-1414 | a non-admin or a missing argument changes nothing; otherwise the search runs over all users from the first |
| ZorvixStore.FailedStartReportsNotFound | ZorvixVM_Telegram.py:1390-1412 | a failed start reports both the failure and `not found`, with the record already reinstated |
| ZorvixStore.UnsuspendFixed | ZorvixVM_Telegram.py:1383-1412 | one reply; only a successful start of an isolated instance changes the store, reinstating exactly that record |
| ZorvixStore.Revive | ZorvixVM_Telegram.py:1273-1279 | in each list only the first instance of that name is reinstated |
| ZorvixStore.Restart | ZorvixVM_Telegram.py:1243-1289 | an admin's restart with a name and a working LXC reinstates the first instance of that name in every user's list; otherwise nothing changes |
| ZorvixStore.Share | ZorvixVM_Telegram.py:1213-1224 | an instance adds its RAM, CPU and storage when all three parse (otherwise the command fails); it counts as running exactly when it is running and not isolated, and as isolated exactly when it is running and isolated |
| ZorvixStore.Tally | ZorvixVM_Telegram.py:1213-1224 | running plus isolated never exceeds the instances counted |
| ZorvixStore.TallyRaises | ZorvixVM_Telegram.py:1215-1218 | the sum exists exactly when every instance's sizes parse |
| ZorvixStore.TallyAppend | ZorvixVM_Telegram.py:1213-1224 | the totals of two lists together are the sum of their totals |
| ZorvixStore.FlattenMembers | ZorvixVM_Telegram.py:1213-1214 | the instances summed are exactly those in some user's list |
| ZorvixStore.ServerStatsWith | ZorvixVM_Telegram.py:1194-1241 | refused exactly for non-admins; otherwise the user count, the administrator count (the list plus the main admin), the instance count and the sums over every instance, failing when some size does not parse |
| ZorvixStore.ServerStats | ZorvixVM_Telegram.py:1204-1224 | running plus isolated never exceeds the instances, and on records kept consistent by the commands the isolated count is always 0 |
| ZorvixStore.IsolatedNeverCounted | ZorvixVM_Telegram.py:1220-1224 | every isolated record has status `suspended`, so the count that needs status `running` never sees one |
| ZorvixStore.ServerStatsFixed | ZorvixVM_Telegram.py:1220-1224 | counting the isolation flag alone, the isolated count is 0 exactly when no instance is isolated, and every other figure is as before |
| ZorvixStore.FlagCounted | ZorvixVM_Telegram.py:1220-1224 | with the flag counted, the isolated count is 0 exactly when no instance is isolated |
| ZorvixStore.SameFigures | ZorvixVM_Telegram.py:1213-1224 | the choice of isolation test changes neither the failure nor the sizes nor the running count |
| ZorvixStore.CreateAddsToTotals | ZorvixVM_Telegram.py:1051-1224 | after a successful create the statistics grow by exactly the new sizes and one running instance |
| ZorvixPanel.InstanceCaption | ZorvixVM_Telegram.py:397-401 | the caption starts `#<i+1> - ` and ends with the upper-cased status in brackets, or with ` (ISOLATED)]` for an isolated instance |
| ZorvixPanel.SelectKeyboard | ZorvixVM_Telegram.py:393-403 | one single-button row per instance, the i-th showing its caption and sending `prefix:i` |
| ZorvixPanel.ConfirmKeyboard | ZorvixVM_Telegram.py:438-446 | one row: Confirm sending `confirm_<action>:index`, then Cancel sending `cancel_<action>:index`, with the captions exactly as the source spells them |
| ZorvixPanel.ActionNamed | ZorvixVM_Telegram.py:733-752 | each callback action name the handler knows stands for exactly one action |
| ZorvixPanel.ParseCallback | ZorvixVM_Telegram.py:729-752 | an indexed action is read from the text before the first `:`; an unknown action is ignored |
| ZorvixPanel.CallbackRoundTrip | ZorvixVM_Telegram.py:729-752 | the data `action:index` sent by a button reads back as that action and index |
| ZorvixPanel.BackRoundTrip | ZorvixVM_Telegram.py:737-738 | `vps_back`, with or without anything after a colon, is the Back press |
| ZorvixPanel.ControlKeyboardCallbacks | ZorvixVM_Telegram.py:405-436 | whatever the captions, every button of the control panel reaches its own handler with the panel's index, and the last one is Back |
| ZorvixPanel.SelectKeyboardCallbacks | ZorvixVM_Telegram.py:800 | the i-th button of a selection list reaches the select, or admin select, handler with index i |
| ZorvixPanel.ConfirmKeyboardCallbacks | ZorvixVM_Telegram.py:438-446 | the Confirm and Cancel buttons reach the confirm and cancel handlers with the index |
| ZorvixPanel.Target | ZorvixVM_Telegram.py:770-772 | the managed user is missing when the session holds none or an empty id |
| ZorvixPanel.UserSlot | ZorvixVM_Telegram.py:774 | the user's position in the store, holding that user's list; no position means an empty list |
| ZorvixPanel.PickFor | ZorvixVM_Telegram.py:774-781 | an index at or past the end is refused; one below `-len` raises; any other picks the record Python indexing picks |
| ZorvixPanel.PickRecord | ZorvixVM_Telegram.py:805-813 | without a managed user there is nothing to pick; otherwise the pick is made in that user's list |
| ZorvixPanel.RefreshKeyboard | ZorvixVM_Telegram.py:828 | the refreshed panel has the Reinstall row exactly when the session is not admin-managing |
| ZorvixPanel.SelectOwn | ZorvixVM_Telegram.py:754-766 | the caller's own list: past the end is an invalid selection, below `-len` raises, otherwise the owner's four-row panel |
| ZorvixPanel.SelectTarget | ZorvixVM_Telegram.py:768-783 | no managed user, nothing; a valid index shows the three-row admin panel |
| ZorvixPanel.Back | ZorvixVM_Telegram.py:785-801 | no managed user, nothing; an empty list says so; otherwise one button per instance leading back to the right select handler |
| ZorvixPanel.Switched | ZorvixVM_Telegram.py:818-819 | a power change sets the status and clears the isolation flag, changing nothing else |
| ZorvixPanel.Power | ZorvixVM_Telegram.py:803-865 | the power change succeeds exactly for a picked record and a working LXC, changes only that record and refreshes the panel; any other outcome changes nothing |
| ZorvixPanel.PowerFixed | ZorvixVM_Telegram.py:803-865 | an isolated record is refused and never loses its isolation; every other press behaves as before |
| ZorvixPanel.ShowMetrics | ZorvixVM_Telegram.py:867-892 | metrics are shown exactly for a picked record, under its name |
| ZorvixPanel.OfferSsh | ZorvixVM_Telegram.py:894-955 | an isolated record is refused SSH, any other picked record is offered it |
| ZorvixPanel.AskReinstall | ZorvixVM_Telegram.py:957-981 | an isolated record is refused, any other picked record gets the confirm keyboard for `reinstall` |
| ZorvixPanel.Redeployed | ZorvixVM_Telegram.py:1013-1017 | a redeployed record is running, not isolated, with a new creation time and the config `<ram>GB RAM / <cpu> CPU / <storage>GB Disk`, everything else kept |
| ZorvixPanel.ConfirmReinstallAsWritten | ZorvixVM_Telegram.py:983-1030 | the reinstall succeeds exactly for a picked record whose sizes parse and a working LXC, even when it is isolated; only that record changes |
| ZorvixPanel.ConfirmReinstallFixed | ZorvixVM_Telegram.py:983-1030 | an isolated record is refused as the prompt refuses it; every other confirm behaves as before |
| ZorvixPanel.CancelReinstallReply | ZorvixVM_Telegram.py:1032-1045 | cancel shows the refreshed panel again for a picked record |
| ZorvixPanel.ChangedOneKeeps | ZorvixVM_Telegram.py:803-865 | changing one record that was not isolated lifts no isolation |
| ZorvixPanel.Dispatch | ZorvixVM_Telegram.py:724-752 | an unknown action does nothing and a malformed index raises; only Start, Stop and Confirm reinstall with a working LXC change the store, never its keys or list lengths |
| ZorvixPanel.DispatchFixed | ZorvixVM_Telegram.py:724-752 | no button press lifts an isolation; every press the corrected handlers do not refuse behaves as before |
| ZorvixPanel.StartLiftsIsolation | ZorvixVM_Telegram.py:803-833 | pressing Start on an isolated instance runs it and clears its isolation flag |
| ZorvixPanel.FixedStartKeepsIsolation | ZorvixVM_Telegram.py:803-833 | with the check the SSH and reinstall handlers make, Start on an isolated instance changes nothing |
| ZorvixPanel.ReinstallIdempotent | ZorvixVM_Telegram.py:983-1030 | confirming a reinstall twice at the same time leaves the store as the first did |
| TelBot.TelParse | tel.py:437-438 | the action is the text before the first `:`; the index is read after it, defaulting to 0 without a colon |
| TelBot.NoColonMeansZero | tel.py:437-438 | data without a colon is its action at index 0 |
| TelBot.TelRoundTrip | tel.py:437-438 | `action:index` reads back as the action and index |
| TelBot.TelSelectKeyboard | tel.py:325-333 | one row per instance, the i-th sending `vps_select:i` |
| TelBot.TelDispatch | tel.py:434-459 | a malformed index raises; select, back, start and stop are handled on the presser's own list; start and stop set only the picked record's status; any other action does nothing |
| TelBot.PanelButtonsWithoutHandler | tel.py:335-345 | the Stats, SSH and Reinstall buttons of the panel reach no branch of the handler |
| TelBot.PanelButtonsHandled | tel.py:335-345 | the Start, Stop and Back buttons reach their branches |
| TelBot.TelCreate | tel.py:465-477 | an admin with four arguments and a working LXC creates `zorvix-<uid>-<count + 1>`, appending a running record with the arguments copied unchecked; every other case changes nothing; other users are untouched |
| TelBot.TelInstanceName | tel.py:471 | the user id and the count read back from the container name `zorvix-<uid>-<n>` |
| TelBot.CreatesWhatZorvixRefuses | tel.py:465-477 | arguments the other bot refuses, a zero RAM size and a CPU count that is not a number, still create an instance here |

## Left out

- Network interception as a mechanism is left out: wrapping `XMLHttpRequest` and `fetch`, event listeners, promises. Each wrapper is modelled as the function from a completed (or failed) request to its effect on the store and to whether the page gets the response or a rejection. A rejection is one outcome: which error object the page receives is left out.
- The DOM, the panels and their styling, dragging, notifications, the clipboard, downloads and timers are left out. Only the decisions behind them are modelled.
- Timestamps and response times are parameters, because they read the clock.
- `JSON.parse` is a parameter, because it is a foreign call. `None` stands for its SyntaxError. JavaScript numbers are integers only, because floating point is left out.
- JavaScript objects are insertion-ordered key lists. The ordering of integer-like keys, `__proto__`, and properties inherited through the prototype chain (for instance in the status-label map of ai-image-extractor.user.js) are left out, because no modelled key is affected.
- ExtractorV3.ExportReadsBack: the v3 and final extractors wrap `task_id` in quotes without doubling the quotes inside it, and write the timestamp, dimensions and batch size bare. The model follows the code. So the read-back property assumes a task id without `"`, and those bare cells without commas, quotes or line breaks.
- Text.ParseInt: Python `int()` is modelled as an optional sign and ASCII decimal digits. `int()` also accepts surrounding whitespace, `_` between digits and decimal digits of other scripts (such as `٣`); these are left out, because the bots' arguments are single tokens typed as ASCII numbers.
- Js.Len, Js.HasItems: an object's own `length` counts when it is a number of at least zero. A `length` that is a string, a boolean or a negative number is treated as no count, where JavaScript would convert it (`"2" > 0` is true).
- FinalExtractor.OnFetchDone: the URL is a string. A first argument without `includes` (a `Request` or `URL` object) makes ai-image-final.user.js:399 throw a TypeError at the page before the request is made. That outcome is modelled for the analyzer's wrapper (Analyzer.FetchSeenByPage) only.
- FinalExtractor.OnXhrDone: the URL is a string. A `URL` object passed to `open` makes `url.includes` (ai-image-final.user.js:365) throw out of the page's `open`, and `this._url.includes` (:377) would throw in the listener; that is left out.
- Analyzer.OnXhrDone: the URL is a string. A `URL` object passed to `open` with method GET makes the wrapper's `url.includes` (ai-image-analyzer.user.js:409) throw out of the page's `open`; that is left out.
- DigenMonitor.OnFetch: the URL is the string the wrapper stores. For a `URL` object `url.url` is undefined, and `categorizeApi` then throws on `toLowerCase`, rejecting the page's fetch while monitoring; that is left out.
- DebugMonitor.OnXhrDone: models the listener as `setupMonitors` installs it; as written `init` throws at ai-image-debug.user.js:305 before `setupMonitors` is scheduled, so no page meets it (DebugMonitor.PageXhrDone gives what a page does).
- DebugMonitor.OnFetchText: models the fetch wrapper's callback as installed; as written `init` throws at ai-image-debug.user.js:305 before `setupMonitors` is scheduled, so no page meets it (DebugMonitor.PageFetchText).
- DebugMonitor.XhrAndFetchAgree: relates the two installed handlers; as written `init` throws at ai-image-debug.user.js:305 before `setupMonitors` is scheduled, so no page meets either.
- DebugMonitor.FetchSeenByPage: models the installed fetch wrapper; as written `init` throws at ai-image-debug.user.js:305 before `setupMonitors` is scheduled, so no page meets it, and its `fetch` is the browser's (DebugMonitor.PageFetch).
- DebugMonitor.FailureRethrown: is about the installed wrapper's `catch`; as written `init` throws at ai-image-debug.user.js:305 before `setupMonitors` is scheduled, so no page meets it.
- DebugMonitor.ObjectBodyBreaksFetch: the throw needs the installed wrapper; as written `init` throws at ai-image-debug.user.js:305 before `setupMonitors` is scheduled, so no page meets it, as its last clause states.
- DebugMonitor.FetchSeenByPageFixed: is compared with the installed wrapper; as written `init` throws at ai-image-debug.user.js:305 before `setupMonitors` is scheduled, so no page meets either.
- DebugMonitor.SetRequestHeader: models the installed wrapper; as written `init` throws at ai-image-debug.user.js:305 before `setupMonitors` is scheduled, so no page meets it, and its header is sent by the browser's method (DebugMonitor.PageSetRequestHeader).
- DebugMonitor.HeaderNeverSent: the throw needs the installed wrapper; as written `init` throws at ai-image-debug.user.js:305 before `setupMonitors` is scheduled, so no page meets it, as its last clause states.
- DebugMonitor.SetRequestHeaderFixed: a correction of the installed wrapper, which matters only together with DebugMonitor.InitFixed.
- Button captions are the source's literal text: ZorvixVM_Telegram.py's emoji as the file spells them (mis-decoded text), tel.py's as real emoji. `str.upper()` is modelled on ASCII letters only, because instance statuses are ASCII.
- Categorize (DuckMonitor and DigenMonitor): `toLowerCase()` is modelled as LowerAscii, on ASCII letters only. JavaScript also lowers non-ASCII letters, for instance the Kelvin sign U+212A to `k` and U+0130 to `i̇`, so a URL or body spelling a keyword with such a letter is categorized differently. The keywords and the monitored URLs are ASCII.
- BodyText (ApiLog): the same ASCII-only lowering of the body's JSON text.
- Verb (ApiLog): `toUpperCase()` is modelled as UpperAscii, on ASCII letters only; HTTP methods are ASCII.
- FetchResponseBody (DuckMonitor): `substring(0, 500)` counts UTF-16 code units, while the model counts code points, because strings are sequences of code points here. A text with characters outside the Basic Multilingual Plane keeps fewer characters in the source than in the model.
- tel.py does not parse (line 35 assigns a non-numeric main admin id), so in TelBot the main admin is a parameter. Its `/delete_vps` and `/suspend_vps` only reply, and its `/serverstats` only counts the records, so all three are left out. Its records have no isolation field.
- All LXC calls of one command are a single succeed/fail oracle. So a reinstall that fails after `lxc delete` but before `lxc init` is not distinguished from one that fails at the start.
- ZorvixPanel: the handlers read `managing_user` while the selection keyboard lists the caller's own instances. This is modelled as written. The `selected_vps_index` session field is never read back, so it is left out.
- SSH and tmate sessions, live metrics (`lxc info`, `free`, `df`), the threshold monitors (ZorvixVM_Telegram.py:350-387, tel.py:155-315), `/manage`, `format_vps_info` text, saving and loading the data files, and the Telegram Bot API itself are left out. They are I/O or presentation.
- The HTTP transport, the log file and the session file of digen_login_api.js are left out, because they are I/O. The two HTTP responses are parameters.
- The other login variants (digen_login_alwaysdata, digen_login_debug, digen_login_minimal), the Digen extractor, sora-info-extractor and ai-image-gist are not part of this model.

## Findings

| source | as written | input that shows it | evidently intended | confidence | as-written member | corrected member |
|---|---|---|---|---|---|---|
| duckduckgo_chat_monitor.user.js:377 | the fetch wrapper calls `JSON.parse` on any string body | a `fetch` with body `q=1` while monitoring: the page's fetch is rejected | keep an unparseable body raw, as the XHR wrapper does | not executed | DuckMonitor.FetchFormBodyRejected | DuckMonitor.FetchRequestBodyFixed |
| digen_api_monitor.user.js:353 | `send` calls `JSON.parse` on any truthy body | an XHR login with body `email=a%40b.c`: `send` throws and the request is never sent | keep an unparseable body raw | not executed | DigenMonitor.FormBodyBreaksSend | DigenMonitor.XhrSendFixed |
| ai-image-final.user.js:560 | the CSV row calls `negative_prompt.replace` | a completed response whose `params` has no `negative_prompt`: it is stored, then export throws | write an empty cell | not executed | FinalExtractor.MissingNegativePromptBreaksExport | FinalExtractor.ExportCsvFixed |
| ai-image-analyzer.user.js:330 | every start of an analysis wraps XHR and fetch again | start, wait three seconds, start again: one useful response is recorded twice | install the wrappers once | not executed | Analyzer.ReanalyseDoubles | Analyzer.StartAnalysisFixed |
| ai-image-extractor.user.js:320 | `document.querySelector('.status:contains("生成中")')`, reached whenever the first four selectors match nothing | any tick with no loading indicator: a SyntaxError, so a session seen generating is never completed by the poll, and that tick's image and parameter checks never run | test the `.status` elements' text for the two words | not executed | SessionExtractor.FinishedGenerationMissed | SessionExtractor.TickFixed |
| ai-image-analyzer.user.js:448 | `url.includes(...)` on the first argument of a GET `fetch` | `fetch(new Request("/api/task"))`: a TypeError before the request is made | test `String(url)` | not executed | Analyzer.RequestObjectBreaksFetch | Analyzer.FetchSeenByPageFixed |
| digen_api_monitor.user.js:322 | `JSON.parse(options.body)` inside the fetch wrapper's `.then` | a `fetch` with body `email=a%40b.c` while monitoring: the page's fetch rejects | keep the raw body when it is not JSON, as for XHR | not executed | DigenMonitor.FormBodyBreaksFetch | DigenMonitor.OnFetchFixed |
| ai-image-debug.user.js:305 | `init` first probes `document.querySelectorAll(':contains')`, which is not a valid selector | loading any page: a SyntaxError ends `init` before `setupMonitors` is scheduled, so no request or response is ever monitored | guard the probe with a `try` | not executed | DebugMonitor.MonitorsNeverInstalled | DebugMonitor.FixedInitCaptures |
| ai-image-debug.user.js:70 | forwards to `originalSetRequestHeader`, which the script never declares; latent, since the wrapper is installed only once :305 is fixed | with `init` corrected, any `xhr.setRequestHeader("Content-Type", "application/json")`: a ReferenceError, and the header is not sent | save the original before wrapping and forward to it | not executed | DebugMonitor.HeaderNeverSent | DebugMonitor.SetRequestHeaderFixed |
| ai-image-analyzer.user.js:475-477 | the fetch wrapper's `catch` logs and returns nothing | a network failure: the page's fetch resolves to `undefined` | re-throw the error | not executed | Analyzer.FailureSwallowed | Analyzer.FetchSeenByPageFixed |
| ai-image-debug.user.js:131-133 | the body is logged with `body.substring`; latent, since the wrapper is installed only once :305 is fixed | with `init` corrected, a `fetch` with a `FormData` body throws a TypeError before the request | log string bodies only | not executed | DebugMonitor.ObjectBodyBreaksFetch | DebugMonitor.FetchSeenByPageFixed |
| ai-image-extractor.user.js:589 | the image URL is written bare into the CSV row | an image URL `data:image/png;base64,AAAA`: the row reads back with seven fields | quote the URL like the prompt | not executed | SessionExtractor.DataUrlSplitsRow | SessionExtractor.ExportCsvFixed |
| digen_login_api.js:99-101 | a cookie is kept only when splitting on `=` gives exactly two parts | `sid=abc==` is dropped | split at the first `=` | not executed | DigenLogin.PaddedValueDropped | DigenLogin.ParseCookiesFixed |
| ZorvixVM_Telegram.py:1083-1084 | the new container is named by the count of the user's instances plus one | create two, delete #1, create: the new name is the one #2 already has | a name not in use | not executed | ZorvixStore.NameTakenAfterDelete | ZorvixStore.CreateFixed |
| ZorvixVM_Telegram.py:1220-1224 | isolated instances are counted only when their status is `running` | suspend any instance: its status becomes `suspended`, so the count stays 0 | count the isolation flag | not executed | ZorvixStore.IsolatedNeverCounted | ZorvixStore.ServerStatsFixed |
| ZorvixVM_Telegram.py:803-833 | Start, Stop and confirmed reinstall do not check the isolation flag that SSH and the reinstall prompt check | an owner presses Start on a suspended instance: it runs and is no longer isolated | refuse an isolated instance | not executed | ZorvixPanel.StartLiftsIsolation | ZorvixPanel.DispatchFixed |
| ZorvixVM_Telegram.py:1390-1412 | the record is reinstated before `lxc start`, and the not-found reply follows any exception | an isolated instance whose start fails: it is reinstated, and the admin gets both an error and "not found" | reinstate after a successful start, one reply | not executed | ZorvixStore.FailedStartReportsNotFound | ZorvixStore.UnsuspendFixed |

=== FILE: analyzer.dfy ===
/** The freeaiimage.net analyzer: which parsed responses count as useful,
    the record made of a useful one, the `analysisResults` list (append
    only, no dedupe), the start guard, and the on-page log that keeps its
    newest 50 lines. `JSON.parse` is the parameter `parse`; `None` is the
    SyntaxError it throws. */
module Analyzer {
  import opened Maybe
  import opened Text
  import opened Js

  // ---------------------------------------------------------------------
  // Usefulness
  // ---------------------------------------------------------------------

  /** `data` is a non-empty array. */
  predicate HasImageData(body: Value) {
    var d := OptGet(body, "data");
    d.Arr? && |d.items| > 0
  }

  /** `task_id || taskid || id`. */
  function TaskIdOf(body: Value): Value {
    Or(Or(OptGet(body, "task_id"), OptGet(body, "taskid")), OptGet(body, "id"))
  }

  /** `status` is `'completed'` or `'success'`. */
  predicate HasStatus(body: Value) {
    var s := OptGet(body, "status");
    s == Str("completed") || s == Str("success")
  }

  /** `prompt || params?.prompt`. */
  predicate HasPrompt(body: Value) {
    Truthy(Or(OptGet(body, "prompt"), OptGet(OptGet(body, "params"), "prompt")))
  }

  /** The usefulness test of `processAPIResponse`: only an object with at
      least one property can pass it. */
  predicate IsUseful(body: Value)
    ensures IsUseful(body) ==> body.Obj? && |body.fields| > 0
  {
    HasImageData(body) || Truthy(TaskIdOf(body)) || (HasStatus(body) && HasPrompt(body))
    || OptGet(body, "images").Arr?
  }

  /** Only an object can be useful: a primitive, an array or a missing body
      has no such properties. */
  lemma {:induction false} OnlyObjectsUseful(body: Value)
    requires !body.Obj?
    ensures !IsUseful(body)
  {
  }

  /** An `images` array makes a response useful even when it is empty and
      nothing else is present. */
  lemma {:induction false} EmptyImagesUseful()
    ensures IsUseful(Obj([("images", Arr([]))]))
  {
    assert OptGet(Obj([("images", Arr([]))]), "images") == Arr([]);
  }

  /** A completed response is useful through its status only when it has a
      prompt: `{status: 'completed'}` alone is not. */
  lemma {:induction false} StatusAloneNotUseful()
    ensures !IsUseful(Obj([("status", Str("completed"))]))
  {
    var b := Obj([("status", Str("completed"))]);
    assert OptGet(b, "data") == Undefined;
    assert OptGet(b, "task_id") == Undefined && OptGet(b, "taskid") == Undefined && OptGet(b, "id") == Undefined;
    assert OptGet(b, "prompt") == Undefined && OptGet(b, "params") == Undefined;
    assert OptGet(b, "images") == Undefined;
  }

  // ---------------------------------------------------------------------
  // The record
  // ---------------------------------------------------------------------

  /** One entry of `analysisResults`; timestamps and response times are
      left out. */
  datatype Record = Record(
    source: string,
    url: string,
    prompt: Value,
    taskId: Value,
    status: Value,
    width: Value,
    height: Value,
    batchSize: Value,
    images: Value,
    raw: Value)

  /** `params?.X || X`. */
  function Nested(body: Value, k: string): (r: Value)
    ensures Truthy(OptGet(OptGet(body, "params"), k)) ==> r == OptGet(OptGet(body, "params"), k)
    ensures !Truthy(OptGet(OptGet(body, "params"), k)) ==> r == OptGet(body, k)
  {
    Or(OptGet(OptGet(body, "params"), k), OptGet(body, k))
  }

  /** `extractUsefulData`. */
  function ExtractUsefulData(url: string, body: Value, source: string): (r: Record)
    ensures r.url == url && r.source == source && r.raw == body
    ensures r.taskId == TaskIdOf(body) && r.status == OptGet(body, "status")
    ensures Truthy(r.prompt) && Truthy(r.images)
    ensures Truthy(Nested(body, "prompt")) ==> r.prompt == Nested(body, "prompt")
    ensures !Truthy(Nested(body, "prompt")) ==> r.prompt == Str("未知")
    ensures Truthy(OptGet(body, "data")) ==> r.images == OptGet(body, "data")
    ensures !Truthy(OptGet(body, "data")) && Truthy(OptGet(body, "images")) ==> r.images == OptGet(body, "images")
    ensures !Truthy(OptGet(body, "data")) && !Truthy(OptGet(body, "images")) ==> r.images == Arr([])
  {
    Record(source, url, Or(Nested(body, "prompt"), Str("未知")), TaskIdOf(body), OptGet(body, "status"),
           Nested(body, "width"), Nested(body, "height"), Nested(body, "batch_size"),
           Or(Or(OptGet(body, "data"), OptGet(body, "images")), Arr([])), body)
  }

  /** A non-empty prompt nested in `params` wins over whatever else the
      body holds, a top-level `prompt` included. */
  lemma {:induction false} NestedPromptWins(url: string, source: string, fs: seq<(string, Value)>, ps: seq<(string, Value)>, i: nat, j: nat, p: string)
    requires i < |fs| && fs[i] == ("params", Obj(ps)) && forall k :: 0 <= k < i ==> fs[k].0 != "params"
    requires j < |ps| && ps[j] == ("prompt", Str(p)) && forall k :: 0 <= k < j ==> ps[k].0 != "prompt"
    requires |p| > 0
    ensures ExtractUsefulData(url, Obj(fs), source).prompt == Str(p)
  {
    FieldFirst(fs, "params", i);
    FieldFirst(ps, "prompt", j);
  }

  /** `processAPIResponse`: a useful response appends exactly one record,
      with no dedupe; any other response changes nothing. */
  function ProcessApiResponse(results: seq<Record>, url: string, body: Value, source: string): (r: seq<Record>)
    ensures IsUseful(body) ==> r == results + [ExtractUsefulData(url, body, source)]
    ensures !IsUseful(body) ==> r == results
  {
    if IsUseful(body) then results + [ExtractUsefulData(url, body, source)] else results
  }

  /** The same useful response seen twice is recorded twice. */
  lemma {:induction false} NoDedupe(results: seq<Record>, url: string, body: Value, source: string)
    requires IsUseful(body)
    ensures var once := ProcessApiResponse(results, url, body, source);
      var twice := ProcessApiResponse(once, url, body, source);
      |twice| == |results| + 2 && twice[|results|] == twice[|results| + 1]
  {
  }

  // ---------------------------------------------------------------------
  // The analyzer state and the network hooks
  // ---------------------------------------------------------------------

  /** `isAnalyzing`, the number of times `setupNetworkMonitoring` has wrapped
      `XMLHttpRequest` and `fetch`, and `analysisResults`. */
  datatype Analyzer = Analyzer(analyzing: bool, hooks: nat, results: seq<Record>)

  const Initial := Analyzer(false, 0, [])

  /** `startAnalysis` as written: a no-op while analyzing; otherwise it
      starts analyzing and installs another layer of network hooks. */
  function StartAnalysis(a: Analyzer): (r: Analyzer)
    ensures a.analyzing ==> r == a
    ensures !a.analyzing ==> r.analyzing && r.results == a.results && r.hooks == a.hooks + 1
  {
    if a.analyzing then a else a.(analyzing := true, hooks := a.hooks + 1)
  }

  /** The three-second timer of `startAnalysis`. */
  function FinishAnalysis(a: Analyzer): (r: Analyzer)
    ensures !r.analyzing && r.hooks == a.hooks && r.results == a.results
  {
    a.(analyzing := false)
  }

  /** The "clear" button. */
  function Clear(a: Analyzer): (r: Analyzer)
    ensures r.results == [] && r.analyzing == a.analyzing && r.hooks == a.hooks
  {
    a.(results := [])
  }

  /** `processAPIResponse` run once by each installed hook layer,
      innermost first: with `n` layers a useful response is recorded `n`
      times after the old results, and a useless one not at all. */
  function ProcessByHooks(results: seq<Record>, n: nat, url: string, body: Value, source: string): (r: seq<Record>)
    ensures |r| == |results| + (if IsUseful(body) then n else 0) && r[..|results|] == results
    ensures forall i :: |results| <= i < |r| ==> r[i] == ExtractUsefulData(url, body, source)
  {
    if n == 0 then results
    else
      var p := ProcessByHooks(results, n - 1, url, body, source);
      if IsUseful(body) then
        assert (p + [ExtractUsefulData(url, body, source)])[..|results|] == p[..|results|];
        ProcessApiResponse(p, url, body, source)
      else ProcessApiResponse(p, url, body, source)
  }

  /** `readyState` 4 in the XHR listener: a 2xx response with non-blank
      text that parses is processed by every hook layer. */
  function OnXhrDone(a: Analyzer, url: string, status: int, text: string,
                     parse: string -> Option<Value>): (r: Analyzer)
    ensures r.analyzing == a.analyzing && r.hooks == a.hooks
    ensures !(200 <= status < 300) || |Trim(text)| == 0 || parse(text).None? ==> r == a
    ensures 200 <= status < 300 && |Trim(text)| > 0 && parse(text).Some? ==>
      r.results == ProcessByHooks(a.results, a.hooks, url, parse(text).value, "XHR")
  {
    TrimBounds(text);
    assert |Trim(text)| > 0 ==> Trim(text)[0] in text;
    if 200 <= status < 300 && |text| > 0 && |Trim(text)| > 0 then
      match parse(text)
      case Some(body) => a.(results := ProcessByHooks(a.results, a.hooks, url, body, "XHR"))
      case None => a
    else a
  }

  /** The fetch wrapper once the network has answered: `ok` responses whose
      text is non-blank JSON. */
  function OnFetchDone(a: Analyzer, url: string, ok: bool, text: string,
                       parse: string -> Option<Value>): (r: Analyzer)
    ensures r.analyzing == a.analyzing && r.hooks == a.hooks
    ensures !ok || |Trim(text)| == 0 || parse(text).None? ==> r == a
    ensures ok && |Trim(text)| > 0 && parse(text).Some? ==>
      r.results == ProcessByHooks(a.results, a.hooks, url, parse(text).value, "Fetch")
  {
    TrimBounds(text);
    assert |Trim(text)| > 0 ==> Trim(text)[0] in text;
    if ok && |text| > 0 && |Trim(text)| > 0 then
      match parse(text)
      case Some(body) => a.(results := ProcessByHooks(a.results, a.hooks, url, body, "Fetch"))
      case None => a
    else a
  }

  /** Blank text is never parsed. */
  lemma {:induction false} BlankNotParsed(a: Analyzer, url: string, status: int, parse: string -> Option<Value>)
    ensures OnXhrDone(a, url, status, "  ", parse) == a
  {
    assert Trim("  ") == "";
  }

  /** Start, let the timer fire, press "re-analyse": every useful XHR
      response is then recorded twice. */
  lemma {:induction false} ReanalyseDoubles(url: string, body: Value, text: string, parse: string -> Option<Value>)
    requires |Trim(text)| > 0 && parse(text) == Some(body) && IsUseful(body)
    ensures var a := StartAnalysis(FinishAnalysis(StartAnalysis(Initial)));
      |OnXhrDone(a, url, 200, text, parse).results| == 2
  {
    var a := StartAnalysis(FinishAnalysis(StartAnalysis(Initial)));
    assert a.hooks == 2;
  }

  /** `startAnalysis` with the hooks installed once, on the first start. */
  function StartAnalysisFixed(a: Analyzer): (r: Analyzer)
    ensures a.analyzing ==> r == a
    ensures !a.analyzing ==> r.analyzing && r.results == a.results && r.hooks == 1
    ensures a.hooks <= 1 && !a.analyzing ==> r.hooks == 1
  {
    if a.analyzing then a else a.(analyzing := true, hooks := 1)
  }

  /** With the correction, however often the analysis is restarted, a useful
      response is recorded exactly once. */
  lemma {:induction false} FixedRecordsOnce(a: Analyzer, url: string, text: string, body: Value,
                                            parse: string -> Option<Value>)
    requires |Trim(text)| > 0 && parse(text) == Some(body) && IsUseful(body)
    ensures var b := StartAnalysisFixed(FinishAnalysis(a));
      var r := OnXhrDone(b, url, 200, text, parse);
      |r.results| == |a.results| + 1 && r.results[..|a.results|] == a.results
  {
    var b := StartAnalysisFixed(FinishAnalysis(a));
    assert b.hooks == 1 && b.results == a.results;
  }

  // ---------------------------------------------------------------------
  // fetch failures
  // ---------------------------------------------------------------------

  /** What the page's own `fetch` call sees: the promise's outcome, or a
      TypeError the wrapper throws before the request is made. */
  datatype FetchResult = Response(status: int) | ResolvedEmpty | Failed(error: string) | ThrewTypeError

  /** The wrapper's logging test `method !== 'GET' || url.includes('api')`,
      with `method` being `options?.method || 'GET'`: for a GET it calls
      `url.includes`, so a first argument without that method (a `Request`
      or `URL` object) throws. */
  predicate LogTestThrows(url: Value, options: Value) {
    Or(OptGet(options, "method"), Str("GET")) == Str("GET") && !HasIncludes(url)
  }

  /** The fetch wrapper as written: the logging test runs first, then a
      network failure is caught, logged and turned into a promise that
      resolves to `undefined`. */
  function FetchSeenByPage(url: Value, options: Value, network: FetchResult): (r: FetchResult)
    ensures LogTestThrows(url, options) ==> r == ThrewTypeError
    ensures !LogTestThrows(url, options) && network.Response? ==> r == network
    ensures !network.ThrewTypeError? ==> (r.ThrewTypeError? <==> LogTestThrows(url, options))
    ensures !r.Failed?
  {
    if LogTestThrows(url, options) then ThrewTypeError
    else
      match network
      case Failed(_) => ResolvedEmpty
      case _ => network
  }

  /** A failed request for a string URL reaches the page as `undefined`
      rather than as the rejection, so the page's own `.catch` never runs. */
  lemma {:induction false} FailureSwallowed(u: string, options: Value, e: string)
    ensures FetchSeenByPage(Str(u), options, Failed(e)) == ResolvedEmpty
  {
  }

  /** A GET `fetch` given a `Request` object never reaches the network: the
      page's call throws. */
  lemma {:induction false} RequestObjectBreaksFetch(request: seq<(string, Value)>, network: FetchResult)
    ensures FetchSeenByPage(Obj(request), Undefined, network) == ThrewTypeError
  {
  }

  /** The wrapper with the logging test run on `String(url)` and the
      failure rethrown after logging: the page sees exactly what the network
      produced, as it did wherever the original neither threw nor hid a
      failure. */
  function FetchSeenByPageFixed(url: Value, options: Value, network: FetchResult): (r: FetchResult)
    ensures r == network
    ensures !LogTestThrows(url, options) && !network.Failed? ==> r == FetchSeenByPage(url, options, network)
  {
    network
  }

  // ---------------------------------------------------------------------
  // The on-page log
  // ---------------------------------------------------------------------

  const MaxLogLines := 50

  /** `log`: the new line goes in front, and when the text then has more
      than 50 lines, only the first 50 are kept. So the log holds at most
      50 lines: those of the new message (which may span several, as the
      pretty-printed JSON of a response does), then the older lines in
      order. */
  function AppendLog(text: string, line: string): (r: string)
    ensures var all := Split(line + "\n" + text, '\n');
      Split(r, '\n') == all[..if |all| < MaxLogLines then |all| else MaxLogLines]
    ensures |Split(r, '\n')| <= MaxLogLines
    ensures '\n' !in line ==>
      var kept := Split(r, '\n');
      var all := [line] + Split(text, '\n');
      |kept| == (if |all| < MaxLogLines then |all| else MaxLogLines) && kept == all[..|kept|]
  {
    var parts := Split(line + "\n" + text, '\n');
    assert '\n' !in line ==> parts == [line] + Split(text, '\n') by {
      if '\n' !in line {
        SplitCons(line, '\n', text);
        assert line + "\n" + text == line + ['\n'] + text;
      }
    }
    if |parts| > MaxLogLines then
      SplitJoin(parts[..MaxLogLines], '\n');
      Join(parts[..MaxLogLines], "\n")
    else
      assert parts[..|parts|] == parts;
      line + "\n" + text
  }

  /** A log that fits is only prefixed. */
  lemma {:induction false} AppendLogShort(text: string, line: string)
    requires |Split(text, '\n')| < MaxLogLines && '\n' !in line
    ensures AppendLog(text, line) == line + "\n" + text
  {
    SplitCons(line, '\n', text);
    assert line + "\n" + text == line + ['\n'] + text;
  }
}

=== FILE: api_log.dfy ===
/** What the two API monitors (the DuckDuckGo chat monitor and the Digen
    monitor) share: the recorded call, the monitoring switch that gates
    recording, the success/failure statistics over HTTP status codes, and
    categorisation by an ordered list of substring rules. */
module ApiLog {
  import opened Maybe
  import opened Text
  import opened Js

  /** One recorded call. `responseBody` is `None` where the monitor keeps
      no response body. */
  datatype Call = Call(
    verb: string,
    url: string,
    body: Value,
    status: int,
    responseBody: Option<Value>,
    category: string)

  /** The status range `updateStats` counts as a success. */
  predicate Succeeded(status: int) {
    200 <= status < 300
  }

  /** Number of calls whose status is in [200, 300). */
  function SuccessCount(calls: seq<Call>): (r: nat)
    ensures r <= |calls|
  {
    if |calls| == 0 then 0
    else SuccessCount(calls[..|calls| - 1]) + (if Succeeded(calls[|calls| - 1].status) then 1 else 0)
  }

  /** Number of calls whose status is outside [200, 300). */
  function FailureCount(calls: seq<Call>): nat {
    if |calls| == 0 then 0
    else FailureCount(calls[..|calls| - 1]) + (if Succeeded(calls[|calls| - 1].status) then 0 else 1)
  }

  /** Every call is counted exactly once, as a success or as a failure. */
  lemma {:induction false} SuccessPlusFailure(calls: seq<Call>)
    ensures SuccessCount(calls) + FailureCount(calls) == |calls|
  {
    if |calls| > 0 {
      SuccessPlusFailure(calls[..|calls| - 1]);
    }
  }

  datatype Stats = Stats(total: nat, success: nat, fail: nat)

  /** `updateStats`: the failure count is the total minus the successes. */
  function ComputeStats(calls: seq<Call>): (r: Stats)
    ensures r.total == |calls|
    ensures r.success == SuccessCount(calls)
    ensures r.fail == FailureCount(calls)
    ensures r.success + r.fail == r.total
  {
    SuccessPlusFailure(calls);
    var s := SuccessCount(calls);
    Stats(|calls|, s, |calls| - s)
  }

  /** Recording one more call adds one to the total and one to exactly one
      of the two counts. */
  lemma {:induction false} StatsAfterAppend(calls: seq<Call>, c: Call)
    ensures ComputeStats(calls + [c]).total == ComputeStats(calls).total + 1
    ensures Succeeded(c.status) ==>
      ComputeStats(calls + [c]).success == ComputeStats(calls).success + 1
      && ComputeStats(calls + [c]).fail == ComputeStats(calls).fail
    ensures !Succeeded(c.status) ==>
      ComputeStats(calls + [c]).success == ComputeStats(calls).success
      && ComputeStats(calls + [c]).fail == ComputeStats(calls).fail + 1
  {
    assert (calls + [c])[..|calls|] == calls;
  }

  /** `(options.method || 'GET').toUpperCase()`, as both monitors' fetch
      wrappers compute it; `None`: a method that is not a string has no
      `toUpperCase` and throws. */
  function Verb(options: Value): (r: Option<string>)
    ensures !Truthy(Get(options, "method").GetOr(Undefined)) ==> r == Some("GET")
  {
    assert UpperAscii("GET") == "GET";
    match Or(Get(options, "method").GetOr(Undefined), Str("GET"))
    case Str(s) => Some(UpperAscii(s))
    case _ => None
  }

  // ---------------------------------------------------------------------
  // The monitoring switch
  // ---------------------------------------------------------------------

  datatype Monitor = Monitor(monitoring: bool, calls: seq<Call>)

  const Initial := Monitor(false, [])

  /** A completed call is pushed onto the list only while monitoring. */
  function Record(m: Monitor, c: Call): (r: Monitor)
    ensures r.monitoring == m.monitoring
    ensures m.monitoring ==> r.calls == m.calls + [c]
    ensures !m.monitoring ==> r == m
  {
    if m.monitoring then m.(calls := m.calls + [c]) else m
  }

  /** The start button. */
  function Start(m: Monitor): (r: Monitor)
    ensures r.monitoring && r.calls == m.calls
  {
    m.(monitoring := true)
  }

  /** The stop button. */
  function Stop(m: Monitor): (r: Monitor)
    ensures !r.monitoring && r.calls == m.calls
  {
    m.(monitoring := false)
  }

  /** The clear button: the list is emptied, every count drops to zero and
      the switch is left as it was. */
  function Clear(m: Monitor): (r: Monitor)
    ensures r.monitoring == m.monitoring
    ensures ComputeStats(r.calls) == Stats(0, 0, 0)
  {
    m.(calls := [])
  }

  // ---------------------------------------------------------------------
  // Categorisation by ordered substring rules
  // ---------------------------------------------------------------------

  /** A category and the words that select it, in the lowercased URL or in
      the lowercased JSON text of the request body. */
  datatype Rule = Rule(category: string, urlWords: seq<string>, bodyWords: seq<string>)

  predicate Fires(rule: Rule, url: string, body: string) {
    ContainsAny(url, rule.urlWords) || ContainsAny(body, rule.bodyWords)
  }

  /** The category of the first rule that fires, `fallback` if none does. */
  function FirstRule(rules: seq<Rule>, url: string, body: string, fallback: string): (r: string)
    ensures (exists i :: 0 <= i < |rules| && Fires(rules[i], url, body))
      ==> exists i :: 0 <= i < |rules| && Fires(rules[i], url, body)
            && r == rules[i].category
            && forall j :: 0 <= j < i ==> !Fires(rules[j], url, body)
    ensures (forall i :: 0 <= i < |rules| ==> !Fires(rules[i], url, body)) ==> r == fallback
  {
    if |rules| == 0 then fallback
    else if Fires(rules[0], url, body) then rules[0].category
    else
      var r := FirstRule(rules[1..], url, body, fallback);
      assert forall i :: 1 <= i < |rules| ==> rules[i] == rules[1..][i - 1];
      if exists i :: 0 <= i < |rules| && Fires(rules[i], url, body) then
        var i :| 0 <= i < |rules| && Fires(rules[i], url, body);
        assert Fires(rules[1..][i - 1], url, body);
        var k :| 0 <= k < |rules| - 1 && Fires(rules[1..][k], url, body)
          && r == rules[1..][k].category
          && forall j :: 0 <= j < k ==> !Fires(rules[1..][j], url, body);
        assert forall j :: 0 <= j < k + 1 ==> !Fires(rules[j], url, body) by {
          forall j | 0 <= j < k + 1 ensures !Fires(rules[j], url, body) {
            if j > 0 { assert rules[j] == rules[1..][j - 1]; }
          }
        }
        r
      else r
  }

  /** The lowercased JSON text of `body || {}` that the monitors search. */
  function BodyText(body: Value): string {
    LowerAscii(Stringify(Or(body, Obj([]))).value)
  }

  /** A body object with a lowercase property name that has a value shows
      that name to the rules. */
  lemma {:induction false} BodyTextShowsKey(fields: seq<(string, Value)>, i: nat)
    requires i < |fields| && !fields[i].1.Undefined?
    requires forall c :: 0 <= c < |fields[i].0| ==> 'a' <= fields[i].0[c] <= 'z'
    ensures Contains(BodyText(Obj(fields)), fields[i].0)
  {
    var k := fields[i].0;
    JsonShowsKey(fields, i);
    var q := "\"" + k + "\"";
    assert OccursAt(q, k, 1) by { assert q[1..1 + |k|] == k; }
    ContainsTrans(Json(Obj(fields)), q, k);
    assert LowerAscii(k) == k;
    LowerAsciiContains(Json(Obj(fields)), k);
  }
}

=== FILE: bot_common.dfy ===
/** What the two Telegram VPS bots share: the Markdown helpers,
    `truncate_text`, the admin test, Python list indexing and the inline
    keyboard under an instance's control panel. */
module BotCommon {
  import opened Maybe
  import opened Text

  // ---------------------------------------------------------------------
  // Markdown helpers
  // ---------------------------------------------------------------------

  /** The text between two copies of `mark`. */
  function Enclose(mark: char, text: string): (r: string)
    ensures |r| == |text| + 2 && r[0] == mark && r[|r| - 1] == mark
    ensures r[1..|r| - 1] == text
  {
    [mark] + text + [mark]
  }

  /** `format_bold`. */
  function Bold(text: string): string {
    Enclose('*', text)
  }

  /** `format_code`. */
  function Code(text: string): string {
    Enclose('`', text)
  }

  /** `format_code_block`: the text on its own lines inside a fence. */
  function CodeBlock(text: string): (r: string)
    ensures |r| == |text| + 8
    ensures r[..4] == "```\n" && r[|r| - 4..] == "\n```"
    ensures r[4..|r| - 4] == text
  {
    "```\n" + text + "\n```"
  }

  /** `format_section`: the title in bold, a line break, then the content. */
  function Section(title: string, content: string): (r: string)
    ensures |r| == |title| + 3 + |content|
    ensures r[..|title| + 2] == Bold(title) && r[|title| + 2] == '\n'
    ensures r[|title| + 3..] == content
  {
    Bold(title) + "\n" + content
  }

  // ---------------------------------------------------------------------
  // truncate_text
  // ---------------------------------------------------------------------

  /** The length of a Telegram message, `truncate_text`'s default limit. */
  const MessageLimit := 4096

  /** Python `s[:j]`: the first `j` characters, where a negative `j` counts
      from the end and a `j` past the end takes everything. */
  function SliceTo(s: string, j: int): (r: string)
    ensures r <= s
    ensures 0 <= j <= |s| ==> |r| == j
    ensures j > |s| ==> r == s
    ensures j < 0 ==> |r| == (if |s| + j < 0 then 0 else |s| + j)
  {
    if j >= 0 then (if j <= |s| then s[..j] else s)
    else if |s| + j < 0 then []
    else s[..|s| + j]
  }

  /** `truncate_text(text, max_length)`: empty or short enough text is
      returned as it is; longer text keeps `text[:max_length-3]` and gets
      `"..."` appended. With a limit of 3 or more the result has exactly
      the limit's length; below 3, Python's negative slice index cuts from
      the end and the result is longer than the limit. */
  function Truncate(text: string, maxLength: int): (r: string)
    ensures |text| == 0 || |text| <= maxLength ==> r == text
    ensures |text| > 0 && |text| > maxLength ==> |r| >= 3 && r[|r| - 3..] == "..." && r[..|r| - 3] <= text
    ensures |text| > maxLength >= 3 ==> |r| == maxLength
    ensures |text| > 0 && |text| > maxLength && maxLength < 3 ==>
      |r| - 3 == (if |text| + maxLength - 3 < 0 then 0 else |text| + maxLength - 3)
  {
    if |text| == 0 then text
    else if |text| <= maxLength then text
    else
      var head := SliceTo(text, maxLength - 3);
      assert (head + "...")[..|head|] == head;
      head + "..."
  }

  /** With a limit of at least 3 the result fits, and truncating again
      changes nothing. */
  lemma {:induction false} TruncateFits(text: string, maxLength: int)
    requires maxLength >= 3
    ensures |Truncate(text, maxLength)| <= maxLength
    ensures Truncate(Truncate(text, maxLength), maxLength) == Truncate(text, maxLength)
  {
  }

  /** Below a limit of 3 a non-empty text over the limit comes back longer
      than the limit. */
  lemma {:induction false} TruncateSmallLimitOverflows(text: string, maxLength: int)
    requires maxLength < 3 && |text| > 0 && |text| > maxLength
    ensures |Truncate(text, maxLength)| > maxLength
  {
  }

  // ---------------------------------------------------------------------
  // Admins
  // ---------------------------------------------------------------------

  /** `admin_data.get("admins")`: absent, or the admins' ids as strings. */
  type Admins = Option<seq<string>>

  /** `admin_data.get("admins", [])`. */
  function AdminList(admins: Admins): seq<string> {
    admins.GetOr([])
  }

  /** `is_admin(user_id)` for a bot whose main admin is `main`: the main
      admin, or a user whose decimal id is on the list. */
  function IsAdminOf(main: int, admins: Admins, user: int): (r: bool)
    ensures user == main ==> r
    ensures user != main ==> (r <==> IntToString(user) in AdminList(admins))
  {
    user == main || IntToString(user) in AdminList(admins)
  }

  predicate NoDuplicates(s: seq<string>) {
    forall i, j :: 0 <= i < j < |s| ==> s[i] != s[j]
  }

  // ---------------------------------------------------------------------
  // Python list indexing
  // ---------------------------------------------------------------------

  /** Python `xs[i]` on a list of length `n`: the position read, or `None`
      for the `IndexError`. A negative `i` counts from the end. */
  function PyIndex(n: nat, i: int): (r: Option<nat>)
    ensures r.Some? <==> -(n as int) <= i < n
    ensures r.Some? ==> r.value < n
    ensures r.Some? && i >= 0 ==> r.value == i
    ensures r.Some? && i < 0 ==> r.value == n + i
  {
    if 0 <= i < n then Some(i) else if -(n as int) <= i < 0 then Some(n + i) else None
  }

  // ---------------------------------------------------------------------
  // The control keyboard
  // ---------------------------------------------------------------------

  /** An inline button: its caption and the callback data it sends. */
  datatype Button = Button(caption: string, data: string)

  /** Rows of buttons. */
  type Keyboard = seq<seq<Button>>

  /** The captions of the control-panel buttons, which the two bots spell
      differently. */
  datatype Labels = Labels(start: string, stop: string, stats: string, ssh: string, reinstall: string, back: string)

  /** ZorvixVM's captions, character for character: its source carries the
      emoji as mojibake (UTF-8 bytes read back as Mac Roman). */
  const ZorvixLabels := Labels(
    "\U{201A}\U{00F1}\U{2202}\U{00D4}\U{220F}\U{00E8} Start",
    "\U{201A}\U{00E8}\U{220F}\U{00D4}\U{220F}\U{00E8} Stop",
    "\U{F8FF}\U{00FC}\U{00EC}\U{00E4} Stats",
    "\U{F8FF}\U{00FC}\U{00EE}\U{00EB} SSH",
    "\U{F8FF}\U{00FC}\U{00EE}\U{00D1} Reinstall",
    "\U{201A}\U{00A8}\U{00D6}\U{00D4}\U{220F}\U{00E8} Back")

  /** tel.py's captions, which carry the emoji themselves. */
  const TelLabels := Labels(
    "\U{25B6}\U{FE0F} Start",
    "\U{23F8}\U{FE0F} Stop",
    "\U{1F4CA} Stats",
    "\U{1F511} SSH",
    "\U{1F504} Reinstall",
    "\U{2B05}\U{FE0F} Back")

  /** The callback data `f"{action}:{index}"`. */
  function IndexData(action: string, index: int): string {
    action + ":" + IntToString(index)
  }

  /** The Back button, which carries no index. */
  function BackButton(labels: Labels): Button {
    Button(labels.back, "vps_back")
  }

  /** `create_vps_control_keyboard(vps_index, is_owner, is_admin)`: power
      buttons, then stats and SSH, then a Reinstall row for an owner who is
      not managing as an admin, and the Back button last. */
  function ControlKeyboard(labels: Labels, index: int, isOwner: bool, isAdmin: bool): (r: Keyboard)
    ensures |r| == (if isOwner && !isAdmin then 4 else 3)
    ensures r[0] == [Button(labels.start, IndexData("vps_start", index)), Button(labels.stop, IndexData("vps_stop", index))]
    ensures r[1] == [Button(labels.stats, IndexData("vps_stats", index)), Button(labels.ssh, IndexData("vps_ssh", index))]
    ensures |r| == 4 ==> r[2] == [Button(labels.reinstall, IndexData("vps_reinstall", index))]
    ensures r[|r| - 1] == [BackButton(labels)]
  {
    var power := [Button(labels.start, IndexData("vps_start", index)), Button(labels.stop, IndexData("vps_stop", index))];
    var other := [Button(labels.stats, IndexData("vps_stats", index)), Button(labels.ssh, IndexData("vps_ssh", index))];
    var reinstall := if isOwner && !isAdmin then [[Button(labels.reinstall, IndexData("vps_reinstall", index))]] else [];
    [power, other] + reinstall + [[BackButton(labels)]]
  }
}

=== FILE: csv.dfy ===
/** The comma-separated text the export buttons build: each field is either
    written bare, wrapped in double quotes with inner quotes doubled
    (`"${s.replace(/"/g, '""')}"`), or only wrapped in double quotes
    (`"${s}"`); fields are joined with `,` and records with `\n`.

    `Read` is a reader for the format of section 2 of RFC 4180 (quoted fields
    may hold commas, line breaks and doubled quotes; LF ends a record). The
    partner lemma `ReadEncodeTable` states when a written table reads back
    as the values that were put into it. */
module Csv {
  import opened Maybe
  import opened Text

  // ---------------------------------------------------------------------
  // Writing
  // ---------------------------------------------------------------------

  /** `s.replace(/"/g, '""')`. */
  function DoubleQuotes(s: string): (r: string)
    ensures '\"' !in s ==> r == s
    ensures |r| >= |s|
  {
    if |s| == 0 then ""
    else (if s[0] == '\"' then "\"\"" else [s[0]]) + DoubleQuotes(s[1..])
  }

  datatype Cell =
    | Bare(text: string)      // written as is
    | Quoted(text: string)    // `"…"` with inner quotes doubled
    | Wrapped(text: string)   // `"…"` with inner quotes left alone

  function Encode(c: Cell): string {
    match c
    case Bare(t) => t
    case Quoted(t) => "\"" + DoubleQuotes(t) + "\""
    case Wrapped(t) => "\"" + t + "\""
  }

  function EncodeCells(cells: seq<Cell>): (r: seq<string>)
    ensures |r| == |cells|
  {
    if |cells| == 0 then [] else [Encode(cells[0])] + EncodeCells(cells[1..])
  }

  /** `row.join(',')`. */
  function EncodeRow(cells: seq<Cell>): string {
    Join(EncodeCells(cells), ",")
  }

  function EncodeRows(rows: seq<seq<Cell>>): (r: seq<string>)
    ensures |r| == |rows|
  {
    if |rows| == 0 then [] else [EncodeRow(rows[0])] + EncodeRows(rows[1..])
  }

  /** `rows.join('\n')`. */
  function EncodeTable(rows: seq<seq<Cell>>): string {
    Join(EncodeRows(rows), "\n")
  }

  /** The header row: every column name bare. */
  function Header(names: seq<string>): (r: seq<Cell>)
    ensures |r| == |names|
    ensures forall i :: 0 <= i < |names| ==> r[i] == Bare(names[i])
  {
    seq(|names|, i requires 0 <= i < |names| => Bare(names[i]))
  }

  /** A cell reads back as its text: a bare text must not contain a
      separator or a quote, a wrapped text must not contain a quote. */
  predicate Readable(c: Cell) {
    match c
    case Bare(t) => ',' !in t && '\n' !in t && '\"' !in t
    case Quoted(_) => true
    case Wrapped(t) => '\"' !in t
  }

  function Texts(cells: seq<Cell>): (r: seq<string>)
    ensures |r| == |cells|
    ensures forall i :: 0 <= i < |cells| ==> r[i] == cells[i].text
  {
    seq(|cells|, i requires 0 <= i < |cells| => cells[i].text)
  }

  // ---------------------------------------------------------------------
  // Reading (section 2 of RFC 4180)
  // ---------------------------------------------------------------------

  /** Reads an unquoted field: everything up to the next `,` or LF. */
  function ReadBare(s: string): (r: (string, string))
    ensures r.0 + r.1 == s
    ensures ',' !in r.0 && '\n' !in r.0
    ensures |r.1| > 0 ==> r.1[0] == ',' || r.1[0] == '\n'
  {
    if |s| == 0 || s[0] == ',' || s[0] == '\n' then ("", s)
    else
      var (f, rest) := ReadBare(s[1..]);
      assert [s[0]] + s[1..] == s;
      ([s[0]] + f, rest)
  }

  /** Reads the inside of a quoted field up to its closing quote; `""`
      stands for one quote. `None`: the closing quote is missing. */
  function ReadQuoted(s: string): (r: Option<(string, string)>)
    ensures r.Some? ==> |r.value.1| < |s|
  {
    if |s| == 0 then None
    else if s[0] == '\"' then
      if |s| >= 2 && s[1] == '\"' then
        match ReadQuoted(s[2..])
        case None => None
        case Some((f, rest)) => Some(("\"" + f, rest))
      else Some(("", s[1..]))
    else
      match ReadQuoted(s[1..])
      case None => None
      case Some((f, rest)) => Some(([s[0]] + f, rest))
  }

  /** Reads one field, returning its value and the text after it. */
  function ReadField(s: string): (r: Option<(string, string)>)
    ensures r.Some? ==> |r.value.1| <= |s|
  {
    if |s| > 0 && s[0] == '\"' then ReadQuoted(s[1..]) else Some(ReadBare(s))
  }

  /** Reads a whole text into records of field values; `None` when a
      quoted field is unterminated or is followed by something other than
      `,`, LF or the end. */
  function Read(s: string): (r: Option<seq<seq<string>>>)
    ensures r.Some? ==> |r.value| >= 1 && |r.value[0]| >= 1
    decreases |s|
  {
    match ReadField(s)
    case None => None
    case Some((f, rest)) =>
      if |rest| == 0 then Some([[f]])
      else if rest[0] == ',' then
        match Read(rest[1..])
        case None => None
        case Some(recs) => Some([[f] + recs[0]] + recs[1..])
      else if rest[0] == '\n' then
        match Read(rest[1..])
        case None => None
        case Some(recs) => Some([[f]] + recs)
      else None
  }

  // ---------------------------------------------------------------------
  // Reading back what was written
  // ---------------------------------------------------------------------

  /** What may follow a field: nothing, or a separator. */
  predicate Boundary(rest: string) {
    |rest| == 0 || rest[0] == ',' || rest[0] == '\n'
  }

  lemma {:induction false} ReadQuotedDoubled(t: string, rest: string)
    requires Boundary(rest)
    ensures ReadQuoted(DoubleQuotes(t) + "\"" + rest) == Some((t, rest))
    decreases |t|
  {
    if |t| == 0 {
      assert DoubleQuotes(t) + "\"" + rest == "\"" + rest;
      assert ("\"" + rest)[1..] == rest;
    } else {
      var head := if t[0] == '\"' then "\"\"" else [t[0]];
      var tail := DoubleQuotes(t[1..]) + "\"" + rest;
      ReadQuotedDoubled(t[1..], rest);
      assert DoubleQuotes(t) + "\"" + rest == head + tail by {
        assert DoubleQuotes(t) == head + DoubleQuotes(t[1..]);
      }
      ReadQuotedStep(head + tail, head, tail, t[0], t[1..], rest);
      assert [t[0]] + t[1..] == t;
    }
  }

  /** One written character, doubled when it is a quote, in front of text
      that reads back as `t1`. */
  lemma {:induction false} ReadQuotedStep(s: string, head: string, tail: string, c: char, t1: string, rest: string)
    requires s == head + tail && head == (if c == '\"' then ['\"', '\"'] else [c])
    requires ReadQuoted(tail) == Some((t1, rest))
    ensures ReadQuoted(s) == Some(([c] + t1, rest))
  {
    if c == '\"' {
      assert s[0] == '\"' && s[1] == '\"' && s[2..] == tail;
    } else {
      assert s[0] == c && s[1..] == tail;
    }
  }

  lemma {:induction false} ReadQuotedWrapped(t: string, rest: string)
    requires '\"' !in t && Boundary(rest)
    ensures ReadQuoted(t + "\"" + rest) == Some((t, rest))
    decreases |t|
  {
    if |t| == 0 {
      assert t + "\"" + rest == "\"" + rest;
      assert ("\"" + rest)[1..] == rest;
    } else {
      ReadQuotedWrapped(t[1..], rest);
      var s := t + "\"" + rest;
      assert s[1..] == t[1..] + "\"" + rest;
      assert [t[0]] + t[1..] == t;
    }
  }

  lemma {:induction false} ReadBareText(t: string, rest: string)
    requires ',' !in t && '\n' !in t && Boundary(rest)
    ensures ReadBare(t + rest) == (t, rest)
    decreases |t|
  {
    if |t| > 0 {
      ReadBareText(t[1..], rest);
      assert (t + rest)[1..] == t[1..] + rest;
      assert [t[0]] + t[1..] == t;
    } else {
      assert t + rest == rest;
    }
  }

  /** A readable cell followed by a boundary reads back as its text. */
  lemma {:induction false} ReadFieldEncoded(c: Cell, rest: string)
    requires Readable(c) && Boundary(rest)
    ensures ReadField(Encode(c) + rest) == Some((c.text, rest))
  {
    match c
    case Bare(t) => ReadBareField(t, rest);
    case Quoted(t) =>
      ReadQuotedDoubled(t, rest);
      ReadQuotedField("\"" + DoubleQuotes(t) + "\"" + rest, DoubleQuotes(t), t, rest);
    case Wrapped(t) =>
      ReadQuotedWrapped(t, rest);
      ReadQuotedField("\"" + t + "\"" + rest, t, t, rest);
  }

  lemma {:induction false} ReadBareField(t: string, rest: string)
    requires ',' !in t && '\n' !in t && '\"' !in t && Boundary(rest)
    ensures ReadField(t + rest) == Some((t, rest))
  {
    ReadBareText(t, rest);
    if |t| > 0 {
      assert (t + rest)[0] == t[0];
    } else {
      assert t + rest == rest;
    }
  }

  /** A field written as a quote, `inner`, a quote and `rest`, where
      `inner` reads back as `t`. */
  lemma {:induction false} ReadQuotedField(s: string, inner: string, t: string, rest: string)
    requires s == ['\"'] + inner + ['\"'] + rest
    requires ReadQuoted(inner + ['\"'] + rest) == Some((t, rest))
    ensures ReadField(s) == Some((t, rest))
  {
    assert s[1..] == inner + "\"" + rest;
  }

  /** What `Read` yields for a record with `fields` followed by `rest`,
      where `rest` is empty or starts with LF. */
  function ThenRecord(fields: seq<string>, rest: string): Option<seq<seq<string>>> {
    if |rest| == 0 then Some([fields])
    else
      match Read(rest[1..])
      case None => None
      case Some(recs) => Some([fields] + recs)
  }

  /** Reading a written record followed by the end or by LF and more text. */
  lemma {:induction false} ReadRowThen(cells: seq<Cell>, rest: string)
    requires |cells| >= 1
    requires forall i :: 0 <= i < |cells| ==> Readable(cells[i])
    requires |rest| == 0 || rest[0] == '\n'
    ensures Read(EncodeRow(cells) + rest) == ThenRecord(Texts(cells), rest)
    decreases |cells|
  {
    if |cells| == 1 {
      assert EncodeRow(cells) == Encode(cells[0]);
      ReadFieldEncoded(cells[0], rest);
      assert Texts(cells) == [cells[0].text];
    } else {
      var tail := EncodeRow(cells[1..]) + rest;
      assert EncodeCells(cells)[1..] == EncodeCells(cells[1..]);
      assert EncodeRow(cells) == Encode(cells[0]) + "," + EncodeRow(cells[1..]);
      assert EncodeRow(cells) + rest == Encode(cells[0]) + ("," + tail);
      ReadFieldEncoded(cells[0], "," + tail);
      assert ("," + tail)[1..] == tail;
      ReadRowThen(cells[1..], rest);
      FirstFieldJoins(cells[0].text, Texts(cells[1..]), rest);
      assert Texts(cells) == [cells[0].text] + Texts(cells[1..]);
    }
  }

  lemma {:induction false} FirstFieldJoins(f: string, fields: seq<string>, rest: string)
    requires |rest| == 0 || rest[0] == '\n'
    ensures (match ThenRecord(fields, rest)
      case None => ThenRecord([f] + fields, rest).None?
      case Some(recs) => ThenRecord([f] + fields, rest) == Some([[f] + recs[0]] + recs[1..]))
  {
    if |rest| == 0 {
      assert [[f] + fields] == [[f] + [fields][0]] + [fields][1..];
    } else {
      match Read(rest[1..])
      case None =>
      case Some(recs) =>
        var all := [fields] + recs;
        assert all[0] == fields && all[1..] == recs;
    }
  }

  /** Every record has at least one field and every cell is readable. */
  predicate TableReadable(rows: seq<seq<Cell>>) {
    forall r :: 0 <= r < |rows| ==>
      |rows[r]| >= 1 && forall i :: 0 <= i < |rows[r]| ==> Readable(rows[r][i])
  }

  /** The field values of every record. */
  function TableTexts(rows: seq<seq<Cell>>): (r: seq<seq<string>>)
    ensures |r| == |rows|
    ensures forall k :: 0 <= k < |rows| ==> r[k] == Texts(rows[k])
  {
    if |rows| == 0 then [] else [Texts(rows[0])] + TableTexts(rows[1..])
  }

  lemma {:induction false} TableReadableCons(h: seq<Cell>, rows: seq<seq<Cell>>)
    requires |h| >= 1 && forall i :: 0 <= i < |h| ==> h[i].Bare? && Readable(h[i])
    requires TableReadable(rows)
    ensures TableReadable([h] + rows)
  {
    var t := [h] + rows;
    forall r | 0 <= r < |t|
      ensures |t[r]| >= 1 && forall i :: 0 <= i < |t[r]| ==> Readable(t[r][i])
    {
      if r > 0 {
        assert t[r] == rows[r - 1];
      }
    }
  }

  lemma {:induction false} TableTextsCons(h: seq<Cell>, rows: seq<seq<Cell>>)
    ensures TableTexts([h] + rows) == [Texts(h)] + TableTexts(rows)
  {
    assert ([h] + rows)[1..] == rows;
  }

  /** A table whose cells are all readable reads back as the cells' texts:
      the same number of records, each with the same fields in order. */
  lemma {:induction false} ReadEncodeTable(rows: seq<seq<Cell>>)
    requires |rows| >= 1 && TableReadable(rows)
    ensures Read(EncodeTable(rows)) == Some(TableTexts(rows))
    decreases |rows|
  {
    if |rows| == 1 {
      assert EncodeTable(rows) == EncodeRow(rows[0]) + "";
      ReadRowThen(rows[0], "");
      assert TableTexts(rows) == [Texts(rows[0])];
    } else {
      assert EncodeRows(rows)[1..] == EncodeRows(rows[1..]);
      var tail := EncodeTable(rows[1..]);
      assert EncodeTable(rows) == EncodeRow(rows[0]) + ("\n" + tail);
      ReadRowThen(rows[0], "\n" + tail);
      assert ("\n" + tail)[1..] == tail;
      assert TableReadable(rows[1..]) by {
        forall r | 0 <= r < |rows| - 1 ensures rows[1..][r] == rows[r + 1] { }
      }
      ReadEncodeTable(rows[1..]);
      assert TableTexts(rows) == [Texts(rows[0])] + TableTexts(rows[1..]);
    }
  }
}

=== FILE: debug_monitor.dfy ===
/** The freeaiimage.net debug monitor: the `isTaskResponse` test and the
    gates in its `XMLHttpRequest` and `fetch` wrappers that decide when
    `handleTaskData` runs. `handleTaskData` only logs and notifies, so a
    call to it is modelled as a captured `(url, body, source)` triple.
    `JSON.parse` is the parameter `parse`; `None` is the SyntaxError. */
module DebugMonitor {
  import opened Maybe
  import opened Js
  import Analyzer
  import Ordered

  /** `task_id || taskid || (params && params.task_id)`. */
  function TaskIdOf(body: Value): Value {
    var params := OptGet(body, "params");
    Or(Or(OptGet(body, "task_id"), OptGet(body, "taskid")), And(params, OptGet(params, "task_id")))
  }

  /** `task_type || tasktype || (params && params.task_type)`. */
  function TaskTypeOf(body: Value): Value {
    var params := OptGet(body, "params");
    Or(Or(OptGet(body, "task_type"), OptGet(body, "tasktype")), And(params, OptGet(params, "task_type")))
  }

  /** `data` is a non-empty array. */
  predicate HasImageData(body: Value) {
    var d := OptGet(body, "data");
    d.Arr? && |d.items| > 0
  }

  /** `isTaskResponse`, read as a condition: only an object with at least
      one property can be a task response. */
  predicate IsTaskResponse(body: Value)
    ensures IsTaskResponse(body) ==> body.Obj? && |body.fields| > 0
  {
    if !Truthy(body) || !IsObjectType(body) then false
    else Truthy(TaskIdOf(body)) || (Truthy(TaskTypeOf(body)) && Truthy(OptGet(body, "status")))
         || HasImageData(body)
  }

  /** `null`, primitives and strings are never task responses. */
  lemma {:induction false} NonObjectNotTask(body: Value)
    requires !body.Obj?
    ensures !IsTaskResponse(body)
  {
  }

  /** A task id nested in `params` is enough. */
  lemma {:induction false} NestedTaskIdIsTask(id: string)
    requires |id| > 0
    ensures IsTaskResponse(Obj([("params", Obj([("task_id", Str(id))]))]))
  {
    var params := Obj([("task_id", Str(id))]);
    var b := Obj([("params", params)]);
    assert OptGet(b, "params") == params;
    assert OptGet(params, "task_id") == Str(id);
  }

  /** A status needs a task type beside it. */
  lemma {:induction false} StatusNeedsType()
    ensures !IsTaskResponse(Obj([("status", Str("completed"))]))
  {
    var b := Obj([("status", Str("completed"))]);
    assert OptGet(b, "task_id") == Undefined && OptGet(b, "taskid") == Undefined;
    assert OptGet(b, "params") == Undefined && OptGet(b, "data") == Undefined;
    assert OptGet(b, "task_type") == Undefined && OptGet(b, "tasktype") == Undefined;
  }

  /** `images` is not looked at: a body whose only field is an `images`
      array is not a task response here, though the analyzer finds it
      useful. */
  lemma {:induction false} ImagesIgnored(items: seq<Value>)
    ensures !IsTaskResponse(Obj([("images", Arr(items))]))
    ensures Analyzer.IsUseful(Obj([("images", Arr(items))]))
  {
    var b := Obj([("images", Arr(items))]);
    assert OptGet(b, "task_id") == Undefined && OptGet(b, "taskid") == Undefined;
    assert OptGet(b, "params") == Undefined && OptGet(b, "data") == Undefined;
    assert OptGet(b, "task_type") == Undefined && OptGet(b, "tasktype") == Undefined;
    assert OptGet(b, "images") == Arr(items);
  }

  /** Every task response is useful to the analyzer as well: the two tests
      differ only in what they accept beyond a task response. */
  lemma {:induction false} TaskResponseUsefulUnlessNested(body: Value)
    requires IsTaskResponse(body)
    requires !Truthy(OptGet(body, "params"))
    requires !Truthy(TaskIdOf(body)) ==> HasImageData(body)
    ensures Analyzer.IsUseful(body)
  {
    var params := OptGet(body, "params");
    if Truthy(TaskIdOf(body)) {
      assert !Truthy(And(params, OptGet(params, "task_id")));
      assert Truthy(Or(OptGet(body, "task_id"), OptGet(body, "taskid")));
    }
  }

  // ---------------------------------------------------------------------
  // The handlers
  // ---------------------------------------------------------------------

  /** One call of `handleTaskData`. */
  datatype Capture = Capture(url: string, body: Value, source: string)

  /** `readyState` 4 in the XHR listener: a 2xx response whose text parses
      and is a task response is handed on; nothing else is. */
  function OnXhrDone(caps: seq<Capture>, url: string, status: int, text: string,
                     parse: string -> Option<Value>): (r: seq<Capture>)
    ensures r == caps || (|r| == |caps| + 1 && r[..|caps|] == caps)
    ensures |r| == |caps| + 1 <==>
      200 <= status < 300 && parse(text).Some? && IsTaskResponse(parse(text).value)
    ensures |r| == |caps| + 1 ==> r[|caps|] == Capture(url, parse(text).value, "XHR")
  {
    if 200 <= status < 300 then
      match parse(text)
      case Some(body) =>
        if IsTaskResponse(body) then
          assert (caps + [Capture(url, body, "XHR")])[..|caps|] == caps;
          caps + [Capture(url, body, "XHR")]
        else caps
      case None => caps
    else caps
  }

  /** The `fetch` text callback: an `ok` response whose text parses and is a
      task response is handed on. */
  function OnFetchText(caps: seq<Capture>, url: string, ok: bool, text: string,
                       parse: string -> Option<Value>): (r: seq<Capture>)
    ensures r == caps || (|r| == |caps| + 1 && r[..|caps|] == caps)
    ensures |r| == |caps| + 1 <==> ok && parse(text).Some? && IsTaskResponse(parse(text).value)
    ensures |r| == |caps| + 1 ==> r[|caps|] == Capture(url, parse(text).value, "Fetch")
  {
    if ok then
      match parse(text)
      case Some(body) =>
        if IsTaskResponse(body) then
          assert (caps + [Capture(url, body, "Fetch")])[..|caps|] == caps;
          caps + [Capture(url, body, "Fetch")]
        else caps
      case None => caps
    else caps
  }

  /** A 2xx status and an `ok` response admit the same bodies. */
  lemma {:induction false} XhrAndFetchAgree(caps: seq<Capture>, url: string, status: int, text: string,
                         parse: string -> Option<Value>)
    ensures |OnXhrDone(caps, url, status, text, parse)| ==
            |OnFetchText(caps, url, 200 <= status < 300, text, parse)|
  {
  }

  // ---------------------------------------------------------------------
  // What the page's own fetch call sees
  // ---------------------------------------------------------------------

  /** What the network does with a request, and what the page's `fetch`
      call ends in. */
  datatype FetchResult = Response(status: int) | Failed(error: string) | ThrewTypeError

  /** The fetch wrapper as written. `options?.body.substring(0, 200)` is
      evaluated for any truthy body, so a body that is not a string throws
      before the request is made; otherwise the network's answer passes
      through, and a failure is logged and rethrown as it was. */
  function FetchSeenByPage(body: Value, network: FetchResult): (r: FetchResult)
    ensures !Truthy(body) || body.Str? ==> r == network
    ensures Truthy(body) && !body.Str? ==> r == ThrewTypeError
  {
    if Truthy(body) && !body.Str? then ThrewTypeError else network
  }

  /** A network failure reaches the page unchanged. */
  lemma {:induction false} FailureRethrown(body: Value, e: string)
    requires body.Str? || !Truthy(body)
    ensures FetchSeenByPage(body, Failed(e)) == Failed(e)
  {
  }

  /** A request with a form or blob body (modelled as an object) never
      reaches the network. */
  lemma {:induction false} ObjectBodyBreaksFetch(fields: seq<(string, Value)>, network: FetchResult)
    ensures FetchSeenByPage(Obj(fields), network) == ThrewTypeError
    ensures PageFetch(InitFixed(), Obj(fields), network) == ThrewTypeError
    ensures PageFetch(Init(), Obj(fields), network) == network
  {
  }

  /** The wrapper with the payload logged only when it is a string: every
      request reaches the network and the page sees its answer. */
  function FetchSeenByPageFixed(body: Value, network: FetchResult): (r: FetchResult)
    ensures r == network
    ensures !FetchSeenByPage(body, network).ThrewTypeError? ==> r == FetchSeenByPage(body, network)
  {
    network
  }

  // ---------------------------------------------------------------------
  // setRequestHeader
  // ---------------------------------------------------------------------

  /** One request's headers: those the wrapper noted in `_requestHeaders`
      (an object, so a name set again keeps the last value), those the real
      request carries (each call adds one), and whether the page's
      `setRequestHeader` call threw. */
  datatype Headers = Headers(noted: seq<(string, string)>, sent: seq<(string, string)>, threw: bool)

  /** The `setRequestHeader` wrapper as written: it notes the header, then
      calls `originalSetRequestHeader`, a name the script never declares.
      Every call therefore ends in a ReferenceError, and the real request
      never carries the header. */
  function SetRequestHeader(h: Headers, name: string, value: string): (r: Headers)
    ensures r.threw && r.sent == h.sent
    ensures Ordered.Get(r.noted, name) == Some(value)
    ensures forall k :: k != name ==> Ordered.Get(r.noted, k) == Ordered.Get(h.noted, k)
  {
    Headers(Ordered.Assign(h.noted, name, value), h.sent, true)
  }

  /** A page that sets a content type gets an exception, and its request
      goes out with the headers it had, where the forwarding wrapper would
      have added the content type. */
  lemma {:induction false} HeaderNeverSent(h: Headers)
    ensures var r := SetRequestHeader(h, "Content-Type", "application/json");
      r.threw && r.sent == h.sent
      && SetRequestHeaderFixed(h, "Content-Type", "application/json").sent == h.sent + [("Content-Type", "application/json")]
    ensures PageSetRequestHeader(InitFixed(), h, "Content-Type", "application/json").threw
    ensures !PageSetRequestHeader(Init(), h, "Content-Type", "application/json").threw
  {
  }

  /** The wrapper forwarding to the real `setRequestHeader`, saved before it
      is replaced: the header is noted as before and also sent, and nothing
      throws. */
  function SetRequestHeaderFixed(h: Headers, name: string, value: string): (r: Headers)
    ensures !r.threw && r.sent == h.sent + [(name, value)]
    ensures r.noted == SetRequestHeader(h, name, value).noted
  {
    Headers(Ordered.Assign(h.noted, name, value), h.sent + [(name, value)], false)
  }

  // ---------------------------------------------------------------------
  // Start-up: whether the wrappers are ever in place
  // ---------------------------------------------------------------------

  /** Whether `setupMonitors` has run on the page, putting the
      `XMLHttpRequest` and `fetch` wrappers above in place of the
      browser's own. */
  datatype Page = Page(monitored: bool)

  /** `init` as written. Its first step, `addContainsSupport`, calls
      `document.querySelectorAll(':contains')`. `:contains` is not a CSS
      pseudo-class, so the call throws a SyntaxError and `init` ends there:
      neither `startDebug` nor the timer that would run `setupMonitors` is
      reached, and the page keeps the browser's `XMLHttpRequest` and
      `fetch`. */
  function Init(): (r: Page)
    ensures !r.monitored
  {
    Page(false)
  }

  /** `init` with the probe guarded by a `try`: the timer runs
      `setupMonitors`, and both wrappers are in place. */
  function InitFixed(): (r: Page)
    ensures r.monitored
  {
    Page(true)
  }

  /** What the page's `fetch` call with this body ends in: the network's
      answer from the browser's own `fetch`, or the wrapper's outcome once
      the monitors are in place. */
  function PageFetch(p: Page, body: Value, network: FetchResult): (r: FetchResult)
    ensures !p.monitored ==> r == network
    ensures p.monitored ==> r == FetchSeenByPage(body, network)
  {
    if p.monitored then FetchSeenByPage(body, network) else network
  }

  /** The page's `setRequestHeader` call. The browser's own method adds the
      header to the request and notes nothing, since `_requestHeaders` only
      exists under the wrapped `open`. */
  function PageSetRequestHeader(p: Page, h: Headers, name: string, value: string): (r: Headers)
    ensures !p.monitored ==> r == Headers(h.noted, h.sent + [(name, value)], false)
    ensures p.monitored ==> r == SetRequestHeader(h, name, value)
  {
    if p.monitored then SetRequestHeader(h, name, value)
    else Headers(h.noted, h.sent + [(name, value)], false)
  }

  /** The captures after one finished XHR: none without the listener. */
  function PageXhrDone(p: Page, caps: seq<Capture>, url: string, status: int, text: string,
                       parse: string -> Option<Value>): (r: seq<Capture>)
    ensures !p.monitored ==> r == caps
    ensures p.monitored ==> r == OnXhrDone(caps, url, status, text, parse)
  {
    if p.monitored then OnXhrDone(caps, url, status, text, parse) else caps
  }

  /** The captures after one finished `fetch`: none without the wrapper. */
  function PageFetchText(p: Page, caps: seq<Capture>, url: string, ok: bool, text: string,
                         parse: string -> Option<Value>): (r: seq<Capture>)
    ensures !p.monitored ==> r == caps
    ensures p.monitored ==> r == OnFetchText(caps, url, ok, text, parse)
  {
    if p.monitored then OnFetchText(caps, url, ok, text, parse) else caps
  }

  /** As written, the script changes nothing a page does: every `fetch`
      gets the network's answer, every header is sent, and no response is
      ever captured. */
  lemma {:induction false} MonitorsNeverInstalled(body: Value, network: FetchResult, h: Headers,
                                                  name: string, value: string, caps: seq<Capture>,
                                                  url: string, status: int, ok: bool, text: string,
                                                  parse: string -> Option<Value>)
    ensures PageFetch(Init(), body, network) == network
    ensures PageSetRequestHeader(Init(), h, name, value) == Headers(h.noted, h.sent + [(name, value)], false)
    ensures PageXhrDone(Init(), caps, url, status, text, parse) == caps
    ensures PageFetchText(Init(), caps, url, ok, text, parse) == caps
  {
  }

  /** With `init` corrected, a 2xx XHR and an `ok` fetch carrying a task
      response are each captured once, where the script as written
      captures neither. */
  lemma {:induction false} FixedInitCaptures(caps: seq<Capture>, url: string, status: int, text: string,
                                             parse: string -> Option<Value>)
    requires 200 <= status < 300 && parse(text).Some? && IsTaskResponse(parse(text).value)
    ensures PageXhrDone(InitFixed(), caps, url, status, text, parse) == caps + [Capture(url, parse(text).value, "XHR")]
    ensures PageFetchText(InitFixed(), caps, url, true, text, parse) == caps + [Capture(url, parse(text).value, "Fetch")]
    ensures PageXhrDone(Init(), caps, url, status, text, parse) == caps
    ensures PageFetchText(Init(), caps, url, true, text, parse) == caps
  {
    var x := PageXhrDone(InitFixed(), caps, url, status, text, parse);
    assert x == x[..|caps|] + [x[|caps|]];
    var f := PageFetchText(InitFixed(), caps, url, true, text, parse);
    assert f == f[..|caps|] + [f[|caps|]];
  }
}

=== FILE: digen_login.dfy ===
/** The Digen login script run from the command line: the cookie string
    parsed and formatted in the shape of section 4.2.1 of RFC 6265
    (`name=value; name=value`), the CSRF token found in the login page, the
    `application/x-www-form-urlencoded` login body, and the decision taken on
    the login response. The HTTP transport, the log file and the session
    file are left out: the two responses are parameters, and the outcome is
    what the script would save or why it exits. */
module DigenLogin {
  import opened Maybe
  import opened Text
  import opened Ordered
  import opened Scan
  import Uri

  /** A JavaScript object of cookie names to values, in insertion order. */
  type Cookies = seq<(string, string)>

  /** How one `;`-separated segment is read into a cookie, if at all. */
  type Reader = string -> Option<(string, string)>

  // ---------------------------------------------------------------------
  // parseCookies
  // ---------------------------------------------------------------------

  /** One `;`-separated segment: trimmed, split on `=`, and kept only when
      that gives exactly two parts. */
  function CookieOf(segment: string): (r: Option<(string, string)>)
    ensures r.Some? ==> Trim(segment) == r.value.0 + "=" + r.value.1
    ensures r.Some? ==> '=' !in r.value.0 && '=' !in r.value.1
  {
    var parts := Split(Trim(segment), '=');
    if |parts| == 2 then
      assert Join(parts, "=") == parts[0] + "=" + parts[1];
      Some((parts[0], parts[1]))
    else None
  }

  /** A name and value that the format writes and the parser reads back:
      no `;` or `=` in either, no whitespace at the outer edges. */
  predicate SafeEntry(e: (string, string)) {
    ';' !in e.0 && '=' !in e.0 && ';' !in e.1 && '=' !in e.1 && Edges(e)
  }

  /** No whitespace at the start of the name or the end of the value. */
  predicate Edges(e: (string, string)) {
    (|e.0| > 0 ==> !IsJsSpace(e.0[0])) && (|e.1| > 0 ==> !IsJsSpace(e.1[|e.1| - 1]))
  }

  predicate CookieSafe(c: Cookies) {
    forall i :: 0 <= i < |c| ==> SafeEntry(c[i])
  }

  /** Every cookie read from a segment without `;` is safe. */
  lemma {:induction false} CookieOfSafe(segment: string)
    requires ';' !in segment && CookieOf(segment).Some?
    ensures SafeEntry(CookieOf(segment).value)
  {
    var e := CookieOf(segment).value;
    var t := Trim(segment);
    TrimBounds(segment);
    assert t == e.0 + "=" + e.1;
    assert ';' !in e.0 by {
      forall j | 0 <= j < |e.0| ensures e.0[j] != ';' { assert t[j] == e.0[j]; }
    }
    assert ';' !in e.1 by {
      forall j | 0 <= j < |e.1| ensures e.1[j] != ';' { assert t[|e.0| + 1 + j] == e.1[j]; }
    }
    if |e.0| > 0 { assert t[0] == e.0[0]; }
    if |e.1| > 0 { assert t[|t| - 1] == e.1[|e.1| - 1]; }
  }

  /** The `forEach` over the segments: `cookies[name] = value` for every
      segment that yields a cookie, in order. */
  function AddSegments(read: Reader, acc: Cookies, segs: seq<string>): (r: Cookies)
    ensures KeysUnique(acc, EntryKey) ==> KeysUnique(r, EntryKey)
    decreases |segs|
  {
    if |segs| == 0 then acc
    else match read(segs[0])
      case Some(e) => AddSegments(read, Assign(acc, e.0, e.1), segs[1..])
      case None => AddSegments(read, acc, segs[1..])
  }

  /** `parseCookies(cookieHeader)`: `{}` for an empty header. */
  function ParseCookies(header: string): (r: Cookies)
    ensures header == "" ==> r == []
    ensures KeysUnique(r, EntryKey)
  {
    if header == "" then [] else AddSegments(CookieOf, [], Split(header, ';'))
  }

  /** Segment `i` sets cookie `k`. */
  predicate SetsAt(read: Reader, segs: seq<string>, i: int, k: string) {
    0 <= i < |segs| && read(segs[i]).Some? && read(segs[i]).value.0 == k
  }

  /** A name no segment sets keeps the value it had. */
  lemma {:induction false} AddSegmentsUnset(read: Reader, acc: Cookies, segs: seq<string>, k: string)
    requires forall j :: 0 <= j < |segs| ==> !SetsAt(read, segs, j, k)
    ensures Get(AddSegments(read, acc, segs), k) == Get(acc, k)
    decreases |segs|
  {
    if |segs| > 0 {
      assert !SetsAt(read, segs, 0, k);
      forall j | 0 <= j < |segs| - 1 ensures !SetsAt(read, segs[1..], j, k) {
        assert segs[1..][j] == segs[j + 1];
        assert !SetsAt(read, segs, j + 1, k);
      }
      match read(segs[0])
      case Some(e) => AddSegmentsUnset(read, Assign(acc, e.0, e.1), segs[1..], k);
      case None => AddSegmentsUnset(read, acc, segs[1..], k);
    }
  }

  /** The last segment that sets a name decides its value: a later
      duplicate overwrites an earlier one. */
  lemma {:induction false} AddSegmentsLast(read: Reader, acc: Cookies, segs: seq<string>, k: string, i: nat)
    requires i < |segs| && SetsAt(read, segs, i, k)
    requires forall j :: i < j < |segs| ==> !SetsAt(read, segs, j, k)
    ensures Get(AddSegments(read, acc, segs), k) == Some(read(segs[i]).value.1)
    decreases |segs|
  {
    forall j | i < j + 1 < |segs| ensures !SetsAt(read, segs[1..], j, k) {
      assert segs[1..][j] == segs[j + 1];
      assert !SetsAt(read, segs, j + 1, k);
    }
    if i == 0 {
      var e := read(segs[0]).value;
      AddSegmentsUnset(read, Assign(acc, e.0, e.1), segs[1..], k);
    } else {
      assert segs[1..][i - 1] == segs[i];
      assert SetsAt(read, segs[1..], i - 1, k);
      match read(segs[0])
      case Some(e) => AddSegmentsLast(read, Assign(acc, e.0, e.1), segs[1..], k, i - 1);
      case None => AddSegmentsLast(read, acc, segs[1..], k, i - 1);
    }
  }

  /** `parseCookies` as a lookup: a name has the value of the last segment
      that sets it. */
  lemma {:induction false} ParseCookiesLast(header: string, k: string, i: nat)
    requires header != ""
    requires i < |Split(header, ';')| && SetsAt(CookieOf, Split(header, ';'), i, k)
    requires forall j :: i < j < |Split(header, ';')| ==> !SetsAt(CookieOf, Split(header, ';'), j, k)
    ensures Get(ParseCookies(header), k) == Some(CookieOf(Split(header, ';')[i]).value.1)
  {
    AddSegmentsLast(CookieOf, [], Split(header, ';'), k, i);
  }

  /** `parseCookies` as a lookup: a name no segment sets is absent. */
  lemma {:induction false} ParseCookiesAbsent(header: string, k: string)
    requires forall j :: 0 <= j < |Split(header, ';')| ==> !SetsAt(CookieOf, Split(header, ';'), j, k)
    ensures Get(ParseCookies(header), k) == None
  {
    if header != "" {
      AddSegmentsUnset(CookieOf, [], Split(header, ';'), k);
    }
  }

  /** Folding safe segments whose names are new appends their cookies. */
  lemma {:induction false} AddSegmentsFresh(read: Reader, acc: Cookies, segs: seq<string>, c: Cookies)
    requires |segs| == |c| && forall i :: 0 <= i < |c| ==> read(segs[i]) == Some(c[i])
    requires KeysUnique(acc + c, EntryKey)
    ensures AddSegments(read, acc, segs) == acc + c
    decreases |segs|
  {
    if |segs| > 0 {
      var all := acc + c;
      assert !HasKey(acc, EntryKey, c[0].0) by {
        forall j | 0 <= j < |acc| ensures acc[j].0 != c[0].0 {
          assert all[j] == acc[j] && all[|acc|] == c[0];
        }
      }
      assert read(segs[0]) == Some(c[0]);
      assert Assign(acc, c[0].0, c[0].1) == acc + [c[0]];
      assert (acc + [c[0]]) + c[1..] == all;
      forall i | 0 <= i < |c| - 1 ensures read(segs[1..][i]) == Some(c[1..][i]) {
        assert segs[1..][i] == segs[i + 1];
      }
      AddSegmentsFresh(read, acc + [c[0]], segs[1..], c[1..]);
    }
  }

  /** Every cookie `parseCookies` reads is one the format writes back. */
  lemma {:induction false} AddSegmentsSafe(acc: Cookies, segs: seq<string>)
    requires CookieSafe(acc)
    requires forall i :: 0 <= i < |segs| ==> ';' !in segs[i]
    ensures CookieSafe(AddSegments(CookieOf, acc, segs))
    decreases |segs|
  {
    if |segs| > 0 {
      forall i | 0 <= i < |segs| - 1 ensures ';' !in segs[1..][i] {
        assert segs[1..][i] == segs[i + 1];
      }
      match CookieOf(segs[0])
      case Some(e) =>
        CookieOfSafe(segs[0]);
        var step := Assign(acc, e.0, e.1);
        assert CookieSafe(step) by {
          forall i | 0 <= i < |step| ensures SafeEntry(step[i]) {
            AssignEntries(acc, e.0, e.1, i);
          }
        }
        AddSegmentsSafe(step, segs[1..]);
      case None =>
        AddSegmentsSafe(acc, segs[1..]);
    }
  }

  /** Each entry after `d[k] = v` is an entry of `d` or `(k, v)`. */
  lemma {:induction false} AssignEntries(d: Cookies, k: string, v: string, i: nat)
    requires i < |Assign(d, k, v)|
    ensures Assign(d, k, v)[i] in d || Assign(d, k, v)[i] == (k, v)
  {
    var r := Assign(d, k, v);
    if !HasKey(d, EntryKey, k) {
      assert r == d + [(k, v)];
    } else {
      assert r == Upsert(d, EntryKey, (k, v));
      var j := IndexOfKey(d, EntryKey, k).value;
      assert r == d[j := (k, v)];
      if i != j { assert r[i] == d[i]; }
    }
  }

  /** Whatever a header holds, the cookies read from it can be written out. */
  lemma {:induction false} ParseCookiesSafe(header: string)
    ensures CookieSafe(ParseCookies(header))
  {
    if header != "" {
      AddSegmentsSafe([], Split(header, ';'));
    }
  }

  // ---------------------------------------------------------------------
  // formatCookies
  // ---------------------------------------------------------------------

  function Entry(e: (string, string)): string {
    e.0 + "=" + e.1
  }

  function Entries(c: Cookies): (r: seq<string>)
    ensures |r| == |c| && forall i :: 0 <= i < |c| ==> r[i] == Entry(c[i])
  {
    seq(|c|, i requires 0 <= i < |c| => Entry(c[i]))
  }

  /** `formatCookies(cookies)`: `name=value` pairs joined by `"; "`; every
      cookie shows in it, and it is empty only when there are none. */
  function FormatCookies(c: Cookies): (r: string)
    ensures forall i :: 0 <= i < |c| ==> Contains(r, Entry(c[i]))
    ensures r == "" <==> |c| == 0
  {
    JoinContainsAll(Entries(c), "; ");
    Join(Entries(c), "; ")
  }

  /** The parts after the first, each with the space of `"; "` in front. */
  function Spaced(parts: seq<string>): (r: seq<string>)
    requires |parts| >= 1
    ensures |r| == |parts| && r[0] == parts[0]
    ensures forall i :: 1 <= i < |parts| ==> r[i] == [' '] + parts[i]
  {
    [parts[0]] + seq(|parts| - 1, i requires 0 <= i < |parts| - 1 => [' '] + parts[i + 1])
  }

  lemma {:induction false} JoinPrefixFirst(parts: seq<string>, pre: string, sep: string)
    requires |parts| >= 1
    ensures pre + Join(parts, sep) == Join([pre + parts[0]] + parts[1..], sep)
  {
    var q := [pre + parts[0]] + parts[1..];
    assert q[1..] == parts[1..];
    if |parts| > 1 {
      assert pre + (parts[0] + sep + Join(parts[1..], sep)) == (pre + parts[0]) + sep + Join(parts[1..], sep);
    }
  }

  /** Joining with `"; "` is joining with `;` after a space in front of
      every later part. */
  lemma {:induction false} JoinSpaced(parts: seq<string>)
    requires |parts| >= 1
    ensures Join(parts, "; ") == Join(Spaced(parts), ";")
    decreases |parts|
  {
    if |parts| > 1 {
      var tail := parts[1..];
      JoinSpaced(tail);
      var st := Spaced(tail);
      JoinPrefixFirst(st, " ", ";");
      var sp := Spaced(parts);
      assert sp[1..] == [[' '] + st[0]] + st[1..];
      assert Join(parts, "; ") == parts[0] + "; " + Join(tail, "; ");
      assert Join(sp, ";") == sp[0] + ";" + Join(sp[1..], ";");
    }
  }

  /** The round trip: cookies with distinct safe names and values are read
      back from their formatted string exactly, order included. */
  lemma {:induction false} FormatRoundTrip(c: Cookies)
    requires KeysUnique(c, EntryKey) && CookieSafe(c)
    ensures ParseCookies(FormatCookies(c)) == c
  {
    if |c| > 0 {
      forall i | 0 <= i < |c|
        ensures ';' !in Entry(c[i]) && CookieOf(Entry(c[i])) == Some(c[i])
        ensures CookieOf([' '] + Entry(c[i])) == Some(c[i])
      {
        EntryReads(c[i]);
      }
      ReadFormatted(CookieOf, c);
    }
  }

  /** The formatted string of cookies that `read` reads back one by one
      is non-empty and folds back into the cookies. */
  lemma {:induction false} ReadFormatted(read: Reader, c: Cookies)
    requires |c| > 0 && KeysUnique(c, EntryKey)
    requires forall i :: 0 <= i < |c| ==> ';' !in Entry(c[i]) && read(Entry(c[i])) == Some(c[i])
    requires forall i :: 0 <= i < |c| ==> read([' '] + Entry(c[i])) == Some(c[i])
    ensures FormatCookies(c) != ""
    ensures AddSegments(read, [], Split(FormatCookies(c), ';')) == c
  {
    var es := Entries(c);
    var ws := Spaced(es);
    JoinSpaced(es);
    assert FormatCookies(c) != "" by {
      if |es| == 1 { assert FormatCookies(c) == es[0]; }
      assert |FormatCookies(c)| >= |es[0]|;
      assert es[0] == c[0].0 + "=" + c[0].1;
    }
    forall i | 0 <= i < |ws| ensures ';' !in ws[i] && read(ws[i]) == Some(c[i]) {
    }
    SplitJoin(ws, ';');
    AddSegmentsFresh(read, [], ws, c);
    assert [] + c == c;
  }

  /** One safe entry is read back from its text, with or without the
      space that `"; "` leaves in front of it. */
  lemma {:induction false} EntryReads(e: (string, string))
    requires SafeEntry(e)
    ensures ';' !in Entry(e) && CookieOf(Entry(e)) == Some(e) && CookieOf([' '] + Entry(e)) == Some(e)
  {
    EntryTrim(e);
    EntrySplit(e);
    EntryNoSemicolon(e);
    TrimSpace(Entry(e));
  }

  lemma {:induction false} EntryTrim(e: (string, string))
    requires Edges(e)
    ensures Trim(Entry(e)) == Entry(e)
  {
    var t := Entry(e);
    if |e.0| > 0 { assert t[0] == e.0[0]; } else { assert t[0] == '='; }
    if |e.1| > 0 { assert t[|t| - 1] == e.1[|e.1| - 1]; } else { assert t[|t| - 1] == '='; }
    TrimUnchanged(t);
  }

  lemma {:induction false} EntrySplit(e: (string, string))
    requires '=' !in e.0 && '=' !in e.1
    ensures Split(Entry(e), '=') == [e.0, e.1]
  {
    assert [e.0, e.1][1..] == [e.1];
    assert Join([e.0, e.1], "=") == Entry(e);
    SplitJoin([e.0, e.1], '=');
  }

  lemma {:induction false} EntryNoSemicolon(e: (string, string))
    requires ';' !in e.0 && ';' !in e.1
    ensures ';' !in Entry(e)
  {
    var t := Entry(e);
    forall j | 0 <= j < |t| ensures t[j] != ';' {
      if j < |e.0| { assert t[j] == e.0[j]; }
      else if j > |e.0| { assert t[j] == e.1[j - |e.0| - 1]; }
    }
  }

  /** Formatting what was parsed and parsing it again changes nothing. */
  lemma {:induction false} ParseFormatParse(header: string)
    ensures ParseCookies(FormatCookies(ParseCookies(header))) == ParseCookies(header)
  {
    ParseCookiesSafe(header);
    FormatRoundTrip(ParseCookies(header));
  }

  /** A later duplicate name overwrites the earlier value. */
  lemma {:induction false} DuplicateLastWins(a: string, b: string)
    requires SafeEntry(("sid", a)) && SafeEntry(("sid", b))
    ensures ParseCookies("sid=" + a + "; sid=" + b) == [("sid", b)]
  {
    var h := "sid=" + a + "; sid=" + b;
    var ws := [Entry(("sid", a)), [' '] + Entry(("sid", b))];
    DuplicateSegments(a, b);
    EntryReads(("sid", a));
    EntryReads(("sid", b));
    SplitJoin(ws, ';');
    var first := Assign([], "sid", a);
    assert first == [("sid", a)];
    assert AddSegments(CookieOf, [], ws) == AddSegments(CookieOf, first, ws[1..]);
    assert ws[1..][1..] == [];
    assert IndexOfKey(first, EntryKey, "sid") == Some(0);
    assert Assign(first, "sid", b) == [("sid", b)];
  }

  lemma {:induction false} DuplicateSegments(a: string, b: string)
    ensures "sid=" + a + "; sid=" + b == Join([Entry(("sid", a)), [' '] + Entry(("sid", b))], ";")
  {
    var ws := [Entry(("sid", a)), [' '] + Entry(("sid", b))];
    assert ws[1..] == [[' '] + Entry(("sid", b))];
    assert Join(ws, ";") == ws[0] + ";" + ws[1];
  }

  // ---------------------------------------------------------------------
  // The Set-Cookie headers of a response
  // ---------------------------------------------------------------------

  /** `cookies.map(c => c.split(';')[0]).join('; ')`: the `name=value` part
      of every `Set-Cookie` line. */
  function CookieHeader(setCookies: seq<string>): string {
    Join(seq(|setCookies|, i requires 0 <= i < |setCookies| => Split(setCookies[i], ';')[0]), "; ")
  }

  /** The cookies a response sets. */
  function ResponseCookies(setCookies: seq<string>): (r: Cookies)
    ensures KeysUnique(r, EntryKey)
  {
    ParseCookies(CookieHeader(setCookies))
  }

  /** `Set-Cookie` lines `name=value` followed by attributes after a `;`
      give back exactly their cookies when the names are distinct. */
  lemma {:induction false} SetCookieLines(c: Cookies, attrs: seq<string>)
    requires |attrs| == |c| && forall i :: 0 <= i < |c| ==> attrs[i] == "" || attrs[i][0] == ';'
    requires KeysUnique(c, EntryKey) && CookieSafe(c)
    ensures ResponseCookies(seq(|c|, i requires 0 <= i < |c| => Entry(c[i]) + attrs[i])) == c
  {
    var lines := seq(|c|, i requires 0 <= i < |c| => Entry(c[i]) + attrs[i]);
    var heads := seq(|lines|, i requires 0 <= i < |lines| => Split(lines[i], ';')[0]);
    forall i | 0 <= i < |c| ensures heads[i] == Entry(c[i]) {
      LineHead(c[i], attrs[i]);
    }
    assert heads == Entries(c);
    FormatRoundTrip(c);
  }

  /** The part of one `Set-Cookie` line before its first `;`. */
  lemma {:induction false} LineHead(e: (string, string), attr: string)
    requires SafeEntry(e) && (attr == "" || attr[0] == ';')
    ensures Split(Entry(e) + attr, ';')[0] == Entry(e)
  {
    EntryNoSemicolon(e);
    if attr == "" {
      assert Entry(e) + attr == Entry(e);
      SplitNoSep(Entry(e), ';');
    } else {
      assert Entry(e) + attr == Entry(e) + [';'] + attr[1..];
      SplitCons(Entry(e), ';', attr[1..]);
    }
  }

  // ---------------------------------------------------------------------
  // Values holding `=`
  // ---------------------------------------------------------------------

  /** A string holding the separator splits into at least two pieces. */
  lemma {:induction false} SplitHasSep(b: string, sep: char)
    requires sep in b
    ensures |Split(b, sep)| >= 2
  {
  }

  /** As written: a cookie whose value holds `=`, as base64 padding does,
      is silently dropped, because its segment splits into more than two
      parts. */
  lemma {:induction false} PaddedValueDropped(name: string, value: string)
    requires '=' !in name && ';' !in name && ';' !in value && '=' in value && Edges((name, value))
    ensures ParseCookies(Entry((name, value))) == []
  {
    var t := Entry((name, value));
    EntryTrim((name, value));
    assert t == name + ['='] + value;
    SplitCons(name, '=', value);
    SplitHasSep(value, '=');
    assert CookieOf(t).None?;
    EntryNoSemicolon((name, value));
    SplitNoSep(t, ';');
    assert AddSegments(CookieOf, [], [t]) == AddSegments(CookieOf, [], []);
  }

  /** The reading evidently meant: the name is the text before the first
      `=`, the value everything after it. */
  function CookieOfFixed(segment: string): (r: Option<(string, string)>)
    ensures r.Some? ==> Trim(segment) == r.value.0 + "=" + r.value.1 && '=' !in r.value.0
    ensures r.None? <==> '=' !in Trim(segment)
  {
    var t := Trim(segment);
    match IndexFrom(t, "=", 0)
    case None =>
      NoEquals(t);
      None
    case Some(i) =>
      FirstEqualsAt(t, i);
      Some((t[..i], t[i + 1..]))
  }

  lemma {:induction false} NoEquals(t: string)
    requires IndexFrom(t, "=", 0).None?
    ensures '=' !in t
  {
    forall j | 0 <= j < |t| ensures t[j] != '=' {
      assert !OccursAt(t, "=", j);
    }
  }

  lemma {:induction false} FirstEqualsAt(t: string, i: nat)
    requires IndexFrom(t, "=", 0) == Some(i)
    ensures i < |t| && t == t[..i] + "=" + t[i + 1..] && '=' !in t[..i]
  {
    EqualsAt(t, i);
    CutAt(t, i);
    NoEqualsBefore(t, i);
  }

  lemma {:induction false} EqualsAt(t: string, i: nat)
    requires IndexFrom(t, "=", 0) == Some(i)
    ensures i < |t| && t[i] == '='
  {
    assert OccursAt(t, "=", i);
    assert t[i..i + 1][0] == t[i];
  }

  lemma {:induction false} CutAt(t: string, i: nat)
    requires i < |t| && t[i] == '='
    ensures t == t[..i] + "=" + t[i + 1..]
  {
    assert t == t[..i] + [t[i]] + t[i + 1..];
  }

  lemma {:induction false} NoEqualsBefore(t: string, i: nat)
    requires i <= |t| && forall j :: 0 <= j < i ==> !OccursAt(t, "=", j)
    ensures '=' !in t[..i]
  {
    forall j | 0 <= j < i ensures t[..i][j] != '=' {
      assert !OccursAt(t, "=", j);
      assert t[j..j + 1][0] == t[j];
    }
  }

  /** `parseCookies` with the corrected reading of a segment. */
  function ParseCookiesFixed(header: string): (r: Cookies)
    ensures header == "" ==> r == []
    ensures KeysUnique(r, EntryKey)
  {
    if header == "" then [] else AddSegments(CookieOfFixed, [], Split(header, ';'))
  }

  /** The first `=` of `name=value` is the one after the name. */
  lemma {:induction false} FirstEquals(name: string, value: string)
    requires '=' !in name
    ensures IndexFrom(name + "=" + value, "=", 0) == Some(|name|)
  {
    var t := name + "=" + value;
    assert OccursAt(t, "=", |name|);
    forall j | 0 <= j < |name| ensures !OccursAt(t, "=", j) {
      assert t[j] == name[j];
    }
  }

  /** A value may now hold `=`: such cookies are read back from their
      formatted string exactly. */
  lemma {:induction false} FormatRoundTripFixed(c: Cookies)
    requires KeysUnique(c, EntryKey)
    requires forall i :: 0 <= i < |c| ==> ';' !in c[i].0 && '=' !in c[i].0 && ';' !in c[i].1 && Edges(c[i])
    ensures ParseCookiesFixed(FormatCookies(c)) == c
  {
    if |c| > 0 {
      forall i | 0 <= i < |c|
        ensures ';' !in Entry(c[i]) && CookieOfFixed(Entry(c[i])) == Some(c[i])
        ensures CookieOfFixed([' '] + Entry(c[i])) == Some(c[i])
      {
        EntryTrim(c[i]);
        TrimSpace(Entry(c[i]));
        EntryNoSemicolon(c[i]);
        FirstEquals(c[i].0, c[i].1);
      }
      ReadFormatted(CookieOfFixed, c);
    }
  }

  /** Wherever the original reads a cookie, the corrected reading gives the
      same one. */
  lemma {:induction false} FixedAgrees(segment: string)
    requires CookieOf(segment).Some?
    ensures CookieOfFixed(segment) == CookieOf(segment)
  {
    var e := CookieOf(segment).value;
    FirstEquals(e.0, e.1);
    assert (e.0 + "=" + e.1)[..|e.0|] == e.0;
    assert (e.0 + "=" + e.1)[|e.0| + 1..] == e.1;
  }

  // ---------------------------------------------------------------------
  // The CSRF token
  // ---------------------------------------------------------------------

  /** `name="<name>" value="`, the fixed text in front of the token. */
  function Prefix(name: string): string {
    "name=\"" + name + "\" value=\""
  }

  /** The pattern `name="<name>" value="([^"]+)"` matched at `p`: the
      prefix, at least one character other than `"`, then a closing `"`. */
  function TokenAt(s: string, name: string, p: nat): (r: Option<string>)
    ensures r.Some? ==> |r.value| > 0 && AllIn(r.value, NonQuote) && OccursAt(s, Prefix(name), p)
  {
    var start := p + |Prefix(name)|;
    if OccursAt(s, Prefix(name), p) then
      var n := Run(s, start, NonQuote);
      if n > 0 && start + n < |s| then Some(s[start..start + n]) else None
    else None
  }

  /** The first match at or after `p`. */
  function TokenFrom(s: string, name: string, p: nat): (r: Option<string>)
    requires p <= |s|
    ensures r.None? <==> forall q :: p <= q < |s| ==> TokenAt(s, name, q).None?
    ensures r.Some? ==> exists q :: p <= q < |s| && TokenAt(s, name, q) == r && forall k :: p <= k < q ==> TokenAt(s, name, k).None?
    decreases |s| - p
  {
    if p == |s| then None
    else if TokenAt(s, name, p).Some? then TokenAt(s, name, p)
    else
      var r := TokenFrom(s, name, p + 1);
      TokenFromStep(s, name, p, r);
      r
  }

  /** A miss at `p` leaves the leftmost match from `p + 1` the leftmost
      from `p`. */
  lemma {:induction false} TokenFromStep(s: string, name: string, p: nat, r: Option<string>)
    requires p < |s| && TokenAt(s, name, p).None?
    requires r.Some? ==> exists q :: p + 1 <= q < |s| && TokenAt(s, name, q) == r && forall k :: p + 1 <= k < q ==> TokenAt(s, name, k).None?
    ensures r.Some? ==> exists q :: p <= q < |s| && TokenAt(s, name, q) == r && forall k :: p <= k < q ==> TokenAt(s, name, k).None?
  {
    if r.Some? {
      var q :| p + 1 <= q < |s| && TokenAt(s, name, q) == r
        && forall k :: p + 1 <= k < q ==> TokenAt(s, name, k).None?;
      assert forall k :: p <= k < q ==> TokenAt(s, name, k).None?;
    }
  }

  /** `body.match(/name="<name>" value="([^"]+)"/)?.[1]`: the capture at
      the leftmost position where the pattern matches. */
  function FindToken(body: string, name: string): (r: Option<string>)
    ensures r.Some? ==> |r.value| > 0 && AllIn(r.value, NonQuote) && Contains(body, Prefix(name))
    ensures r.None? <==> forall q :: 0 <= q < |body| ==> TokenAt(body, name, q).None?
    ensures r.Some? ==> exists p :: 0 <= p < |body| && TokenAt(body, name, p) == r && forall q :: 0 <= q < p ==> TokenAt(body, name, q).None?
  {
    var r := TokenFrom(body, name, 0);
    if r.Some? then
      var q :| 0 <= q < |body| && TokenAt(body, name, q) == r
        && forall k :: 0 <= k < q ==> TokenAt(body, name, k).None?;
      ContainsAt(body, Prefix(name), q);
      r
    else r
  }

  /** The cascade `csrf_token`, then `_token`, then `authenticity_token`:
      the first name that matches supplies the token. */
  function CsrfToken(body: string): (r: Option<string>)
    ensures r.Some? ==> |r.value| > 0 && AllIn(r.value, NonQuote)
    ensures FindToken(body, "csrf_token").Some? ==> r == FindToken(body, "csrf_token")
    ensures FindToken(body, "csrf_token").None? && FindToken(body, "_token").Some? ==>
      r == FindToken(body, "_token")
    ensures FindToken(body, "csrf_token").None? && FindToken(body, "_token").None? ==>
      r == FindToken(body, "authenticity_token")
  {
    match FindToken(body, "csrf_token")
    case Some(t) => Some(t)
    case None =>
      match FindToken(body, "_token")
      case Some(t) => Some(t)
      case None => FindToken(body, "authenticity_token")
  }

  /** Before the written prefix, nothing matches. */
  lemma {:induction false} TokenFromSkip(base: string, name: string, s: string, p: nat)
    requires p <= |base| && |base| + |Prefix(name)| <= |s|
    requires s[..|base| + |Prefix(name)|] == base + Prefix(name)
    requires forall q :: 0 <= q < |base| ==> !OccursAt(base + Prefix(name), Prefix(name), q)
    ensures TokenFrom(s, name, p) == TokenFrom(s, name, |base|)
    decreases |base| - p
  {
    if p < |base| {
      OccursInPrefix(s, base + Prefix(name), Prefix(name), p);
      TokenFromSkip(base, name, s, p + 1);
    }
  }

  /** The round trip: a token written after the first occurrence of the
      prefix, and closed by a quote, is the token found. */
  lemma {:induction false} FindWritten(base: string, name: string, token: string, rest: string)
    requires forall q :: 0 <= q < |base| ==> !OccursAt(base + Prefix(name), Prefix(name), q)
    requires |token| > 0 && AllIn(token, NonQuote)
    ensures FindToken(base + Prefix(name) + token + "\"" + rest, name) == Some(token)
  {
    var head := base + Prefix(name);
    FindShape(base, Prefix(name), token, "\"" + rest);
    FindAfter(base + Prefix(name) + token + "\"" + rest, base, name, head, token, "\"" + rest);
  }

  /** How the written page splits around the token. */
  lemma {:induction false} FindShape(base: string, pre: string, token: string, tail: string)
    ensures base + pre + token + tail == (base + pre) + (token + tail)
  {
  }

  /** The lookup on a page `head + token + tail`, where `head` ends with
      the only prefix up to that point and `tail` starts with a quote. */
  lemma {:induction false} FindAfter(s: string, base: string, name: string, head: string, token: string, tail: string)
    requires head == base + Prefix(name) && s == head + (token + tail)
    requires forall q :: 0 <= q < |base| ==> !OccursAt(head, Prefix(name), q)
    requires |token| > 0 && AllIn(token, NonQuote) && |tail| > 0 && tail[0] == '\"'
    ensures FindToken(s, name) == Some(token)
  {
    assert s[..|head|] == head;
    WrittenAt(head, token, tail);
    assert OccursAt(s, Prefix(name), |base|) by {
      OccursInPrefix(s, head, Prefix(name), |base|);
      assert head[|base|..] == Prefix(name);
    }
    TokenAtWritten(s, name, |base|, token);
    TokenFromSkip(base, name, s, 0);
  }

  /** A prefix followed by a run of exactly the token, then more text, is
      a match of the token. */
  lemma {:induction false} TokenAtWritten(s: string, name: string, p: nat, token: string)
    requires OccursAt(s, Prefix(name), p) && |token| > 0
    requires Run(s, p + |Prefix(name)|, NonQuote) == |token|
    requires p + |Prefix(name)| + |token| < |s|
    requires s[p + |Prefix(name)|..p + |Prefix(name)| + |token|] == token
    ensures TokenAt(s, name, p) == Some(token)
  {
  }

  /** The token between a written prefix and a quote is one run. */
  lemma {:induction false} WrittenAt(head: string, token: string, tail: string)
    requires |token| > 0 && AllIn(token, NonQuote) && |tail| > 0 && tail[0] == '\"'
    ensures Run(head + (token + tail), |head|, NonQuote) == |token|
    ensures (head + (token + tail))[|head|..|head| + |token|] == token
    ensures |head| + |token| < |head + (token + tail)|
  {
    var s := head + (token + tail);
    assert s[|head|..|head| + |token|] == token;
    assert s[|head| + |token|] == tail[0];
    RunExact(s, |head|, |token|, NonQuote);
  }

  // ---------------------------------------------------------------------
  // The login request
  // ---------------------------------------------------------------------

  /** `loginData`: email and password, then the token under all three names
      when one was found. */
  function LoginData(email: string, password: string, token: Option<string>): (r: seq<(string, string)>)
    ensures KeysUnique(r, EntryKey)
    ensures Get(r, "email") == Some(email) && Get(r, "password") == Some(password)
    ensures token.None? ==> |r| == 2
    ensures token.Some? ==> |r| == 5
    ensures token.Some? ==> Get(r, "csrf_token") == token && Get(r, "_token") == token
                            && Get(r, "authenticity_token") == token
    ensures token.None? ==> Get(r, "csrf_token") == None && Get(r, "_token") == None
                            && Get(r, "authenticity_token") == None
  {
    var r := match token
      case None => [("email", email), ("password", password)]
      case Some(t) => [("email", email), ("password", password), ("csrf_token", t), ("_token", t), ("authenticity_token", t)];
    assert r[0].0 == "email" && r[1].0 == "password";
    assert token.Some? ==> r[2].0 == "csrf_token" && r[3].0 == "_token" && r[4].0 == "authenticity_token";
    DistinctLengthKeys(r);
    if token.Some? then r
    else
      GetAbsent(r, "csrf_token");
      GetAbsent(r, "_token");
      GetAbsent(r, "authenticity_token");
      r
  }

  /** Entries whose keys all differ in length: each key finds its value. */
  lemma {:induction false} DistinctLengthKeys<V>(r: seq<(string, V)>)
    requires forall i, j :: 0 <= i < j < |r| ==> |r[i].0| != |r[j].0|
    ensures KeysUnique(r, EntryKey)
    ensures forall i :: 0 <= i < |r| ==> Get(r, r[i].0) == Some(r[i].1)
  {
    forall i | 0 <= i < |r| ensures Get(r, r[i].0) == Some(r[i].1) {
      GetAt(r, i);
    }
  }

  /** A key of a length no entry has is absent. */
  lemma {:induction false} GetAbsent<V>(r: seq<(string, V)>, k: string)
    requires forall i :: 0 <= i < |r| ==> |r[i].0| != |k|
    ensures Get(r, k) == None
  {
  }

  /** The form body sent with the login request: the server reads back
      exactly the login data from it. */
  function FormData(email: string, password: string, token: Option<string>): (r: string)
    ensures Uri.ParseForm(r) == Some(LoginData(email, password, token))
  {
    Uri.FormRoundTrip(LoginData(email, password, token));
    Uri.FormBody(LoginData(email, password, token))
  }

  /** One HTTP response as the transport delivers it; `setCookies` is
      `res.headers['set-cookie'] || []`. */
  datatype Response = Response(status: int, location: Option<string>, body: string, setCookies: seq<string>)

  /** The POST to the login URL: its `Cookie` header and form body. */
  datatype LoginPost = LoginPost(cookie: string, body: string)

  /** The request built from the login page. */
  function Post(email: string, password: string, page: Response): (r: LoginPost)
    ensures Uri.ParseForm(r.body) == Some(LoginData(email, password, CsrfToken(page.body)))
    ensures ParseCookies(r.cookie) == ResponseCookies(page.setCookies)
  {
    ParseFormatParse(CookieHeader(page.setCookies));
    LoginPost(FormatCookies(ResponseCookies(page.setCookies)), FormData(email, password, CsrfToken(page.body)))
  }

  // ---------------------------------------------------------------------
  // The decision
  // ---------------------------------------------------------------------

  /** What the script ends in: a saved session, or exit code 1 for one of
      its reasons. */
  datatype Outcome =
    | Saved(cookies: Cookies, redirect: Option<string>)
    | MissingCredentials
    | RequestFailed
    | WrongCredentials
    | UnexpectedStatus(status: int)

  /** The texts of a login page shown again: `登录`, `Sign in`, `密码错误`. */
  const FailureMarks: seq<string> := ["\U{767B}\U{5F55}", "Sign in", "\U{5BC6}\U{7801}\U{9519}\U{8BEF}"]

  predicate IsRedirect(status: int) {
    status == 302 || status == 301
  }

  /** The decision on the login response, given the cookies of the login
      page. A redirect succeeds and saves those cookies overridden by the
      ones the response sets; a 200 succeeds without new cookies unless the
      page shows a failure text; any other status fails. */
  function Decide(cookies: Cookies, resp: Response): (r: Outcome)
    requires KeysUnique(cookies, EntryKey)
    ensures r.Saved? <==> IsRedirect(resp.status) || (resp.status == 200 && !ContainsAny(resp.body, FailureMarks))
    ensures r.WrongCredentials? <==> resp.status == 200 && ContainsAny(resp.body, FailureMarks)
    ensures r.UnexpectedStatus? <==> !IsRedirect(resp.status) && resp.status != 200
    ensures r.UnexpectedStatus? ==> r.status == resp.status
    ensures r.Saved? && resp.status == 200 ==> r.cookies == cookies && r.redirect.None?
    ensures r.Saved? && IsRedirect(resp.status) ==> r.redirect == resp.location && KeysUnique(r.cookies, EntryKey)
    ensures r.Saved? && IsRedirect(resp.status) ==>
      forall k :: Get(r.cookies, k) ==
        (if Get(ResponseCookies(resp.setCookies), k).Some? then Get(ResponseCookies(resp.setCookies), k)
         else Get(cookies, k))
  {
    if IsRedirect(resp.status) then
      var added := ResponseCookies(resp.setCookies);
      MergeSpec(cookies, added);
      forall k ensures Get(added, k).Some? <==> HasKey(added, EntryKey, k) {
      }
      Saved(Merge(cookies, added), resp.location)
    else if resp.status == 200 then
      if ContainsAny(resp.body, FailureMarks) then WrongCredentials else Saved(cookies, None)
    else UnexpectedStatus(resp.status)
  }

  /** `!email || !password` on the environment variables. */
  predicate Missing(v: Option<string>) {
    v.None? || v.value == ""
  }

  /** The whole script: the credentials from the environment, the login
      page (`None` when the request fails), and the server's answer to the
      POST as a function of the request. */
  function Login(email: Option<string>, password: Option<string>, page: Option<Response>,
                 server: LoginPost -> Option<Response>): (r: Outcome)
    ensures r == MissingCredentials <==> Missing(email) || Missing(password)
    ensures r.Saved? ==> page.Some? && !Missing(email) && !Missing(password)
    ensures r.Saved? ==> forall k :: Get(ResponseCookies(page.value.setCookies), k).Some? ==> Get(r.cookies, k).Some?
  {
    if Missing(email) || Missing(password) then MissingCredentials
    else match page
      case None => RequestFailed
      case Some(pg) =>
        var cookies := ResponseCookies(pg.setCookies);
        match server(Post(email.value, password.value, pg))
        case None => RequestFailed
        case Some(resp) =>
          MergeSpec(cookies, ResponseCookies(resp.setCookies));
          Decide(cookies, resp)
  }

  /** A redirect that sets no cookies saves the page's cookies unchanged. */
  lemma {:induction false} RedirectKeepsCookies(cookies: Cookies, resp: Response)
    requires KeysUnique(cookies, EntryKey) && IsRedirect(resp.status) && resp.setCookies == []
    ensures Decide(cookies, resp).cookies == cookies
  {
    assert CookieHeader([]) == "";
  }
}

=== FILE: digen_monitor.dfy ===
/** The Digen API monitor: categorisation of calls (check-in, video, image),
    recording gated by the monitoring switch, and the request-body parsing
    in its `fetch` and `XMLHttpRequest.send` wrappers. `JSON.parse` is the
    parameter `parse`; `None` is the SyntaxError it throws. */
module DigenMonitor {
  import opened Maybe
  import opened Text
  import opened Js
  import opened ApiLog

  const CheckIn := "签到"
  const Video := "视频生成"
  const Image := "图片生成"
  const Other := "其他"

  /** The rules of `categorizeApi` in the order it tries them. */
  const Rules := [
    Rule(CheckIn, ["checkin", "check-in", "daily"], ["checkin"]),
    Rule(Video, ["video", "generate"], ["video"]),
    Rule(Image, ["image", "photo"], ["image"])
  ]

  /** `categorizeApi`: the first rule that fires on the lowercased URL or
      the lowercased JSON text of the request body, else `其他`. */
  function Categorize(url: string, body: Value): (r: string)
    ensures r == Other <==> forall i :: 0 <= i < |Rules| ==> !Fires(Rules[i], LowerAscii(url), BodyText(body))
    ensures r != Other ==> exists i :: 0 <= i < |Rules| && Fires(Rules[i], LowerAscii(url), BodyText(body)) && r == Rules[i].category && forall j :: 0 <= j < i ==> !Fires(Rules[j], LowerAscii(url), BodyText(body))
  {
    FirstRule(Rules, LowerAscii(url), BodyText(body), Other)
  }

  /** Any `generate` URL counts as video generation unless a check-in word
      claims it first, even when it also names an image. */
  lemma {:induction false} GenerateIsVideo(url: string, body: Value)
    requires !Fires(Rules[0], LowerAscii(url), BodyText(body))
    requires Contains(LowerAscii(url), "generate")
    ensures Categorize(url, body) == Video
  {
    ContainsAnyAt(LowerAscii(url), Rules[1].urlWords, 1);
    assert Fires(Rules[1], LowerAscii(url), BodyText(body));
  }

  /** A check-in word in the URL wins over every other rule. */
  lemma {:induction false} CheckInWins(url: string, body: Value)
    requires Contains(LowerAscii(url), "checkin") || Contains(LowerAscii(url), "daily")
    ensures Categorize(url, body) == CheckIn
  {
    if Contains(LowerAscii(url), "daily") {
      ContainsAnyAt(LowerAscii(url), Rules[0].urlWords, 2);
    }
    assert Fires(Rules[0], LowerAscii(url), BodyText(body));
  }

  /** A URL with none of the words and a body with none of them is `其他`. */
  lemma {:induction false} NoWordIsOther(url: string, body: Value)
    requires forall i :: 0 <= i < |Rules| ==> !Fires(Rules[i], LowerAscii(url), BodyText(body))
    ensures Categorize(url, body) == Other
  {
  }

  // ---------------------------------------------------------------------
  // fetch
  // ---------------------------------------------------------------------

  datatype Outcome = Delivered | Rejected

  /** `options.body ? JSON.parse(options.body) : null`: the body is
      converted to a string and parsed; `None` is the throw. */
  function ParseBody(body: Value, parse: string -> Option<Value>): (r: Option<Value>)
    ensures !Truthy(body) ==> r == Some(Null)
    ensures Truthy(body) ==> r == parse(ToStr(body))
  {
    if Truthy(body) then parse(ToStr(body)) else Some(Null)
  }

  /** The fetch wrapper once the network has answered: while monitoring it
      records one call (no response body is kept). A throw while building
      the record, from a method that is not a string or from
      `JSON.parse(options.body)`, rejects the page's promise. `options` is
      the second argument or `{}`. */
  function OnFetch(m: Monitor, url: string, options: Value, status: int,
                   parse: string -> Option<Value>): (r: (Monitor, Outcome))
    ensures !m.monitoring ==> r == (m, Delivered)
    ensures r.1 == Rejected ==> r.0 == m
    ensures m.monitoring ==> (r.1 == Delivered <==> Verb(Or(options, Obj([]))).Some? && ParseBody(Get(Or(options, Obj([])), "body").GetOr(Undefined), parse).Some?)
    ensures r.1 == Delivered && m.monitoring ==>
      |r.0.calls| == |m.calls| + 1 && r.0.calls[..|m.calls|] == m.calls
      && r.0.calls[|m.calls|].url == url && r.0.calls[|m.calls|].status == status
      && Some(r.0.calls[|m.calls|].verb) == Verb(Or(options, Obj([])))
      && Some(r.0.calls[|m.calls|].body) == ParseBody(Get(Or(options, Obj([])), "body").GetOr(Undefined), parse)
      && r.0.calls[|m.calls|].responseBody.None?
      && r.0.calls[|m.calls|].category == Categorize(url, r.0.calls[|m.calls|].body)
  {
    if !m.monitoring then (m, Delivered)
    else
      var opts := Or(options, Obj([]));
      match (Verb(opts), ParseBody(Get(opts, "body").GetOr(Undefined), parse))
      case (Some(verb), Some(body)) =>
        var r := Record(m, Call(verb, url, body, status, None, Categorize(url, body)));
        assert r.calls[..|m.calls|] == m.calls;
        (r, Delivered)
      case _ => (m, Rejected)
  }

  /** A form-encoded body makes the page's own fetch reject while the
      monitor runs, although the request itself succeeded. */
  lemma {:induction false} FormBodyBreaksFetch(m: Monitor, url: string, status: int, parse: string -> Option<Value>)
    requires m.monitoring && parse("email=a%40b.c").None?
    ensures OnFetch(m, url, Obj([("method", Str("POST")), ("body", Str("email=a%40b.c"))]), status, parse) == (m, Rejected)
  {
    var options := Obj([("method", Str("POST")), ("body", Str("email=a%40b.c"))]);
    FieldFirst(options.fields, "body", 1);
  }

  /** The fetch wrapper with the body parse guarded, keeping the raw body
      when it is not JSON: only a method that is not a string still
      rejects, and wherever the original delivered it records the same. */
  function OnFetchFixed(m: Monitor, url: string, options: Value, status: int,
                        parse: string -> Option<Value>): (r: (Monitor, Outcome))
    ensures !m.monitoring ==> r == (m, Delivered)
    ensures m.monitoring ==> (r.1 == Delivered <==> Verb(Or(options, Obj([]))).Some?)
    ensures OnFetch(m, url, options, status, parse).1 == Delivered ==> r == OnFetch(m, url, options, status, parse)
    ensures m.monitoring && r.1 == Delivered ==> |r.0.calls| == |m.calls| + 1 && r.0.calls[..|m.calls|] == m.calls
  {
    if !m.monitoring then (m, Delivered)
    else
      var opts := Or(options, Obj([]));
      var raw := Get(opts, "body").GetOr(Undefined);
      var body := match ParseBody(raw, parse) case Some(v) => v case None => raw;
      match Verb(opts)
      case Some(verb) =>
        var r := Record(m, Call(verb, url, body, status, None, Categorize(url, body)));
        assert r.calls[..|m.calls|] == m.calls;
        (r, Delivered)
      case None => (m, Rejected)
  }

  // ---------------------------------------------------------------------
  // XMLHttpRequest
  // ---------------------------------------------------------------------

  /** What `send` does: the request goes out with the body the wrapper
      noted, or the wrapper throws before the original `send` runs. */
  datatype Sent = Sent(noted: Value) | SendThrew

  /** `xhr._body = body ? JSON.parse(body) : null` as written. It runs in
      every `send`, whether or not monitoring is on. */
  function XhrSend(body: Value, parse: string -> Option<Value>): (r: Sent)
    ensures r.SendThrew? <==> ParseBody(body, parse).None?
  {
    match ParseBody(body, parse)
    case Some(v) => Sent(v)
    case None => SendThrew
  }

  /** A form-encoded body makes the page's own `send` throw, so the
      request is never made. */
  lemma {:induction false} FormBodyBreaksSend(parse: string -> Option<Value>)
    requires parse("email=a%40b.c").None?
    ensures XhrSend(Str("email=a%40b.c"), parse) == SendThrew
  {
  }

  /** `send` with the body parse guarded, keeping the raw body when it is
      not JSON. */
  function XhrSendFixed(body: Value, parse: string -> Option<Value>): (r: Sent)
    ensures r.Sent?
    ensures XhrSend(body, parse).Sent? ==> r == XhrSend(body, parse)
    ensures ParseBody(body, parse).None? ==> r == Sent(body)
  {
    match ParseBody(body, parse)
    case Some(v) => Sent(v)
    case None => Sent(body)
  }

  /** The `load` listener: one call recorded while monitoring. */
  function OnXhrLoad(m: Monitor, verb: string, url: string, sent: Value, status: int): (r: Monitor)
    ensures r.monitoring == m.monitoring
    ensures !m.monitoring ==> r == m
    ensures m.monitoring ==>
      |r.calls| == |m.calls| + 1 && r.calls[..|m.calls|] == m.calls
      && r.calls[|m.calls|] == Call(UpperAscii(verb), url, sent, status, None, Categorize(url, sent))
  {
    var r := Record(m, Call(UpperAscii(verb), url, sent, status, None, Categorize(url, sent)));
    assert m.monitoring ==> r.calls[..|m.calls|] == m.calls;
    r
  }

  /** A whole XHR round trip: `send`, then `load` with the response status.
      A send that throws records nothing. */
  function XhrRoundTrip(m: Monitor, verb: string, url: string, body: Value, status: int,
                        parse: string -> Option<Value>): (r: Monitor)
    ensures XhrSend(body, parse).SendThrew? ==> r == m
  {
    match XhrSend(body, parse)
    case Sent(v) => OnXhrLoad(m, verb, url, v, status)
    case SendThrew => m
  }

  /** The same round trip with the guarded `send`: while monitoring it
      always records exactly one call. */
  function XhrRoundTripFixed(m: Monitor, verb: string, url: string, body: Value, status: int,
                             parse: string -> Option<Value>): (r: Monitor)
    ensures m.monitoring ==> |r.calls| == |m.calls| + 1
    ensures !m.monitoring ==> r == m
  {
    OnXhrLoad(m, verb, url, XhrSendFixed(body, parse).noted, status)
  }
}

=== FILE: duck_monitor.dfy ===
/** The DuckDuckGo chat API monitor: how a completed `fetch` or
    `XMLHttpRequest` becomes a recorded call, how the call is categorised,
    and when recording happens at all. `JSON.parse` is the parameter
    `parse`; `None` is the SyntaxError it throws. */
module DuckMonitor {
  import opened Maybe
  import opened Text
  import opened Js
  import opened ApiLog

  const Chat := "聊天"
  const ModelApi := "模型"
  const Auth := "认证"
  const Other := "其他"

  /** The rules of `categorizeApi` in the order it tries them. */
  const Rules := [
    Rule(Chat, ["chat", "message", "conversation", "duckduckgo.com/duckchat", "vqd"], ["message", "prompt"]),
    Rule(ModelApi, ["model", "models"], []),
    Rule(Auth, ["auth", "token", "session"], [])
  ]

  /** `categorizeApi`: the first rule that fires on the lowercased URL or
      the lowercased JSON text of the request body, else `其他`. */
  function Categorize(url: string, body: Value): (r: string)
    ensures r == Other <==> forall i :: 0 <= i < |Rules| ==> !Fires(Rules[i], LowerAscii(url), BodyText(body))
    ensures r != Other ==> exists i :: 0 <= i < |Rules| && Fires(Rules[i], LowerAscii(url), BodyText(body)) && r == Rules[i].category && forall j :: 0 <= j < i ==> !Fires(Rules[j], LowerAscii(url), BodyText(body))
  {
    FirstRule(Rules, LowerAscii(url), BodyText(body), Other)
  }

  /** A chat word in the URL wins over every other rule. */
  lemma {:induction false} ChatUrlWins(url: string, body: Value)
    requires Contains(LowerAscii(url), "chat") || Contains(LowerAscii(url), "vqd")
    ensures Categorize(url, body) == Chat
  {
    if Contains(LowerAscii(url), "vqd") {
      ContainsAnyAt(LowerAscii(url), Rules[0].urlWords, 4);
    }
    assert Fires(Rules[0], LowerAscii(url), BodyText(body));
  }

  /** A model URL that no chat rule claims is a model call, whatever auth
      words it also holds. */
  lemma {:induction false} ModelBeforeAuth(url: string, body: Value)
    requires !Fires(Rules[0], LowerAscii(url), BodyText(body))
    requires Contains(LowerAscii(url), "model")
    ensures Categorize(url, body) == ModelApi
  {
    assert Fires(Rules[1], LowerAscii(url), BodyText(body));
  }

  /** A body object with a `prompt` or `message` property is a chat call,
      whatever its URL. */
  lemma {:induction false} PromptBodyIsChat(url: string, fields: seq<(string, Value)>, i: nat)
    requires i < |fields| && !fields[i].1.Undefined?
    requires fields[i].0 == "prompt" || fields[i].0 == "message"
    ensures Categorize(url, Obj(fields)) == Chat
  {
    BodyTextShowsKey(fields, i);
    assert Rules[0].bodyWords[1..] == ["prompt"];
    assert Fires(Rules[0], LowerAscii(url), BodyText(Obj(fields)));
  }

  // ---------------------------------------------------------------------
  // fetch
  // ---------------------------------------------------------------------

  /** What the page's own `fetch` promise does once the wrapper has run. */
  datatype Outcome = Delivered | Rejected

  /** `options.body ? (typeof options.body === 'string' ?
      JSON.parse(options.body) : options.body) : null` as written: a string
      that is not JSON throws. */
  function FetchRequestBody(body: Value, parse: string -> Option<Value>): (r: Option<Value>)
    ensures !Truthy(body) ==> r == Some(Null)
    ensures Truthy(body) && !body.Str? ==> r == Some(body)
  {
    if !Truthy(body) then Some(Null)
    else if body.Str? then parse(body.s)
    else Some(body)
  }

  /** The response body kept for a fetch: the parsed JSON, else the first
      500 characters of the text; `None` when reading the text failed. */
  function FetchResponseBody(text: Option<string>, parse: string -> Option<Value>): (r: Option<Value>)
    ensures text.None? <==> r.None?
    ensures text.Some? && parse(text.value).None? ==>
      r == Some(Str(text.value[..if |text.value| < 500 then |text.value| else 500]))
    ensures text.Some? && parse(text.value).Some? ==> r == parse(text.value)
  {
    match text
    case None => None
    case Some(t) =>
      match parse(t)
      case Some(v) => Some(v)
      case None => Some(Str(t[..if |t| < 500 then |t| else 500]))
  }

  /** The fetch wrapper once the network has answered. `options` is the
      second argument or `{}`, `text` the outcome of reading the body. */
  function OnFetch(m: Monitor, url: string, options: Value, status: int,
                   text: Option<string>, parse: string -> Option<Value>): (r: (Monitor, Outcome))
    ensures !m.monitoring ==> r == (m, Delivered)
    ensures r.1 == Rejected ==> r.0 == m
    ensures m.monitoring ==> (r.1 == Delivered <==> Verb(Or(options, Obj([]))).Some? && FetchRequestBody(Get(Or(options, Obj([])), "body").GetOr(Undefined), parse).Some?)
    ensures m.monitoring && r.1 == Delivered ==>
      |r.0.calls| == |m.calls| + 1 && r.0.calls[..|m.calls|] == m.calls
      && r.0.calls[|m.calls|].url == url && r.0.calls[|m.calls|].status == status
      && r.0.calls[|m.calls|].responseBody == FetchResponseBody(text, parse)
      && r.0.calls[|m.calls|].category == Categorize(url, r.0.calls[|m.calls|].body)
    ensures m.monitoring && r.1 == Delivered ==>
      Some(r.0.calls[|m.calls|].verb) == Verb(Or(options, Obj([])))
      && Some(r.0.calls[|m.calls|].body) == FetchRequestBody(Get(Or(options, Obj([])), "body").GetOr(Undefined), parse)
  {
    if !m.monitoring then (m, Delivered)
    else
      var opts := Or(options, Obj([]));
      match (Verb(opts), FetchRequestBody(Get(opts, "body").GetOr(Undefined), parse))
      case (Some(verb), Some(body)) =>
        var c := Call(verb, url, body, status, FetchResponseBody(text, parse), Categorize(url, body));
        assert (m.calls + [c])[..|m.calls|] == m.calls;
        (Record(m, c), Delivered)
      case _ => (m, Rejected)
  }

  /** While stopped, a fetch records nothing and reaches the page. */
  lemma {:induction false} FetchWhileStopped(m: Monitor, url: string, options: Value, status: int,
                          text: Option<string>, parse: string -> Option<Value>)
    requires !m.monitoring
    ensures OnFetch(m, url, options, status, text, parse) == (m, Delivered)
  {
  }

  /** While monitoring, a fetch without a body whose method is a string or
      absent adds exactly one call, categorised from its URL, and keeps the
      body text when it is not JSON. */
  lemma {:induction false} FetchRecordsOne(m: Monitor, url: string, options: Value, status: int,
                        text: string, parse: string -> Option<Value>)
    requires m.monitoring
    requires Verb(Or(options, Obj([]))).Some? && !Truthy(Get(Or(options, Obj([])), "body").GetOr(Undefined))
    requires parse(text).None?
    ensures var (m', out) := OnFetch(m, url, options, status, Some(text), parse);
      out == Delivered && |m'.calls| == |m.calls| + 1 && m'.calls[..|m.calls|] == m.calls
      && m'.calls[|m.calls|].body == Null
      && m'.calls[|m.calls|].category == Categorize(url, Null)
      && m'.calls[|m.calls|].responseBody == Some(Str(text[..if |text| < 500 then |text| else 500]))
  {
    var (m', out) := OnFetch(m, url, options, status, Some(text), parse);
    assert m'.calls == m.calls + [m'.calls[|m.calls|]];
  }

  /** As written, a string request body that is not JSON makes the page's
      own fetch fail while monitoring. */
  lemma {:induction false} FetchFormBodyRejected(m: Monitor, url: string, status: int,
                              text: Option<string>, parse: string -> Option<Value>)
    requires m.monitoring && parse("q=1").None?
    ensures OnFetch(m, url, Obj([("body", Str("q=1"))]), status, text, parse) == (m, Rejected)
  {
    assert Field([("body", Str("q=1"))], "method") == Undefined;
  }

  /** The request body with the fallback the XHR wrapper already has: text
      that is not JSON is kept as it is. */
  function FetchRequestBodyFixed(body: Value, parse: string -> Option<Value>): (r: Value)
    ensures !Truthy(body) ==> r == Null
    ensures body.Str? && |body.s| > 0 && parse(body.s).None? ==> r == body
    ensures FetchRequestBody(body, parse).Some? ==> r == FetchRequestBody(body, parse).value
  {
    if !Truthy(body) then Null
    else if body.Str? then parse(body.s).GetOr(body)
    else body
  }

  /** The fetch wrapper with the corrected body handling. */
  function OnFetchFixed(m: Monitor, url: string, options: Value, status: int,
                        text: Option<string>, parse: string -> Option<Value>): (r: (Monitor, Outcome))
    ensures !m.monitoring ==> r == (m, Delivered)
    ensures r.1 == Rejected ==> r.0 == m
    ensures m.monitoring ==> (r.1 == Delivered <==> Verb(Or(options, Obj([]))).Some?)
    ensures m.monitoring && r.1 == Delivered ==>
      |r.0.calls| == |m.calls| + 1 && r.0.calls[..|m.calls|] == m.calls
      && r.0.calls[|m.calls|].url == url && r.0.calls[|m.calls|].status == status
      && r.0.calls[|m.calls|].body == FetchRequestBodyFixed(Get(Or(options, Obj([])), "body").GetOr(Undefined), parse)
  {
    if !m.monitoring then (m, Delivered)
    else
      var opts := Or(options, Obj([]));
      match Verb(opts)
      case Some(verb) =>
        var body := FetchRequestBodyFixed(Get(opts, "body").GetOr(Undefined), parse);
        var c := Call(verb, url, body, status, FetchResponseBody(text, parse), Categorize(url, body));
        assert (m.calls + [c])[..|m.calls|] == m.calls;
        (Record(m, c), Delivered)
      case None => (m, Rejected)
  }

  /** With the correction, a request whose method is absent or a string
      always reaches the page and, while monitoring, is always recorded;
      where the original records, both record the same call. */
  lemma {:induction false} FetchFixedNeverRejectsBody(m: Monitor, url: string, options: Value, status: int,
                                   text: Option<string>, parse: string -> Option<Value>)
    requires Verb(Or(options, Obj([]))).Some?
    ensures OnFetchFixed(m, url, options, status, text, parse).1 == Delivered
    ensures m.monitoring ==> |OnFetchFixed(m, url, options, status, text, parse).0.calls| == |m.calls| + 1
    ensures OnFetch(m, url, options, status, text, parse).1 == Delivered ==>
      OnFetch(m, url, options, status, text, parse) == OnFetchFixed(m, url, options, status, text, parse)
  {
  }

  // ---------------------------------------------------------------------
  // XMLHttpRequest
  // ---------------------------------------------------------------------

  /** `send`: the request body is parsed, falling back to the raw body; this
      never throws. */
  function XhrRequestBody(body: Value, parse: string -> Option<Value>): (r: Value)
    ensures !Truthy(body) ==> r == Null
    ensures body.Str? && |body.s| > 0 && parse(body.s).None? ==> r == body
  {
    if !Truthy(body) then Null
    else if body.Str? then parse(body.s).GetOr(body)
    else body
  }

  /** The `load` listener. A non-empty response text that is not JSON makes
      the listener throw before anything is recorded. */
  function OnXhrLoad(m: Monitor, verb: string, url: string, sentBody: Value, status: int,
                     responseText: string, parse: string -> Option<Value>): (r: Monitor)
    ensures r.monitoring == m.monitoring
    ensures !m.monitoring ==> r == m
    ensures |responseText| > 0 && parse(responseText).None? ==> r == m
    ensures m.monitoring && (|responseText| == 0 || parse(responseText).Some?) ==>
      |r.calls| == |m.calls| + 1 && r.calls[..|m.calls|] == m.calls
      && r.calls[|m.calls|].body == sentBody
      && r.calls[|m.calls|].category == Categorize(url, sentBody)
    ensures m.monitoring && (|responseText| == 0 || parse(responseText).Some?) ==>
      r.calls[|m.calls|].verb == UpperAscii(verb) && r.calls[|m.calls|].url == url
      && r.calls[|m.calls|].status == status
      && r.calls[|m.calls|].responseBody == (if |responseText| > 0 then parse(responseText) else Some(Null))
  {
    if !m.monitoring then m
    else
      var respBody := if |responseText| > 0 then parse(responseText) else Some(Null);
      match respBody
      case None => m
      case Some(v) =>
        var r := Record(m, Call(UpperAscii(verb), url, sentBody, status, Some(v), Categorize(url, sentBody)));
        assert r.calls[..|m.calls|] == m.calls;
        r
  }
}

=== FILE: extractor_v3.dfy ===
/** The "v3" freeaiimage.net extractor: which intercepted URLs are task
    URLs, how a task's id is read from the URL, how a parsed task response
    updates the two in-memory stores (`interceptedRequests`, one entry per
    task id, last write wins; `extractedData`, one session per completed
    task, first completion wins), the double delivery of one XHR response,
    and the CSV export. The clock is the parameter `now`. */
module ExtractorV3 {
  import opened Maybe
  import opened Text
  import opened Js
  import opened Scan
  import Ordered
  import Csv

  // ---------------------------------------------------------------------
  // The URL filter and the id in the URL
  // ---------------------------------------------------------------------

  /** `isValidTaskURL`: the filter accepts every `/task?` URL and nothing
      without a `task?` in it. */
  predicate IsValidTaskUrl(url: string)
    ensures Contains(url, "/task?") ==> IsValidTaskUrl(url)
    ensures IsValidTaskUrl(url) ==> Contains(url, "task?")
  {
    assert OccursAt("task?task_id=", "task?", 0) && OccursAt("task?task=", "task?", 0);
    assert OccursAt("/task?", "task?", 1);
    if Contains(url, "task?task_id=") then ContainsTrans(url, "task?task_id=", "task?"); true
    else if Contains(url, "task?task=") then ContainsTrans(url, "task?task=", "task?"); true
    else if Contains(url, "/task?") then ContainsTrans(url, "/task?", "task?"); |url| > 0
    else false
  }

  /** Where the capture of `[?&]task[_-]?id=` starts when the match
      starts at `p`: just after the `=`. */
  function IdStartAt(s: string, p: nat): (r: Option<nat>)
    ensures r.Some? ==> p + 8 <= r.value <= |s|
  {
    if p + 5 <= |s| && (s[p] == '?' || s[p] == '&')
       && s[p + 1] == 't' && s[p + 2] == 'a' && s[p + 3] == 's' && s[p + 4] == 'k' then
      var q := if p + 5 < |s| && (s[p + 5] == '_' || s[p + 5] == '-') then p + 6 else p + 5;
      if q + 3 <= |s| && s[q] == 'i' && s[q + 1] == 'd' && s[q + 2] == '=' then Some(q + 3) else None
    else None
  }

  /** The capture of `[?&]task[_-]?id=([a-zA-Z0-9\-]+)` when the match
      starts at `p`: the non-empty run of id characters after the `=`. */
  function ParamIdAt(s: string, p: nat): Option<string> {
    match IdStartAt(s, p)
    case None => None
    case Some(k) =>
      var n := Run(s, k, IdChars);
      if n > 0 then Some(s[k..k + n]) else None
  }

  /** A capture is a non-empty run of id characters that occurs in the
      URL just after the `=`. */
  lemma {:induction false} ParamIdAtShape(s: string, p: nat)
    ensures ParamIdAt(s, p).Some? <==> IdStartAt(s, p).Some? && Run(s, IdStartAt(s, p).value, IdChars) > 0
    ensures ParamIdAt(s, p).Some? ==>
      var id := ParamIdAt(s, p).value;
      |id| > 0 && AllIn(id, IdChars) && OccursAt(s, id, IdStartAt(s, p).value)
  {
  }

  /** Where the leftmost match of the parameter pattern at or after `p`
      starts. */
  function ParamMatchFrom(s: string, p: nat): (r: Option<nat>)
    requires p <= |s|
    ensures r.Some? ==> p <= r.value < |s| && ParamIdAt(s, r.value).Some?
    ensures r.Some? ==> forall q :: p <= q < r.value ==> ParamIdAt(s, q).None?
    ensures r.None? <==> forall q :: p <= q < |s| ==> ParamIdAt(s, q).None?
    decreases |s| - p
  {
    if p == |s| then None
    else if ParamIdAt(s, p).Some? then Some(p)
    else ParamMatchFrom(s, p + 1)
  }

  /** Thirty-two lowercase hex digits start at `p`. */
  predicate Hex32At(s: string, p: nat) {
    p + 32 <= |s| && AllIn(s[p..p + 32], LowerHexChars)
  }

  /** The capture of `([a-f0-9]{32})`: the leftmost such run at or after `p`. */
  function FindHex32(s: string, p: nat): (r: Option<string>)
    requires p <= |s|
    ensures r.None? <==> forall q :: p <= q < |s| ==> !Hex32At(s, q)
    ensures r.Some? ==>
      exists q :: p <= q < |s| && Hex32At(s, q) && r.value == s[q..q + 32]
        && forall q' :: p <= q' < q ==> !Hex32At(s, q')
    decreases |s| - p
  {
    if p == |s| then None
    else if Hex32At(s, p) then Some(s[p..p + 32])
    else FindHex32(s, p + 1)
  }

  /** `extractTaskId`: the parameter pattern first, then the hex fallback.
      The id is never empty, is made of id characters and occurs in the URL. */
  function ExtractTaskId(url: string): (r: Option<string>)
    ensures r.Some? ==> |r.value| > 0 && AllIn(r.value, IdChars) && Contains(url, r.value)
    ensures ParamMatchFrom(url, 0).Some? ==> r == ParamIdAt(url, ParamMatchFrom(url, 0).value)
    ensures ParamMatchFrom(url, 0).None? ==> r == FindHex32(url, 0)
    ensures r.None? <==> forall q :: 0 <= q < |url| ==> ParamIdAt(url, q).None? && !Hex32At(url, q)
  {
    match ParamMatchFrom(url, 0)
    case Some(q) =>
      ParamIdAtShape(url, q);
      ContainsAt(url, ParamIdAt(url, q).value, IdStartAt(url, q).value);
      ParamIdAt(url, q)
    case None =>
      match FindHex32(url, 0)
      case Some(h) =>
        var q :| 0 <= q < |url| && Hex32At(url, q) && h == url[q..q + 32];
        ContainsAt(url, h, q);
        Some(h)
      case None => None
  }

  /** A match must start at `?` or `&`. */
  lemma {:induction false} NoParamAt(s: string, p: nat)
    requires p < |s| && s[p] != '?' && s[p] != '&'
    ensures ParamIdAt(s, p).None?
  {
  }

  /** No parameter match starts inside a prefix free of `?` and `&`. */
  lemma {:induction false} ParamMatchFromSkip(s: string, p: nat, t: nat)
    requires p <= t <= |s|
    requires forall q :: p <= q < t ==> s[q] != '?' && s[q] != '&'
    ensures ParamMatchFrom(s, p) == ParamMatchFrom(s, t)
  {
    forall q | p <= q < t
      ensures ParamIdAt(s, q).None?
    {
      NoParamAt(s, q);
    }
    NoMatchBefore(s, p, t);
  }

  /** The leftmost match from `p` is the leftmost from `t` when nothing
      matches in between. */
  lemma {:induction false} NoMatchBefore(s: string, p: nat, t: nat)
    requires p <= t <= |s|
    requires forall q :: p <= q < t ==> ParamIdAt(s, q).None?
    ensures ParamMatchFrom(s, p) == ParamMatchFrom(s, t)
  {
    var a := ParamMatchFrom(s, p);
    var b := ParamMatchFrom(s, t);
    if a.Some? {
      var m := a.value;
      assert t <= m;
      assert b.Some? by {
        assert !(forall q :: t <= q < |s| ==> ParamIdAt(s, q).None?) by {
          assert ParamIdAt(s, m).Some?;
        }
      }
      var n := b.value;
      assert n <= m;
      assert !(n < m);
    } else {
      assert forall q :: t <= q < |s| ==> ParamIdAt(s, q).None?;
    }
  }

  /** The round trip of a query string: an id written after `?task_id=`,
      `?taskid=` or `?task-id=` (or after `&`) in a URL whose path has no
      `?`/`&` is the id read back, provided the text after it does not
      continue the id. */
  lemma {:induction false} ExtractFromQuery(base: string, sep: char, key: string, id: string, rest: string)
    requires sep == '?' || sep == '&'
    requires key == "task_id" || key == "taskid" || key == "task-id"
    requires forall c :: 0 <= c < |base| ==> base[c] != '?' && base[c] != '&'
    requires |id| > 0 && AllIn(id, IdChars)
    requires |rest| == 0 || !In(IdChars, rest[0])
    ensures ExtractTaskId(base + [sep] + key + "=" + id + rest) == Some(id)
  {
    var s := base + [sep] + key + "=" + id + rest;
    QueryParamAt(base, sep, key, id, rest);
    assert forall c :: 0 <= c < |base| ==> s[c] == base[c];
    ParamMatchFromSkip(s, 0, |base|);
    assert ParamMatchFrom(s, |base|) == Some(|base|);
  }

  /** The parameter pattern matches where the separator was written. */
  lemma {:induction false} QueryParamAt(base: string, sep: char, key: string, id: string, rest: string)
    requires sep == '?' || sep == '&'
    requires key == "task_id" || key == "taskid" || key == "task-id"
    requires |id| > 0 && AllIn(id, IdChars)
    requires |rest| == 0 || !In(IdChars, rest[0])
    ensures ParamIdAt(base + [sep] + key + "=" + id + rest, |base|) == Some(id)
  {
    var head := base + [sep] + key + "=";
    assert base + [sep] + key + "=" + id + rest == head + (id + rest);
    HeadAt(base, sep, key);
    var s := head + (id + rest);
    assert s[..|head|] == head && s[|head|..] == id + rest;
    ParamAfterHead(s, head, |base|, if key == "taskid" then |base| + 5 else |base| + 6, id, rest);
  }

  /** The same with the written prefix taken as a whole. */
  lemma {:induction false} ParamAfterHead(s: string, head: string, p: nat, q: nat, id: string, rest: string)
    requires |head| <= |s| && s[..|head|] == head && s[|head|..] == id + rest
    requires |head| == q + 3 && p + 6 <= q + 3 && (head[p] == '?' || head[p] == '&')
    requires head[p + 1..p + 5] == "task" && head[q..q + 3] == "id="
    requires q == (if head[p + 5] == '_' || head[p + 5] == '-' then p + 6 else p + 5)
    requires |id| > 0 && AllIn(id, IdChars)
    requires |rest| == 0 || !In(IdChars, rest[0])
    ensures ParamIdAt(s, p) == Some(id)
  {
    SameSlice(s, head, p + 1, p + 5);
    SameSlice(s, head, q, q + 3);
    SameSlice(s, head, p, p + 6);
    IdAfter(s, q + 3, id, rest);
    ParamAtWritten(s, p, q, |id|);
  }

  /** A slice of a prefix is the same slice of the whole. */
  lemma {:induction false} SameSlice(s: string, head: string, i: nat, j: nat)
    requires |head| <= |s| && s[..|head|] == head && i <= j <= |head|
    ensures forall k :: i <= k < j ==> s[k] == head[k]
    ensures s[i..j] == head[i..j]
  {
    forall k | i <= k < j
      ensures s[k] == head[k]
    {
      assert s[k] == s[..|head|][k];
    }
  }

  /** Where the separator, `task`, the optional `_`/`-` and `id=` lie in
      the written prefix. */
  lemma {:induction false} HeadAt(base: string, sep: char, key: string)
    requires key == "task_id" || key == "taskid" || key == "task-id"
    ensures var head := base + [sep] + key + "=";
      var p := |base|;
      var q := if key == "taskid" then p + 5 else p + 6;
      |head| == q + 3 && head[p] == sep && head[p + 1..p + 5] == "task"
      && (head[p + 5] == '_' || head[p + 5] == '-' <==> key != "taskid")
      && head[q..q + 3] == "id="
  {
    var head := base + [sep] + key + "=";
    assert head == base + ([sep] + key + "=");
    assert head[|base|..] == [sep] + key + "=";
  }

  /** The id written at `start` is the whole run of id characters there. */
  lemma {:induction false} IdAfter(s: string, start: nat, id: string, rest: string)
    requires start <= |s| && s[start..] == id + rest
    requires |id| > 0 && AllIn(id, IdChars)
    requires |rest| == 0 || !In(IdChars, rest[0])
    ensures start + |id| <= |s| && Run(s, start, IdChars) == |id| && s[start..start + |id|] == id
  {
    assert s[start..start + |id|] == (id + rest)[..|id|] == id;
    assert start + |id| == |s| || s[start + |id|] == rest[0];
    RunExact(s, start, |id|, IdChars);
  }

  /** `ParamIdAt` unfolded: the pieces of the pattern at their places give
      the run after `id=`. */
  lemma {:induction false} ParamAtWritten(s: string, p: nat, q: nat, n: nat)
    requires p + 5 <= |s| && (s[p] == '?' || s[p] == '&') && s[p + 1..p + 5] == "task"
    requires q == (if p + 5 < |s| && (s[p + 5] == '_' || s[p + 5] == '-') then p + 6 else p + 5)
    requires q + 3 + n <= |s| && s[q..q + 3] == "id=" && Run(s, q + 3, IdChars) == n && n > 0
    ensures ParamIdAt(s, p) == Some(s[q + 3..q + 3 + n])
  {
  }

  /** The camel-case parameter the final extractor reads is not matched:
      this variant finds no id in `?taskId=42`. */
  lemma {:induction false} CamelCaseIdNotMatched()
    ensures ExtractTaskId("/task?taskId=42").None?
  {
    var s := "/task?taskId=42";
    CamelCaseNoParam(s);
    CamelCaseNoHex(s);
  }

  lemma {:induction false} CamelCaseNoParam(s: string)
    requires s == "/task?taskId=42"
    ensures ParamMatchFrom(s, 0).None?
  {
    PrefixSkip(s);
    AtQuestionMark(s);
    SuffixSkip(s);
  }

  lemma {:induction false} PrefixSkip(s: string)
    requires s == "/task?taskId=42"
    ensures ParamMatchFrom(s, 0) == ParamMatchFrom(s, 5)
  {
    assert forall q :: 0 <= q < 5 ==> s[q] != '?' && s[q] != '&';
    ParamMatchFromSkip(s, 0, 5);
  }

  lemma {:induction false} AtQuestionMark(s: string)
    requires s == "/task?taskId=42"
    ensures ParamMatchFrom(s, 5) == ParamMatchFrom(s, 6)
  {
    assert ParamIdAt(s, 5).None? by { assert s[10..13] != "id=" by { assert s[10] == 'I'; } }
  }

  lemma {:induction false} SuffixSkip(s: string)
    requires s == "/task?taskId=42"
    ensures ParamMatchFrom(s, 6).None?
  {
    assert forall q :: 6 <= q < |s| ==> s[q] != '?' && s[q] != '&';
    ParamMatchFromSkip(s, 6, |s|);
  }

  lemma {:induction false} CamelCaseNoHex(s: string)
    requires |s| < 32
    ensures FindHex32(s, 0).None?
  {
    assert forall q :: 0 <= q < |s| ==> !Hex32At(s, q);
  }

  // ---------------------------------------------------------------------
  // The stores
  // ---------------------------------------------------------------------

  datatype Params = Params(width: Value, height: Value, prompt: Value, batchSize: Value, negativePrompt: Value)

  /** One entry of `interceptedRequests`. */
  datatype ApiRecord = ApiRecord(
    taskId: string,
    taskType: Value,
    status: Value,
    url: string,
    verb: Value,
    timestamp: string,
    params: Params,
    imageUrls: Value,
    requestData: Value,
    responseStatus: int)

  /** One entry of `extractedData`. */
  datatype Session = Session(
    timestamp: string,
    taskId: string,
    prompt: Value,
    dimensions: string,
    batchSize: Value,
    negativePrompt: Value,
    imageUrls: Value,
    apiCallCount: nat)

  datatype Store = Store(intercepted: seq<ApiRecord>, extracted: seq<Session>)

  function RecordKey(r: ApiRecord): string { r.taskId }
  function SessionKey(s: Session): string { s.taskId }

  /** `body.params?.k || body.k` on a body that is not null. */
  function ParamOrTop(body: Value, k: string): Value {
    Or(OptGet(OptGet(body, "params"), k), OptGet(body, k))
  }

  /** The nested value when it is truthy, else the top-level one. */
  predicate TakenFrom(v: Value, body: Value, k: string) {
    var nested := OptGet(OptGet(body, "params"), k);
    if Truthy(nested) then v == nested else v == OptGet(body, k)
  }

  /** The `apiData` object built from a response body. */
  function MakeRecord(id: string, verb: Value, url: string, requestData: Value, body: Value,
                      status: int, now: string): (r: ApiRecord)
    ensures r.taskId == id && r.url == url && r.timestamp == now && r.responseStatus == status
    ensures Truthy(OptGet(body, "task_type")) ==> r.taskType == OptGet(body, "task_type")
    ensures !Truthy(OptGet(body, "task_type")) ==> r.taskType == Str("unknown")
    ensures Truthy(OptGet(body, "status")) ==> r.status == OptGet(body, "status")
    ensures !Truthy(OptGet(body, "status")) ==> r.status == Str("unknown")
    ensures TakenFrom(r.params.width, body, "width") && TakenFrom(r.params.height, body, "height")
    ensures TakenFrom(r.params.prompt, body, "prompt") && TakenFrom(r.params.batchSize, body, "batch_size")
    ensures TakenFrom(r.params.negativePrompt, body, "negative_prompt")
    ensures Truthy(OptGet(body, "data")) ==> r.imageUrls == OptGet(body, "data")
    ensures !Truthy(OptGet(body, "data")) ==> r.imageUrls == Arr([])
  {
    ApiRecord(
      id,
      Or(OptGet(body, "task_type"), Str("unknown")),
      Or(OptGet(body, "status"), Str("unknown")),
      url, verb, now,
      Params(ParamOrTop(body, "width"), ParamOrTop(body, "height"), ParamOrTop(body, "prompt"),
             ParamOrTop(body, "batch_size"), ParamOrTop(body, "negative_prompt")),
      Or(OptGet(body, "data"), Arr([])),
      requestData, status)
  }

  /** An `images` property is ignored: appending one to a body object
      leaves the record as it was. */
  lemma {:induction false} ImagesIgnored(id: string, verb: Value, url: string, requestData: Value,
                      fields: seq<(string, Value)>, images: Value, status: int, now: string)
    ensures MakeRecord(id, verb, url, requestData, Obj(fields + [("images", images)]), status, now)
         == MakeRecord(id, verb, url, requestData, Obj(fields), status, now)
  {
    OptGetAppendOther(fields, "images", images, "task_type");
    OptGetAppendOther(fields, "images", images, "status");
    OptGetAppendOther(fields, "images", images, "data");
    ParamOrTopAppend(fields, images, "width");
    ParamOrTopAppend(fields, images, "height");
    ParamOrTopAppend(fields, images, "prompt");
    ParamOrTopAppend(fields, images, "batch_size");
    ParamOrTopAppend(fields, images, "negative_prompt");
  }

  lemma {:induction false} ParamOrTopAppend(fields: seq<(string, Value)>, images: Value, k: string)
    requires k != "images"
    ensures ParamOrTop(Obj(fields + [("images", images)]), k) == ParamOrTop(Obj(fields), k)
  {
    OptGetAppendOther(fields, "images", images, "params");
    OptGetAppendOther(fields, "images", images, k);
  }

  lemma {:induction false} OptGetAppendOther(fields: seq<(string, Value)>, name: string, v: Value, k: string)
    requires k != name
    ensures OptGet(Obj(fields + [(name, v)]), k) == OptGet(Obj(fields), k)
  {
    FieldAppendOther(fields, name, v, k);
  }

  /** A property appended under another name does not change a lookup. */
  lemma {:induction false} FieldAppendOther(fields: seq<(string, Value)>, name: string, v: Value, k: string)
    requires k != name
    ensures Field(fields + [(name, v)], k) == Field(fields, k)
  {
    if |fields| > 0 {
      assert (fields + [(name, v)])[1..] == fields[1..] + [(name, v)];
      FieldAppendOther(fields[1..], name, v, k);
    }
  }

  /** The response describes a finished generation with images:
      `status` is the string `completed` and `data` has a positive length. */
  predicate Completes(body: Value) {
    OptGet(body, "status") == Str("completed") && HasItems(OptGet(body, "data"))
  }

  /** The condition the code tests on the record is `Completes`. */
  lemma {:induction false} CompletesOnRecord(id: string, verb: Value, url: string, requestData: Value, body: Value,
                          status: int, now: string)
    ensures var rec := MakeRecord(id, verb, url, requestData, body, status, now);
      StrictEq(rec.status, Str("completed")) && HasItems(rec.imageUrls) <==> Completes(body)
  {
  }

  /** The session pushed for a completed record. */
  function MakeSession(rec: ApiRecord, now: string, count: nat): (r: Session)
    ensures r.taskId == rec.taskId && r.imageUrls == rec.imageUrls && r.apiCallCount == count
    ensures r.prompt == rec.params.prompt && r.batchSize == rec.params.batchSize
    ensures r.dimensions == ToStr(rec.params.width) + "x" + ToStr(rec.params.height)
  {
    Session(now, rec.taskId, rec.params.prompt, ToStr(rec.params.width) + "x" + ToStr(rec.params.height),
            rec.params.batchSize, rec.params.negativePrompt, rec.imageUrls, count)
  }

  /** `processAPIData`, given the parsed response body. A URL without a task
      id, or a body that is `null` (whose properties throw), leaves both
      stores as they were. Otherwise the record is upserted, and a session
      is appended only for a completing response whose task has none yet;
      existing sessions never change. */
  function ProcessApiData(st: Store, verb: Value, url: string, requestData: Value, body: Value,
                          status: int, now: string): (r: Store)
    ensures ExtractTaskId(url).None? || Nullish(body) ==> r == st
    ensures |st.extracted| <= |r.extracted| <= |st.extracted| + 1
    ensures r.extracted[..|st.extracted|] == st.extracted
    ensures |r.extracted| == |st.extracted| + 1 <==>
      ExtractTaskId(url).Some? && !Nullish(body) && Completes(body)
      && !Ordered.HasKey(st.extracted, SessionKey, ExtractTaskId(url).value)
    ensures |r.extracted| == |st.extracted| + 1 ==>
      r.extracted[|st.extracted|].taskId == ExtractTaskId(url).value
      && r.extracted[|st.extracted|].imageUrls == OptGet(body, "data")
  {
    match ExtractTaskId(url)
    case None => st
    case Some(id) =>
      if Nullish(body) then st
      else
        CompletesOnRecord(id, verb, url, requestData, body, status, now);
        Observe(st, MakeRecord(id, verb, url, requestData, body, status, now), now)
  }

  /** The two store updates for one observation `rec`: the record is
      upserted, and a completing record whose task has no session yet
      appends one. */
  function Observe(st: Store, rec: ApiRecord, now: string): (r: Store)
    ensures r.intercepted == Ordered.Upsert(st.intercepted, RecordKey, rec)
    ensures |st.extracted| <= |r.extracted| <= |st.extracted| + 1
    ensures r.extracted[..|st.extracted|] == st.extracted
    ensures |r.extracted| == |st.extracted| + 1 <==>
      StrictEq(rec.status, Str("completed")) && HasItems(rec.imageUrls)
      && !Ordered.HasKey(st.extracted, SessionKey, rec.taskId)
    ensures |r.extracted| == |st.extracted| + 1 ==>
      r.extracted == st.extracted + [MakeSession(rec, now, Ordered.CountKey(r.intercepted, RecordKey, rec.taskId))]
    ensures |r.extracted| == |st.extracted| ==> r.extracted == st.extracted
  {
    var inter := Ordered.Upsert(st.intercepted, RecordKey, rec);
    if StrictEq(rec.status, Str("completed")) && HasItems(rec.imageUrls)
       && !Ordered.HasKey(st.extracted, SessionKey, rec.taskId)
    then
      var ext := st.extracted + [MakeSession(rec, now, Ordered.CountKey(inter, RecordKey, rec.taskId))];
      assert ext[..|st.extracted|] == st.extracted;
      Store(inter, ext)
    else
      assert st.extracted[..|st.extracted|] == st.extracted;
      Store(inter, st.extracted)
  }

  /** The observation is stored under its task id, in the place an earlier
      one had (last write wins); every other task id keeps its entry. */
  lemma {:induction false} ProcessLastWriteWins(st: Store, verb: Value, url: string, requestData: Value, body: Value,
                             status: int, now: string, other: string)
    requires ExtractTaskId(url).Some? && !Nullish(body)
    requires other != ExtractTaskId(url).value
    ensures var id := ExtractTaskId(url).value;
      var r := ProcessApiData(st, verb, url, requestData, body, status, now);
      Ordered.Lookup(r.intercepted, RecordKey, id) == Some(MakeRecord(id, verb, url, requestData, body, status, now))
      && (Ordered.HasKey(st.intercepted, RecordKey, id) ==>
            Ordered.IndexOfKey(r.intercepted, RecordKey, id) == Ordered.IndexOfKey(st.intercepted, RecordKey, id)
            && |r.intercepted| == |st.intercepted|)
      && Ordered.Lookup(r.intercepted, RecordKey, other) == Ordered.Lookup(st.intercepted, RecordKey, other)
  {
    var id := ExtractTaskId(url).value;
    var rec := MakeRecord(id, verb, url, requestData, body, status, now);
    var r := ProcessApiData(st, verb, url, requestData, body, status, now);
    assert r.intercepted == Ordered.Upsert(st.intercepted, RecordKey, rec);
    Ordered.LookupUpsertSame(st.intercepted, RecordKey, rec);
    assert Ordered.HasKey(st.intercepted, RecordKey, id) ==> Ordered.IndexOfKey(st.intercepted, RecordKey, id).Some?;
    Ordered.LookupUpsertOther(st.intercepted, RecordKey, rec, other);
  }

  /** What the stores always satisfy: one record per task id, one session
      per task id, a record behind every session, and every session has
      images and reports one API call. */
  predicate Inv(st: Store) {
    Ordered.KeysUnique(st.intercepted, RecordKey)
    && Ordered.KeysUnique(st.extracted, SessionKey)
    && (forall i :: 0 <= i < |st.extracted| ==> Ordered.HasKey(st.intercepted, RecordKey, st.extracted[i].taskId))
    && (forall i :: 0 <= i < |st.extracted| ==>
          st.extracted[i].apiCallCount == 1 && HasItems(st.extracted[i].imageUrls))
  }

  lemma {:induction false} ProcessKeepsInv(st: Store, verb: Value, url: string, requestData: Value, body: Value,
                        status: int, now: string)
    requires Inv(st)
    ensures Inv(ProcessApiData(st, verb, url, requestData, body, status, now))
  {
    if ExtractTaskId(url).Some? && !Nullish(body) {
      var id := ExtractTaskId(url).value;
      ObserveKeepsInv(st, MakeRecord(id, verb, url, requestData, body, status, now), now);
    }
  }

  lemma {:induction false} ObserveKeepsInv(st: Store, rec: ApiRecord, now: string)
    requires Inv(st)
    ensures Inv(Observe(st, rec, now))
  {
    var r := Observe(st, rec, now);
    Ordered.LookupUpsertSame(st.intercepted, RecordKey, rec);
    forall i | 0 <= i < |st.extracted|
      ensures Ordered.HasKey(r.intercepted, RecordKey, st.extracted[i].taskId)
    {
      Ordered.UpsertKeepsKeys(st.intercepted, RecordKey, rec, st.extracted[i].taskId);
    }
    if |r.extracted| == |st.extracted| + 1 {
      Ordered.CountKeyUnique(r.intercepted, RecordKey, rec.taskId);
      assert Ordered.HasKey(r.intercepted, RecordKey, rec.taskId);
    }
  }

  /** The empty stores the script starts with. */
  lemma {:induction false} InitialInv()
    ensures Inv(Store([], []))
  {
  }

  // ---------------------------------------------------------------------
  // Interception
  // ---------------------------------------------------------------------

  /** `handleXHRResponse`; `parsed` is `JSON.parse(responseText)`, `None`
      when it throws (the error is logged and nothing changes). */
  function HandleXhrResponse(st: Store, verb: Value, url: string, requestData: Value,
                             parsed: Option<Value>, status: int, now: string): (r: Store)
    ensures !IsValidTaskUrl(url) || parsed.None? ==> r == st
    ensures IsValidTaskUrl(url) && parsed.Some? ==>
      r == ProcessApiData(st, verb, url, requestData, parsed.value, status, now)
  {
    if !IsValidTaskUrl(url) then st
    else match parsed
      case None => st
      case Some(body) => ProcessApiData(st, verb, url, requestData, body, status, now)
  }

  /** One finished XHR: the `readystatechange` listener handles it for any
      status, then the `loadend` listener handles it again for a 2xx status. */
  function OnXhrDone(st: Store, verb: Value, url: string, requestData: Value, parsed: Option<Value>,
                     status: int, t1: string, t2: string): (r: Store)
    ensures !IsValidTaskUrl(url) || parsed.None? ==> r == st
    ensures r.extracted == HandleXhrResponse(st, verb, url, requestData, parsed, status, t1).extracted
  {
    var s1 := HandleXhrResponse(st, verb, url, requestData, parsed, status, t1);
    if 200 <= status < 300 then
      if IsValidTaskUrl(url) && parsed.Some? then
        Reprocess(st, verb, url, requestData, parsed.value, status, t1, t2);
        HandleXhrResponse(s1, verb, url, requestData, parsed, status, t2)
      else HandleXhrResponse(s1, verb, url, requestData, parsed, status, t2)
    else s1
  }

  /** Handling the same response twice is handling it once: the second pass
      only refreshes the record's timestamp and adds no session. */
  lemma {:induction false} XhrDoubleDelivery(st: Store, verb: Value, url: string, requestData: Value,
                          parsed: Option<Value>, status: int, t1: string, t2: string)
    ensures OnXhrDone(st, verb, url, requestData, parsed, status, t1, t2).extracted
         == HandleXhrResponse(st, verb, url, requestData, parsed, status, t1).extracted
    ensures 200 <= status < 300 ==>
      OnXhrDone(st, verb, url, requestData, parsed, status, t1, t2).intercepted
      == HandleXhrResponse(st, verb, url, requestData, parsed, status, t2).intercepted
    ensures !(200 <= status < 300) ==>
      OnXhrDone(st, verb, url, requestData, parsed, status, t1, t2)
      == HandleXhrResponse(st, verb, url, requestData, parsed, status, t1)
  {
    if 200 <= status < 300 {
      var s1 := HandleXhrResponse(st, verb, url, requestData, parsed, status, t1);
      assert OnXhrDone(st, verb, url, requestData, parsed, status, t1, t2)
          == HandleXhrResponse(s1, verb, url, requestData, parsed, status, t2);
      if IsValidTaskUrl(url) && parsed.Some? {
        Reprocess(st, verb, url, requestData, parsed.value, status, t1, t2);
      }
    }
  }

  /** Processing one response twice, at two times. */
  lemma {:induction false} Reprocess(st: Store, verb: Value, url: string, requestData: Value, body: Value,
                  status: int, t1: string, t2: string)
    ensures var s1 := ProcessApiData(st, verb, url, requestData, body, status, t1);
      var s2 := ProcessApiData(s1, verb, url, requestData, body, status, t2);
      s2.extracted == s1.extracted
      && s2.intercepted == ProcessApiData(st, verb, url, requestData, body, status, t2).intercepted
  {
    var s1 := ProcessApiData(st, verb, url, requestData, body, status, t1);
    if ExtractTaskId(url).Some? && !Nullish(body) {
      var id := ExtractTaskId(url).value;
      var r1 := MakeRecord(id, verb, url, requestData, body, status, t1);
      var r2 := MakeRecord(id, verb, url, requestData, body, status, t2);
      Ordered.UpsertTwice(st.intercepted, RecordKey, r1, r2);
      if |s1.extracted| == |st.extracted| + 1 {
        assert s1.extracted[|st.extracted|].taskId == id;
        assert Ordered.HasKey(s1.extracted, SessionKey, id);
      } else {
        assert s1.extracted == st.extracted;
      }
    }
  }

  /** `handleFetchResponse` for an `ok` response: the method is
      `options?.method || 'GET'`, the request body `options?.body`, and the
      status is recorded as 200 whatever it was. */
  function OnFetchDone(st: Store, url: string, options: Value, parsed: Option<Value>,
                       ok: bool, now: string): (r: Store)
    ensures !ok ==> r == st
    ensures ok && IsValidTaskUrl(url) && parsed.Some? ==>
      r == ProcessApiData(st, Or(OptGet(options, "method"), Str("GET")), url,
                          OptGet(options, "body"), parsed.value, 200, now)
    ensures ok && (!IsValidTaskUrl(url) || parsed.None?) ==> r == st
  {
    if !ok then st
    else HandleXhrResponse(st, Or(OptGet(options, "method"), Str("GET")), url,
                           OptGet(options, "body"), parsed, 200, now)
  }

  // ---------------------------------------------------------------------
  // CSV export
  // ---------------------------------------------------------------------

  const Columns := ["timestamp", "task_id", "prompt", "dimensions", "batch_size", "image_urls"]

  /** One session's row; `None` when `prompt.replace` or `image_urls.join`
      throws because the prompt is not a string or the URLs not an array. */
  function SessionRow(s: Session): (r: Option<seq<Csv.Cell>>)
    ensures r.Some? <==> s.prompt.Str? && s.imageUrls.Arr?
    ensures r.Some? ==> |r.value| == 6
  {
    match (s.prompt, s.imageUrls)
    case (Str(p), Arr(items)) =>
      Some([Csv.Bare(s.timestamp), Csv.Wrapped(s.taskId), Csv.Quoted(p), Csv.Bare(s.dimensions),
            Csv.Bare(JoinElem(s.batchSize)), Csv.Quoted(JoinValues(items, "|"))])
    case _ => None
  }

  /** The CSV branch of `exportData`: a header and one row per session
      joined by LF; `None` when there is nothing to export or a row throws. */
  function ExportCsv(st: Store): (r: Option<string>)
    ensures |st.extracted| == 0 ==> r.None?
    ensures r.Some? <==> |st.extracted| > 0 && MapAll(st.extracted, SessionRow).Some?
  {
    if |st.extracted| == 0 then None
    else match MapAll(st.extracted, SessionRow)
      case None => None
      case Some(rows) => Some(Csv.EncodeTable([Csv.Header(Columns)] + rows))
  }

  /** The text fields written bare or only wrapped cannot break the row. */
  predicate SessionReadable(s: Session) {
    var batch := JoinElem(s.batchSize);
    ',' !in s.timestamp && '\n' !in s.timestamp && '\"' !in s.timestamp
    && ',' !in s.dimensions && '\n' !in s.dimensions && '\"' !in s.dimensions
    && ',' !in batch && '\n' !in batch && '\"' !in batch
    && '\"' !in s.taskId
  }

  /** The export reads back, by the rules of section 2 of RFC 4180, as the
      header and then, per session in order, its six values: the prompt
      exactly (quotes doubled and undone) and the image URLs joined by `|`. */
  lemma {:induction false} ExportReadsBack(st: Store)
    requires ExportCsv(st).Some?
    requires forall i :: 0 <= i < |st.extracted| ==> SessionReadable(st.extracted[i])
    ensures var recs := Csv.Read(ExportCsv(st).value);
      recs.Some? && |recs.value| == |st.extracted| + 1 && recs.value[0] == Columns
      && forall i :: 0 <= i < |st.extracted| ==> recs.value[i + 1] == SessionValues(st.extracted[i])
  {
    var rows := MapAll(st.extracted, SessionRow).value;
    var table := [Csv.Header(Columns)] + rows;
    assert ExportCsv(st).value == Csv.EncodeTable(table);
    TableReadable(st.extracted, rows);
    Csv.ReadEncodeTable(table);
    TableValues(st.extracted, rows);
  }

  lemma {:induction false} TableReadable(ss: seq<Session>, rows: seq<seq<Csv.Cell>>)
    requires MapAll(ss, SessionRow) == Some(rows)
    requires forall i :: 0 <= i < |ss| ==> SessionReadable(ss[i])
    ensures Csv.TableReadable([Csv.Header(Columns)] + rows)
  {
    forall r | 0 <= r < |rows|
      ensures |rows[r]| >= 1 && forall i :: 0 <= i < |rows[r]| ==> Csv.Readable(rows[r][i])
    {
      assert rows[r] == SessionRow(ss[r]).value;
      RowReadable(ss[r]);
    }
    HeaderReadable();
    Csv.TableReadableCons(Csv.Header(Columns), rows);
  }

  lemma {:induction false} HeaderReadable()
    ensures |Csv.Header(Columns)| == 6
    ensures forall i :: 0 <= i < 6 ==> Csv.Header(Columns)[i].Bare? && Csv.Readable(Csv.Header(Columns)[i])
  {
    var h := Csv.Header(Columns);
    forall i | 0 <= i < 6 ensures h[i].Bare? && Csv.Readable(h[i]) {
      assert h[i] == Csv.Bare(Columns[i]);
      assert forall k :: 0 <= k < |Columns[i]| ==> 'a' <= Columns[i][k] <= 'z' || Columns[i][k] == '_';
    }
  }

  lemma {:induction false} TableValues(ss: seq<Session>, rows: seq<seq<Csv.Cell>>)
    requires MapAll(ss, SessionRow) == Some(rows)
    ensures var texts := Csv.TableTexts([Csv.Header(Columns)] + rows);
      |texts| == |ss| + 1 && texts[0] == Columns
      && forall i :: 0 <= i < |ss| ==> texts[i + 1] == SessionValues(ss[i])
  {
    Csv.TableTextsCons(Csv.Header(Columns), rows);
    RowsValues(ss, rows);
  }

  lemma {:induction false} RowsValues(ss: seq<Session>, rows: seq<seq<Csv.Cell>>)
    requires MapAll(ss, SessionRow) == Some(rows)
    ensures forall i :: 0 <= i < |ss| ==> Csv.TableTexts(rows)[i] == SessionValues(ss[i])
  {
    forall i | 0 <= i < |ss|
      ensures Csv.TableTexts(rows)[i] == SessionValues(ss[i])
    {
      RowValues(ss[i], rows[i]);
    }
  }

  /** The six values a session's row stands for. */
  function SessionValues(s: Session): seq<string>
    requires s.prompt.Str? && s.imageUrls.Arr?
  {
    [s.timestamp, s.taskId, s.prompt.s, s.dimensions, JoinElem(s.batchSize), JoinValues(s.imageUrls.items, "|")]
  }

  lemma {:induction false} RowValues(s: Session, row: seq<Csv.Cell>)
    requires SessionRow(s) == Some(row)
    ensures Csv.Texts(row) == SessionValues(s)
  {
  }

  lemma {:induction false} RowReadable(s: Session)
    requires SessionRow(s).Some? && SessionReadable(s)
    ensures forall i :: 0 <= i < 6 ==> Csv.Readable(SessionRow(s).value[i])
    ensures Csv.Texts(SessionRow(s).value) == SessionValues(s)
  {
  }
}

=== FILE: final_extractor.dfy ===
/** The "final" freeaiimage.net extractor: only Qwen image task queries are
    handled; the session store `extractedSessions` is keyed by the body's
    `task_id` under strict equality, a completed response replaces the
    session in place or appends it; the statistics, the history view and
    the CSV export read that store. */
module FinalExtractor {
  import opened Maybe
  import opened Text
  import opened Js
  import opened Scan
  import Csv
  import ExtractorV3

  // ---------------------------------------------------------------------
  // The URL filter and the id in the URL
  // ---------------------------------------------------------------------

  const TaskApi := "/api/services/aigc/task?"
  const QwenImage := "taskType=qwen_image"

  /** The test both wrappers apply before a response is processed. Every
      URL it admits would also pass the v3 filter. */
  predicate IsTaskApiUrl(url: string)
    ensures IsTaskApiUrl(url) ==> ExtractorV3.IsValidTaskUrl(url)
  {
    assert TaskApi[18..24] == "/task?";
    assert OccursAt(TaskApi, "/task?", 18);
    if Contains(url, TaskApi) then
      ContainsTrans(url, TaskApi, "/task?");
      Contains(url, QwenImage)
    else false
  }

  /** The capture of `taskId=([a-fA-F0-9\-]+)` when the match starts at `p`. */
  function TaskIdAt(s: string, p: nat): (r: Option<string>)
    ensures r.Some? ==> |r.value| > 0 && AllIn(r.value, HexChars) && OccursAt(s, "taskId=", p)
  {
    if OccursAt(s, "taskId=", p) then
      var n := Run(s, p + 7, HexChars);
      if n > 0 then Some(s[p + 7..p + 7 + n]) else None
    else None
  }

  function TaskIdFrom(s: string, p: nat): (r: Option<string>)
    requires p <= |s|
    ensures r.None? <==> forall q :: p <= q < |s| ==> TaskIdAt(s, q).None?
    ensures r.Some? ==> exists q :: p <= q < |s| && TaskIdAt(s, q) == r && forall k :: p <= k < q ==> TaskIdAt(s, k).None?
    decreases |s| - p
  {
    if p == |s| then None
    else if TaskIdAt(s, p).Some? then TaskIdAt(s, p)
    else
      var r := TaskIdFrom(s, p + 1);
      TaskIdFromStep(s, p, r);
      r
  }

  /** A miss at `p` leaves the leftmost match from `p + 1` the leftmost
      from `p`. */
  lemma {:induction false} TaskIdFromStep(s: string, p: nat, r: Option<string>)
    requires p < |s| && TaskIdAt(s, p).None?
    requires r.Some? ==> exists q :: p + 1 <= q < |s| && TaskIdAt(s, q) == r && forall k :: p + 1 <= k < q ==> TaskIdAt(s, k).None?
    ensures r.Some? ==> exists q :: p <= q < |s| && TaskIdAt(s, q) == r && forall k :: p <= k < q ==> TaskIdAt(s, k).None?
  {
    if r.Some? {
      var q :| p + 1 <= q < |s| && TaskIdAt(s, q) == r
        && forall k :: p + 1 <= k < q ==> TaskIdAt(s, k).None?;
      assert forall k :: p <= k < q ==> TaskIdAt(s, k).None?;
    }
  }

  /** `extractTaskId`: the capture at the leftmost `taskId=` followed by
      at least one id character; the id is never empty. */
  function ExtractTaskId(url: string): (r: Option<string>)
    ensures r.Some? ==> |r.value| > 0 && AllIn(r.value, HexChars) && Contains(url, "taskId=")
    ensures r.None? <==> forall q :: 0 <= q < |url| ==> TaskIdAt(url, q).None?
    ensures r.Some? ==> exists p :: 0 <= p < |url| && TaskIdAt(url, p) == r && forall q :: 0 <= q < p ==> TaskIdAt(url, q).None?
  {
    var r := TaskIdFrom(url, 0);
    if r.Some? then
      var q :| 0 <= q < |url| && TaskIdAt(url, q) == r
        && forall k :: 0 <= k < q ==> TaskIdAt(url, k).None?;
      ContainsAt(url, "taskId=", q);
      r
    else r
  }

  /** Before the written `taskId=`, nothing matches. */
  lemma {:induction false} TaskIdFromSkip(base: string, s: string, p: nat)
    requires p <= |base| && |base| + 7 <= |s| && s[..|base| + 7] == base + "taskId="
    requires forall q :: 0 <= q < |base| ==> !OccursAt(base + "taskId=", "taskId=", q)
    ensures TaskIdFrom(s, p) == TaskIdFrom(s, |base|)
    decreases |base| - p
  {
    if p < |base| {
      var t := base + "taskId=";
      assert !OccursAt(t, "taskId=", p);
      assert s[p..p + 7] == s[..|base| + 7][p..p + 7] == t[p..p + 7];
      assert !OccursAt(s, "taskId=", p);
      TaskIdFromSkip(base, s, p + 1);
    }
  }

  /** The round trip: an id written after the first `taskId=` of a URL is
      the id read back, when the text after it does not continue the id. */
  lemma {:induction false} ExtractWritten(base: string, id: string, rest: string)
    requires forall q :: 0 <= q < |base| ==> !OccursAt(base + "taskId=", "taskId=", q)
    requires |id| > 0 && AllIn(id, HexChars)
    requires |rest| == 0 || !In(HexChars, rest[0])
    ensures ExtractTaskId(base + "taskId=" + id + rest) == Some(id)
  {
    var s := base + "taskId=" + id + rest;
    var start := |base| + 7;
    assert s[..start] == base + "taskId=";
    assert OccursAt(s, "taskId=", |base|);
    assert s[start..start + |id|] == id;
    assert start + |id| == |s| || s[start + |id|] == rest[0];
    RunExact(s, start, |id|, HexChars);
    TaskIdFromSkip(base, s, 0);
  }

  // ---------------------------------------------------------------------
  // The session store
  // ---------------------------------------------------------------------

  /** One entry of `extractedSessions`. */
  datatype Session = Session(
    timestamp: Value,
    taskId: Value,
    prompt: Value,
    negativePrompt: Value,
    dimensions: string,
    batchSize: Value,
    images: Value,
    status: string,
    taskType: Value)

  /** `extractedSessions.findIndex(s => s.task_id === id)`. */
  function FindSession(ss: seq<Session>, id: Value): (r: Option<nat>)
    ensures r.Some? ==> (r.value < |ss| && StrictEq(ss[r.value].taskId, id)
                         && forall j :: 0 <= j < r.value ==> !StrictEq(ss[j].taskId, id))
    ensures r.None? ==> forall j :: 0 <= j < |ss| ==> !StrictEq(ss[j].taskId, id)
  {
    if |ss| == 0 then None
    else if StrictEq(ss[0].taskId, id) then Some(0)
    else
      assert forall j :: 1 <= j < |ss| ==> ss[j] == ss[1..][j - 1];
      match FindSession(ss[1..], id)
      case Some(i) => Some(i + 1)
      case None => None
  }

  /** Replace the session with the same task id in place, or append. */
  function Save(ss: seq<Session>, s: Session): (r: seq<Session>)
    ensures FindSession(ss, s.taskId).Some? ==>
      var i := FindSession(ss, s.taskId).value;
      |r| == |ss| && r[i] == s && forall j :: 0 <= j < |ss| && j != i ==> r[j] == ss[j]
    ensures FindSession(ss, s.taskId).None? ==> r == ss + [s]
  {
    match FindSession(ss, s.taskId)
    case Some(i) => ss[i := s]
    case None => ss + [s]
  }

  /** No two sessions have strictly equal task ids. */
  predicate IdsUnique(ss: seq<Session>) {
    forall i, j :: 0 <= i < j < |ss| ==> !StrictEq(ss[i].taskId, ss[j].taskId)
  }

  /** Every stored session is completed and has images. */
  predicate AllCompleted(ss: seq<Session>) {
    forall i :: 0 <= i < |ss| ==> ss[i].status == "completed" && HasItems(ss[i].images)
  }

  /** Strict equality on stored ids is symmetric and transitive. */
  lemma {:induction false} StrictEqSymTrans(a: Value, b: Value, c: Value)
    ensures StrictEq(a, b) ==> StrictEq(b, a)
    ensures StrictEq(a, b) && StrictEq(b, c) ==> StrictEq(a, c)
  {
  }

  lemma {:induction false} SaveKeepsUnique(ss: seq<Session>, s: Session)
    requires IdsUnique(ss)
    ensures IdsUnique(Save(ss, s))
  {
    var r := Save(ss, s);
    match FindSession(ss, s.taskId)
    case None =>
      forall i, j | 0 <= i < j < |r| ensures !StrictEq(r[i].taskId, r[j].taskId) {
        if j == |ss| {
          assert r[j] == s;
          StrictEqSymTrans(r[i].taskId, s.taskId, s.taskId);
        }
      }
    case Some(k) =>
      forall i, j | 0 <= i < j < |r| ensures !StrictEq(r[i].taskId, r[j].taskId) {
        if i == k {
          StrictEqSymTrans(ss[k].taskId, s.taskId, ss[j].taskId);
          StrictEqSymTrans(s.taskId, ss[k].taskId, ss[j].taskId);
        } else if j == k {
          StrictEqSymTrans(ss[i].taskId, s.taskId, ss[k].taskId);
          StrictEqSymTrans(s.taskId, ss[k].taskId, ss[k].taskId);
        }
      }
  }

  /** The `sessionData` object of a response; `None` is the TypeError of
      reading `task.params.prompt` when the body has no `params`. */
  function SessionOf(body: Value): (r: Option<Session>)
    ensures r.Some? <==> !Nullish(OptGet(body, "params"))
    ensures r.Some? ==>
      var params := OptGet(body, "params");
      r.value.timestamp == OptGet(body, "created_at") && r.value.taskType == OptGet(body, "task_type")
      && r.value.taskId == OptGet(body, "task_id") && r.value.status == "completed"
      && r.value.images == Or(OptGet(body, "data"), Arr([]))
      && r.value.prompt == OptGet(params, "prompt")
      && r.value.negativePrompt == OptGet(params, "negative_prompt")
      && r.value.dimensions == ToStr(OptGet(params, "width")) + "x" + ToStr(OptGet(params, "height"))
      && r.value.batchSize == OptGet(params, "batch_size")
  {
    var params := OptGet(body, "params");
    if Nullish(params) then None
    else
      Some(Session(
        OptGet(body, "created_at"), OptGet(body, "task_id"),
        OptGet(params, "prompt"), OptGet(params, "negative_prompt"),
        ToStr(OptGet(params, "width")) + "x" + ToStr(OptGet(params, "height")),
        OptGet(params, "batch_size"), Or(OptGet(body, "data"), Arr([])), "completed",
        OptGet(body, "task_type")))
  }

  /** `status === 'completed' && task.images.length > 0`. */
  predicate Completes(body: Value) {
    OptGet(body, "status") == Str("completed") && HasItems(OptGet(body, "data"))
  }

  /** `processTaskResponse`. A body without a truthy `task_id`, a response
      that is not a completion with images, and a completion without
      `params` (which throws) all leave the store as it was. */
  function ProcessTaskResponse(ss: seq<Session>, body: Value): (r: seq<Session>)
    ensures !Truthy(OptGet(body, "task_id")) || !Completes(body) || SessionOf(body).None? ==> r == ss
    ensures |ss| <= |r| <= |ss| + 1
  {
    if !Truthy(OptGet(body, "task_id")) then ss
    else if StrictEq(OptGet(body, "status"), Str("completed")) && HasItems(Or(OptGet(body, "data"), Arr([]))) then
      match SessionOf(body)
      case None => ss
      case Some(s) => Save(ss, s)
    else ss
  }

  /** The guard of `processTaskResponse` is exactly `Completes` once the
      session can be built: a stored session is always `Save` of it. */
  lemma {:induction false} ProcessIsSave(ss: seq<Session>, body: Value)
    ensures ProcessTaskResponse(ss, body) ==
      if Truthy(OptGet(body, "task_id")) && Completes(body) && SessionOf(body).Some?
      then Save(ss, SessionOf(body).value) else ss
  {
    var status := OptGet(body, "status");
    var data := OptGet(body, "data");
    StrictEqStr(status, "completed");
    if HasItems(data) {
      assert Truthy(data);
    }
    if !Truthy(data) {
      assert Or(data, Arr([])) == Arr([]);
    }
  }

  /** `processTaskResponse` keeps the store free of duplicate ids and holds
      only completed sessions with images. */
  lemma {:induction false} ProcessKeepsStore(ss: seq<Session>, body: Value)
    ensures IdsUnique(ss) ==> IdsUnique(ProcessTaskResponse(ss, body))
    ensures AllCompleted(ss) ==> AllCompleted(ProcessTaskResponse(ss, body))
  {
    if Truthy(OptGet(body, "task_id")) && Completes(body) && SessionOf(body).Some? {
      var s := SessionOf(body).value;
      assert ProcessTaskResponse(ss, body) == Save(ss, s) by {
        ProcessIsSave(ss, body);
      }
      if IdsUnique(ss) {
        SaveKeepsUnique(ss, s);
      }
      if AllCompleted(ss) {
        assert s.status == "completed" && HasItems(s.images) by {
          assert Truthy(OptGet(body, "data"));
        }
        SaveKeepsCompleted(ss, s);
      }
    } else {
      assert ProcessTaskResponse(ss, body) == ss by {
        ProcessIsSave(ss, body);
      }
    }
  }

  lemma {:induction false} SaveKeepsCompleted(ss: seq<Session>, s: Session)
    requires AllCompleted(ss) && s.status == "completed" && HasItems(s.images)
    ensures AllCompleted(Save(ss, s))
  {
  }

  /** A completion is stored: in the place of the session with the same
      task id, every other session unchanged, or appended at the end. */
  lemma {:induction false} CompletionStored(ss: seq<Session>, body: Value)
    requires Truthy(OptGet(body, "task_id")) && Completes(body) && SessionOf(body).Some?
    ensures var r := ProcessTaskResponse(ss, body);
      var s := SessionOf(body).value;
      (FindSession(ss, s.taskId).Some? ==>
         |r| == |ss| && r[FindSession(ss, s.taskId).value] == s
         && forall j :: 0 <= j < |ss| && !StrictEq(ss[j].taskId, s.taskId) ==> r[j] == ss[j])
      && (FindSession(ss, s.taskId).None? ==> r == ss + [s])
  {
    ProcessIsSave(ss, body);
  }

  /** An object standing for the images, with a positive own `length`,
      passes the completion test as an array would, and the session is
      stored with that object as its images. */
  lemma {:induction false} LengthObjectCompletes(ss: seq<Session>, id: string)
    requires |id| > 0 && FindSession(ss, Str(id)).None?
    ensures var images := Obj([("length", Num(1))]);
      var body := Obj([("task_id", Str(id)), ("status", Str("completed")), ("data", images), ("params", Obj([]))]);
      Completes(body) && |ProcessTaskResponse(ss, body)| == |ss| + 1
      && ProcessTaskResponse(ss, body)[|ss|].images == images
  {
    var images := Obj([("length", Num(1))]);
    var body := Obj([("task_id", Str(id)), ("status", Str("completed")), ("data", images), ("params", Obj([]))]);
    assert OptGet(body, "task_id") == Str(id) by {
      FieldFirst(body.fields, "task_id", 0);
    }
    assert OptGet(body, "status") == Str("completed") by {
      FieldFirst(body.fields, "status", 1);
    }
    assert OptGet(body, "data") == images by {
      FieldFirst(body.fields, "data", 2);
    }
    assert OptGet(body, "params") == Obj([]) by {
      FieldFirst(body.fields, "params", 3);
    }
    assert Len(images) == Some(1) by {
      FieldFirst(images.fields, "length", 0);
    }
    assert Completes(body);
    var s := SessionOf(body).value;
    assert s.taskId == Str(id) && s.images == images;
    CompletionStored(ss, body);
  }

  /** An array or object id is never strictly equal to a stored one, so a
      completion carrying one is always appended. */
  lemma {:induction false} ObjectIdAppends(ss: seq<Session>, body: Value)
    requires Truthy(OptGet(body, "task_id")) && Completes(body) && SessionOf(body).Some?
    requires OptGet(body, "task_id").Arr? || OptGet(body, "task_id").Obj?
    ensures ProcessTaskResponse(ss, body) == ss + [SessionOf(body).value]
  {
    ProcessIsSave(ss, body);
  }

  /** The XHR `readystatechange` listener at `readyState` 4: only a status
      of exactly 200 on a task API URL is processed; `parsed` is the outcome
      of `JSON.parse`, whose failure is caught. */
  function OnXhrDone(ss: seq<Session>, url: string, status: int, parsed: Option<Value>): (r: seq<Session>)
    ensures r != ss ==> status == 200 && IsTaskApiUrl(url) && parsed.Some?
    ensures status == 200 && IsTaskApiUrl(url) && parsed.Some? ==> r == ProcessTaskResponse(ss, parsed.value)
  {
    if status == 200 && IsTaskApiUrl(url) && parsed.Some? then ProcessTaskResponse(ss, parsed.value) else ss
  }

  /** The fetch wrapper: only an `ok` response on a task API URL. */
  function OnFetchDone(ss: seq<Session>, url: string, ok: bool, parsed: Option<Value>): (r: seq<Session>)
    ensures r != ss ==> ok && IsTaskApiUrl(url) && parsed.Some?
    ensures ok && IsTaskApiUrl(url) && parsed.Some? ==> r == ProcessTaskResponse(ss, parsed.value)
  {
    if ok && IsTaskApiUrl(url) && parsed.Some? then ProcessTaskResponse(ss, parsed.value) else ss
  }

  /** A completed task response delivered with status 200 is stored by
      the XHR listener, and the fetch wrapper stores the same on `ok`. */
  lemma {:induction false} HandlersStoreCompletion(ss: seq<Session>, url: string, body: Value)
    requires IsTaskApiUrl(url)
    requires Truthy(OptGet(body, "task_id")) && Completes(body) && SessionOf(body).Some?
    ensures SessionOf(body).value in OnXhrDone(ss, url, 200, Some(body))
    ensures OnFetchDone(ss, url, true, Some(body)) == OnXhrDone(ss, url, 200, Some(body))
  {
    var s := SessionOf(body).value;
    var r := ProcessTaskResponse(ss, body);
    CompletionStored(ss, body);
    if FindSession(ss, s.taskId).Some? {
      assert r[FindSession(ss, s.taskId).value] == s;
    } else {
      assert r == ss + [s] && r[|ss|] == s;
    }
  }

  // ---------------------------------------------------------------------
  // Statistics and the history view
  // ---------------------------------------------------------------------

  /** `extractedSessions.filter(s => s.status === 'completed')`: exactly
      the completed sessions of the store are kept (in their order, by
      `CompletedOnlyAppend`). */
  function CompletedOnly(ss: seq<Session>): (r: seq<Session>)
    ensures |r| <= |ss|
    ensures forall i :: 0 <= i < |r| ==> r[i].status == "completed"
    ensures forall x :: x in r <==> x in ss && x.status == "completed"
  {
    if |ss| == 0 then []
    else
      var rest := CompletedOnly(ss[1..]);
      assert ss == [ss[0]] + ss[1..];
      if ss[0].status == "completed" then [ss[0]] + rest else rest
  }

  /** The filter distributes over concatenation, so the kept sessions keep
      their relative order. */
  lemma {:induction false} CompletedOnlyAppend(a: seq<Session>, b: seq<Session>)
    ensures CompletedOnly(a + b) == CompletedOnly(a) + CompletedOnly(b)
    decreases |a|
  {
    if |a| == 0 {
      assert a + b == b;
    } else {
      assert (a + b)[1..] == a[1..] + b;
      CompletedOnlyAppend(a[1..], b);
    }
  }

  /** Every completed session is kept. */
  lemma {:induction false} CompletedOnlyKeeps(ss: seq<Session>, i: nat)
    requires i < |ss| && ss[i].status == "completed"
    ensures ss[i] in CompletedOnly(ss)
    decreases |ss|
  {
    if i > 0 {
      assert ss[i] == ss[1..][i - 1];
      CompletedOnlyKeeps(ss[1..], i - 1);
    }
  }

  lemma {:induction false} CompletedOnlyAll(ss: seq<Session>)
    requires AllCompleted(ss)
    ensures CompletedOnly(ss) == ss
  {
    if |ss| > 0 {
      assert AllCompleted(ss[1..]) by {
        forall i | 0 <= i < |ss| - 1 ensures ss[1..][i] == ss[i + 1] { }
      }
      CompletedOnlyAll(ss[1..]);
      assert ss == [ss[0]] + ss[1..];
    }
  }

  /** JavaScript `+` on two image counts, `None` standing for `NaN`. */
  function AddCounts(a: Option<nat>, b: Option<nat>): Option<nat> {
    if a.Some? && b.Some? then Some(a.value + b.value) else None
  }

  /** The sum of `images.length`; `None` when one of them has no length and
      the sum becomes `NaN`. */
  function SumImages(ss: seq<Session>): (r: Option<nat>)
    ensures r.Some? <==> forall i :: 0 <= i < |ss| ==> Len(ss[i].images).Some?
    ensures r.Some? ==> |ss| == 0 || r.value >= Len(ss[0].images).value
  {
    if |ss| == 0 then Some(0)
    else
      assert forall i :: 1 <= i < |ss| ==> ss[i] == ss[1..][i - 1];
      match (Len(ss[0].images), SumImages(ss[1..]))
      case (Some(n), Some(m)) => Some(n + m)
      case _ => None
  }

  /** The sum over two parts is the sum of the two sums. */
  lemma {:induction false} SumImagesAppend(a: seq<Session>, b: seq<Session>)
    ensures SumImages(a + b) == AddCounts(SumImages(a), SumImages(b))
    decreases |a|
  {
    if |a| == 0 {
      assert a + b == b;
    } else {
      assert (a + b)[1..] == a[1..] + b;
      assert (a + b)[0] == a[0];
      SumImagesAppend(a[1..], b);
    }
  }

  datatype Statistics = Statistics(total: nat, completed: nat, totalImages: Option<nat>)

  /** `updateStatistics`: every session, the completed ones, and the sum of
      the completed ones' `images.length`. */
  function UpdateStatistics(ss: seq<Session>): (r: Statistics)
    ensures r.total == |ss| && r.completed <= r.total
    ensures r.completed == |CompletedOnly(ss)| && r.totalImages == SumImages(CompletedOnly(ss))
  {
    var done := CompletedOnly(ss);
    Statistics(|ss|, |done|, SumImages(done))
  }

  /** One more session adds one to the total, and when it is completed,
      one to the completed count and its image count to the image total;
      any other session changes nothing else. */
  lemma {:induction false} StatisticsAfterAppend(ss: seq<Session>, s: Session)
    ensures UpdateStatistics(ss + [s]).total == UpdateStatistics(ss).total + 1
    ensures s.status == "completed" ==>
      UpdateStatistics(ss + [s]).completed == UpdateStatistics(ss).completed + 1
      && UpdateStatistics(ss + [s]).totalImages == AddCounts(UpdateStatistics(ss).totalImages, Len(s.images))
    ensures s.status != "completed" ==>
      UpdateStatistics(ss + [s]).completed == UpdateStatistics(ss).completed
      && UpdateStatistics(ss + [s]).totalImages == UpdateStatistics(ss).totalImages
  {
    CompletedOnlyAppend(ss, [s]);
    assert [s][1..] == [];
    var done := CompletedOnly(ss);
    if s.status == "completed" {
      assert CompletedOnly([s]) == [s];
      assert SumImages([s]) == Len(s.images) by {
        assert SumImages([s][1..]) == Some(0);
      }
      SumImagesAppend(done, [s]);
    } else {
      assert CompletedOnly([s]) == [];
      assert done + [] == done;
    }
  }

  /** On a store the handlers built, every session counts as completed and
      the image total is a number, at least one per session. */
  lemma {:induction false} StatisticsOfStore(ss: seq<Session>)
    requires AllCompleted(ss)
    ensures UpdateStatistics(ss).completed == |ss|
    ensures UpdateStatistics(ss).totalImages.Some? && UpdateStatistics(ss).totalImages.value >= |ss|
  {
    CompletedOnlyAll(ss);
    SumImagesAtLeast(ss);
  }

  lemma {:induction false} SumImagesAtLeast(ss: seq<Session>)
    requires AllCompleted(ss)
    ensures SumImages(ss).Some? && SumImages(ss).value >= |ss|
  {
    if |ss| > 0 {
      assert AllCompleted(ss[1..]) by {
        forall i | 0 <= i < |ss| - 1 ensures ss[1..][i] == ss[i + 1] { }
      }
      SumImagesAtLeast(ss[1..]);
    }
  }

  /** `s.reverse()`. */
  function Reverse<T>(s: seq<T>): (r: seq<T>)
    ensures |r| == |s|
    ensures forall i :: 0 <= i < |s| ==> r[i] == s[|s| - 1 - i]
  {
    if |s| == 0 then [] else Reverse(s[1..]) + [s[0]]
  }

  /** `extractedSessions.slice(-10).reverse()`: the ten most recent
      sessions, newest first. */
  function Recent(ss: seq<Session>): (r: seq<Session>)
    ensures |r| == if |ss| < 10 then |ss| else 10
    ensures forall i :: 0 <= i < |r| ==> r[i] == ss[|ss| - 1 - i]
  {
    Reverse(if |ss| < 10 then ss else ss[|ss| - 10..])
  }

  // ---------------------------------------------------------------------
  // CSV export
  // ---------------------------------------------------------------------

  const Columns := ["timestamp", "task_id", "prompt", "dimensions", "batch_size", "negative_prompt", "image_urls"]

  /** One row as written; `None` when `prompt.replace`,
      `negative_prompt.replace` or `images.join` throws. */
  function SessionRow(s: Session): (r: Option<seq<Csv.Cell>>)
    ensures r.Some? <==> s.prompt.Str? && s.negativePrompt.Str? && s.images.Arr?
    ensures r.Some? ==> |r.value| == 7
  {
    match (s.prompt, s.negativePrompt, s.images)
    case (Str(p), Str(n), Arr(items)) =>
      Some([Csv.Bare(JoinElem(s.timestamp)), Csv.Wrapped(ToStr(s.taskId)), Csv.Quoted(p),
            Csv.Bare(s.dimensions), Csv.Bare(JoinElem(s.batchSize)), Csv.Quoted(n),
            Csv.Quoted(JoinValues(items, "|"))])
    case _ => None
  }

  /** The CSV branch of `exportData` as written: only completed sessions,
      nothing when there are none, and nothing when any row throws. */
  function ExportCsv(ss: seq<Session>): (r: Option<string>)
    ensures |CompletedOnly(ss)| == 0 ==> r.None?
    ensures r.Some? <==> |CompletedOnly(ss)| > 0 && MapAll(CompletedOnly(ss), SessionRow).Some?
  {
    var done := CompletedOnly(ss);
    if |done| == 0 then None
    else match MapAll(done, SessionRow)
      case None => None
      case Some(rows) => Some(Csv.EncodeTable([Csv.Header(Columns)] + rows))
  }

  /** A completed Qwen task whose parameters carry no `negative_prompt`. */
  const NoNegativeBody := Obj([("task_id", Str("t1")), ("status", Str("completed")),
                               ("params", Obj([("prompt", Str("cat"))])), ("data", Arr([Str("u")]))])

  lemma {:induction false} NoNegativeBodyFields()
    ensures OptGet(NoNegativeBody, "task_id") == Str("t1")
    ensures OptGet(NoNegativeBody, "status") == Str("completed")
    ensures OptGet(NoNegativeBody, "data") == Arr([Str("u")])
    ensures OptGet(NoNegativeBody, "params") == Obj([("prompt", Str("cat"))])
    ensures OptGet(Obj([("prompt", Str("cat"))]), "negative_prompt") == Undefined
  {
  }

  /** A completion processed on an empty store is the only session. */
  lemma {:induction false} StoredInEmpty(body: Value)
    requires Truthy(OptGet(body, "task_id")) && Completes(body) && SessionOf(body).Some?
    ensures ProcessTaskResponse([], body) == [SessionOf(body).value]
  {
    ProcessIsSave([], body);
  }

  /** On a store of completed sessions, one row that throws stops the
      whole export. */
  lemma {:induction false} ExportFailsOnRow(ss: seq<Session>, i: nat)
    requires AllCompleted(ss) && i < |ss| && SessionRow(ss[i]).None?
    ensures ExportCsv(ss).None?
  {
    CompletedOnlyAll(ss);
  }

  lemma {:induction false} NoNegativeBodyStored()
    ensures ProcessTaskResponse([], NoNegativeBody) == [SessionOf(NoNegativeBody).value]
    ensures SessionOf(NoNegativeBody).value.negativePrompt == Undefined
  {
    assert Truthy(OptGet(NoNegativeBody, "task_id")) && Completes(NoNegativeBody) by {
      NoNegativeBodyFields();
      assert HasItems(Arr([Str("u")]));
    }
    assert SessionOf(NoNegativeBody).Some? && SessionOf(NoNegativeBody).value.negativePrompt == Undefined by {
      NoNegativeBodyFields();
    }
    StoredInEmpty(NoNegativeBody);
  }

  /** Such a task is stored, and then the export of the whole store fails. */
  lemma {:induction false} MissingNegativePromptBreaksExport()
    ensures var ss := ProcessTaskResponse([], NoNegativeBody);
      |ss| == 1 && ExportCsv(ss).None?
  {
    assert Truthy(OptGet(NoNegativeBody, "task_id")) && Completes(NoNegativeBody) by {
      NoNegativeBodyFields();
      assert HasItems(Arr([Str("u")]));
    }
    assert SessionOf(NoNegativeBody).Some? && SessionRow(SessionOf(NoNegativeBody).value).None? by {
      NoNegativeBodyFields();
    }
    StoredRowThrows(NoNegativeBody);
  }

  /** A completion whose row throws, stored on an empty store, leaves
      nothing to export. */
  lemma {:induction false} StoredRowThrows(body: Value)
    requires Truthy(OptGet(body, "task_id")) && Completes(body) && SessionOf(body).Some?
    requires SessionRow(SessionOf(body).value).None?
    ensures |ProcessTaskResponse([], body)| == 1 && ExportCsv(ProcessTaskResponse([], body)).None?
  {
    StoredInEmpty(body);
    var s := SessionOf(body).value;
    assert AllCompleted([s]) by {
      assert Truthy(OptGet(body, "data"));
    }
    ExportFailsOnRow([s], 0);
  }

  /** One row with the text fields read as `String(v ?? '')` and the URLs
      joined only when they are an array: a row never throws. */
  function SessionRowFixed(s: Session): (r: seq<Csv.Cell>)
    ensures |r| == 7
    ensures SessionRow(s).Some? ==> r == SessionRow(s).value
  {
    [Csv.Bare(JoinElem(s.timestamp)), Csv.Wrapped(ToStr(s.taskId)), Csv.Quoted(JoinElem(s.prompt)),
     Csv.Bare(s.dimensions), Csv.Bare(JoinElem(s.batchSize)), Csv.Quoted(JoinElem(s.negativePrompt)),
     Csv.Quoted(if s.images.Arr? then JoinValues(s.images.items, "|") else JoinElem(s.images))]
  }

  /** The export with the corrected rows. */
  function ExportCsvFixed(ss: seq<Session>): (r: Option<string>)
    ensures r.Some? <==> |CompletedOnly(ss)| > 0
    ensures ExportCsv(ss).Some? ==> r == ExportCsv(ss)
  {
    var done := CompletedOnly(ss);
    if |done| == 0 then None
    else
      var rows := seq(|done|, i requires 0 <= i < |done| => SessionRowFixed(done[i]));
      assert MapAll(done, SessionRow).Some? ==> MapAll(done, SessionRow).value == rows;
      Some(Csv.EncodeTable([Csv.Header(Columns)] + rows))
  }
}

=== FILE: js.dfy ===
/** The JSON values the userscripts receive from `JSON.parse`, and the
    JavaScript operators they apply to them: truthiness and `||`, property
    access (which throws on `null`/`undefined`) and optional chaining,
    strict equality, string conversion (`String(x)`, template literals,
    `Array.prototype.join`) and `JSON.stringify`. */
module Js {
  import opened Maybe
  import opened Text

  /** A JavaScript value as produced by `JSON.parse`, plus `undefined`.
      Numbers are integers; an object keeps its properties in insertion
      order. */
  datatype Value =
    | Undefined
    | Null
    | Bool(b: bool)
    | Num(n: int)
    | Str(s: string)
    | Arr(items: seq<Value>)
    | Obj(fields: seq<(string, Value)>)

  /** ECMAScript ToBoolean. */
  predicate Truthy(v: Value) {
    match v
    case Undefined => false
    case Null => false
    case Bool(b) => b
    case Num(n) => n != 0
    case Str(s) => |s| > 0
    case Arr(_) => true
    case Obj(_) => true
  }

  predicate Nullish(v: Value) {
    v.Undefined? || v.Null?
  }

  /** `a || b`: the first operand when it is truthy, otherwise the second. */
  function Or(a: Value, b: Value): (r: Value)
    ensures Truthy(r) <==> Truthy(a) || Truthy(b)
    ensures Truthy(a) ==> r == a
    ensures !Truthy(a) ==> r == b
  {
    if Truthy(a) then a else b
  }

  /** `a && b`. */
  function And(a: Value, b: Value): (r: Value)
    ensures Truthy(r) <==> Truthy(a) && Truthy(b)
  {
    if Truthy(a) then b else a
  }

  /** The value of the first property named `k`, `undefined` if none. */
  function Field(fields: seq<(string, Value)>, k: string): (r: Value)
    ensures !r.Undefined? ==> exists i :: 0 <= i < |fields| && fields[i] == (k, r)
    ensures (forall i :: 0 <= i < |fields| ==> fields[i].0 != k) ==> r.Undefined?
  {
    if |fields| == 0 then Undefined
    else if fields[0].0 == k then fields[0].1
    else
      var r := Field(fields[1..], k);
      assert forall i :: 0 <= i < |fields| - 1 ==> fields[1..][i] == fields[i + 1];
      r
  }

  /** The first property named `k` is the one read. */
  lemma {:induction false} FieldFirst(fields: seq<(string, Value)>, k: string, i: nat)
    requires i < |fields| && fields[i].0 == k
    requires forall j :: 0 <= j < i ==> fields[j].0 != k
    ensures Field(fields, k) == fields[i].1
  {
    if i > 0 {
      assert fields[0].0 != k;
      assert fields[1..][i - 1] == fields[i];
      FieldFirst(fields[1..], k, i - 1);
    }
  }

  /** `v.k`; `None` is the TypeError thrown for `null` and `undefined`.
      Strings and arrays answer `length`; other properties of primitives
      and arrays read as `undefined`. */
  function Get(v: Value, k: string): (r: Option<Value>)
    ensures r.None? <==> Nullish(v)
  {
    match v
    case Undefined => None
    case Null => None
    case Str(s) => Some(if k == "length" then Num(|s|) else Undefined)
    case Arr(items) => Some(if k == "length" then Num(|items|) else Undefined)
    case Obj(fields) => Some(Field(fields, k))
    case _ => Some(Undefined)
  }

  /** `v?.k`: `undefined` instead of a TypeError. */
  function OptGet(v: Value, k: string): (r: Value)
    ensures Nullish(v) ==> r.Undefined?
    ensures !Nullish(v) ==> Some(r) == Get(v, k)
  {
    if Nullish(v) then Undefined else Get(v, k).value
  }

  /** `v.includes` is a method: strings and arrays have one, every other
      value makes the call throw a TypeError. */
  predicate HasIncludes(v: Value) {
    v.Str? || v.Arr?
  }

  /** `Array.isArray(v)`. */
  predicate IsArray(v: Value) {
    v.Arr?
  }

  /** `typeof v === 'object'`, true of `null` too. */
  predicate IsObjectType(v: Value) {
    v.Null? || v.Arr? || v.Obj?
  }

  /** `v.length` when it is a count: the length of a string or an array,
      or an object's own `length` property when that is a number of at
      least zero. */
  function Len(v: Value): (r: Option<nat>)
    ensures r.Some? <==> v.Str? || v.Arr? || (v.Obj? && Field(v.fields, "length").Num? && Field(v.fields, "length").n >= 0)
    ensures v.Obj? && r.Some? ==> Field(v.fields, "length") == Num(r.value)
  {
    match v
    case Str(s) => Some(|s|)
    case Arr(items) => Some(|items|)
    case Obj(fields) =>
      var n := Field(fields, "length");
      if n.Num? && n.n >= 0 then Some(n.n) else None
    case _ => None
  }

  /** `v.length > 0` on a value that is not `null`/`undefined`: a non-empty
      string or array, or an object whose own `length` is a positive
      number. */
  predicate HasItems(v: Value) {
    Len(v).Some? && Len(v).value > 0
  }

  /** `a === b`. Values parsed separately are never the same array or
      object, so strict equality holds only between equal primitives. */
  predicate StrictEq(a: Value, b: Value) {
    match (a, b)
    case (Undefined, Undefined) => true
    case (Null, Null) => true
    case (Bool(x), Bool(y)) => x == y
    case (Num(x), Num(y)) => x == y
    case (Str(x), Str(y)) => x == y
    case _ => false
  }

  /** `a === "lit"`. */
  lemma {:induction false} StrictEqStr(a: Value, lit: string)
    ensures StrictEq(a, Str(lit)) <==> a == Str(lit)
  {
  }

  /** ECMAScript ToString, as used by template literals and `String(v)`. */
  function ToStr(v: Value): string {
    match v
    case Undefined => "undefined"
    case Null => "null"
    case Bool(b) => if b then "true" else "false"
    case Num(n) => IntToString(n)
    case Str(s) => s
    case Arr(items) =>
      Join(seq(|items|, i requires 0 <= i < |items| =>
        if Nullish(items[i]) then "" else ToStr(items[i])), ",")
    case Obj(_) => "[object Object]"
  }

  /** How `join` renders one element: `null` and `undefined` as empty. */
  function JoinElem(v: Value): string {
    if Nullish(v) then "" else ToStr(v)
  }

  /** `items.join(sep)`. */
  function JoinValues(items: seq<Value>, sep: string): string {
    Join(seq(|items|, i requires 0 <= i < |items| => JoinElem(items[i])), sep)
  }

  // ---------------------------------------------------------------------
  // JSON.stringify
  // ---------------------------------------------------------------------

  const HexDigits := "0123456789abcdef"

  /** A string character as JSON.stringify writes it. */
  function EscapeChar(c: char): string {
    if c == '\"' then "\\\""
    else if c == '\\' then "\\\\"
    else if c == '\n' then "\\n"
    else if c == '\r' then "\\r"
    else if c == '\t' then "\\t"
    else if c == '\U{0008}' then "\\b"
    else if c == '\U{000C}' then "\\f"
    else if (c as int) < 0x20 then
      "\\u00" + [HexDigits[c as int / 16], HexDigits[c as int % 16]]
    else [c]
  }

  /** Characters JSON.stringify copies into a string literal unchanged. */
  predicate Plain(c: char) {
    c != '\"' && c != '\\' && (c as int) >= 0x20
  }

  function EscapeString(s: string): (r: string)
    ensures (forall i :: 0 <= i < |s| ==> Plain(s[i])) ==> r == s
  {
    if |s| == 0 then "" else EscapeChar(s[0]) + EscapeString(s[1..])
  }

  function Quote(s: string): string {
    "\"" + EscapeString(s) + "\""
  }

  /** The JSON text of `v`. An `undefined` array element is written as
      `null`, and properties whose value is `undefined` are omitted. */
  function Json(v: Value): string {
    match v
    case Undefined => "null"
    case Null => "null"
    case Bool(b) => if b then "true" else "false"
    case Num(n) => IntToString(n)
    case Str(s) => Quote(s)
    case Arr(items) =>
      "[" + Join(seq(|items|, i requires 0 <= i < |items| => Json(items[i])), ",") + "]"
    case Obj(fields) =>
      "{" + Join(Members(fields, v), ",") + "}"
  }

  /** The `"key":value` members of an object, skipping `undefined` values. */
  function Members(fields: seq<(string, Value)>, ghost whole: Value): seq<string>
    requires forall i :: 0 <= i < |fields| ==> fields[i].1 < whole
    decreases whole, |fields|
  {
    if |fields| == 0 then []
    else
      var rest := Members(fields[1..], whole);
      if fields[0].1.Undefined? then rest
      else [Quote(fields[0].0) + ":" + Json(fields[0].1)] + rest
  }

  /** `JSON.stringify(v)`; `None` is the `undefined` it returns for
      `undefined`. */
  function Stringify(v: Value): (r: Option<string>)
    ensures r.None? <==> v.Undefined?
  {
    if v.Undefined? then None else Some(Json(v))
  }

  lemma {:induction false} MembersShowKey(fields: seq<(string, Value)>, whole: Value, i: nat)
    requires forall j :: 0 <= j < |fields| ==> fields[j].1 < whole
    requires i < |fields| && !fields[i].1.Undefined?
    ensures exists j :: (0 <= j < |Members(fields, whole)|
                         && Members(fields, whole)[j] == Quote(fields[i].0) + ":" + Json(fields[i].1))
    decreases |fields|
  {
    var ms := Members(fields, whole);
    if i == 0 {
      assert ms[0] == Quote(fields[0].0) + ":" + Json(fields[0].1);
    } else {
      var rest := Members(fields[1..], whole);
      MembersShowKey(fields[1..], whole, i - 1);
      assert fields[1..][i - 1] == fields[i];
      var j :| 0 <= j < |rest| && rest[j] == Quote(fields[i].0) + ":" + Json(fields[i].1);
      if fields[0].1.Undefined? {
        assert ms == rest;
      } else {
        assert ms[j + 1] == rest[j];
      }
    }
  }

  /** A property whose value is not `undefined` shows up in the object's
      JSON text as its quoted name. */
  lemma {:induction false} JsonShowsKey(fields: seq<(string, Value)>, i: nat)
    requires i < |fields| && !fields[i].1.Undefined?
    requires forall c :: 0 <= c < |fields[i].0| ==> Plain(fields[i].0[c])
    ensures Contains(Json(Obj(fields)), "\"" + fields[i].0 + "\"")
  {
    var whole := Obj(fields);
    var k := fields[i].0;
    var ms := Members(fields, whole);
    MembersShowKey(fields, whole, i);
    var j :| 0 <= j < |ms| && ms[j] == Quote(k) + ":" + Json(fields[i].1);
    JoinContains(ms, ",", j);
    ContainsInfix("{", Join(ms, ","), "}", ms[j]);
    assert Quote(k) == "\"" + k + "\"";
    assert OccursAt(ms[j], Quote(k), 0) by {
      assert ms[j][0..|Quote(k)|] == Quote(k);
    }
    ContainsTrans(Json(whole), ms[j], Quote(k));
  }
}

=== FILE: maybe.dfy ===
/** The optional value used wherever the scripts return `null`/`undefined`
    or a Python function returns `None`, and for the outcome of a step that
    can throw (a `TypeError`, a `ValueError`, a failed `JSON.parse`). */
module Maybe {

  datatype Option<+T> = None | Some(value: T) {

    /** The value, or `default` when there is none (JavaScript `x ?? d`). */
    function GetOr(default: T): T {
      match this
      case Some(v) => v
      case None => default
    }
  }

  /** Applies a step that can throw to every element in order: all the
      results, or `None` as soon as one step throws (a `forEach` whose
      callback throws builds nothing). */
  function MapAll<T, U>(xs: seq<T>, f: T -> Option<U>): (r: Option<seq<U>>)
    ensures r.Some? <==> forall i :: 0 <= i < |xs| ==> f(xs[i]).Some?
    ensures r.Some? ==> |r.value| == |xs| && forall i :: 0 <= i < |xs| ==> r.value[i] == f(xs[i]).value
  {
    if |xs| == 0 then Some([])
    else
      assert forall i :: 1 <= i < |xs| ==> xs[i] == xs[1..][i - 1];
      match (f(xs[0]), MapAll(xs[1..], f))
      case (Some(y), Some(ys)) => Some([y] + ys)
      case _ => None
  }

  /** When every step yields its expected value, the whole map does. */
  lemma {:induction false} MapAllEach<T, U>(xs: seq<T>, f: T -> Option<U>, ys: seq<U>)
    requires |xs| == |ys| && forall i :: 0 <= i < |xs| ==> f(xs[i]) == Some(ys[i])
    ensures MapAll(xs, f) == Some(ys)
  {
    var r := MapAll(xs, f);
    assert r.Some?;
    assert r.value == ys;
  }
}

=== FILE: ordered.dfy ===
/** Insertion-ordered keyed collections: the record arrays the userscripts
    search with `findIndex`/`find` and overwrite or push onto, JavaScript
    objects assigned with `obj[k] = v`, and Python dictionaries assigned with
    `d[k] = v`. All of them keep an existing entry in its place and append a
    new one at the end. */
module Ordered {
  import opened Maybe

  /** No two elements share a key. */
  predicate KeysUnique<T, K(==)>(s: seq<T>, key: T -> K) {
    forall i, j :: 0 <= i < j < |s| ==> key(s[i]) != key(s[j])
  }

  predicate HasKey<T, K(==)>(s: seq<T>, key: T -> K, k: K) {
    exists i :: 0 <= i < |s| && key(s[i]) == k
  }

  /** The position of the first element whose key is `k`. */
  function IndexOfKey<T, K(==)>(s: seq<T>, key: T -> K, k: K): (r: Option<nat>)
    ensures r.Some? ==> r.value < |s| && key(s[r.value]) == k
    ensures r.Some? ==> forall j :: 0 <= j < r.value ==> key(s[j]) != k
    ensures r.None? <==> !HasKey(s, key, k)
  {
    if |s| == 0 then None
    else if key(s[0]) == k then Some(0)
    else
      match IndexOfKey(s[1..], key, k)
      case None =>
        assert forall j :: 1 <= j < |s| ==> s[j] == s[1..][j - 1];
        None
      case Some(i) =>
        assert s[i + 1] == s[1..][i];
        Some(i + 1)
  }

  /** The first element whose key is `k`. */
  function Lookup<T, K(==)>(s: seq<T>, key: T -> K, k: K): (r: Option<T>)
    ensures r.Some? ==> key(r.value) == k && r.value in s
    ensures r.None? <==> !HasKey(s, key, k)
  {
    match IndexOfKey(s, key, k)
    case None => None
    case Some(i) => Some(s[i])
  }

  /** Overwrite the first element with `x`'s key by `x`, or append `x`. */
  function Upsert<T, K(==)>(s: seq<T>, key: T -> K, x: T): (r: seq<T>)
    ensures HasKey(s, key, key(x)) ==> |r| == |s|
    ensures !HasKey(s, key, key(x)) ==> r == s + [x]
    ensures forall i :: 0 <= i < |s| && key(s[i]) != key(x) ==> r[i] == s[i]
    ensures KeysUnique(s, key) ==> KeysUnique(r, key)
  {
    match IndexOfKey(s, key, key(x))
    case None => s + [x]
    case Some(i) => s[i := x]
  }

  /** After an upsert, looking up `x`'s key finds `x`: in the place of the
      entry it replaced, or at the end. */
  lemma {:induction false} LookupUpsertSame<T, K>(s: seq<T>, key: T -> K, x: T)
    ensures Lookup(Upsert(s, key, x), key, key(x)) == Some(x)
    ensures IndexOfKey(s, key, key(x)).Some? ==>
      IndexOfKey(Upsert(s, key, x), key, key(x)) == IndexOfKey(s, key, key(x))
    ensures IndexOfKey(s, key, key(x)).None? ==> IndexOfKey(Upsert(s, key, x), key, key(x)) == Some(|s|)
  {
    var r := Upsert(s, key, x);
    match IndexOfKey(s, key, key(x))
    case None =>
      assert r[|s|] == x;
      assert IndexOfKey(r, key, key(x)) == Some(|s|);
    case Some(i) =>
      assert r[i] == x;
      assert IndexOfKey(r, key, key(x)) == Some(i);
  }

  /** An upsert leaves every other key's entry as it was. */
  lemma {:induction false} LookupUpsertOther<T, K>(s: seq<T>, key: T -> K, x: T, k: K)
    requires k != key(x)
    ensures Lookup(Upsert(s, key, x), key, k) == Lookup(s, key, k)
  {
    var r := Upsert(s, key, x);
    match IndexOfKey(s, key, k)
    case None =>
      assert forall j :: 0 <= j < |r| ==> key(r[j]) != k by {
        forall j | 0 <= j < |r| ensures key(r[j]) != k {
          if j < |s| && key(s[j]) != key(x) {
            assert r[j] == s[j];
          }
        }
      }
    case Some(i) =>
      assert r[i] == s[i];
      assert IndexOfKey(r, key, k) == Some(i);
  }

  /** A second upsert under the same key overwrites the first one:
      last write wins, in the first one's place. */
  lemma {:induction false} UpsertTwice<T, K>(s: seq<T>, key: T -> K, x: T, y: T)
    requires key(x) == key(y)
    ensures Upsert(Upsert(s, key, x), key, y) == Upsert(s, key, y)
  {
    var r := Upsert(s, key, x);
    match IndexOfKey(s, key, key(x))
    case None =>
      assert r[|s|] == x;
      assert IndexOfKey(r, key, key(y)) == Some(|s|);
    case Some(i) =>
      assert r[i] == x;
      assert IndexOfKey(r, key, key(y)) == Some(i);
  }

  /** Keys present before an upsert are still present after it. */
  lemma {:induction false} UpsertKeepsKeys<T, K>(s: seq<T>, key: T -> K, x: T, k: K)
    requires HasKey(s, key, k)
    ensures HasKey(Upsert(s, key, x), key, k)
  {
    var i :| 0 <= i < |s| && key(s[i]) == k;
    var r := Upsert(s, key, x);
    if key(s[i]) != key(x) {
      assert r[i] == s[i];
    } else {
      LookupUpsertSame(s, key, x);
    }
  }

  /** `s.filter(e => key(e) === k).length`. */
  function CountKey<T, K(==)>(s: seq<T>, key: T -> K, k: K): nat {
    if |s| == 0 then 0 else (if key(s[0]) == k then 1 else 0) + CountKey(s[1..], key, k)
  }

  lemma {:induction false} CountKeyAbsent<T, K>(s: seq<T>, key: T -> K, k: K)
    requires !HasKey(s, key, k)
    ensures CountKey(s, key, k) == 0
  {
    if |s| > 0 {
      assert forall j :: 0 <= j < |s| - 1 ==> s[1..][j] == s[j + 1];
      CountKeyAbsent(s[1..], key, k);
    }
  }

  /** With unique keys, a present key is counted exactly once. */
  lemma {:induction false} CountKeyUnique<T, K>(s: seq<T>, key: T -> K, k: K)
    requires KeysUnique(s, key) && HasKey(s, key, k)
    ensures CountKey(s, key, k) == 1
  {
    assert forall j :: 0 <= j < |s| - 1 ==> s[1..][j] == s[j + 1];
    if key(s[0]) == k {
      CountKeyAbsent(s[1..], key, k);
    } else {
      CountKeyUnique(s[1..], key, k);
    }
  }

  /** Remove the first element whose key is `k`; nothing when there is none. */
  function RemoveKey<T, K(==)>(s: seq<T>, key: T -> K, k: K): (r: seq<T>)
    ensures HasKey(s, key, k) ==> |r| == |s| - 1
    ensures !HasKey(s, key, k) ==> r == s
    ensures KeysUnique(s, key) ==> !HasKey(r, key, k) && KeysUnique(r, key)
    ensures forall y :: y in r ==> y in s
  {
    match IndexOfKey(s, key, k)
    case None => s
    case Some(i) =>
      var r := s[..i] + s[i + 1..];
      assert forall j :: 0 <= j < |r| ==> r[j] == (if j < i then s[j] else s[j + 1]);
      r
  }

  // ---------------------------------------------------------------------
  // Objects and dictionaries as (key, value) entries
  // ---------------------------------------------------------------------

  function EntryKey<K, V>(e: (K, V)): K {
    e.0
  }

  /** `d[k]`, or `None` when `k` is absent. */
  function Get<K(==), V>(d: seq<(K, V)>, k: K): (r: Option<V>)
    ensures r.Some? <==> HasKey(d, EntryKey, k)
    ensures r.Some? ==> (k, r.value) in d
  {
    match Lookup(d, EntryKey, k)
    case None => None
    case Some(e) => Some(e.1)
  }

  /** `d[k] = v`. */
  function Assign<K(==,!new), V>(d: seq<(K, V)>, k: K, v: V): (r: seq<(K, V)>)
    ensures Get(r, k) == Some(v)
    ensures forall k' :: k' != k ==> Get(r, k') == Get(d, k')
    ensures KeysUnique(d, EntryKey) ==> KeysUnique(r, EntryKey)
    ensures !HasKey(d, EntryKey, k) ==> r == d + [(k, v)]
    ensures HasKey(d, EntryKey, k) ==> |r| == |d|
    ensures HasKey(d, EntryKey, k) ==> r == d[IndexOfKey(d, EntryKey, k).value := (k, v)]
    ensures forall i :: 0 <= i < |r| ==> r[i] in d || r[i] == (k, v)
  {
    LookupUpsertSame(d, EntryKey, (k, v));
    forall k' | k' != k ensures Get(Upsert(d, EntryKey, (k, v)), k') == Get(d, k') {
      LookupUpsertOther(d, EntryKey, (k, v), k');
    }
    Upsert(d, EntryKey, (k, v))
  }

  /** JavaScript `{ ...prev, ...added }` and `Object.assign(prev, added)`, Python `prev.update(added)`: the keys of `prev` in their places, then the
      new keys of `added` in order, each assigned in turn. */
  function Merge<K(==,!new), V>(prev: seq<(K, V)>, added: seq<(K, V)>): (r: seq<(K, V)>)
    ensures |added| == 0 ==> r == prev
    decreases |added|
  {
    if |added| == 0 then prev else Merge(Assign(prev, added[0].0, added[0].1), added[1..])
  }

  /** What the spread promises: a key of `added` takes its value from
      `added`, every other key keeps its value from `prev`, the keys are
      those of either side, and no key is duplicated. */
  lemma {:induction false} MergeSpec<K(!new), V>(prev: seq<(K, V)>, added: seq<(K, V)>)
    requires KeysUnique(added, EntryKey)
    ensures var r := Merge(prev, added);
      (forall k :: !HasKey(added, EntryKey, k) ==> Get(r, k) == Get(prev, k))
      && (forall k :: HasKey(added, EntryKey, k) ==> Get(r, k) == Get(added, k))
      && (forall k :: HasKey(r, EntryKey, k) <==> HasKey(prev, EntryKey, k) || HasKey(added, EntryKey, k))
      && (KeysUnique(prev, EntryKey) ==> KeysUnique(r, EntryKey))
    decreases |added|
  {
    if |added| > 0 {
      var step := Assign(prev, added[0].0, added[0].1);
      var tail := added[1..];
      var r := Merge(prev, added);
      assert r == Merge(step, tail);
      assert KeysUnique(tail, EntryKey) by {
        forall i, j | 0 <= i < j < |tail| ensures tail[i].0 != tail[j].0 {
          assert tail[i] == added[i + 1] && tail[j] == added[j + 1];
        }
      }
      assert !HasKey(tail, EntryKey, added[0].0) by {
        forall i | 0 <= i < |tail| ensures tail[i].0 != added[0].0 {
          assert tail[i] == added[i + 1];
        }
      }
      MergeSpec(step, tail);
      forall k ensures HasKey(added, EntryKey, k) <==> k == added[0].0 || HasKey(tail, EntryKey, k) {
        HasKeyCons(added, k);
      }
      forall k ensures HasKey(step, EntryKey, k) <==> HasKey(prev, EntryKey, k) || k == added[0].0 {
        assert Get(step, k).Some? <==> HasKey(step, EntryKey, k);
        assert Get(prev, k).Some? <==> HasKey(prev, EntryKey, k);
      }
      forall k | HasKey(added, EntryKey, k) ensures Get(r, k) == Get(added, k) {
        if k == added[0].0 {
          GetHead(added, k);
        } else {
          GetTail(added, k);
        }
      }
    }
  }

  lemma {:induction false} HasKeyCons<K, V>(d: seq<(K, V)>, k: K)
    requires |d| > 0
    ensures HasKey(d, EntryKey, k) <==> k == d[0].0 || HasKey(d[1..], EntryKey, k)
  {
    if HasKey(d, EntryKey, k) && k != d[0].0 {
      var i :| 0 <= i < |d| && d[i].0 == k;
      assert d[1..][i - 1].0 == k;
    }
    if HasKey(d[1..], EntryKey, k) {
      var i :| 0 <= i < |d| - 1 && d[1..][i].0 == k;
      assert d[i + 1].0 == k;
    }
  }

  lemma {:induction false} GetHead<K, V>(d: seq<(K, V)>, k: K)
    requires |d| > 0 && d[0].0 == k
    ensures Get(d, k) == Some(d[0].1)
  {
    assert IndexOfKey(d, EntryKey, k) == Some(0);
  }

  lemma {:induction false} GetTail<K, V>(d: seq<(K, V)>, k: K)
    requires |d| > 0 && d[0].0 != k
    ensures Get(d, k) == Get(d[1..], k)
  {
    match IndexOfKey(d[1..], EntryKey, k)
    case None =>
      assert forall i :: 1 <= i < |d| ==> d[i] == d[1..][i - 1];
    case Some(i) =>
      assert d[i + 1] == d[1..][i];
      assert forall j :: 1 <= j < i + 1 ==> d[j] == d[1..][j - 1];
  }

  /** The entry at `i` is found when no earlier entry has its key. */
  lemma {:induction false} GetAt<K, V>(d: seq<(K, V)>, i: nat)
    requires i < |d| && forall j :: 0 <= j < i ==> d[j].0 != d[i].0
    ensures Get(d, d[i].0) == Some(d[i].1)
  {
    if i == 0 {
      GetHead(d, d[0].0);
    } else {
      GetTail(d, d[i].0);
      assert d[1..][i - 1] == d[i];
      GetAt(d[1..], i - 1);
    }
  }

  /** Merging the same entries twice is merging them once. */
  lemma {:induction false} MergeIdempotent<K(!new), V>(prev: seq<(K, V)>, added: seq<(K, V)>, k: K)
    requires KeysUnique(added, EntryKey)
    ensures Get(Merge(Merge(prev, added), added), k) == Get(Merge(prev, added), k)
  {
    MergeSpec(prev, added);
    MergeSpec(Merge(prev, added), added);
  }

  /** Python `del d[k]`: the entry for `k` is gone and every other key keeps
      its value and place. */
  function Unset<K(==,!new), V(!new)>(d: seq<(K, V)>, k: K): (r: seq<(K, V)>)
    ensures !HasKey(r, EntryKey, k)
    ensures forall k' :: k' != k ==> Get(r, k') == Get(d, k')
    ensures KeysUnique(d, EntryKey) ==> KeysUnique(r, EntryKey)
    ensures forall e :: e in r <==> e in d && e.0 != k
  {
    if |d| == 0 then []
    else
      var rest := Unset(d[1..], k);
      if d[0].0 == k then
        forall k' | k' != k ensures Get(rest, k') == Get(d, k') {
          GetTail(d, k');
        }
        rest
      else
        var r := [d[0]] + rest;
        assert r[1..] == rest;
        forall k' | k' != k ensures Get(r, k') == Get(d, k') {
          if k' == d[0].0 {
            GetHead(r, k');
            GetHead(d, k');
          } else {
            GetTail(r, k');
            GetTail(d, k');
          }
        }
        HasKeyCons(r, k);
        assert KeysUnique(d, EntryKey) ==> KeysUnique(r, EntryKey) by {
          if KeysUnique(d, EntryKey) {
            assert KeysUnique(d[1..], EntryKey);
            forall j | 0 <= j < |rest| ensures rest[j].0 != d[0].0 {
              assert rest[j] in d[1..];
              var q :| 0 <= q < |d[1..]| && d[1..][q] == rest[j];
              assert d[q + 1] == rest[j];
            }
          }
        }
        r
  }

  /** The keys in insertion order. */
  function Keys<K, V>(d: seq<(K, V)>): (r: seq<K>)
    ensures |r| == |d| && forall i :: 0 <= i < |d| ==> r[i] == d[i].0
  {
    seq(|d|, i requires 0 <= i < |d| => d[i].0)
  }
}

=== FILE: scan.dfy ===
/** Character-class runs: what a greedy regular-expression group such as
    `([a-zA-Z0-9\-]+)` or `([^"]+)` captures when it starts at a given
    position. */
module Scan {

  /** The character classes the scripts' patterns use. */
  datatype Class =
    | IdChars        // [a-zA-Z0-9\-]
    | LowerHexChars  // [a-f0-9]
    | HexChars       // [a-fA-F0-9\-]
    | NonQuote       // [^"]

  predicate In(ok: Class, c: char) {
    match ok
    case IdChars => 'a' <= c <= 'z' || 'A' <= c <= 'Z' || '0' <= c <= '9' || c == '-'
    case LowerHexChars => '0' <= c <= '9' || 'a' <= c <= 'f'
    case HexChars => '0' <= c <= '9' || 'a' <= c <= 'f' || 'A' <= c <= 'F' || c == '-'
    case NonQuote => c != '\"'
  }

  /** Every character of `t` is in the class `ok`. */
  predicate AllIn(t: string, ok: Class) {
    forall k :: 0 <= k < |t| ==> In(ok, t[k])
  }

  /** The length of the longest run of `ok` characters starting at `i`. */
  function Run(s: string, i: nat, ok: Class): (n: nat)
    requires i <= |s|
    ensures i + n <= |s|
    ensures AllIn(s[i..i + n], ok)
    ensures i + n < |s| ==> !In(ok, s[i + n])
    decreases |s| - i
  {
    if i < |s| && In(ok, s[i]) then
      var n := 1 + Run(s, i + 1, ok);
      var t := s[i..i + n];
      var u := s[i + 1..i + n];
      assert forall k :: 1 <= k < n ==> t[k] == u[k - 1];
      n
    else 0
  }

  /** A run of exactly `n` class characters that the text then leaves is
      what `Run` measures. */
  lemma {:induction false} RunExact(s: string, i: nat, n: nat, ok: Class)
    requires i + n <= |s|
    requires AllIn(s[i..i + n], ok)
    requires i + n == |s| || !In(ok, s[i + n])
    ensures Run(s, i, ok) == n
    decreases n
  {
    if n > 0 {
      var t := s[i..i + n];
      var u := s[i + 1..i + n];
      assert forall k :: 0 <= k < n - 1 ==> u[k] == t[k + 1];
      RunExact(s, i + 1, n - 1, ok);
    }
  }
}

=== FILE: session_extractor.dfy ===
/** The freeaiimage.net page-scanning extractor: the current session, its
    status labels, the parameter merge, and the `extractedData` list with
    its CSV export.

    `completeSession` pushes the current session object itself, so later
    changes to the current session show in every entry that holds it. The
    model keeps that sharing explicit: `extractedData` is the sessions
    frozen when a new session replaced them, followed by the current
    session once per push. The clock is the parameter `now`. */
module SessionExtractor {
  import opened Maybe
  import opened Text
  import Js
  import opened Ordered
  import Csv

  // ---------------------------------------------------------------------
  // Status labels
  // ---------------------------------------------------------------------

  /** `getStatusText`. */
  function StatusText(status: string): (r: string)
    ensures status !in {"waiting", "generating", "completed", "error"} ==> r == "未知状态"
  {
    if status == "waiting" then "等待开始"
    else if status == "generating" then "生成中..."
    else if status == "completed" then "已完成"
    else if status == "error" then "发生错误"
    else "未知状态"
  }

  /** `getStatusClass`. */
  function StatusClass(status: string): (r: string)
    ensures r in {"status-pending", "status-success", "status-error"}
  {
    if status == "waiting" || status == "generating" then "status-pending"
    else if status == "completed" then "status-success"
    else if status == "error" then "status-error"
    else "status-pending"
  }

  /** The label and the style agree: success is exactly the completed
      label, error exactly the error label, and every unknown status is
      shown as pending. */
  lemma {:induction false} StatusViewsAgree(status: string)
    ensures StatusClass(status) == "status-success" <==> StatusText(status) == "已完成"
    ensures StatusClass(status) == "status-error" <==> StatusText(status) == "发生错误"
    ensures StatusText(status) == "未知状态" ==> StatusClass(status) == "status-pending"
    ensures StatusText(status) != "未知状态" <==> status in {"waiting", "generating", "completed", "error"}
  {
  }

  // ---------------------------------------------------------------------
  // Sessions
  // ---------------------------------------------------------------------

  /** A parameter object: property names and string values in insertion
      order. */
  type Params = seq<(string, string)>

  datatype Session = Session(
    timestamp: string,
    prompt: string,
    parameters: Params,
    status: string,
    imageUrl: Option<string>,
    apiCalls: seq<Js.Value>)

  /** `currentSession`, the sessions no longer current, how often the
      current one has been pushed since it started, and `apiInterceptions`. */
  datatype Extractor = Extractor(
    frozen: seq<Session>,
    current: Option<Session>,
    pushes: nat,
    interceptions: seq<Js.Value>)

  const Initial := Extractor([], None, 0, [])

  function Repeat<T>(x: T, n: nat): (r: seq<T>)
    ensures |r| == n && forall i :: 0 <= i < n ==> r[i] == x
  {
    if n == 0 then [] else Repeat(x, n - 1) + [x]
  }

  /** `extractedData` as the page sees it. */
  function Data(e: Extractor): (r: seq<Session>)
    ensures |r| == |e.frozen| + (if e.current.Some? then e.pushes else 0)
    ensures r[..|e.frozen|] == e.frozen
  {
    e.frozen + (if e.current.Some? then Repeat(e.current.value, e.pushes) else [])
  }

  /** `startNewSession`: a waiting session with no image and no parameters
      becomes current; `extractedData` is unchanged. */
  function StartNewSession(e: Extractor, prompt: string, now: string): (r: Extractor)
    ensures r.current == Some(Session(now, prompt, [], "waiting", None, []))
    ensures Data(r) == Data(e) && r.pushes == 0 && r.interceptions == e.interceptions
  {
    Extractor(Data(e), Some(Session(now, prompt, [], "waiting", None, [])), 0, e.interceptions)
  }

  /** `checkPromptInputs`, given the trimmed value of the first prompt field
      that is not blank: a new session starts only when the prompt differs
      from the current one. */
  function CheckPromptInput(e: Extractor, found: Option<string>, now: string): (r: Extractor)
    ensures Data(r) == Data(e)
    ensures found.None? ==> r == e
    ensures found.Some? && e.current.Some? && e.current.value.prompt == found.value ==> r == e
    ensures found.Some? && (e.current.None? || e.current.value.prompt != found.value) ==>
      r == StartNewSession(e, found.value, now)
  {
    match found
    case None => e
    case Some(p) =>
      if e.current.None? || e.current.value.prompt != p then StartNewSession(e, p, now) else e
  }

  /** Seeing the same prompt again does not restart the session. */
  lemma {:induction false} SamePromptKeepsSession(e: Extractor, p: string, now: string, later: string)
    ensures var r := CheckPromptInput(e, Some(p), now);
      CheckPromptInput(r, Some(p), later) == r
  {
  }

  /** `completeSession`: the current session takes a copy of the API calls
      seen so far and is pushed once more. */
  function CompleteSession(e: Extractor): (r: Extractor)
    ensures e.current.None? ==> r == e
    ensures e.current.Some? ==>
      var d := Data(r);
      |d| == |Data(e)| + 1 && d[..|e.frozen|] == e.frozen
      && d[|d| - 1] == e.current.value.(apiCalls := e.interceptions)
  {
    match e.current
    case None => e
    case Some(s) => e.(current := Some(s.(apiCalls := e.interceptions)), pushes := e.pushes + 1)
  }

  /** The current session with a new status. */
  function WithStatus(e: Extractor, status: string): (r: Extractor)
    requires e.current.Some?
    ensures r.current == Some(e.current.value.(status := status))
    ensures r.frozen == e.frozen && r.pushes == e.pushes && r.interceptions == e.interceptions
  {
    e.(current := Some(e.current.value.(status := status)))
  }

  /** `checkGenerationStatus` as evidently intended, with its two
      `:contains` selectors read as text tests, given whether any loading
      indicator is on the page. */
  function CheckGenerationStatus(e: Extractor, generating: bool): (r: Extractor)
    ensures e.current.None? ==> r == e
  {
    match e.current
    case None => e
    case Some(s) =>
      if generating then WithStatus(e, "generating")
      else if s.status == "generating" then CompleteSession(WithStatus(e, "completed"))
      else e
  }

  /** A session is completed exactly when it was seen generating and the
      indicator has gone: then one entry is pushed, the completed session
      with the current API calls; at every other tick nothing is pushed. */
  lemma {:induction false} GenerationTransition(e: Extractor, generating: bool)
    requires e.current.Some?
    ensures var r := CheckGenerationStatus(e, generating);
      var fires := !generating && e.current.value.status == "generating";
      (fires <==> |Data(r)| == |Data(e)| + 1)
      && (!fires ==> |Data(r)| == |Data(e)|)
      && (fires ==> r.current.value.status == "completed"
                    && Data(r)[|Data(r)| - 1] == e.current.value.(status := "completed", apiCalls := e.interceptions))
      && (generating ==> r.current.value.status == "generating")
  {
  }

  /** A completed session that the page shows generating again is pushed a
      second time when it stops: the same session twice in `extractedData`. */
  lemma {:induction false} RegenerationPushesAgain(e: Extractor)
    requires e.current.Some? && e.current.value.status == "completed"
    ensures var r := CheckGenerationStatus(CheckGenerationStatus(e, true), false);
      |Data(r)| == |Data(e)| + 1
  {
  }

  /** The loop's test on an image's `src`: not empty and not the bare
      `data:` prefix. */
  predicate Usable(src: string) {
    |src| > 0 && src != "data:"
  }

  /** The loop of `checkGeneratedImages` over its selectors, given for each
      selector the `src` of the first element it matches (`None` when it
      matches none): the first `src` that passes the test, found by moving
      on to the next selector whenever one fails it. */
  function FirstUsable(srcs: seq<Option<string>>): (r: Option<string>)
    ensures r.None? <==> forall i :: 0 <= i < |srcs| ==> srcs[i].None? || !Usable(srcs[i].value)
    ensures r.Some? ==> Usable(r.value) && exists i :: 0 <= i < |srcs| && srcs[i] == r && forall j :: 0 <= j < i ==> srcs[j].None? || !Usable(srcs[j].value)
  {
    if |srcs| == 0 then None
    else if srcs[0].Some? && Usable(srcs[0].value) then srcs[0]
    else
      var r := FirstUsable(srcs[1..]);
      assert forall i :: 1 <= i < |srcs| ==> srcs[i] == srcs[1..][i - 1];
      if r.Some? then
        var i :| 0 <= i < |srcs[1..]| && srcs[1..][i] == r && forall j :: 0 <= j < i ==> srcs[1..][j].None? || !Usable(srcs[1..][j].value);
        assert srcs[i + 1] == r;
        r
      else r
  }

  /** `checkGeneratedImages`, given `src`, the first image `src` that passes
      the loop's test (FirstUsable): a session without an image takes it and
      is completed. The test is repeated here, so any other argument
      changes nothing. */
  function CheckGeneratedImage(e: Extractor, src: Option<string>): (r: Extractor)
    ensures src.None? || e.current.None? ==> r == e
    ensures e.current.Some? && e.current.value.imageUrl.Some? ==> r == e
  {
    match (src, e.current)
    case (Some(u), Some(s)) =>
      if Usable(u) && s.imageUrl.None? then
        CompleteSession(e.(current := Some(s.(imageUrl := Some(u), status := "completed"))))
      else e
    case _ => e
  }

  /** A usable image completes the session once; the next tick sees the
      image and does nothing. */
  lemma {:induction false} ImageCompletesOnce(e: Extractor, u: string, v: Option<string>)
    requires e.current.Some? && e.current.value.imageUrl.None? && |u| > 0 && u != "data:"
    ensures var r := CheckGeneratedImage(e, Some(u));
      |Data(r)| == |Data(e)| + 1 && r.current.value.imageUrl == Some(u)
      && r.current.value.status == "completed"
      && CheckGeneratedImage(r, v) == r
  {
  }

  // ---------------------------------------------------------------------
  // Parameters
  // ---------------------------------------------------------------------

  /** `checkParameters`, given the parameters read from the page: when any
      were found they are merged into the current session. */
  function CheckParameters(e: Extractor, found: Params): (r: Extractor)
    ensures |found| == 0 || e.current.None? ==> r == e
    ensures |found| > 0 && e.current.Some? ==>
      r.current == Some(e.current.value.(parameters := Merge(e.current.value.parameters, found)))
      && r.frozen == e.frozen && r.pushes == e.pushes
  {
    if |found| > 0 && e.current.Some? then
      e.(current := Some(e.current.value.(parameters := Merge(e.current.value.parameters, found))))
    else e
  }

  // ---------------------------------------------------------------------
  // The one-second tick
  // ---------------------------------------------------------------------

  /** `checkGenerationStatus` as written. Its fifth selector,
      `.status:contains("生成中")`, uses a pseudo-class CSS does not have, so
      `document.querySelector` throws a SyntaxError on it. The loop reaches
      it exactly when none of the first four selectors matches, that is,
      whenever no loading indicator is shown: `None` is that exception. So
      the poll can mark a session generating but never complete it. */
  function CheckGenerationStatusAsWritten(e: Extractor, generating: bool): (r: Option<Extractor>)
    ensures r.None? <==> !generating
    ensures r.Some? ==> r.value == CheckGenerationStatus(e, true)
    ensures r.Some? ==> r.value.frozen == e.frozen && r.value.pushes == e.pushes && r.value.interceptions == e.interceptions
    ensures r.Some? && e.current.Some? ==> r.value.current.value.status == "generating"
  {
    if generating then Some(CheckGenerationStatus(e, true)) else None
  }

  /** The status poll as written never pushes a session, and never marks
      one completed. */
  lemma {:induction false} StatusPollNeverCompletes(e: Extractor, generating: bool)
    ensures var r := CheckGenerationStatusAsWritten(e, generating);
      r.Some? ==> |Data(r.value)| == |Data(e)| && (r.value.current.Some? ==> r.value.current.value.status != "completed")
  {
  }

  /** `checkPageElements`, run every second, as written: the prompt check,
      then the status poll. When the poll throws, the image and parameter
      checks of that tick do not run. `srcs` holds, per image selector, the
      `src` of the first element it matches; `found` the parameters read. */
  function Tick(e: Extractor, prompt: Option<string>, generating: bool, srcs: seq<Option<string>>,
                found: Params, now: string): (r: Extractor)
    ensures !generating ==> r == CheckPromptInput(e, prompt, now)
    ensures !generating ==> Data(r) == Data(e)
    ensures generating ==> r == TickFixed(e, prompt, generating, srcs, found, now)
  {
    var p := CheckPromptInput(e, prompt, now);
    match CheckGenerationStatusAsWritten(p, generating)
    case None => p
    case Some(g) => CheckParameters(CheckGeneratedImage(g, FirstUsable(srcs)), found)
  }

  /** `checkPageElements` with the status poll as intended: all four
      checks run on every tick. */
  function TickFixed(e: Extractor, prompt: Option<string>, generating: bool, srcs: seq<Option<string>>,
                     found: Params, now: string): (r: Extractor)
    ensures var p := CheckPromptInput(e, prompt, now);
      p.current.Some? && p.current.value.status == "generating" && !generating ==>
        |Data(r)| > |Data(p)| && |Data(p)| == |Data(e)|
  {
    var p := CheckPromptInput(e, prompt, now);
    var g := CheckGenerationStatus(p, generating);
    var i := CheckGeneratedImage(g, FirstUsable(srcs));
    assert |Data(i)| >= |Data(g)|;
    CheckParameters(i, found)
  }

  /** As written, a tick only changes `extractedData` while a loading
      indicator is shown, and then only through a usable image. */
  lemma {:induction false} TickPushesOnlyImages(e: Extractor, prompt: Option<string>, generating: bool,
                                                srcs: seq<Option<string>>, found: Params, now: string)
    ensures |Data(Tick(e, prompt, generating, srcs, found, now))| > |Data(e)| ==> generating && FirstUsable(srcs).Some?
  {
    var p := CheckPromptInput(e, prompt, now);
    if generating {
      var g := CheckGenerationStatus(p, true);
      assert |Data(g)| == |Data(e)|;
    }
  }

  /** A session the page showed generating is never completed once the
      indicator goes: the tick changes nothing, while the intended poll
      pushes it. */
  lemma {:induction false} FinishedGenerationMissed(e: Extractor, srcs: seq<Option<string>>, found: Params, now: string)
    requires e.current.Some? && e.current.value.status == "generating"
    ensures Tick(e, None, false, srcs, found, now) == e
    ensures |Data(TickFixed(e, None, false, srcs, found, now))| > |Data(e)|
  {
  }

  /** An API call seen by the fetch or XHR wrapper. */
  function Intercept(e: Extractor, call: Js.Value): (r: Extractor)
    ensures r.interceptions == e.interceptions + [call] && Data(r) == Data(e) && r.current == e.current
  {
    e.(interceptions := e.interceptions + [call])
  }

  /** How the page's own `fetch` call ends under the wrapper. */
  datatype FetchOutcome = Resolved(status: int) | Rejected

  /** The `apiCall` object both wrappers push. */
  function CallRecord(url: Js.Value, verb: Js.Value, headers: Js.Value, body: Js.Value, time: int, status: int, now: string): Js.Value {
    Js.Obj([("url", url), ("method", verb), ("headers", headers), ("requestBody", body),
            ("responseTime", Js.Num(time)), ("status", Js.Num(status)), ("timestamp", Js.Str(now))])
  }

  /** The fetch wrapper once the real fetch settled: `response` is its
      status, `None` when it rejected. The `.then` callback reads
      `options.method`, which throws a TypeError when the page passed no
      options; the page's fetch then rejects and nothing is recorded.
      Otherwise the call is recorded with `options.method || 'GET'` and
      `options.headers || {}`, and the page receives the response. */
  function FetchDone(e: Extractor, url: Js.Value, options: Js.Value, response: Option<int>, time: int, now: string): (r: (Extractor, FetchOutcome))
    ensures r.1.Resolved? <==> response.Some? && !Js.Nullish(options)
    ensures r.1.Rejected? ==> r.0 == e
    ensures r.1.Resolved? ==> r.1.status == response.value && Data(r.0) == Data(e) && r.0.current == e.current
    ensures r.1.Resolved? ==> r.0.interceptions == e.interceptions + [CallRecord(url, Js.Or(Js.OptGet(options, "method"), Js.Str("GET")), Js.Or(Js.OptGet(options, "headers"), Js.Obj([])), Js.OptGet(options, "body"), time, response.value, now)]
  {
    match response
    case None => (e, Rejected)
    case Some(status) =>
      match Js.Get(options, "method")
      case None => (e, Rejected)
      case Some(m) =>
        var call := CallRecord(url, Js.Or(m, Js.Str("GET")), Js.Or(Js.Get(options, "headers").value, Js.Obj([])),
                               Js.Get(options, "body").value, time, status, now);
        (Intercept(e, call), Resolved(status))
  }

  /** The XHR wrapper's `loadend` listener: the method and URL given to
      `open`, the data given to `send`, and empty headers. */
  function XhrLoadEnd(e: Extractor, verb: Js.Value, url: Js.Value, data: Js.Value, status: int, time: int, now: string): (r: Extractor)
    ensures r.interceptions == e.interceptions + [CallRecord(url, verb, Js.Obj([]), data, time, status, now)]
    ensures Data(r) == Data(e) && r.current == e.current
  {
    Intercept(e, CallRecord(url, verb, Js.Obj([]), data, time, status, now))
  }

  /** A fetch with a method and a body but no headers is recorded exactly
      as an XHR with the same method, URL and body. A fetch without
      options is never recorded, whatever the server answers. */
  lemma {:induction false} WrappersRecordAlike(e: Extractor, url: Js.Value, m: string, body: Js.Value, status: int, time: int, now: string)
    requires |m| > 0
    ensures var options := Js.Obj([("method", Js.Str(m)), ("body", body)]);
      FetchDone(e, url, options, Some(status), time, now) == (XhrLoadEnd(e, Js.Str(m), url, body, status, time, now), Resolved(status))
    ensures FetchDone(e, url, Js.Undefined, Some(status), time, now) == (e, Rejected)
  {
    var options := Js.Obj([("method", Js.Str(m)), ("body", body)]);
    assert Js.Field(options.fields, "method") == Js.Str(m);
    assert Js.Field(options.fields, "body") == body by {
      assert options.fields[1..] == [("body", body)];
    }
    assert Js.Field(options.fields, "headers").Undefined? by {
      assert forall i :: 0 <= i < |options.fields| ==> options.fields[i].0 != "headers";
    }
  }

  /** The "clear" button: `extractedData` and `apiInterceptions` emptied,
      the current session kept. */
  function Clear(e: Extractor): (r: Extractor)
    ensures Data(r) == [] && r.interceptions == [] && r.current == e.current
  {
    Extractor([], e.current, 0, [])
  }

  // ---------------------------------------------------------------------
  // CSV export
  // ---------------------------------------------------------------------

  const Columns := ["timestamp", "prompt", "status", "image_url", "model", "size"]

  /** `p.X || ''` for a parameter. */
  function ParamOrEmpty(p: Params, k: string): (r: string)
    ensures Get(p, k).Some? ==> r == Get(p, k).value
    ensures Get(p, k).None? ==> r == ""
  {
    Get(p, k).GetOr("")
  }

  /** One session's row as written: only the prompt is quoted. */
  function SessionRow(s: Session): (r: seq<Csv.Cell>)
    ensures |r| == 6 && r[1] == Csv.Quoted(s.prompt)
    ensures forall i :: 0 <= i < 6 && i != 1 ==> r[i].Bare?
  {
    [Csv.Bare(s.timestamp), Csv.Quoted(s.prompt), Csv.Bare(s.status), Csv.Bare(s.imageUrl.GetOr("")),
     Csv.Bare(ParamOrEmpty(s.parameters, "model")), Csv.Bare(ParamOrEmpty(s.parameters, "size"))]
  }

  function Rows(ss: seq<Session>, row: Session -> seq<Csv.Cell>): (r: seq<seq<Csv.Cell>>)
    ensures |r| == |ss| && forall i :: 0 <= i < |ss| ==> r[i] == row(ss[i])
  {
    seq(|ss|, i requires 0 <= i < |ss| => row(ss[i]))
  }

  /** The CSV branch of `exportData` as written. */
  function ExportCsv(data: seq<Session>): (r: Option<string>)
    ensures r.None? <==> |data| == 0
  {
    if |data| == 0 then None else Some(Csv.EncodeTable([Csv.Header(Columns)] + Rows(data, SessionRow)))
  }

  /** The six values a session stands for in the export. */
  function SessionValues(s: Session): (r: seq<string>)
    ensures |r| == 6 && r[1] == s.prompt && r[3] == s.imageUrl.GetOr("")
  {
    [s.timestamp, s.prompt, s.status, s.imageUrl.GetOr(""),
     ParamOrEmpty(s.parameters, "model"), ParamOrEmpty(s.parameters, "size")]
  }

  predicate BareSafe(t: string) {
    ',' !in t && '\n' !in t && '\"' !in t
  }

  /** The fields written bare hold no separator and no quote. */
  predicate SessionReadable(s: Session) {
    BareSafe(s.timestamp) && BareSafe(s.status) && BareSafe(s.imageUrl.GetOr(""))
    && BareSafe(ParamOrEmpty(s.parameters, "model")) && BareSafe(ParamOrEmpty(s.parameters, "size"))
  }

  lemma {:induction false} HeaderReadable()
    ensures |Csv.Header(Columns)| == 6
    ensures forall i :: 0 <= i < 6 ==> Csv.Header(Columns)[i].Bare? && Csv.Readable(Csv.Header(Columns)[i])
  {
    var h := Csv.Header(Columns);
    forall i | 0 <= i < 6 ensures h[i].Bare? && Csv.Readable(h[i]) {
      assert h[i] == Csv.Bare(Columns[i]);
      assert forall k :: 0 <= k < |Columns[i]| ==> 'a' <= Columns[i][k] <= 'z' || Columns[i][k] == '_';
    }
  }

  /** The export reads back, by the rules of section 2 of RFC 4180, as the
      header and one record of six values per session, the prompt exactly,
      provided the fields written bare hold no separator or quote. */
  lemma {:induction false} ExportReadsBack(data: seq<Session>)
    requires |data| > 0
    requires forall i :: 0 <= i < |data| ==> SessionReadable(data[i])
    ensures var recs := Csv.Read(ExportCsv(data).value);
      recs.Some? && |recs.value| == |data| + 1 && recs.value[0] == Columns
      && forall i :: 0 <= i < |data| ==> recs.value[i + 1] == SessionValues(data[i])
  {
    ReadBackWith(data, SessionRow);
  }

  /** The read-back argument for any row builder whose cells are readable
      and stand for the session's six values. */
  lemma {:induction false} ReadBackWith(data: seq<Session>, row: Session -> seq<Csv.Cell>)
    requires |data| > 0
    requires forall i :: 0 <= i < |data| ==>
      |row(data[i])| >= 1 && (forall k :: 0 <= k < |row(data[i])| ==> Csv.Readable(row(data[i])[k]))
      && Csv.Texts(row(data[i])) == SessionValues(data[i])
    ensures var recs := Csv.Read(Csv.EncodeTable([Csv.Header(Columns)] + Rows(data, row)));
      recs.Some? && |recs.value| == |data| + 1 && recs.value[0] == Columns
      && forall i :: 0 <= i < |data| ==> recs.value[i + 1] == SessionValues(data[i])
  {
    var rows := Rows(data, row);
    var table := [Csv.Header(Columns)] + rows;
    HeaderReadable();
    assert Csv.TableReadable(rows);
    Csv.TableReadableCons(Csv.Header(Columns), rows);
    Csv.ReadEncodeTable(table);
    Csv.TableTextsCons(Csv.Header(Columns), rows);
  }

  lemma {:induction false} RowReadable(s: Session)
    requires SessionReadable(s)
    ensures forall k :: 0 <= k < 6 ==> Csv.Readable(SessionRow(s)[k])
    ensures Csv.Texts(SessionRow(s)) == SessionValues(s)
  {
  }

  /** A `data:` image URL, which the image scan looks for, has a comma
      before its payload; written bare it splits the record into seven
      fields. */
  lemma {:induction false} DataUrlSplitsRow(s: Session, a: string, b: string)
    requires s.imageUrl == Some(a + "," + b) && BareSafe(a) && BareSafe(b)
    requires BareSafe(s.timestamp) && BareSafe(s.status)
    requires BareSafe(ParamOrEmpty(s.parameters, "model")) && BareSafe(ParamOrEmpty(s.parameters, "size"))
    ensures var recs := Csv.Read(ExportCsv([s]).value);
      recs.Some? && |recs.value| == 2 && |recs.value[1]| == 7 && recs.value[1] != SessionValues(s)
  {
    var row := SessionRow(s);
    var split := [Csv.Bare(s.timestamp), Csv.Quoted(s.prompt), Csv.Bare(s.status), Csv.Bare(a), Csv.Bare(b),
                  Csv.Bare(ParamOrEmpty(s.parameters, "model")), Csv.Bare(ParamOrEmpty(s.parameters, "size"))];
    SplitRowSameText(s, a, b);
    var h := Csv.Header(Columns);
    assert Rows([s], SessionRow) == [row];
    assert Csv.EncodeRows([h] + [split]) == Csv.EncodeRows([h] + [row]) by {
      assert Csv.EncodeRows([h] + [split])[1..] == Csv.EncodeRows([split]);
      assert Csv.EncodeRows([h] + [row])[1..] == Csv.EncodeRows([row]);
    }
    HeaderReadable();
    assert Csv.TableReadable([split]);
    Csv.TableReadableCons(h, [split]);
    Csv.ReadEncodeTable([h] + [split]);
    Csv.TableTextsCons(h, [split]);
    assert Csv.TableTexts([split])[0] == Csv.Texts(split);
  }

  lemma {:induction false} SplitRowSameText(s: Session, a: string, b: string)
    requires s.imageUrl == Some(a + "," + b)
    ensures Csv.EncodeRow(SessionRow(s)) == Csv.EncodeRow(
      [Csv.Bare(s.timestamp), Csv.Quoted(s.prompt), Csv.Bare(s.status), Csv.Bare(a), Csv.Bare(b),
       Csv.Bare(ParamOrEmpty(s.parameters, "model")), Csv.Bare(ParamOrEmpty(s.parameters, "size"))])
  {
    var m := ParamOrEmpty(s.parameters, "model");
    var z := ParamOrEmpty(s.parameters, "size");
    var q := Csv.Encode(Csv.Quoted(s.prompt));
    var row := SessionRow(s);
    var split := [Csv.Bare(s.timestamp), Csv.Quoted(s.prompt), Csv.Bare(s.status), Csv.Bare(a), Csv.Bare(b),
                  Csv.Bare(m), Csv.Bare(z)];
    EncodeCellsOf(row);
    EncodeCellsOf(split);
    assert Csv.EncodeCells(row) == [s.timestamp, q, s.status, a + "," + b, m, z];
    assert Csv.EncodeCells(split) == [s.timestamp, q, s.status, a, b, m, z];
    JoinSplitField([s.timestamp, q, s.status], a, b, [m, z]);
    assert [s.timestamp, q, s.status] + [a + "," + b] + [m, z] == Csv.EncodeCells(row);
    assert [s.timestamp, q, s.status] + [a, b] + [m, z] == Csv.EncodeCells(split);
  }

  lemma {:induction false} EncodeCellsOf(cells: seq<Csv.Cell>)
    ensures Csv.EncodeCells(cells) == seq(|cells|, i requires 0 <= i < |cells| => Csv.Encode(cells[i]))
  {
    if |cells| > 0 {
      EncodeCellsOf(cells[1..]);
    }
  }

  /** Joining with `,` cannot tell `a,b` as one field from `a` and `b`. */
  lemma {:induction false} JoinSplitField(pre: seq<string>, a: string, b: string, post: seq<string>)
    requires |post| > 0
    ensures Join(pre + [a + "," + b] + post, ",") == Join(pre + [a, b] + post, ",")
    decreases |pre|
  {
    if |pre| == 0 {
      assert [a + "," + b] + post == pre + [a + "," + b] + post;
      assert ([a, b] + post)[1..] == [b] + post;
      assert ([b] + post)[1..] == post;
      assert ([a + "," + b] + post)[1..] == post;
      assert pre + [a, b] + post == [a, b] + post;
    } else {
      JoinSplitField(pre[1..], a, b, post);
      assert (pre + [a + "," + b] + post)[1..] == pre[1..] + [a + "," + b] + post;
      assert (pre + [a, b] + post)[1..] == pre[1..] + [a, b] + post;
    }
  }

  /** The row with the image URL and the parameters quoted as well. */
  function SessionRowFixed(s: Session): (r: seq<Csv.Cell>)
    ensures |r| == 6 && Csv.Texts(r) == SessionValues(s)
    ensures forall i :: 1 <= i < 6 && i != 2 ==> r[i].Quoted?
  {
    [Csv.Bare(s.timestamp), Csv.Quoted(s.prompt), Csv.Bare(s.status), Csv.Quoted(s.imageUrl.GetOr("")),
     Csv.Quoted(ParamOrEmpty(s.parameters, "model")), Csv.Quoted(ParamOrEmpty(s.parameters, "size"))]
  }

  function ExportCsvFixed(data: seq<Session>): (r: Option<string>)
    ensures r.None? <==> |data| == 0
  {
    if |data| == 0 then None else Some(Csv.EncodeTable([Csv.Header(Columns)] + Rows(data, SessionRowFixed)))
  }

  /** With the correction, any image URL and any parameter values read back
      exactly; only the timestamp and the status must stay plain. */
  lemma {:induction false} ExportFixedReadsBack(data: seq<Session>)
    requires |data| > 0
    requires forall i :: 0 <= i < |data| ==> BareSafe(data[i].timestamp) && BareSafe(data[i].status)
    ensures var recs := Csv.Read(ExportCsvFixed(data).value);
      recs.Some? && |recs.value| == |data| + 1 && recs.value[0] == Columns
      && forall i :: 0 <= i < |data| ==> recs.value[i + 1] == SessionValues(data[i])
  {
    ReadBackWith(data, SessionRowFixed);
  }

  /** Where the original row is readable, both exports say the same. */
  lemma {:induction false} FixedAgreesWhenReadable(data: seq<Session>)
    requires |data| > 0
    requires forall i :: 0 <= i < |data| ==> SessionReadable(data[i])
    ensures Csv.Read(ExportCsv(data).value) == Csv.Read(ExportCsvFixed(data).value)
  {
    ExportReadsBack(data);
    ExportFixedReadsBack(data);
    var x := Csv.Read(ExportCsv(data).value).value;
    var y := Csv.Read(ExportCsvFixed(data).value).value;
    forall i | 0 <= i < |x| ensures x[i] == y[i] {
      if i > 0 {
        var j := i - 1;
        assert x[j + 1] == SessionValues(data[j]) == y[j + 1];
      }
    }
    assert x == y;
  }
}

=== FILE: sora_token.dfy ===
/** The Sora token extractor: `getCookie` over `document.cookie`, the
    access and refresh tokens read from the session cookies, what the panel
    shows for them, and the guard that creates the panel once. The panel's
    DOM, dragging and the clipboard are left out; the page's cookie string
    is a parameter. */
module SoraToken {
  import opened Maybe
  import opened Text

  /** The text `getCookie(name)` splits on. */
  function Marker(name: string): string {
    "; " + name + "="
  }

  /** `getCookie(name)`: the cookie string is prefixed with `"; "` and split
      on `"; <name>="`; with exactly two pieces the value is the second
      piece up to its first `;`, otherwise `null`. */
  function GetCookie(cookie: string, name: string): (r: Option<string>)
    ensures r.Some? ==> ';' !in r.value
  {
    var parts := SplitOn("; " + cookie, Marker(name));
    if |parts| == 2 then Some(Split(parts[1], ';')[0]) else None
  }

  /** A name that occurs once yields the text after it up to the next `;`. */
  lemma {:induction false} GetCookieOnce(cookie: string, name: string, p: nat)
    requires OccursAt("; " + cookie, Marker(name), p)
    requires forall q :: OccursAt("; " + cookie, Marker(name), q) ==> q == p
    ensures GetCookie(cookie, name) == Some(Split(("; " + cookie)[p + |Marker(name)|..], ';')[0])
  {
    SplitOnOnce("; " + cookie, Marker(name), p);
  }

  /** A name that does not occur yields `null`. */
  lemma {:induction false} GetCookieAbsent(cookie: string, name: string)
    requires forall q :: 0 <= q ==> !OccursAt("; " + cookie, Marker(name), q)
    ensures GetCookie(cookie, name) == None
  {
    SplitOnNone("; " + cookie, Marker(name));
  }

  /** A cookie is only found when its marker occurs. */
  lemma {:induction false} GetCookieNeedsName(cookie: string, name: string)
    ensures GetCookie(cookie, name).Some? ==> exists p: nat :: OccursAt("; " + cookie, Marker(name), p)
  {
    if forall q: nat :: !OccursAt("; " + cookie, Marker(name), q) {
      GetCookieAbsent(cookie, name);
    }
  }

  /** A name set twice yields `null` as well: three or more pieces. */
  lemma {:induction false} GetCookieTwice(cookie: string, name: string, p1: nat, p2: nat)
    requires OccursAt("; " + cookie, Marker(name), p1) && OccursAt("; " + cookie, Marker(name), p2)
    requires p1 + |Marker(name)| <= p2
    ensures GetCookie(cookie, name) == None
  {
    SplitOnTwice("; " + cookie, Marker(name), p1, p2);
  }

  /** The round trip on a cookie string `before<name>=<value>after` where
      the marker occurs only at the written place and `after` is empty or
      starts a new cookie: the value read is the value written. */
  lemma {:induction false} GetCookieWritten(before: string, name: string, value: string, after: string)
    requires ';' !in value && (after == "" || after[0] == ';')
    requires var s := "; " + before + name + "=" + value + after;
      forall q :: OccursAt(s, Marker(name), q) ==> q == |before|
    requires OccursAt("; " + before + name + "=" + value + after, Marker(name), |before|)
    ensures GetCookie(before + name + "=" + value + after, name) == Some(value)
  {
    var cookie := before + name + "=" + value + after;
    var head := "; " + before + name + "=";
    WrittenShape(before, name, value, after);
    GetCookieAfter(cookie, name, head, value, after);
  }

  /** How the written cookie string splits around the value. */
  lemma {:induction false} WrittenShape(before: string, name: string, value: string, after: string)
    ensures var head := "; " + before + name + "=";
      "; " + (before + name + "=" + value + after) == "; " + before + name + "=" + value + after
      && "; " + (before + name + "=" + value + after) == head + (value + after)
      && |head| == |before| + |Marker(name)|
  {
  }

  /** The lookup when the only marker ends where `value` starts. */
  lemma {:induction false} GetCookieAfter(cookie: string, name: string, head: string, value: string, after: string)
    requires "; " + cookie == head + (value + after)
    requires |head| >= |Marker(name)| && OccursAt("; " + cookie, Marker(name), |head| - |Marker(name)|)
    requires forall q :: OccursAt("; " + cookie, Marker(name), q) ==> q == |head| - |Marker(name)|
    requires ';' !in value && (after == "" || after[0] == ';')
    ensures GetCookie(cookie, name) == Some(value)
  {
    var s := "; " + cookie;
    GetCookieOnce(cookie, name, |head| - |Marker(name)|);
    assert s[|head|..] == value + after;
    ValueUpToSemicolon(value, after);
  }

  /** The value runs up to the `;` that starts the next cookie. */
  lemma {:induction false} ValueUpToSemicolon(value: string, after: string)
    requires ';' !in value && (after == "" || after[0] == ';')
    ensures Split(value + after, ';')[0] == value
  {
    if after == "" {
      assert value + after == value;
      SplitNoSep(value, ';');
    } else {
      var tail := after[1..];
      assert after == [';'] + tail;
      assert value + after == value + [';'] + tail;
      SplitCons(value, ';', tail);
      assert Split(value + [';'] + tail, ';')[0] == value;
    }
  }

  /** The first cookie of the string is found like any other. */
  lemma {:induction false} GetCookieFirst(name: string, value: string, after: string)
    requires ';' !in value && (after == "" || after[0] == ';')
    requires forall q :: OccursAt("; " + name + "=" + value + after, Marker(name), q) ==> q == 0
    ensures GetCookie(name + "=" + value + after, name) == Some(value)
  {
    var s := "; " + name + "=" + value + after;
    assert s[0..|Marker(name)|] == Marker(name);
    assert "" + name + "=" + value + after == name + "=" + value + after;
    assert "; " + "" + name + "=" + value + after == s;
    GetCookieWritten("", name, value, after);
  }

  // ---------------------------------------------------------------------
  // The tokens and the panel
  // ---------------------------------------------------------------------

  const SessionCookie := "__Secure-next-auth.session-token"
  const RefreshCookie := "__Secure-next-auth.refresh-token"

  /** A cookie value read as a JavaScript condition: `null` and `""` are
      falsy. */
  predicate Present(v: Option<string>) {
    v.Some? && v.value != ""
  }

  /** `a || b` on two cookie values. */
  function OrElse(a: Option<string>, b: Option<string>): (r: Option<string>)
    ensures Present(a) ==> r == a
    ensures !Present(a) ==> r == b
    ensures Present(r) <==> Present(a) || Present(b)
  {
    if Present(a) then a else b
  }

  /** The access token: the session cookie's value, which holds no `;`
      and is only found when the session cookie's marker occurs. */
  function AccessToken(cookie: string): (r: Option<string>)
    ensures r.Some? ==> ';' !in r.value
    ensures r.Some? ==> exists p: nat :: OccursAt("; " + cookie, Marker(SessionCookie), p)
  {
    GetCookieNeedsName(cookie, SessionCookie);
    GetCookie(cookie, SessionCookie)
  }

  /** The refresh token, falling back to the session token. */
  function RefreshToken(cookie: string): (r: Option<string>)
    ensures Present(GetCookie(cookie, RefreshCookie)) ==> r == GetCookie(cookie, RefreshCookie)
    ensures !Present(GetCookie(cookie, RefreshCookie)) ==> r == AccessToken(cookie)
  {
    OrElse(GetCookie(cookie, RefreshCookie), GetCookie(cookie, SessionCookie))
  }

  /** Without a refresh cookie the two fields show the same token. */
  lemma {:induction false} NoRefreshCookieSameToken(cookie: string)
    requires forall q :: 0 <= q ==> !OccursAt("; " + cookie, Marker(RefreshCookie), q)
    ensures RefreshToken(cookie) == AccessToken(cookie)
  {
    GetCookieAbsent(cookie, RefreshCookie);
  }

  /** `token || 'Not found'`. */
  function Shown(v: Option<string>): (r: string)
    ensures r != ""
    ensures Present(v) ==> r == v.value
    ensures !Present(v) ==> r == "Not found"
  {
    if Present(v) then v.value else "Not found"
  }

  /** The panel with the two values it shows. */
  datatype Panel = Panel(access: string, refresh: string)

  /** `createPanel`: nothing when a panel is on the page, otherwise a new
      panel showing the tokens of the current cookie string. */
  function CreatePanel(page: Option<Panel>, cookie: string): (r: Option<Panel>)
    ensures r.Some?
    ensures page.Some? ==> r == page
    ensures page.None? ==> r.value.access == Shown(AccessToken(cookie))
    ensures page.None? ==> r.value.refresh == Shown(RefreshToken(cookie))
  {
    if page.Some? then page else Some(Panel(Shown(AccessToken(cookie)), Shown(RefreshToken(cookie))))
  }

  /** The close button removes the panel. */
  function Close(page: Option<Panel>): (r: Option<Panel>)
    ensures r.None?
  {
    None
  }

  /** The `load` listener and the two-second timer both call
      `createPanel`; the second call keeps the first panel, whatever the
      cookies are by then. */
  lemma {:induction false} CreatePanelIdempotent(page: Option<Panel>, c1: string, c2: string)
    ensures CreatePanel(CreatePanel(page, c1), c2) == CreatePanel(page, c1)
  {
  }

  /** A panel closed before the timer fires is created again from the
      cookies of that moment. */
  lemma {:induction false} ClosedPanelReappears(page: Option<Panel>, c1: string, c2: string)
    ensures CreatePanel(Close(CreatePanel(page, c1)), c2) == CreatePanel(None, c2)
  {
  }
}

=== FILE: tel_bot.dfy ===
/** The smaller bot, `tel.py`: its callback parsing, which defaults the
    index to 0, the three callback actions it handles, and `/create`,
    which names containers `zorvix-<uid>-<n>` and checks nothing. The file
    does not parse as Python (its main admin id is not a number), so the
    main admin is a parameter here, and its `/delete_vps` and
    `/suspend_vps` only reply. */
module TelBot {
  import opened Maybe
  import opened Text
  import opened Ordered
  import opened BotCommon
  import ZorvixStore

  /** A record as this bot writes it: no isolation flag, no history. */
  datatype TelVps = TelVps(name: string, ram: string, cpu: string, storage: string, status: string)

  type TelStore = seq<(string, seq<TelVps>)>

  function TelInstances(store: TelStore, uid: string): seq<TelVps> {
    Get(store, uid).GetOr([])
  }

  // ---------------------------------------------------------------------
  // Callback data
  // ---------------------------------------------------------------------

  /** `data = query.data.split(':')` and
      `action, idx = data[0], int(data[1]) if len(data) > 1 else 0`: the
      action and index, or the `ValueError` of the conversion, which comes
      before any action is looked at. */
  datatype TelParsed = Call(action: string, index: int) | ParseRaised

  function TelParse(data: string): (r: TelParsed)
    ensures r.Call? ==> ':' !in r.action && r.action <= data
    ensures r.Call? && |r.action| < |data| ==> data[|r.action|] == ':'
  {
    var parts := Split(data, ':');
    SplitPrefix(data, ':');
    if |parts| > 1 then
      match ParseInt(parts[1])
      case None => ParseRaised
      case Some(i) => Call(parts[0], i)
    else Call(parts[0], 0)
  }

  /** The first piece of a split is the text before the first separator,
      or the whole text. */
  lemma {:induction false} SplitPrefix(s: string, sep: char)
    ensures Split(s, sep)[0] <= s
    ensures |Split(s, sep)| == 1 <==> sep !in s
    ensures |Split(s, sep)| > 1 ==> s[|Split(s, sep)[0]|] == sep
  {
    var parts := Split(s, sep);
    if |parts| > 1 {
      assert s == parts[0] + [sep] + Join(parts[1..], [sep]);
      assert s[|parts[0]|] == sep;
    } else {
      assert s == parts[0];
    }
  }

  /** Data without a colon is an action on index 0. */
  lemma {:induction false} NoColonMeansZero(data: string)
    requires ':' !in data
    ensures TelParse(data) == Call(data, 0)
  {
    SplitNoSep(data, ':');
  }

  /** The data `action:index` reads back as the action and the index. */
  lemma {:induction false} TelRoundTrip(action: string, index: int)
    requires ':' !in action
    ensures TelParse(IndexData(action, index)) == Call(action, index)
  {
    var digits := IntToString(index);
    assert ':' !in digits by {
      var d := if index < 0 then NatToString(-index) else NatToString(index);
      assert AllDigits(d);
      if index < 0 {
        assert digits == "-" + d;
        assert forall k :: 0 <= k < |digits| ==> digits[k] == '-' || IsDigit(digits[k]);
      }
    }
    SplitCons(action, ':', digits);
    SplitNoSep(digits, ':');
    assert IndexData(action, index) == action + [':'] + digits;
    ParseIntToString(index);
  }

  // ---------------------------------------------------------------------
  // Keyboards and callbacks
  // ---------------------------------------------------------------------

  /** `create_vps_select_keyboard(vps_list)`: one row per instance, each
      sending `vps_select:i`. */
  function TelSelectKeyboard(list: seq<TelVps>): (r: Keyboard)
    ensures |r| == |list|
    ensures forall i :: 0 <= i < |r| ==> |r[i]| == 1 && TelParse(r[i][0].data) == Call("vps_select", i)
  {
    var r := seq(|list|, i requires 0 <= i < |list| =>
      [Button("#" + NatToString(i + 1) + " - " + list[i].name + " [" + UpperAscii(list[i].status) + "]",
              IndexData("vps_select", i))]);
    assert forall i :: 0 <= i < |r| ==> TelParse(r[i][0].data) == Call("vps_select", i) by {
      forall i | 0 <= i < |r|
        ensures TelParse(r[i][0].data) == Call("vps_select", i)
      {
        TelRoundTrip("vps_select", i);
      }
    }
    r
  }

  /** What a press shows. */
  datatype TelReply =
    | Shown(keyboard: Keyboard)   // the instance panel or the selection list
    | Started
    | Stopped
    | Crashed                     // IndexError, ValueError or a failed LXC call
    | Nothing                     // an action the handler does not know

  /** `callback_handler`: selection, Back, Start and Stop on the presser's
      own list; every other action does nothing. */
  function TelDispatch(store: TelStore, user: string, data: string, ok: bool): (r: (TelStore, TelReply))
    ensures TelParse(data).ParseRaised? ==> r == (store, Crashed)
    ensures r.0 != store ==> ok && TelParse(data).Call? && TelParse(data).action in {"vps_start", "vps_stop"}
    ensures r.1 == Nothing <==>
      TelParse(data).Call? && TelParse(data).action !in {"vps_select", "vps_back", "vps_start", "vps_stop"}
    ensures r.1 == Nothing ==> r.0 == store
    ensures (r.1.Started? || r.1.Stopped?) ==> var list := TelInstances(store, user);
      var j := PyIndex(|list|, TelParse(data).index);
      j.Some? && TelInstances(r.0, user) == list[j.value := list[j.value].(status := if r.1.Started? then "running" else "stopped")]
      && forall k :: k != user ==> Get(r.0, k) == Get(store, k)
  {
    match TelParse(data)
    case ParseRaised => (store, Crashed)
    case Call(action, idx) =>
      var list := TelInstances(store, user);
      if action == "vps_select" then
        match PyIndex(|list|, idx)
        case None => (store, Crashed)
        case Some(_) => (store, Shown(ControlKeyboard(TelLabels, idx, true, false)))
      else if action == "vps_back" then (store, Shown(TelSelectKeyboard(list)))
      else if action == "vps_start" || action == "vps_stop" then
        match PyIndex(|list|, idx)
        case None => (store, Crashed)
        case Some(j) =>
          if !ok then (store, Crashed)
          else
            var on := action == "vps_start";
            var updated := list[j := list[j].(status := if on then "running" else "stopped")];
            (Assign(store, user, updated), if on then Started else Stopped)
      else (store, Nothing)
  }

  /** The panel this bot shows always has the Reinstall row (`is_owner`
      defaults to true), but its Stats, SSH and Reinstall buttons reach no
      branch of the handler: pressing them does nothing. */
  lemma {:induction false} PanelButtonsWithoutHandler(store: TelStore, user: string, index: int, ok: bool)
    ensures var k := ControlKeyboard(TelLabels, index, true, false);
      |k| == 4
      && TelDispatch(store, user, k[1][0].data, ok) == (store, Nothing)
      && TelDispatch(store, user, k[1][1].data, ok) == (store, Nothing)
      && TelDispatch(store, user, k[2][0].data, ok) == (store, Nothing)
  {
    TelRoundTrip("vps_stats", index);
    TelRoundTrip("vps_ssh", index);
    TelRoundTrip("vps_reinstall", index);
  }

  /** The power buttons and Back of that panel do reach their branches. */
  lemma {:induction false} PanelButtonsHandled(index: int)
    ensures var k := ControlKeyboard(TelLabels, index, true, false);
      TelParse(k[0][0].data) == Call("vps_start", index)
      && TelParse(k[0][1].data) == Call("vps_stop", index)
      && TelParse(k[3][0].data) == Call("vps_back", 0)
  {
    TelRoundTrip("vps_start", index);
    TelRoundTrip("vps_stop", index);
    NoColonMeansZero("vps_back");
  }

  // ---------------------------------------------------------------------
  // /create
  // ---------------------------------------------------------------------

  /** The container name `zorvix-<uid>-<n>`: the user id and the count
      read back from the name. */
  function TelInstanceName(uid: string, n: nat): (r: string)
    ensures |r| > 8 + |uid| && r[..7] == "zorvix-" && r[7..7 + |uid|] == uid
    ensures ParseInt(r[8 + |uid|..]) == Some(n)
  {
    var r := "zorvix-" + uid + "-" + NatToString(n);
    ParseNatural(n);
    assert r[8 + |uid|..] == NatToString(n);
    r
  }

  datatype CreateReply = NotAdmin | Usage | Raised | Created(name: string)

  /** `create_command` for a bot whose main admin is `main`: after the
      admin and argument-count checks the container is named by count,
      `lxc init` runs (a failure raises before any change), and the record
      is appended, the user's key created first when missing. The
      arguments are copied into the record unchecked. */
  function TelCreate(store: TelStore, main: int, admins: Admins, caller: int,
                     args: seq<string>, ok: bool): (r: (TelStore, CreateReply))
    ensures r.1.Created? <==> IsAdminOf(main, admins, caller) && |args| >= 4 && ok
    ensures !r.1.Created? ==> r.0 == store
    ensures r.1.Created? ==> r.1.name == TelInstanceName(args[3], |TelInstances(store, args[3])| + 1)
    ensures r.1.Created? ==>
      TelInstances(r.0, args[3]) ==
        TelInstances(store, args[3]) + [TelVps(r.1.name, args[0] + "GB", args[1], args[2] + "GB", "running")]
    ensures |args| >= 4 ==> forall k :: k != args[3] ==> Get(r.0, k) == Get(store, k)
    ensures KeysUnique(store, EntryKey) ==> KeysUnique(r.0, EntryKey)
  {
    if !IsAdminOf(main, admins, caller) then (store, NotAdmin)
    else if |args| < 4 then (store, Usage)
    else
      var uid := args[3];
      var name := TelInstanceName(uid, |TelInstances(store, uid)| + 1);
      if !ok then (store, Raised)
      else
        var v := TelVps(name, args[0] + "GB", args[1], args[2] + "GB", "running");
        (Assign(store, uid, TelInstances(store, uid) + [v]), Created(name))
  }

  /** Arguments the ZorvixVM bot refuses (a zero RAM size, a CPU count
      that is not a number) still create an instance here. */
  lemma {:induction false} CreatesWhatZorvixRefuses(store: TelStore, main: int, admins: Admins, caller: int,
                                 zstore: ZorvixStore.Store, zadmins: Admins, zcaller: int, uid: string, now: string)
    requires IsAdminOf(main, admins, caller) && ZorvixStore.IsAdmin(zadmins, zcaller)
    ensures TelCreate(store, main, admins, caller, ["0", "x", "10", uid], true).1.Created?
    ensures ZorvixStore.Create(zstore, zadmins, zcaller, ["0", "x", "10", uid], true, now).1 == ZorvixStore.Failed
  {
    assert ParseInt("0") == Some(0);
  }
}

=== FILE: text.dfy ===
/** String operations of the JavaScript and Python standard libraries that
    the scripts rely on, written out over `seq<char>`: substring search
    (`includes`, `indexOf`, `in`), splitting and joining, whitespace
    trimming, ASCII case mapping and decimal conversion (`String(n)`,
    Python `str(n)` and `int(s)`). */
module Text {
  import opened Maybe

  // ---------------------------------------------------------------------
  // Substring search
  // ---------------------------------------------------------------------

  /** `pat` occurs in `s` starting at index `i`. */
  predicate OccursAt(s: string, pat: string, i: nat) {
    i + |pat| <= |s| && s[i..i + |pat|] == pat
  }

  /** The first index at or after `from` where `pat` occurs in `s`. */
  function IndexFrom(s: string, pat: string, from: nat): (r: Option<nat>)
    ensures r.Some? ==> from <= r.value && OccursAt(s, pat, r.value)
    ensures r.Some? ==> forall j :: from <= j < r.value ==> !OccursAt(s, pat, j)
    ensures r.None? ==> forall j :: from <= j ==> !OccursAt(s, pat, j)
    decreases |s| - from
  {
    if from + |pat| > |s| then None
    else if s[from..from + |pat|] == pat then Some(from)
    else IndexFrom(s, pat, from + 1)
  }

  /** JavaScript `s.includes(pat)`, Python `pat in s`. */
  predicate Contains(s: string, pat: string)
    ensures Contains(s, pat) <==> exists i: nat :: OccursAt(s, pat, i)
  {
    IndexFrom(s, pat, 0).Some?
  }

  lemma {:induction false} ContainsAt(s: string, pat: string, i: nat)
    requires OccursAt(s, pat, i)
    ensures Contains(s, pat)
  {
  }

  /** A string contains every substring of any of its infixes. */
  lemma {:induction false} ContainsInfix(a: string, m: string, b: string, pat: string)
    requires Contains(m, pat)
    ensures Contains(a + m + b, pat)
  {
    var i: nat :| OccursAt(m, pat, i);
    assert (a + m + b)[|a| + i..|a| + i + |pat|] == m[i..i + |pat|];
    assert OccursAt(a + m + b, pat, |a| + i);
  }

  /** Containment is transitive. */
  lemma {:induction false} ContainsTrans(s: string, m: string, pat: string)
    requires Contains(s, m) && Contains(m, pat)
    ensures Contains(s, pat)
  {
    var i: nat :| OccursAt(s, m, i);
    var j: nat :| OccursAt(m, pat, j);
    forall k | 0 <= k < |pat|
      ensures s[i + j..i + j + |pat|][k] == pat[k]
    {
      assert m[j..j + |pat|][k] == m[j + k];
      assert s[i..i + |m|][j + k] == s[i + j + k];
    }
    assert OccursAt(s, pat, i + j);
  }

  /** `s.includes(p1) || s.includes(p2) || ...`. */
  predicate ContainsAny(s: string, pats: seq<string>) {
    |pats| > 0 && (Contains(s, pats[0]) || ContainsAny(s, pats[1..]))
  }

  /** `ContainsAny` holds as soon as any one pattern occurs. */
  lemma {:induction false} ContainsAnyAt(s: string, pats: seq<string>, i: nat)
    requires i < |pats| && Contains(s, pats[i])
    ensures ContainsAny(s, pats)
    decreases i
  {
    if i > 0 {
      assert pats[1..][i - 1] == pats[i];
      ContainsAnyAt(s, pats[1..], i - 1);
    }
  }

  // ---------------------------------------------------------------------
  // Splitting and joining
  // ---------------------------------------------------------------------

  /** JavaScript `parts.join(sep)`, Python `sep.join(parts)`. */
  function Join(parts: seq<string>, sep: string): string
  {
    if |parts| == 0 then ""
    else if |parts| == 1 then parts[0]
    else parts[0] + sep + Join(parts[1..], sep)
  }

  /** A joined string contains all of its parts. */
  lemma {:induction false} JoinContainsAll(parts: seq<string>, sep: string)
    ensures forall j :: 0 <= j < |parts| ==> Contains(Join(parts, sep), parts[j])
  {
    forall j | 0 <= j < |parts|
      ensures Contains(Join(parts, sep), parts[j])
    {
      JoinContains(parts, sep, j);
    }
  }

  /** A joined string contains each of its parts. */
  lemma {:induction false} JoinContains(parts: seq<string>, sep: string, j: nat)
    requires j < |parts|
    ensures Contains(Join(parts, sep), parts[j])
    decreases |parts|
  {
    if |parts| == 1 {
      ContainsInfix("", parts[0], "", parts[0]) by {
        assert OccursAt(parts[0], parts[0], 0);
      }
      assert "" + parts[0] + "" == parts[0];
    } else if j == 0 {
      assert OccursAt(parts[0], parts[0], 0);
      ContainsInfix("", parts[0], sep + Join(parts[1..], sep), parts[0]);
      assert "" + parts[0] + (sep + Join(parts[1..], sep)) == Join(parts, sep);
    } else {
      JoinContains(parts[1..], sep, j - 1);
      ContainsInfix(parts[0] + sep, Join(parts[1..], sep), "", parts[j]);
      assert parts[0] + sep + Join(parts[1..], sep) + "" == Join(parts, sep);
    }
  }

  /** JavaScript `s.split(c)` and Python `s.split(c)` for a one-character
      separator: the pieces between successive separators, never fewer
      than one, and joining them back gives `s`. */
  function Split(s: string, sep: char): (r: seq<string>)
    ensures |r| >= 1
    ensures forall i :: 0 <= i < |r| ==> sep !in r[i]
    ensures Join(r, [sep]) == s
  {
    if |s| == 0 then [""]
    else
      var rest := Split(s[1..], sep);
      if s[0] == sep then
        assert [sep] + Join(rest, [sep]) == s;
        [""] + rest
      else
        var r := [[s[0]] + rest[0]] + rest[1..];
        assert r[1..] == rest[1..];
        assert Join(r, [sep]) == [s[0]] + Join(rest, [sep]);
        r
  }

  /** Splitting `a + sep + b` where `a` has no separator peels off `a`. */
  lemma {:induction false} SplitCons(a: string, sep: char, b: string)
    requires sep !in a
    ensures Split(a + [sep] + b, sep) == [a] + Split(b, sep)
    decreases |a|
  {
    if |a| == 0 {
      assert a + [sep] + b == [sep] + b;
      assert ([sep] + b)[1..] == b;
    } else {
      var s := a + [sep] + b;
      assert s[1..] == a[1..] + [sep] + b;
      SplitCons(a[1..], sep, b);
      assert [a[0]] + a[1..] == a;
    }
  }

  /** A string without the separator splits into itself. */
  lemma {:induction false} SplitNoSep(a: string, sep: char)
    requires sep !in a
    ensures Split(a, sep) == [a]
    decreases |a|
  {
    if |a| > 0 {
      SplitNoSep(a[1..], sep);
      assert [a[0]] + a[1..] == a;
    }
  }

  /** Split undoes Join when no piece contains the separator. */
  lemma {:induction false} SplitJoin(parts: seq<string>, sep: char)
    requires |parts| >= 1
    requires forall i :: 0 <= i < |parts| ==> sep !in parts[i]
    ensures Split(Join(parts, [sep]), sep) == parts
    decreases |parts|
  {
    if |parts| == 1 {
      SplitNoSep(parts[0], sep);
    } else {
      SplitJoin(parts[1..], sep);
      assert Join(parts, [sep]) == parts[0] + [sep] + Join(parts[1..], [sep]);
      SplitCons(parts[0], sep, Join(parts[1..], [sep]));
      assert [parts[0]] + parts[1..] == parts;
    }
  }

  /** JavaScript `s.split(sep)` for a separator string of any length, and
      the splitting behind Python `s.replace(sep, x)`: the pieces between
      the leftmost non-overlapping occurrences of `sep`. */
  function SplitOn(s: string, sep: string): (r: seq<string>)
    requires |sep| > 0
    ensures |r| >= 1
    ensures forall i :: 0 <= i < |r| ==> !Contains(r[i], sep)
    decreases |s|
  {
    match IndexFrom(s, sep, 0)
    case None => [s]
    case Some(i) =>
      NoEarlierOccurrence(s, sep, i);
      [s[..i]] + SplitOn(s[i + |sep|..], sep)
  }

  lemma {:induction false} NoEarlierOccurrence(s: string, sep: string, i: nat)
    requires i <= |s|
    requires forall j :: 0 <= j < i ==> !OccursAt(s, sep, j)
    requires |sep| > 0
    ensures !Contains(s[..i], sep)
  {
    forall j: nat | OccursAt(s[..i], sep, j)
      ensures false
    {
      assert s[..i][j..j + |sep|] == s[j..j + |sep|];
      assert OccursAt(s, sep, j);
    }
  }

  /** An occurrence in a suffix is an occurrence in the whole string. */
  lemma {:induction false} OccursShift(s: string, pat: string, k: nat, q: nat)
    requires k <= |s|
    ensures OccursAt(s[k..], pat, q) <==> OccursAt(s, pat, k + q)
  {
    if k + q + |pat| <= |s| {
      assert s[k..][q..q + |pat|] == s[k + q..k + q + |pat|];
    }
  }

  /** An occurrence inside a known prefix is an occurrence in that prefix. */
  lemma {:induction false} OccursInPrefix(s: string, t: string, pat: string, i: nat)
    requires |t| <= |s| && s[..|t|] == t && i + |pat| <= |t|
    ensures OccursAt(s, pat, i) <==> OccursAt(t, pat, i)
  {
    forall k | i <= k < i + |pat| ensures s[k] == t[k] {
      assert s[..|t|][k] == s[k];
    }
    assert s[i..i + |pat|] == t[i..i + |pat|];
  }

  /** Without an occurrence, `split` gives the whole string. */
  lemma {:induction false} SplitOnNone(s: string, sep: string)
    requires |sep| > 0 && forall q :: 0 <= q ==> !OccursAt(s, sep, q)
    ensures SplitOn(s, sep) == [s]
  {
    assert IndexFrom(s, sep, 0).None?;
  }

  /** With exactly one occurrence, `split` gives the text before it and
      the text after it. */
  lemma {:induction false} SplitOnOnce(s: string, sep: string, p: nat)
    requires |sep| > 0 && OccursAt(s, sep, p)
    requires forall q :: OccursAt(s, sep, q) ==> q == p
    ensures SplitOn(s, sep) == [s[..p], s[p + |sep|..]]
  {
    assert IndexFrom(s, sep, 0) == Some(p);
    var t := s[p + |sep|..];
    forall q | 0 <= q ensures !OccursAt(t, sep, q) {
      OccursShift(s, sep, p + |sep|, q);
    }
    SplitOnNone(t, sep);
  }

  /** One occurrence makes at least two pieces. */
  lemma {:induction false} SplitOnSome(s: string, sep: string, p: nat)
    requires |sep| > 0 && OccursAt(s, sep, p)
    ensures |SplitOn(s, sep)| >= 2
  {
    assert IndexFrom(s, sep, 0).Some?;
  }

  /** Two occurrences that do not overlap make at least three pieces. */
  lemma {:induction false} SplitOnTwice(s: string, sep: string, p1: nat, p2: nat)
    requires |sep| > 0 && OccursAt(s, sep, p1) && OccursAt(s, sep, p2) && p1 + |sep| <= p2
    ensures |SplitOn(s, sep)| >= 3
  {
    var i := IndexFrom(s, sep, 0).value;
    assert i <= p1;
    var t := s[i + |sep|..];
    SplitOnStep(s, sep, i);
    OccursShift(s, sep, i + |sep|, p2 - i - |sep|);
    SplitOnSome(t, sep, p2 - i - |sep|);
  }

  /** `split` cuts at the first occurrence and goes on after it. */
  lemma {:induction false} SplitOnStep(s: string, sep: string, i: nat)
    requires |sep| > 0 && IndexFrom(s, sep, 0) == Some(i)
    ensures SplitOn(s, sep) == [s[..i]] + SplitOn(s[i + |sep|..], sep)
  {
  }

  /** Python `s.replace(pat, "")`: every leftmost occurrence removed. */
  function RemoveAll(s: string, pat: string): string
    requires |pat| > 0
  {
    Join(SplitOn(s, pat), "")
  }

  // ---------------------------------------------------------------------
  // Whitespace and case
  // ---------------------------------------------------------------------

  /** The characters JavaScript `trim` removes: WhiteSpace and
      LineTerminator of ECMAScript. */
  predicate IsJsSpace(c: char) {
    c == ' ' || c == '\t' || c == '\n' || c == '\r' || c == '\U{000B}'
    || c == '\U{000C}' || c == '\U{00A0}' || c == '\U{FEFF}' || c == '\U{1680}'
    || ('\U{2000}' <= c <= '\U{200A}') || c == '\U{2028}' || c == '\U{2029}'
    || c == '\U{202F}' || c == '\U{205F}' || c == '\U{3000}'
  }

  /** `s` with its leading whitespace removed. */
  function TrimStart(s: string): (r: string)
    ensures |r| <= |s| && r == s[|s| - |r|..]
    ensures |r| > 0 ==> !IsJsSpace(r[0])
    ensures forall i :: 0 <= i < |s| - |r| ==> IsJsSpace(s[i])
  {
    if |s| > 0 && IsJsSpace(s[0]) then TrimStart(s[1..]) else s
  }

  /** `s` with its trailing whitespace removed. */
  function TrimEnd(s: string): (r: string)
    ensures |r| <= |s| && r == s[..|r|]
    ensures |r| > 0 ==> !IsJsSpace(r[|r| - 1])
    ensures forall i :: |r| <= i < |s| ==> IsJsSpace(s[i])
  {
    if |s| > 0 && IsJsSpace(s[|s| - 1]) then TrimEnd(s[..|s| - 1]) else s
  }

  /** JavaScript `s.trim()`. */
  function Trim(s: string): string {
    TrimEnd(TrimStart(s))
  }

  /** A trimmed string neither starts nor ends with whitespace, and holds
      only characters of the original. */
  lemma {:induction false} TrimBounds(s: string)
    ensures |Trim(s)| > 0 ==> !IsJsSpace(Trim(s)[0]) && !IsJsSpace(Trim(s)[|Trim(s)| - 1])
    ensures forall c :: c in Trim(s) ==> c in s
  {
    var t := TrimStart(s);
    assert TrimEnd(t) == t[..|TrimEnd(t)|];
    forall c | c in Trim(s) ensures c in s {
      assert c in t;
      assert t == s[|s| - |t|..];
    }
  }

  /** A leading space is trimmed away. */
  lemma {:induction false} TrimSpace(s: string)
    ensures Trim([' '] + s) == Trim(s)
  {
    assert ([' '] + s)[1..] == s;
  }

  /** A string that neither starts nor ends with whitespace is its own trim. */
  lemma {:induction false} TrimUnchanged(s: string)
    requires |s| > 0 ==> !IsJsSpace(s[0]) && !IsJsSpace(s[|s| - 1])
    ensures Trim(s) == s
  {
  }

  /** `toLowerCase` restricted to ASCII letters. */
  function LowerAscii(s: string): (r: string)
    ensures |r| == |s|
  {
    seq(|s|, i requires 0 <= i < |s| =>
      if 'A' <= s[i] <= 'Z' then (s[i] as int + 32) as char else s[i])
  }

  /** Lowercasing keeps an already lowercase infix in place. */
  lemma {:induction false} LowerAsciiContains(s: string, pat: string)
    requires Contains(s, pat) && LowerAscii(pat) == pat
    ensures Contains(LowerAscii(s), pat)
  {
    var i: nat :| OccursAt(s, pat, i);
    assert LowerAscii(s)[i..i + |pat|] == LowerAscii(pat);
    assert OccursAt(LowerAscii(s), pat, i);
  }

  /** `toUpperCase` / Python `upper()` restricted to ASCII letters. */
  function UpperAscii(s: string): (r: string)
    ensures |r| == |s|
  {
    seq(|s|, i requires 0 <= i < |s| =>
      if 'a' <= s[i] <= 'z' then (s[i] as int - 32) as char else s[i])
  }

  // ---------------------------------------------------------------------
  // Decimal numbers
  // ---------------------------------------------------------------------

  predicate IsDigit(c: char) {
    '0' <= c <= '9'
  }

  predicate AllDigits(s: string) {
    forall i :: 0 <= i < |s| ==> IsDigit(s[i])
  }

  function DigitChar(d: nat): (c: char)
    requires d < 10
    ensures IsDigit(c) && c as int - '0' as int == d
  {
    ('0' as int + d) as char
  }

  /** The decimal digits of `n` (JavaScript `String(n)`, Python `str(n)`
      for a non-negative integer). */
  function NatToString(n: nat): (r: string)
    ensures |r| >= 1 && AllDigits(r)
  {
    if n < 10 then [DigitChar(n)] else NatToString(n / 10) + [DigitChar(n % 10)]
  }

  /** JavaScript `String(i)`, Python `str(i)` for an integer. */
  function IntToString(i: int): (r: string)
    ensures |r| >= 1
  {
    if i < 0 then "-" + NatToString(-i) else NatToString(i)
  }

  /** The value of a string of decimal digits. */
  function DigitsValue(s: string): nat
    requires AllDigits(s)
  {
    if |s| == 0 then 0
    else DigitsValue(s[..|s| - 1]) * 10 + (s[|s| - 1] as int - '0' as int)
  }

  /** Python `int(s)` on a string of ASCII digits with an optional sign;
      `None` stands for the `ValueError` it raises on anything else. */
  function ParseInt(s: string): (r: Option<int>)
    ensures r.Some? <==> (|s| > 0 && AllDigits(s)) || (|s| > 1 && (s[0] == '-' || s[0] == '+') && AllDigits(s[1..]))
    ensures r.Some? && r.value < 0 ==> s[0] == '-'
  {
    if |s| > 0 && (s[0] == '-' || s[0] == '+') then
      if |s| > 1 && AllDigits(s[1..]) then
        var v: int := DigitsValue(s[1..]);
        Some(if s[0] == '-' then -v else v)
      else None
    else if |s| > 0 && AllDigits(s) then Some(DigitsValue(s))
    else None
  }

  lemma {:induction false} DigitsOfNat(n: nat)
    ensures DigitsValue(NatToString(n)) == n
  {
    if n >= 10 {
      DigitsOfNat(n / 10);
      var s := NatToString(n);
      assert s[..|s| - 1] == NatToString(n / 10);
    }
  }

  /** Printing an integer and parsing it back gives the integer. */
  lemma {:induction false} ParseIntToString(i: int)
    ensures ParseInt(IntToString(i)) == Some(i)
  {
    if i < 0 {
      ParseNegative(-i);
    } else {
      ParseNatural(i);
    }
  }

  lemma {:induction false} ParseNatural(n: nat)
    ensures ParseInt(NatToString(n)) == Some(n)
  {
    var s := NatToString(n);
    assert IsDigit(s[0]);
    DigitsOfNat(n);
  }

  lemma {:induction false} ParseNegative(n: nat)
    requires n > 0
    ensures ParseInt("-" + NatToString(n)) == Some(-(n as int))
  {
    var d := NatToString(n);
    var s := "-" + d;
    assert s[0] == '-' && s[1..] == d;
    DigitsOfNat(n);
  }

  /** Distinct integers print differently. */
  lemma {:induction false} IntToStringInjective(i: int, j: int)
    requires IntToString(i) == IntToString(j)
    ensures i == j
  {
    ParseIntToString(i);
    ParseIntToString(j);
  }
}

=== FILE: uri.dfy ===
/** `encodeURIComponent` and the `k=v&k=v` form body built from it.

    A character outside the unreserved set `A-Z a-z 0-9 - _ . ! ~ * ' ( )`
    is written as its UTF-8 bytes (section 3 of RFC 3629), each as `%` and
    two upper-case hex digits. The partner is `DecodeComponent`, which
    undoes the percent escapes and decodes the UTF-8 bytes again, as
    `decodeURIComponent` does; `ParseForm` splits a body on `&` and `=`
    and decodes both sides. */
module Uri {
  import opened Maybe
  import opened Text

  predicate Unreserved(c: char) {
    'A' <= c <= 'Z' || 'a' <= c <= 'z' || '0' <= c <= '9'
    || c == '-' || c == '_' || c == '.' || c == '!' || c == '~' || c == '*' || c == '\'' || c == '(' || c == ')'
  }

  predicate IsByte(b: int) {
    0 <= b < 256
  }

  // ---------------------------------------------------------------------
  // UTF-8
  // ---------------------------------------------------------------------

  /** The UTF-8 bytes of a scalar value. */
  function Utf8(c: char): (r: seq<int>)
    ensures 1 <= |r| <= 4 && forall i :: 0 <= i < |r| ==> IsByte(r[i])
    ensures |r| == 1 <==> (c as int) < 0x80
  {
    var n := c as int;
    if n < 0x80 then [n]
    else if n < 0x800 then [0xC0 + n / 64, 0x80 + n % 64]
    else if n < 0x10000 then [0xE0 + n / 4096, 0x80 + (n / 64) % 64, 0x80 + n % 64]
    else [0xF0 + n / 262144, 0x80 + (n / 4096) % 64, 0x80 + (n / 64) % 64, 0x80 + n % 64]
  }

  predicate Continuation(b: int) {
    0x80 <= b < 0xC0
  }

  predicate ScalarValue(n: int) {
    0 <= n < 0xD800 || 0xE000 <= n < 0x110000
  }

  /** One character from the front of `bs`, and how many bytes it took;
      `None` for a malformed, overlong or surrogate sequence. */
  function DecodeOne(bs: seq<int>): (r: Option<(char, nat)>)
    requires |bs| > 0
    ensures r.Some? ==> 1 <= r.value.1 <= |bs|
  {
    var b0 := bs[0];
    if 0 <= b0 < 0x80 then Some((b0 as char, 1))
    else if 0xC2 <= b0 < 0xE0 && |bs| >= 2 && Continuation(bs[1]) then
      var n := (b0 - 0xC0) * 64 + (bs[1] - 0x80);
      if ScalarValue(n) then Some((n as char, 2)) else None
    else if 0xE0 <= b0 < 0xF0 && |bs| >= 3 && Continuation(bs[1]) && Continuation(bs[2]) then
      var n := (b0 - 0xE0) * 4096 + (bs[1] - 0x80) * 64 + (bs[2] - 0x80);
      if 0x800 <= n && ScalarValue(n) then Some((n as char, 3)) else None
    else if 0xF0 <= b0 < 0xF5 && |bs| >= 4 && Continuation(bs[1]) && Continuation(bs[2]) && Continuation(bs[3]) then
      var n := (b0 - 0xF0) * 262144 + (bs[1] - 0x80) * 4096 + (bs[2] - 0x80) * 64 + (bs[3] - 0x80);
      if 0x10000 <= n && ScalarValue(n) then Some((n as char, 4)) else None
    else None
  }

  /** A whole byte string as characters. */
  function Utf8Decode(bs: seq<int>): (r: Option<string>)
    decreases |bs|
  {
    if |bs| == 0 then Some("")
    else match DecodeOne(bs)
      case None => None
      case Some((c, k)) =>
        match Utf8Decode(bs[k..])
        case None => None
        case Some(t) => Some([c] + t)
  }

  lemma {:induction false} SplitTwo(n: int)
    requires 0 <= n
    ensures n == (n / 64) * 64 + n % 64
  {
  }

  lemma {:induction false} SplitThree(n: int)
    requires 0 <= n < 0x10000
    ensures (n / 4096) * 4096 + ((n / 64) % 64) * 64 + n % 64 == n
    ensures n / 4096 < 16
  {
    var q := n / 4096;
    var r := n % 4096;
    assert n == q * 4096 + r;
    assert r == (r / 64) * 64 + r % 64;
    assert n == (q * 64 + r / 64) * 64 + r % 64;
    assert n / 64 == q * 64 + r / 64;
    assert n % 64 == r % 64;
    assert (n / 64) % 64 == r / 64;
  }

  lemma {:induction false} SplitFour(n: int)
    requires 0 <= n < 0x110000
    ensures (n / 262144) * 262144 + ((n / 4096) % 64) * 4096 + ((n / 64) % 64) * 64 + n % 64 == n
    ensures n / 262144 < 5
  {
    var q := n / 262144;
    var r := n % 262144;
    assert n == q * 262144 + r;
    SplitThreeWide(r);
    assert n / 4096 == q * 64 + r / 4096;
    assert (n / 4096) % 64 == r / 4096;
    assert n / 64 == q * 4096 + r / 64;
    assert (n / 64) % 64 == (r / 64) % 64;
    assert n % 64 == r % 64;
  }

  lemma {:induction false} SplitThreeWide(r: int)
    requires 0 <= r < 262144
    ensures (r / 4096) * 4096 + ((r / 64) % 64) * 64 + r % 64 == r
    ensures r / 4096 < 64
  {
    var q := r / 4096;
    var s := r % 4096;
    assert r == (q * 64 + s / 64) * 64 + s % 64;
    assert r / 64 == q * 64 + s / 64;
    assert (r / 64) % 64 == s / 64;
  }

  /** The bytes of one character decode to that character. */
  lemma {:induction false} DecodeOneUtf8(c: char, rest: seq<int>)
    ensures DecodeOne(Utf8(c) + rest) == Some((c, |Utf8(c)|))
  {
    var n := c as int;
    var bs := Utf8(c) + rest;
    if n < 0x80 {
    } else if n < 0x800 {
      SplitTwo(n);
      assert bs[0] == 0xC0 + n / 64 && bs[1] == 0x80 + n % 64;
    } else if n < 0x10000 {
      SplitThree(n);
      assert bs[0] == 0xE0 + n / 4096 && bs[1] == 0x80 + (n / 64) % 64 && bs[2] == 0x80 + n % 64;
    } else {
      SplitFour(n);
      assert bs[0] == 0xF0 + n / 262144 && bs[1] == 0x80 + (n / 4096) % 64;
      assert bs[2] == 0x80 + (n / 64) % 64 && bs[3] == 0x80 + n % 64;
    }
  }

  /** The UTF-8 bytes of a string, character after character. */
  function Utf8s(s: string): (r: seq<int>)
    ensures forall i :: 0 <= i < |r| ==> IsByte(r[i])
  {
    if |s| == 0 then [] else Utf8(s[0]) + Utf8s(s[1..])
  }

  /** Decoding undoes encoding. */
  lemma {:induction false} Utf8RoundTrip(s: string)
    ensures Utf8Decode(Utf8s(s)) == Some(s)
  {
    if |s| > 0 {
      var bs := Utf8s(s);
      DecodeOneUtf8(s[0], Utf8s(s[1..]));
      assert bs[|Utf8(s[0])|..] == Utf8s(s[1..]);
      Utf8RoundTrip(s[1..]);
      assert [s[0]] + s[1..] == s;
    }
  }

  // ---------------------------------------------------------------------
  // Percent escapes
  // ---------------------------------------------------------------------

  const HexDigits := "0123456789ABCDEF"

  /** `%XY` for one byte. */
  function Escape(b: int): (r: string)
    requires IsByte(b)
    ensures |r| == 3 && r[0] == '%'
  {
    ['%', HexDigits[b / 16], HexDigits[b % 16]]
  }

  function EscapeAll(bs: seq<int>): (r: string)
    requires forall i :: 0 <= i < |bs| ==> IsByte(bs[i])
    ensures |r| == 3 * |bs|
  {
    if |bs| == 0 then "" else Escape(bs[0]) + EscapeAll(bs[1..])
  }

  /** `encodeURIComponent` of one character. */
  function EncodeChar(c: char): (r: string)
    ensures |r| > 0
    ensures Unreserved(c) ==> r == [c]
  {
    if Unreserved(c) then [c] else EscapeAll(Utf8(c))
  }

  /** `encodeURIComponent(s)`. */
  function Encode(s: string): (r: string)
    ensures |r| >= |s|
  {
    if |s| == 0 then "" else EncodeChar(s[0]) + Encode(s[1..])
  }

  /** A string of unreserved characters is written as it is. */
  lemma {:induction false} EncodeUnreserved(s: string)
    requires forall i :: 0 <= i < |s| ==> Unreserved(s[i])
    ensures Encode(s) == s
  {
    if |s| > 0 {
      EncodeUnreserved(s[1..]);
      assert [s[0]] + s[1..] == s;
    }
  }

  /** The output holds only unreserved characters, `%` and hex digits: never
      `&` or `=`, so a form body can be split again. */
  lemma {:induction false} EncodeHasNoSeparators(s: string)
    ensures '&' !in Encode(s) && '=' !in Encode(s)
  {
    if |s| > 0 {
      EncodeHasNoSeparators(s[1..]);
      if !Unreserved(s[0]) {
        EscapeNoSeparators(Utf8(s[0]));
      }
    }
  }

  lemma {:induction false} EscapeNoSeparators(bs: seq<int>)
    requires forall i :: 0 <= i < |bs| ==> IsByte(bs[i])
    ensures '&' !in EscapeAll(bs) && '=' !in EscapeAll(bs)
  {
    if |bs| > 0 {
      EscapeNoSeparators(bs[1..]);
    }
  }

  /** The value of a hex digit of either case. */
  function HexValue(c: char): (r: Option<int>)
    ensures r.Some? ==> 0 <= r.value < 16
  {
    if '0' <= c <= '9' then Some(c as int - '0' as int)
    else if 'A' <= c <= 'F' then Some(c as int - 'A' as int + 10)
    else if 'a' <= c <= 'f' then Some(c as int - 'a' as int + 10)
    else None
  }

  /** The bytes a percent-encoded string stands for: `%XY` is one byte, any
      other character its own UTF-8 bytes; `None` for a `%` without two
      hex digits. */
  function Unescape(s: string): (r: Option<seq<int>>)
    decreases |s|
  {
    if |s| == 0 then Some([])
    else if s[0] == '%' then
      if |s| >= 3 && HexValue(s[1]).Some? && HexValue(s[2]).Some? then
        match Unescape(s[3..])
        case None => None
        case Some(t) => Some([HexValue(s[1]).value * 16 + HexValue(s[2]).value] + t)
      else None
    else
      match Unescape(s[1..])
      case None => None
      case Some(t) => Some(Utf8(s[0]) + t)
  }

  lemma {:induction false} HexDigitValue(d: int)
    requires 0 <= d < 16
    ensures HexValue(HexDigits[d]) == Some(d)
  {
  }

  /** One escape decodes to its byte. */
  lemma {:induction false} UnescapeEscape(b: int, rest: string)
    requires IsByte(b)
    ensures Unescape(Escape(b) + rest) ==
      match Unescape(rest) case None => None case Some(t) => Some([b] + t)
  {
    var s := Escape(b) + rest;
    HexDigitValue(b / 16);
    HexDigitValue(b % 16);
    assert s[1] == HexDigits[b / 16] && s[2] == HexDigits[b % 16];
    assert s[3..] == rest;
    assert HexValue(s[1]).value * 16 + HexValue(s[2]).value == b;
  }

  lemma {:induction false} UnescapeEscapeAll(bs: seq<int>, rest: string)
    requires forall i :: 0 <= i < |bs| ==> IsByte(bs[i])
    ensures Unescape(EscapeAll(bs) + rest) ==
      match Unescape(rest) case None => None case Some(t) => Some(bs + t)
  {
    if |bs| > 0 {
      var tail := EscapeAll(bs[1..]) + rest;
      assert EscapeAll(bs) + rest == Escape(bs[0]) + tail;
      UnescapeEscape(bs[0], tail);
      UnescapeEscapeAll(bs[1..], rest);
      match Unescape(rest)
      case None =>
      case Some(t) =>
        assert [bs[0]] + (bs[1..] + t) == bs + t;
    } else {
      assert EscapeAll(bs) + rest == rest;
      match Unescape(rest)
      case None =>
      case Some(t) =>
        assert bs + t == t;
    }
  }

  lemma {:induction false} UnescapeEncodeChar(c: char, rest: string)
    ensures Unescape(EncodeChar(c) + rest) ==
      match Unescape(rest) case None => None case Some(t) => Some(Utf8(c) + t)
  {
    if Unreserved(c) {
      assert (EncodeChar(c) + rest)[1..] == rest;
    } else {
      UnescapeEscapeAll(Utf8(c), rest);
    }
  }

  lemma {:induction false} UnescapeEncode(s: string)
    ensures Unescape(Encode(s)) == Some(Utf8s(s))
  {
    if |s| > 0 {
      UnescapeEncode(s[1..]);
      UnescapeEncodeChar(s[0], Encode(s[1..]));
    }
  }

  /** `decodeURIComponent(s)`; `None` is the URIError it throws. */
  function DecodeComponent(s: string): (r: Option<string>)
  {
    match Unescape(s)
    case None => None
    case Some(bs) => Utf8Decode(bs)
  }

  /** Decoding gives back what was encoded, for every string. */
  lemma {:induction false} DecodeEncode(s: string)
    ensures DecodeComponent(Encode(s)) == Some(s)
  {
    UnescapeEncode(s);
    Utf8RoundTrip(s);
  }

  // ---------------------------------------------------------------------
  // Form bodies
  // ---------------------------------------------------------------------

  function Pair(e: (string, string)): string {
    Encode(e.0) + "=" + Encode(e.1)
  }

  /** `Object.entries(data).map(([k, v]) => enc(k) + '=' + enc(v)).join('&')`. */
  function FormBody(data: seq<(string, string)>): string {
    Join(seq(|data|, i requires 0 <= i < |data| => Pair(data[i])), "&")
  }

  /** A body with at least one pair is never empty. */
  lemma {:induction false} FormBodyNonEmpty(data: seq<(string, string)>)
    requires |data| > 0
    ensures FormBody(data) != ""
  {
    var pairs := seq(|data|, i requires 0 <= i < |data| => Pair(data[i]));
    JoinContains(pairs, "&", 0);
    assert OccursAt(pairs[0], "=", |Encode(data[0].0)|);
    ContainsTrans(FormBody(data), pairs[0], "=");
  }

  function DecodePair(p: string): (r: Option<(string, string)>)
  {
    var kv := Split(p, '=');
    if |kv| != 2 then None
    else match (DecodeComponent(kv[0]), DecodeComponent(kv[1]))
      case (Some(k), Some(v)) => Some((k, v))
      case _ => None
  }

  /** Splits a body on `&`, each piece on its one `=`, and decodes both
      sides. The empty body is no pairs. */
  function ParseForm(body: string): (r: Option<seq<(string, string)>>)
  {
    if body == "" then Some([]) else MapAll(Split(body, '&'), DecodePair)
  }

  lemma {:induction false} DecodePairOf(e: (string, string))
    ensures DecodePair(Pair(e)) == Some(e)
  {
    EncodeHasNoSeparators(e.0);
    EncodeHasNoSeparators(e.1);
    SplitJoin([Encode(e.0), Encode(e.1)], '=');
    assert Join([Encode(e.0), Encode(e.1)], "=") == Pair(e);
    DecodeEncode(e.0);
    DecodeEncode(e.1);
  }

  /** A form body parses back into the pairs it was built from. */
  lemma {:induction false} FormRoundTrip(data: seq<(string, string)>)
    ensures ParseForm(FormBody(data)) == Some(data)
  {
    if |data| > 0 {
      FormBodyNonEmpty(data);
      var pairs := seq(|data|, i requires 0 <= i < |data| => Pair(data[i]));
      assert FormBody(data) == Join(pairs, "&");
      forall i | 0 <= i < |pairs| ensures '&' !in pairs[i] {
        EncodeHasNoSeparators(data[i].0);
        EncodeHasNoSeparators(data[i].1);
      }
      SplitJoin(pairs, '&');
      DecodeAllPairs(data, pairs);
    }
  }

  lemma {:induction false} DecodeAllPairs(data: seq<(string, string)>, pairs: seq<string>)
    requires |pairs| == |data| && forall i :: 0 <= i < |data| ==> pairs[i] == Pair(data[i])
    ensures MapAll(pairs, DecodePair) == Some(data)
  {
    forall i | 0 <= i < |data| ensures DecodePair(pairs[i]) == Some(data[i]) {
      DecodePairOf(data[i]);
    }
    MapAllEach(pairs, DecodePair, data);
  }
}

=== FILE: zorvix_panel.dfy ===
/** The inline control panel of the ZorvixVM bot: the selection and
    confirmation keyboards, the callback data they send, and what
    `callback_handler` does with each press. The panel remembers whose
    instances it manages (`managing_user`) and whether an admin opened it
    (`is_admin_managing`); the LXC calls of a handler are one succeed/fail
    oracle `ok`, the clock is the parameter `now`, and the live metrics and
    the SSH session's link are left out. */
module ZorvixPanel {
  import opened Maybe
  import opened Text
  import opened Ordered
  import opened BotCommon
  import opened ZorvixStore

  // ---------------------------------------------------------------------
  // Keyboards
  // ---------------------------------------------------------------------

  /** The caption of an instance in the selection list: its position from
      one, its name, and its status in capitals, marked when isolated. */
  function InstanceCaption(v: Vps, i: nat): (r: string)
    ensures "#" + NatToString(i + 1) + " - " <= r
    ensures |r| >= 8 + |v.status| && (v.suspended ==> |r| >= 19)
    ensures v.suspended ==> r[|r| - 12..] == " (ISOLATED)]"
    ensures !v.suspended ==> r[|r| - |v.status| - 1..] == UpperAscii(v.status) + "]"
  {
    var flag := if v.suspended then " (ISOLATED)" else "";
    var head := "#" + NatToString(i + 1) + " - ";
    CaptionEnds(head, v.name, UpperAscii(v.status), flag);
    assert !v.suspended ==> UpperAscii(v.status) + (flag + "]") == UpperAscii(v.status) + "]";
    head + (v.name + (" [" + (UpperAscii(v.status) + (flag + "]"))))
  }

  /** The caption ends with the status and the flag, and starts with the
      position. */
  lemma {:induction false} CaptionEnds(head: string, name: string, up: string, flag: string)
    ensures var r := head + (name + (" [" + (up + (flag + "]"))));
      |r| == |head| + |name| + |up| + |flag| + 3
      && head <= r
      && r[|r| - |flag| - 1..] == flag + "]"
      && r[|r| - |up| - |flag| - 1..] == up + (flag + "]")
  {
    var x := up + (flag + "]");
    var r := head + (name + (" [" + x));
    assert r[|r| - |x|..] == x by {
      assert r == (head + name + " [") + x;
    }
    assert r[|r| - |flag| - 1..] == x[|up|..] == flag + "]";
  }

  /** `create_vps_select_keyboard(vps_list, prefix)`: one row per instance,
      in list order, each sending `prefix:i` for its position `i`. */
  function SelectKeyboard(list: seq<Vps>, prefix: string): (r: Keyboard)
    ensures |r| == |list|
    ensures forall i :: 0 <= i < |r| ==> |r[i]| == 1 && r[i][0].data == IndexData(prefix, i)
    ensures forall i :: 0 <= i < |r| ==> r[i][0].caption == InstanceCaption(list[i], i)
  {
    seq(|list|, i requires 0 <= i < |list| => [Button(InstanceCaption(list[i], i), IndexData(prefix, i))])
  }

  const ConfirmLabel := "\U{201A}\U{00FA}\U{00D6} Confirm"
  const CancelLabel := "\U{201A}\U{00F9}\U{00E5} Cancel"

  /** `create_confirm_keyboard(action, index)`: one row, Confirm then
      Cancel. */
  function ConfirmKeyboard(action: string, index: int): (r: Keyboard)
    ensures |r| == 1 && |r[0]| == 2
    ensures r[0][0] == Button(ConfirmLabel, IndexData("confirm_" + action, index))
    ensures r[0][1] == Button(CancelLabel, IndexData("cancel_" + action, index))
  {
    [[Button(ConfirmLabel, IndexData("confirm_" + action, index)),
      Button(CancelLabel, IndexData("cancel_" + action, index))]]
  }

  // ---------------------------------------------------------------------
  // Callback data
  // ---------------------------------------------------------------------

  /** The callback actions that carry an instance index. */
  datatype Action =
    | Select | AdminSelect | Start | Stop | Metrics | Ssh
    | Reinstall | ConfirmReinstall | CancelReinstall

  function ActionName(a: Action): string {
    match a
    case Select => "vps_select"
    case AdminSelect => "admin_vps_select"
    case Start => "vps_start"
    case Stop => "vps_stop"
    case Metrics => "vps_stats"
    case Ssh => "vps_ssh"
    case Reinstall => "vps_reinstall"
    case ConfirmReinstall => "confirm_reinstall"
    case CancelReinstall => "cancel_reinstall"
  }

  /** The action a name stands for, when it is one of the nine. */
  function ActionNamed(name: string): (r: Option<Action>)
    ensures r.Some? ==> ActionName(r.value) == name
    ensures forall a :: ActionName(a) == name ==> r == Some(a)
  {
    if name == "vps_select" then Some(Select)
    else if name == "admin_vps_select" then Some(AdminSelect)
    else if name == "vps_start" then Some(Start)
    else if name == "vps_stop" then Some(Stop)
    else if name == "vps_stats" then Some(Metrics)
    else if name == "vps_ssh" then Some(Ssh)
    else if name == "vps_reinstall" then Some(Reinstall)
    else if name == "confirm_reinstall" then Some(ConfirmReinstall)
    else if name == "cancel_reinstall" then Some(CancelReinstall)
    else None
  }

  /** What `callback_handler` makes of a press: an indexed action, the
      Back button, nothing at all for an unknown action, or the
      `IndexError`/`ValueError` of `int(parts[1])`. */
  datatype Parsed = Indexed(action: Action, index: int) | BackPressed | Ignored | Raised

  /** `parts = data.split(':')`, then the `if`/`elif` chain on
      `parts[0]`. */
  function ParseCallback(data: string): (r: Parsed)
    ensures r.Indexed? ==> ActionName(r.action) + ":" <= data
    ensures r.Ignored? ==> ActionNamed(Split(data, ':')[0]).None? && Split(data, ':')[0] != "vps_back"
  {
    var parts := Split(data, ':');
    SplitHead(data, ':');
    if parts[0] == "vps_back" then BackPressed
    else match ActionNamed(parts[0])
      case None => Ignored
      case Some(a) =>
        if |parts| < 2 then Raised
        else match ParseInt(parts[1])
          case None => Raised
          case Some(i) => Indexed(a, i)
  }

  /** The first piece of a split is the text before the first separator,
      or all of it. */
  lemma {:induction false} SplitHead(s: string, sep: char)
    ensures |Split(s, sep)| == 1 ==> Split(s, sep)[0] == s
    ensures |Split(s, sep)| >= 2 ==> Split(s, sep)[0] + [sep] <= s
  {
    var parts := Split(s, sep);
    if |parts| >= 2 {
      assert s == parts[0] + [sep] + Join(parts[1..], [sep]);
    }
  }

  /** A decimal number holds no colon. */
  lemma {:induction false} NoColonInNumber(i: int)
    ensures ':' !in IntToString(i)
  {
    var d := if i < 0 then NatToString(-i) else NatToString(i);
    assert AllDigits(d);
    if i < 0 {
      assert IntToString(i) == "-" + d;
      assert forall k :: 0 <= k < |IntToString(i)| ==> IntToString(i)[k] == '-' || IsDigit(IntToString(i)[k]);
    }
  }

  /** The data `action:index` reads back as the action and the index. */
  lemma {:induction false} CallbackRoundTrip(a: Action, index: int)
    ensures ParseCallback(IndexData(ActionName(a), index)) == Indexed(a, index)
  {
    var name := ActionName(a);
    var digits := IntToString(index);
    ActionNameFacts(a);
    assert Split(IndexData(name, index), ':') == [name, digits] by {
      NoColonInNumber(index);
      SplitCons(name, ':', digits);
      SplitNoSep(digits, ':');
      assert IndexData(name, index) == name + [':'] + digits;
    }
    ParseIntToString(index);
  }

  /** An action's name holds no colon, is not the Back button's, and names
      that action. */
  lemma {:induction false} ActionNameFacts(a: Action)
    ensures ':' !in ActionName(a) && ActionName(a) != "vps_back"
    ensures ActionNamed(ActionName(a)) == Some(a)
  {
  }

  /** The Back button's data, with or without an index after it. */
  lemma {:induction false} BackRoundTrip(rest: string)
    ensures ParseCallback("vps_back") == BackPressed
    ensures ParseCallback("vps_back:" + rest) == BackPressed
  {
    SplitNoSep("vps_back", ':');
    SplitCons("vps_back", ':', rest);
    assert "vps_back:" + rest == "vps_back" + [':'] + rest;
  }

  /** A button whose data names an action on an index reads back as that
      action on that index. */
  lemma {:induction false} ButtonCallback(b: Button, a: Action, index: int)
    requires b.data == IndexData(ActionName(a), index)
    ensures ParseCallback(b.data) == Indexed(a, index)
  {
    CallbackRoundTrip(a, index);
  }

  /** The data each control-keyboard button sends, by the action it names. */
  lemma {:induction false} ControlKeyboardData(labels: Labels, index: int, isOwner: bool, isAdmin: bool)
    ensures var k := ControlKeyboard(labels, index, isOwner, isAdmin);
      k[0][0].data == IndexData(ActionName(Start), index)
      && k[0][1].data == IndexData(ActionName(Stop), index)
      && k[1][0].data == IndexData(ActionName(Metrics), index)
      && k[1][1].data == IndexData(ActionName(Ssh), index)
      && (|k| == 4 ==> k[2][0].data == IndexData(ActionName(Reinstall), index))
      && k[|k| - 1][0].data == "vps_back"
  {
  }

  /** Every button of the control keyboard sends data that reads back as
      the action it is labelled with, on the panel's own index, whatever
      its captions. */
  lemma {:induction false} ControlKeyboardCallbacks(labels: Labels, index: int, isOwner: bool, isAdmin: bool)
    ensures var k := ControlKeyboard(labels, index, isOwner, isAdmin);
      ParseCallback(k[0][0].data) == Indexed(Start, index)
      && ParseCallback(k[0][1].data) == Indexed(Stop, index)
      && ParseCallback(k[1][0].data) == Indexed(Metrics, index)
      && ParseCallback(k[1][1].data) == Indexed(Ssh, index)
      && (|k| == 4 ==> ParseCallback(k[2][0].data) == Indexed(Reinstall, index))
      && ParseCallback(k[|k| - 1][0].data) == BackPressed
  {
    var k: Keyboard := ControlKeyboard(labels, index, isOwner, isAdmin);
    ControlKeyboardData(labels, index, isOwner, isAdmin);
    ButtonCallback(k[0][0], Start, index);
    ButtonCallback(k[0][1], Stop, index);
    ButtonCallback(k[1][0], Metrics, index);
    ButtonCallback(k[1][1], Ssh, index);
    if |k| == 4 {
      ButtonCallback(k[2][0], Reinstall, index);
    }
    BackRoundTrip("");
  }

  /** The selection list's buttons read back as selections of their own
      positions; the confirmation buttons as confirm and cancel. */
  lemma {:induction false} SelectKeyboardCallbacks(list: seq<Vps>, admin: bool, i: nat)
    requires i < |list|
    ensures var k := SelectKeyboard(list, if admin then "admin_vps_select" else "vps_select");
      ParseCallback(k[i][0].data) == Indexed(if admin then AdminSelect else Select, i)
  {
    CallbackRoundTrip(if admin then AdminSelect else Select, i);
  }

  lemma {:induction false} ConfirmKeyboardCallbacks(index: int)
    ensures var k := ConfirmKeyboard("reinstall", index);
      ParseCallback(k[0][0].data) == Indexed(ConfirmReinstall, index)
      && ParseCallback(k[0][1].data) == Indexed(CancelReinstall, index)
  {
    assert "confirm_" + "reinstall" == ActionName(ConfirmReinstall);
    assert "cancel_" + "reinstall" == ActionName(CancelReinstall);
    CallbackRoundTrip(ConfirmReinstall, index);
    CallbackRoundTrip(CancelReinstall, index);
  }

  // ---------------------------------------------------------------------
  // The panel's session and the instance a press refers to
  // ---------------------------------------------------------------------

  /** `context.user_data`: whose instances the panel manages, and whether
      an admin opened it for another user. */
  datatype Session = Session(managing: Option<string>, adminManaging: bool)

  /** `context.user_data.get('managing_user')` read as a condition: absent
      and empty both count as no target. */
  function Target(session: Session): (r: Option<string>)
    ensures r.Some? ==> r.value != ""
  {
    if session.managing.Some? && session.managing.value != "" then session.managing else None
  }

  /** The dictionary position of a user's list, when the user has one. */
  function UserSlot(store: Store, uid: string): (r: Option<nat>)
    ensures r.Some? ==> r.value < |store| && store[r.value].0 == uid
                        && store[r.value].1 == Instances(store, uid)
    ensures r.None? ==> Instances(store, uid) == []
  {
    IndexOfKey(store, EntryKey, uid)
  }

  /** What the common opening of the handlers finds: no target, an index
      past the end (`vps_index >= len(vps_list)`), a negative index before
      the start (the `IndexError` of `vps_list[vps_index]`), or the
      record's place in the store. */
  datatype Pick = NoSession | PastEnd | BeforeStart | At(u: nat, j: nat)

  /** Looks up `uid`'s `index`-th instance the way the handlers do, with
      Python's negative indexing. */
  function PickFor(store: Store, uid: string, index: int): (r: Pick)
    ensures r.PastEnd? <==> index >= |Instances(store, uid)|
    ensures r.BeforeStart? <==> index < -|Instances(store, uid)|
    ensures r.At? ==> r.u < |store| && r.j < |store[r.u].1| && store[r.u].0 == uid
    ensures r.At? ==> store[r.u].1 == Instances(store, uid)
                      && PyIndex(|Instances(store, uid)|, index) == Some(r.j)
    ensures !r.NoSession?
  {
    var list := Instances(store, uid);
    if index >= |list| then PastEnd
    else match PyIndex(|list|, index)
      case None => BeforeStart
      case Some(j) => At(UserSlot(store, uid).value, j)
  }

  /** The same lookup on the session's target. */
  function PickRecord(store: Store, session: Session, index: int): (r: Pick)
    ensures Target(session).None? ==> r == NoSession
    ensures Target(session).Some? ==> r == PickFor(store, Target(session).value, index)
  {
    match Target(session)
    case None => NoSession
    case Some(uid) => PickFor(store, uid, index)
  }

  /** The keyboard a handler refreshes the panel with:
      `is_owner=not is_admin_managing, is_admin=is_admin_managing`. */
  function RefreshKeyboard(session: Session, index: int): (r: Keyboard)
    ensures |r| == 4 <==> !session.adminManaging
  {
    ControlKeyboard(ZorvixLabels, index, !session.adminManaging, session.adminManaging)
  }

  // ---------------------------------------------------------------------
  // The handlers
  // ---------------------------------------------------------------------

  /** What a press shows. */
  datatype PanelReply =
    | Silent                       // the handler returns without a reply
    | Crashed                      // an exception escapes the handler
    | NoTarget                     // "Error: No target user selected."
    | InvalidSelection             // "Invalid instance selection."
    | NoInstances                  // "No Allocated Instances"
    | Listing(keyboard: Keyboard)  // the selection list
    | Panel(keyboard: Keyboard)    // the instance's information under its keyboard
    | PowerDone(on: bool, keyboard: Keyboard)
    | PowerFailed(on: bool)
    | LiveMetrics(name: string)
    | SshRefused                   // isolated instance
    | SshOffered(name: string)
    | ReinstallRefused             // isolated instance
    | ConfirmPrompt(keyboard: Keyboard)
    | Reinstalled(keyboard: Keyboard)
    | ReinstallFailed
    | IsolationKept                // corrected power and reinstall only

  /** `handle_vps_select`: the caller's own list, whatever the session. */
  function SelectOwn(store: Store, user: string, index: int): (r: PanelReply)
    ensures r == InvalidSelection <==> index >= |Instances(store, user)|
    ensures r == Crashed <==> index < -|Instances(store, user)|
    ensures r.Panel? ==> r.keyboard == ControlKeyboard(ZorvixLabels, index, true, false) && |r.keyboard| == 4
    ensures r.Panel? || r == InvalidSelection || r == Crashed
  {
    match PickFor(store, user, index)
    case PastEnd => InvalidSelection
    case BeforeStart => Crashed
    case _ => Panel(ControlKeyboard(ZorvixLabels, index, true, false))
  }

  /** `handle_admin_vps_select`: the target's list, with the keyboard
      that has no Reinstall row. */
  function SelectTarget(store: Store, session: Session, index: int): (r: PanelReply)
    ensures r == NoTarget <==> Target(session).None?
    ensures r.Panel? <==> PickRecord(store, session, index).At?
    ensures r.Panel? ==> r.keyboard == ControlKeyboard(ZorvixLabels, index, false, true) && |r.keyboard| == 3
    ensures r.Panel? || r == InvalidSelection || r == Crashed || r == NoTarget
  {
    match PickRecord(store, session, index)
    case NoSession => NoTarget
    case PastEnd => InvalidSelection
    case BeforeStart => Crashed
    case At(_, _) => Panel(ControlKeyboard(ZorvixLabels, index, false, true))
  }

  /** `handle_vps_back`: the target's selection list again, sending the
      admin or the owner selection action. */
  function Back(store: Store, session: Session): (r: PanelReply)
    ensures r == NoTarget <==> Target(session).None?
    ensures r == NoInstances <==> Target(session).Some? && Instances(store, Target(session).value) == []
    ensures r.Listing? ==> |r.keyboard| == |Instances(store, Target(session).value)| > 0
    ensures r.Listing? ==> forall i :: 0 <= i < |r.keyboard| ==>
      (|r.keyboard[i]| == 1 && ParseCallback(r.keyboard[i][0].data) == Indexed(if session.adminManaging then AdminSelect else Select, i))
  {
    match Target(session)
    case None => NoTarget
    case Some(uid) =>
      var list := Instances(store, uid);
      if list == [] then NoInstances
      else
        var k := SelectKeyboard(list, if session.adminManaging then "admin_vps_select" else "vps_select");
        assert forall i :: 0 <= i < |k| ==>
          ParseCallback(k[i][0].data) == Indexed(if session.adminManaging then AdminSelect else Select, i) by {
          forall i | 0 <= i < |k|
            ensures ParseCallback(k[i][0].data) == Indexed(if session.adminManaging then AdminSelect else Select, i)
          {
            SelectKeyboardCallbacks(list, session.adminManaging, i);
          }
        }
        Listing(k)
  }

  /** The record after `lxc start` (`on`) or `lxc stop`: the new status,
      and the isolation flag cleared. */
  function Switched(v: Vps, on: bool): (r: Vps)
    ensures r.status == (if on then "running" else "stopped") && !r.suspended && Consistent(r)
    ensures r.(status := v.status, suspended := v.suspended) == v
  {
    v.(status := if on then "running" else "stopped", suspended := false)
  }

  /** `handle_vps_start` (`on`) and `handle_vps_stop` as written: on the
      target's instance, with no isolation check; a failed LXC call
      changes nothing. */
  function Power(store: Store, session: Session, index: int, on: bool, ok: bool): (r: (Store, PanelReply))
    ensures r.1.PowerDone? <==> PickRecord(store, session, index).At? && ok
    ensures !r.1.PowerDone? ==> r.0 == store
    ensures r.1 == Crashed <==> PickRecord(store, session, index).BeforeStart?
    ensures r.1.PowerDone? ==> r.1.on == on && r.1.keyboard == RefreshKeyboard(session, index)
    ensures r.1.PowerDone? ==> var p := PickRecord(store, session, index);
      OnlyChanged(store, r.0, p.u, p.j) && r.0[p.u].1[p.j] == Switched(store[p.u].1[p.j], on)
    ensures KeysUnique(store, EntryKey) ==> KeysUnique(r.0, EntryKey)
    ensures AllConsistent(store) ==> AllConsistent(r.0)
  {
    match PickRecord(store, session, index)
    case BeforeStart => (store, Crashed)
    case At(u, j) =>
      if ok then (SetRecord(store, u, j, Switched(store[u].1[j], on)), PowerDone(on, RefreshKeyboard(session, index)))
      else (store, PowerFailed(on))
    case _ => (store, Silent)
  }

  /** The power buttons refusing an isolated instance, so that only
      `/unsuspend_vps` lifts isolation. Otherwise as `Power`. */
  function PowerFixed(store: Store, session: Session, index: int, on: bool, ok: bool): (r: (Store, PanelReply))
    ensures KeepsIsolation(store, r.0)
    ensures r.1 == IsolationKept <==> var p := PickRecord(store, session, index);
      p.At? && store[p.u].1[p.j].suspended
    ensures r.1 != IsolationKept ==> r == Power(store, session, index, on, ok)
  {
    var p := PickRecord(store, session, index);
    if p.At? && store[p.u].1[p.j].suspended then (store, IsolationKept)
    else
      var r := Power(store, session, index, on, ok);
      assert KeepsIsolation(store, r.0) by {
        if r.1.PowerDone? {
          ChangedOneKeeps(store, r.0, p.u, p.j);
        }
      }
      r
  }

  /** `handle_vps_stats`: the live metrics of the target's instance. */
  function ShowMetrics(store: Store, session: Session, index: int): (r: PanelReply)
    ensures r.LiveMetrics? <==> PickRecord(store, session, index).At?
    ensures r.LiveMetrics? ==> var p := PickRecord(store, session, index); r.name == store[p.u].1[p.j].name
  {
    match PickRecord(store, session, index)
    case BeforeStart => Crashed
    case At(u, j) => LiveMetrics(store[u].1[j].name)
    case _ => Silent
  }

  /** `handle_vps_ssh`: refused for an isolated instance. */
  function OfferSsh(store: Store, session: Session, index: int): (r: PanelReply)
    ensures r == SshRefused <==> var p := PickRecord(store, session, index); p.At? && store[p.u].1[p.j].suspended
    ensures r.SshOffered? <==> var p := PickRecord(store, session, index); p.At? && !store[p.u].1[p.j].suspended
  {
    match PickRecord(store, session, index)
    case BeforeStart => Crashed
    case At(u, j) => if store[u].1[j].suspended then SshRefused else SshOffered(store[u].1[j].name)
    case _ => Silent
  }

  /** `handle_vps_reinstall`: refused for an isolated instance, otherwise
      the confirmation keyboard for the same index. */
  function AskReinstall(store: Store, session: Session, index: int): (r: PanelReply)
    ensures r == ReinstallRefused <==> var p := PickRecord(store, session, index); p.At? && store[p.u].1[p.j].suspended
    ensures r.ConfirmPrompt? <==> var p := PickRecord(store, session, index); p.At? && !store[p.u].1[p.j].suspended
    ensures r.ConfirmPrompt? ==> r.keyboard == ConfirmKeyboard("reinstall", index)
  {
    match PickRecord(store, session, index)
    case BeforeStart => Crashed
    case At(u, j) => if store[u].1[j].suspended then ReinstallRefused else ConfirmPrompt(ConfirmKeyboard("reinstall", index))
    case _ => Silent
  }

  /** The configuration line a reinstall writes. */
  function ReinstallConfig(ram: int, cpu: string, storage: int): string {
    IntToString(ram) + "GB RAM / " + cpu + " CPU / " + IntToString(storage) + "GB Disk"
  }

  /** The record after a reinstall: running, not isolated, created now,
      with the configuration line rewritten from its own figures. */
  function Redeployed(v: Vps, ram: int, storage: int, now: string): (r: Vps)
    ensures r.status == "running" && !r.suspended && Consistent(r) && r.createdAt == now
    ensures r.config == ReinstallConfig(ram, v.cpu, storage)
    ensures r.(status := v.status, suspended := v.suspended, createdAt := v.createdAt, config := v.config) == v
  {
    v.(status := "running", suspended := false, createdAt := now, config := ReinstallConfig(ram, v.cpu, storage))
  }

  /** `handle_confirm_reinstall` as written: no isolation check; the
      record changes only when every LXC call succeeds and its RAM and
      storage figures convert. */
  function ConfirmReinstallAsWritten(store: Store, session: Session, index: int, ok: bool, now: string): (r: (Store, PanelReply))
    ensures r.1.Reinstalled? <==> var p := PickRecord(store, session, index);
      p.At? && ok && GbValue(store[p.u].1[p.j].ram).Some? && GbValue(store[p.u].1[p.j].storage).Some?
    ensures !r.1.Reinstalled? ==> r.0 == store
    ensures r.1.Reinstalled? ==> r.1.keyboard == RefreshKeyboard(session, index)
    ensures r.1.Reinstalled? ==> var p := PickRecord(store, session, index); var v := store[p.u].1[p.j];
      OnlyChanged(store, r.0, p.u, p.j)
      && r.0[p.u].1[p.j] == Redeployed(v, GbValue(v.ram).value, GbValue(v.storage).value, now)
    ensures KeysUnique(store, EntryKey) ==> KeysUnique(r.0, EntryKey)
    ensures AllConsistent(store) ==> AllConsistent(r.0)
  {
    match PickRecord(store, session, index)
    case BeforeStart => (store, Crashed)
    case At(u, j) =>
      var v := store[u].1[j];
      if ok && GbValue(v.ram).Some? && GbValue(v.storage).Some? then
        (SetRecord(store, u, j, Redeployed(v, GbValue(v.ram).value, GbValue(v.storage).value, now)),
         Reinstalled(RefreshKeyboard(session, index)))
      else (store, ReinstallFailed)
    case _ => (store, Silent)
  }

  /** The confirmation refusing an isolated instance, as the prompt
      before it does. */
  function ConfirmReinstallFixed(store: Store, session: Session, index: int, ok: bool, now: string): (r: (Store, PanelReply))
    ensures KeepsIsolation(store, r.0)
    ensures r.1 == IsolationKept <==> var p := PickRecord(store, session, index);
      p.At? && store[p.u].1[p.j].suspended
    ensures r.1 != IsolationKept ==> r == ConfirmReinstallAsWritten(store, session, index, ok, now)
  {
    var p := PickRecord(store, session, index);
    if p.At? && store[p.u].1[p.j].suspended then (store, IsolationKept)
    else
      var r := ConfirmReinstallAsWritten(store, session, index, ok, now);
      assert KeepsIsolation(store, r.0) by {
        if r.1.Reinstalled? {
          ChangedOneKeeps(store, r.0, p.u, p.j);
        }
      }
      r
  }

  /** `handle_cancel_reinstall`: the control panel again. */
  function CancelReinstallReply(store: Store, session: Session, index: int): (r: PanelReply)
    ensures r.Panel? <==> PickRecord(store, session, index).At?
    ensures r.Panel? ==> r.keyboard == RefreshKeyboard(session, index)
  {
    match PickRecord(store, session, index)
    case BeforeStart => Crashed
    case At(_, _) => Panel(RefreshKeyboard(session, index))
    case _ => Silent
  }

  // ---------------------------------------------------------------------
  // callback_handler
  // ---------------------------------------------------------------------

  /** Same users in the same order with lists of the same lengths. */
  predicate SameShape(a: Store, b: Store) {
    |b| == |a| && forall x :: 0 <= x < |a| ==> b[x].0 == a[x].0 && |b[x].1| == |a[x].1|
  }

  /** No isolated record lost its flag. */
  predicate KeepsIsolation(a: Store, b: Store) {
    SameShape(a, b)
    && forall x, y :: 0 <= x < |a| && 0 <= y < |a[x].1| && a[x].1[y].suspended ==> b[x].1[y].suspended
  }

  /** Changing one record that was not isolated keeps every isolated one. */
  lemma {:induction false} ChangedOneKeeps(a: Store, b: Store, u: nat, j: nat)
    requires OnlyChanged(a, b, u, j) && u < |a| && j < |a[u].1| && !a[u].1[j].suspended
    ensures KeepsIsolation(a, b)
  {
    forall x, y | 0 <= x < |a| && 0 <= y < |a[x].1| && a[x].1[y].suspended
      ensures b[x].1[y].suspended
    {
      if x != u {
        assert b[x] == a[x];
      }
    }
  }

  /** `callback_handler` as written, for a press by `user`. */
  function Dispatch(store: Store, session: Session, user: string, data: string, ok: bool, now: string): (r: (Store, PanelReply))
    ensures ParseCallback(data).Ignored? ==> r == (store, Silent)
    ensures ParseCallback(data).Raised? ==> r == (store, Crashed)
    ensures r.0 != store ==>
      (ok && ParseCallback(data).Indexed? && ParseCallback(data).action in {Start, Stop, ConfirmReinstall})
    ensures SameShape(store, r.0)
    ensures KeysUnique(store, EntryKey) ==> KeysUnique(r.0, EntryKey)
    ensures AllConsistent(store) ==> AllConsistent(r.0)
  {
    match ParseCallback(data)
    case Ignored => (store, Silent)
    case Raised => (store, Crashed)
    case BackPressed => (store, Back(store, session))
    case Indexed(a, i) =>
      match a
      case Select => (store, SelectOwn(store, user, i))
      case AdminSelect => (store, SelectTarget(store, session, i))
      case Start => Power(store, session, i, true, ok)
      case Stop => Power(store, session, i, false, ok)
      case Metrics => (store, ShowMetrics(store, session, i))
      case Ssh => (store, OfferSsh(store, session, i))
      case Reinstall => (store, AskReinstall(store, session, i))
      case ConfirmReinstall => ConfirmReinstallAsWritten(store, session, i, ok, now)
      case CancelReinstall => (store, CancelReinstallReply(store, session, i))
  }

  /** `callback_handler` with the corrected power and reinstall handlers:
      no press lifts an isolation. */
  function DispatchFixed(store: Store, session: Session, user: string, data: string, ok: bool, now: string): (r: (Store, PanelReply))
    ensures KeepsIsolation(store, r.0)
    ensures r.1 != IsolationKept ==> r == Dispatch(store, session, user, data, ok, now)
  {
    match ParseCallback(data)
    case Indexed(Start, i) => PowerFixed(store, session, i, true, ok)
    case Indexed(Stop, i) => PowerFixed(store, session, i, false, ok)
    case Indexed(ConfirmReinstall, i) => ConfirmReinstallFixed(store, session, i, ok, now)
    case _ =>
      var r := Dispatch(store, session, user, data, ok, now);
      assert r.0 == store;
      r
  }

  /** Pressing Start on an isolated instance's panel clears its isolation
      flag and reports it running, although SSH and reinstall refuse an
      isolated instance and only an admin's `/unsuspend_vps` is meant to
      lift isolation. */
  lemma {:induction false} StartLiftsIsolation(store: Store, session: Session, user: string, index: int, now: string)
    requires var p := PickRecord(store, session, index); p.At? && store[p.u].1[p.j].suspended
    ensures var p := PickRecord(store, session, index);
      var r := Dispatch(store, session, user, IndexData("vps_start", index), true, now);
      r.1.PowerDone? && !r.0[p.u].1[p.j].suspended && r.0[p.u].1[p.j].status == "running"
      && !KeepsIsolation(store, r.0)
  {
    CallbackRoundTrip(Start, index);
  }

  /** The same press on the corrected panel is refused and the record
      stays isolated. */
  lemma {:induction false} FixedStartKeepsIsolation(store: Store, session: Session, user: string, index: int, now: string)
    requires var p := PickRecord(store, session, index); p.At? && store[p.u].1[p.j].suspended
    ensures var r := DispatchFixed(store, session, user, IndexData("vps_start", index), true, now);
      r == (store, IsolationKept)
  {
    CallbackRoundTrip(Start, index);
  }

  /** Confirming a reinstall twice in a row with the same outcome leaves
      the store as one confirmation does. */
  lemma {:induction false} ReinstallIdempotent(store: Store, session: Session, index: int, now: string)
    ensures var once := ConfirmReinstallAsWritten(store, session, index, true, now);
      ConfirmReinstallAsWritten(once.0, session, index, true, now).0 == once.0
  {
    var once := ConfirmReinstallAsWritten(store, session, index, true, now);
    var p := PickRecord(store, session, index);
    if once.1.Reinstalled? {
      var uid := Target(session).value;
      SameListAfterChange(store, once.0, uid, p.u, p.j);
      assert PickRecord(once.0, session, index) == At(p.u, p.j);
      var w := once.0[p.u].1[p.j];
      assert GbValue(w.ram) == GbValue(store[p.u].1[p.j].ram);
      assert GbValue(w.storage) == GbValue(store[p.u].1[p.j].storage);
      assert Redeployed(w, GbValue(w.ram).value, GbValue(w.storage).value, now) == w;
      SetSame(once.0, p.u, p.j);
    }
  }

  /** Writing a record back in its place changes nothing. */
  lemma {:induction false} SetSame(store: Store, u: nat, j: nat)
    requires u < |store| && j < |store[u].1|
    ensures SetRecord(store, u, j, store[u].1[j]) == store
  {
    var r := SetRecord(store, u, j, store[u].1[j]);
    assert r[u].1 == store[u].1;
    assert forall x :: 0 <= x < |store| ==> r[x] == store[x];
  }

  /** After changing one record of `uid`'s list in place, `uid`'s list is
      the changed one. */
  lemma {:induction false} SameListAfterChange(a: Store, b: Store, uid: string, u: nat, j: nat)
    requires OnlyChanged(a, b, u, j) && u < |a| && a[u].0 == uid && a[u].1 == Instances(a, uid)
    requires UserSlot(a, uid) == Some(u)
    ensures UserSlot(b, uid) == Some(u) && Instances(b, uid) == b[u].1
  {
    KeysAlike(a, b, uid);
  }

  /** Lookups by key agree between stores with the same keys in the same
      order. */
  lemma {:induction false} KeysAlike(a: Store, b: Store, uid: string)
    requires |a| == |b| && forall x :: 0 <= x < |a| ==> b[x].0 == a[x].0
    ensures IndexOfKey(b, EntryKey, uid) == IndexOfKey(a, EntryKey, uid)
  {
    if |a| > 0 {
      KeysAlike(a[1..], b[1..], uid);
    }
  }
}

=== FILE: zorvix_store.dfy ===
/** The ZorvixHost bot's records and the admin commands that change them:
    `/admin_add`, `/admin_remove`, `/create`, `/delete_vps`,
    `/restart_vps`, `/suspend_vps`, `/unsuspend_vps` and `/serverstats`.
    `bot.vps_data` maps a user id to that user's instances in insertion
    order. All the LXC calls one command makes are the oracle `ok`: whether
    every one of them succeeds (the first failure raises and skips the
    rest). The clock and the caller's display name are parameters;
    persisting the records to disk is left out. */
module ZorvixStore {
  import opened Maybe
  import opened Text
  import opened Ordered
  import opened BotCommon

  const MainAdminId: int := 1352603271285706784

  /** `str(MAIN_ADMIN_ID)`, the form in which ids sit on the admin list
      (`MainAdminKeyIsId` checks the digits). */
  const MainAdminKey: string := "1352603271285706784"

  lemma {:induction false} MainAdminKeyIsId()
    ensures IntToString(MainAdminId) == MainAdminKey
  {
    assert NatToString(1) == "1";
    DigitAppended(1, 3, "1");
    DigitAppended(13, 5, "13");
    DigitAppended(135, 2, "135");
    DigitAppended(1352, 6, "1352");
    DigitAppended(13526, 0, "13526");
    DigitAppended(135260, 3, "135260");
    DigitAppended(1352603, 2, "1352603");
    DigitAppended(13526032, 7, "13526032");
    DigitAppended(135260327, 1, "135260327");
    DigitAppended(1352603271, 2, "1352603271");
    DigitAppended(13526032712, 8, "13526032712");
    DigitAppended(135260327128, 5, "135260327128");
    DigitAppended(1352603271285, 7, "1352603271285");
    DigitAppended(13526032712857, 0, "13526032712857");
    DigitAppended(135260327128570, 6, "135260327128570");
    DigitAppended(1352603271285706, 7, "1352603271285706");
    DigitAppended(13526032712857067, 8, "13526032712857067");
    DigitAppended(135260327128570678, 4, "135260327128570678");
  }

  /** `is_admin(user_id)`: the main admin, or a user whose decimal id is
      on the admins list. */
  function IsAdmin(admins: Admins, user: int): (r: bool)
    ensures r <==> user == MainAdminId || IntToString(user) in AdminList(admins)
    ensures IsMainAdmin(user) ==> r
  {
    IsAdminOf(MainAdminId, admins, user)
  }

  function IsMainAdmin(user: int): bool {
    user == MainAdminId
  }

  /** The main admin passes every admin check. */
  lemma {:induction false} MainAdminIsAdmin(admins: Admins, user: int)
    requires IsMainAdmin(user)
    ensures IsAdmin(admins, user)
  {
  }

  /** Writing one more digit after the digits of `n`. */
  lemma {:induction false} DigitAppended(n: nat, d: nat, digits: string)
    requires 1 <= n && d < 10 && NatToString(n) == digits
    ensures NatToString(n * 10 + d) == digits + [DigitChar(d)]
  {
    assert (n * 10 + d) / 10 == n && (n * 10 + d) % 10 == d;
  }

  /** What a command replies with. `Failed` is the reply of the `except`
      branch: a command whose LXC call or `int()` conversion raised. */
  datatype Reply =
    | Denied | Usage | Failed
    | PrimaryAdmin | AlreadyAdmin | AdminAdded | NotAnAdmin | AdminRemoved
    | Provisioned(name: string) | InvalidReference | Decommissioned
    | NotFound | CannotIsolate | Isolated | NotIsolated | Reinstated | Restarted

  // ---------------------------------------------------------------------
  // The admin list
  // ---------------------------------------------------------------------

  /** `/admin_add <user_id>`: main admin only; the primary admin and a user
      already on the list are refused; otherwise the id is appended, the
      list being created when `admin_data` has none. */
  function AdminAdd(admins: Admins, caller: int, args: seq<string>): (r: (Admins, Reply))
    ensures r.1 == AdminAdded <==>
      IsMainAdmin(caller) && |args| >= 1 && args[0] != MainAdminKey && args[0] !in AdminList(admins)
    ensures r.1 == AdminAdded ==> r.0 == Some(AdminList(admins) + [args[0]])
    ensures r.1 != AdminAdded ==> r.0 == admins
    ensures MainAdminKey !in AdminList(admins) ==> MainAdminKey !in AdminList(r.0)
    ensures NoDuplicates(AdminList(admins)) ==> NoDuplicates(AdminList(r.0))
  {
    if !IsMainAdmin(caller) then (admins, Denied)
    else if |args| < 1 then (admins, Usage)
    else if args[0] == MainAdminKey then (admins, PrimaryAdmin)
    else if args[0] in AdminList(admins) then (admins, AlreadyAdmin)
    else (Some(AdminList(admins) + [args[0]]), AdminAdded)
  }

  /** Python `list.remove(x)`: the first `x` taken out. */
  function RemoveFirst(s: seq<string>, x: string): (r: seq<string>)
    ensures x !in s ==> r == s
    ensures x in s ==> |r| == |s| - 1
    ensures multiset(r) == multiset(s) - multiset{x}
  {
    if |s| == 0 then s
    else
      assert s == [s[0]] + s[1..];
      if s[0] == x then s[1..] else [s[0]] + RemoveFirst(s[1..], x)
  }

  /** On a list without repeats the removed id is gone altogether. */
  lemma {:induction false} RemoveFirstGone(s: seq<string>, x: string)
    requires NoDuplicates(s)
    ensures x !in RemoveFirst(s, x)
  {
    if |s| > 0 {
      assert NoDuplicates(s[1..]) by {
        forall i, j | 0 <= i < j < |s[1..]| ensures s[1..][i] != s[1..][j] {
          assert s[1..][i] == s[i + 1] && s[1..][j] == s[j + 1];
        }
      }
      if s[0] == x {
        forall i | 0 <= i < |s[1..]| ensures s[1..][i] != x {
          assert s[1..][i] == s[i + 1];
        }
      } else {
        RemoveFirstGone(s[1..], x);
      }
    }
  }

  /** `/admin_remove <user_id>`: main admin only; the primary admin and a
      user not on the list are refused; otherwise the first occurrence of
      the id is removed. */
  function AdminRemove(admins: Admins, caller: int, args: seq<string>): (r: (Admins, Reply))
    ensures r.1 == AdminRemoved <==>
      IsMainAdmin(caller) && |args| >= 1 && args[0] != MainAdminKey && args[0] in AdminList(admins)
    ensures r.1 == AdminRemoved ==> r.0 == Some(RemoveFirst(AdminList(admins), args[0]))
    ensures r.1 != AdminRemoved ==> r.0 == admins
    ensures MainAdminKey in AdminList(admins) ==> MainAdminKey in AdminList(r.0)
    ensures NoDuplicates(AdminList(admins)) && r.1 == AdminRemoved ==> args[0] !in AdminList(r.0)
  {
    if !IsMainAdmin(caller) then (admins, Denied)
    else if |args| < 1 then (admins, Usage)
    else if args[0] == MainAdminKey then (admins, PrimaryAdmin)
    else if args[0] !in AdminList(admins) then (admins, NotAnAdmin)
    else
      var r := RemoveFirst(AdminList(admins), args[0]);
      assert MainAdminKey in AdminList(admins) ==> MainAdminKey in r by {
        if MainAdminKey in AdminList(admins) {
          assert multiset(r)[MainAdminKey] == multiset(AdminList(admins))[MainAdminKey];
        }
      }
      assert NoDuplicates(AdminList(admins)) ==> args[0] !in r by {
        if NoDuplicates(AdminList(admins)) {
          RemoveFirstGone(AdminList(admins), args[0]);
        }
      }
      (Some(r), AdminRemoved)
  }

  /** The list `xs` with `x` appended loses exactly that `x` again. */
  lemma {:induction false} RemoveFirstAppended(xs: seq<string>, x: string)
    requires x !in xs
    ensures RemoveFirst(xs + [x], x) == xs
  {
    if |xs| > 0 {
      assert (xs + [x])[1..] == xs[1..] + [x];
      RemoveFirstAppended(xs[1..], x);
      assert xs == [xs[0]] + xs[1..];
    }
  }

  /** Adding an admin and then removing the same id gives back the list as
      it was. */
  lemma {:induction false} AddThenRemove(admins: Admins, caller: int, target: string)
    requires AdminAdd(admins, caller, [target]).1 == AdminAdded
    ensures AdminRemove(AdminAdd(admins, caller, [target]).0, caller, [target]) ==
      (Some(AdminList(admins)), AdminRemoved)
  {
    RemoveFirstAppended(AdminList(admins), target);
  }

  /** An added id makes its user an admin; a removed one, on a list without
      repeats, makes its user an ordinary user again. */
  lemma {:induction false} AdminAddRemoveEffect(admins: Admins, caller: int, user: int)
    requires user != MainAdminId
    ensures AdminAdd(admins, caller, [IntToString(user)]).1 == AdminAdded ==>
      IsAdmin(AdminAdd(admins, caller, [IntToString(user)]).0, user)
    ensures NoDuplicates(AdminList(admins)) && AdminRemove(admins, caller, [IntToString(user)]).1 == AdminRemoved ==>
      !IsAdmin(AdminRemove(admins, caller, [IntToString(user)]).0, user)
  {
  }

  // ---------------------------------------------------------------------
  // Instance records
  // ---------------------------------------------------------------------

  /** One entry of `suspension_history`. */
  datatype Suspension = Suspension(time: string, reason: string, actor: string)

  /** One instance record. `ram` and `storage` are `"<n>GB"` strings and
      `cpu` a decimal string, as `/create` writes them; `suspended` is
      `vps.get('suspended', False)`. */
  datatype Vps = Vps(name: string, ram: string, cpu: string, storage: string, config: string,
                     status: string, suspended: bool, history: seq<Suspension>,
                     createdAt: string, sharedWith: seq<string>)

  /** `bot.vps_data`: user id to that user's instances. */
  type Store = seq<(string, seq<Vps>)>

  function VpsName(v: Vps): string {
    v.name
  }

  /** `bot.vps_data.get(user_id, [])`. */
  function Instances(store: Store, uid: string): seq<Vps> {
    Get(store, uid).GetOr([])
  }

  /** Every container name in use, over all users. */
  function AllNames(store: Store): set<string> {
    set e, v | e in store && v in e.1 :: v.name
  }

  /** The commands keep a record's flag and its status in step: an isolated
      record has status `'suspended'`. */
  predicate Consistent(v: Vps) {
    v.suspended ==> v.status == "suspended"
  }

  predicate AllConsistent(store: Store) {
    forall e, v :: e in store && v in e.1 ==> Consistent(v)
  }

  /** Assigning a list of consistent records keeps the store consistent. */
  lemma {:induction false} AssignConsistent(store: Store, uid: string, list: seq<Vps>)
    requires AllConsistent(store)
    requires forall v :: v in list ==> Consistent(v)
    ensures AllConsistent(Assign(store, uid, list))
  {
    var r := Assign(store, uid, list);
    forall e, v | e in r && v in e.1 ensures Consistent(v) {
      var i :| 0 <= i < |r| && r[i] == e;
    }
  }

  /** `int(s.replace('GB', ''))`, `None` for the `ValueError`. */
  function GbValue(s: string): Option<int> {
    ParseInt(RemoveAll(s, "GB"))
  }

  /** A number printed with `GB` after it reads back as that number. */
  lemma {:induction false} GbOfInt(i: int)
    ensures GbValue(IntToString(i) + "GB") == Some(i)
  {
    var d := IntToString(i);
    var s := d + "GB";
    assert 'G' !in d by {
      if i < 0 {
        assert d == "-" + NatToString(-i);
        assert forall k :: 1 <= k < |d| ==> d[k] == NatToString(-i)[k - 1];
      }
    }
    assert s[|d|..|d| + 2] == "GB";
    forall q: nat | OccursAt(s, "GB", q) ensures q == |d| {
      assert s[q] == 'G';
    }
    SplitOnOnce(s, "GB", |d|);
    assert s[..|d|] == d;
    assert s[|d| + 2..] == "";
    assert Join([d, ""], "") == d + "" + Join([""], "");
    assert RemoveAll(s, "GB") == d;
    ParseIntToString(i);
  }

  // ---------------------------------------------------------------------
  // /create
  // ---------------------------------------------------------------------

  /** `f"zorvix-instance-{target_user_id}-{vps_count}"`: the user id and
      the count read back from the name. */
  function InstanceName(uid: string, n: nat): (r: string)
    ensures |r| > 17 + |uid| && r[..16] == "zorvix-instance-" && r[16..16 + |uid|] == uid
    ensures ParseInt(r[17 + |uid|..]) == Some(n)
  {
    var r := "zorvix-instance-" + uid + "-" + NatToString(n);
    ParseNatural(n);
    assert r[17 + |uid|..] == NatToString(n);
    r
  }

  /** Different numbers give different names for one user. */
  lemma {:induction false} InstanceNameInjective(uid: string, a: nat, b: nat)
    ensures InstanceName(uid, a) == InstanceName(uid, b) ==> a == b
  {
    if InstanceName(uid, a) == InstanceName(uid, b) {
      var p := "zorvix-instance-" + uid + "-";
      assert InstanceName(uid, a) == p + NatToString(a);
      assert InstanceName(uid, b) == p + NatToString(b);
      assert (p + NatToString(a))[|p|..] == NatToString(a);
      assert (p + NatToString(b))[|p|..] == NatToString(b);
      DigitsOfNat(a);
      DigitsOfNat(b);
    }
  }

  /** The name `/create` gives: one more than the user's instance count. */
  function NextName(store: Store, uid: string): string {
    InstanceName(uid, |Instances(store, uid)| + 1)
  }

  /** The first number from `n` on whose name is not taken. */
  function FreshNumber(taken: set<string>, uid: string, n: nat): (r: nat)
    ensures r >= n && InstanceName(uid, r) !in taken
    ensures InstanceName(uid, n) !in taken ==> r == n
    decreases |taken|
  {
    if InstanceName(uid, n) in taken then
      var r := FreshNumber(taken - {InstanceName(uid, n)}, uid, n + 1);
      InstanceNameInjective(uid, r, n);
      r
    else n
  }

  /** The name a corrected `/create` gives: the count-based name when it
      is free, otherwise the next free number. */
  function FreshName(store: Store, uid: string): (r: string)
    ensures r !in AllNames(store)
    ensures NextName(store, uid) !in AllNames(store) ==> r == NextName(store, uid)
  {
    InstanceName(uid, FreshNumber(AllNames(store), uid, |Instances(store, uid)| + 1))
  }

  /** `int(x) > 0`, with a failed conversion counting as not positive. */
  predicate PositiveInt(s: string) {
    ParseInt(s).Some? && ParseInt(s).value > 0
  }

  /** `/create <ram> <cpu> <disk> <user_id>` gets past its checks. */
  predicate CreateAccepted(admins: Admins, caller: int, args: seq<string>) {
    IsAdmin(admins, caller) && |args| >= 4
    && PositiveInt(args[0]) && PositiveInt(args[1]) && PositiveInt(args[2])
  }

  /** The record `/create` appends. */
  function NewInstance(name: string, ram: int, cpu: int, disk: int, now: string): (r: Vps)
    ensures r.name == name && r.status == "running" && !r.suspended && r.history == []
    ensures GbValue(r.ram) == Some(ram) && ParseInt(r.cpu) == Some(cpu) && GbValue(r.storage) == Some(disk)
    ensures r.config == r.ram + " RAM / " + r.cpu + " Cores / " + r.storage + " Storage"
    ensures r.createdAt == now && r.sharedWith == []
  {
    GbOfInt(ram);
    GbOfInt(disk);
    ParseIntToString(cpu);
    var ramText, cpuText, diskText := IntToString(ram) + "GB", IntToString(cpu), IntToString(disk) + "GB";
    Vps(name, ramText, cpuText, diskText, ramText + " RAM / " + cpuText + " Cores / " + diskText + " Storage",
        "running", false, [], now, [])
  }

  /** The record a successful `/create` with these arguments appends under
      this name. */
  predicate Provides(v: Vps, args: seq<string>, name: string) {
    |args| >= 3 && v.name == name && v.status == "running" && !v.suspended && v.history == []
    && GbValue(v.ram) == ParseInt(args[0]) && ParseInt(v.cpu) == ParseInt(args[1])
    && GbValue(v.storage) == ParseInt(args[2])
  }

  /** The user's key created with an empty list when it is missing, as
      `/create` does before provisioning. */
  function Listed(store: Store, uid: string): (r: Store)
    ensures Instances(r, uid) == Instances(store, uid) && HasKey(r, EntryKey, uid)
    ensures forall k :: k != uid ==> Get(r, k) == Get(store, k)
    ensures HasKey(store, EntryKey, uid) ==> r == store
    ensures !HasKey(store, EntryKey, uid) ==> r == store + [(uid, [])]
    ensures KeysUnique(store, EntryKey) ==> KeysUnique(r, EntryKey)
    ensures AllConsistent(store) ==> AllConsistent(r)
  {
    if HasKey(store, EntryKey, uid) then store
    else
      assert AllConsistent(store) ==> AllConsistent(Assign(store, uid, [])) by {
        if AllConsistent(store) {
          AssignConsistent(store, uid, []);
        }
      }
      Assign(store, uid, [])
  }

  /** `bot.vps_data[uid].append(v)` on a listed user: the record goes at
      the end of the user's list, which stays in its place in the
      dictionary, or comes last for a new user. */
  function AppendInstance(store: Store, uid: string, v: Vps): (r: Store)
    ensures Instances(r, uid) == Instances(store, uid) + [v]
    ensures forall k :: k != uid ==> Get(r, k) == Get(store, k)
    ensures HasKey(store, EntryKey, uid) ==>
      r == store[IndexOfKey(store, EntryKey, uid).value := (uid, Instances(store, uid) + [v])]
    ensures !HasKey(store, EntryKey, uid) ==> r == store + [(uid, [v])]
    ensures KeysUnique(store, EntryKey) ==> KeysUnique(r, EntryKey)
    ensures AllConsistent(store) && Consistent(v) ==> AllConsistent(r)
  {
    var listed := Listed(store, uid);
    var list := Instances(store, uid) + [v];
    assert AllConsistent(store) && Consistent(v) ==> AllConsistent(Assign(listed, uid, list)) by {
      if AllConsistent(store) && Consistent(v) {
        AppendConsistent(store, uid, v);
      }
    }
    assert !HasKey(store, EntryKey, uid) ==> Assign(listed, uid, list) == store + [(uid, [v])] by {
      if !HasKey(store, EntryKey, uid) {
        AppendNewUser(store, uid, v);
      }
    }
    Assign(listed, uid, list)
  }

  lemma {:induction false} AppendConsistent(store: Store, uid: string, v: Vps)
    requires AllConsistent(store) && Consistent(v)
    ensures AllConsistent(Assign(Listed(store, uid), uid, Instances(store, uid) + [v]))
  {
    var list := Instances(store, uid) + [v];
    forall w | w in list ensures Consistent(w) {
      if w != v {
        assert w in Instances(store, uid);
        assert (uid, Instances(store, uid)) in store;
      }
    }
    AssignConsistent(Listed(store, uid), uid, list);
  }

  lemma {:induction false} AppendNewUser(store: Store, uid: string, v: Vps)
    requires !HasKey(store, EntryKey, uid)
    ensures Assign(Listed(store, uid), uid, Instances(store, uid) + [v]) == store + [(uid, [v])]
  {
    var listed := Listed(store, uid);
    assert Instances(store, uid) + [v] == [v];
    var j := IndexOfKey(listed, EntryKey, uid).value;
    assert j == |store|;
    assert listed[j := (uid, [v])] == store + [(uid, [v])];
  }

  /** `/create`, naming the instance by count (`pickFree` false, as written)
      or by the first free number (`pickFree` true). The user's list is
      created before the LXC calls, so a failed provisioning still leaves
      an empty list behind. */
  function CreateWith(store: Store, admins: Admins, caller: int, args: seq<string>,
                      ok: bool, now: string, pickFree: bool): (r: (Store, Reply))
    ensures r.1.Provisioned? <==> CreateAccepted(admins, caller, args) && ok
    ensures !CreateAccepted(admins, caller, args) ==> r.0 == store
    ensures CreateAccepted(admins, caller, args) && !ok ==>
      Get(r.0, args[3]) == Some(Instances(store, args[3]))
    ensures |args| >= 4 ==> forall k :: k != args[3] ==> Get(r.0, k) == Get(store, k)
    ensures r.1.Provisioned? ==>
      r.1.name == (if pickFree then FreshName(store, args[3]) else NextName(store, args[3]))
    ensures r.1.Provisioned? ==>
      var before := Instances(store, args[3]);
      var after := Instances(r.0, args[3]);
      |after| == |before| + 1 && after[..|before|] == before && Provides(after[|before|], args, r.1.name)
    ensures r.1.Provisioned? ==>
      r.0 == AppendInstance(store, args[3], Instances(r.0, args[3])[|Instances(store, args[3])|])
    ensures KeysUnique(store, EntryKey) ==> KeysUnique(r.0, EntryKey)
    ensures AllConsistent(store) ==> AllConsistent(r.0)
  {
    if !IsAdmin(admins, caller) then (store, Denied)
    else if |args| < 4 then (store, Usage)
    else if !(PositiveInt(args[0]) && PositiveInt(args[1]) && PositiveInt(args[2])) then (store, Failed)
    else
      var uid := args[3];
      var name := if pickFree then FreshName(store, uid) else NextName(store, uid);
      if !ok then (Listed(store, uid), Failed)
      else
        var v := NewInstance(name, ParseInt(args[0]).value, ParseInt(args[1]).value, ParseInt(args[2]).value, now);
        (AppendInstance(store, uid, v), Provisioned(name))
  }

  /** `/create` as written: the instance is named by count. */
  function Create(store: Store, admins: Admins, caller: int, args: seq<string>,
                  ok: bool, now: string): (r: (Store, Reply))
    ensures |args| >= 4 && r.1.Provisioned? ==> r.1.name == NextName(store, args[3])
  {
    CreateWith(store, admins, caller, args, ok, now, false)
  }

  /** `/create` naming the instance by the first free number: its name is
      not used by any instance yet. */
  function CreateFixed(store: Store, admins: Admins, caller: int, args: seq<string>,
                       ok: bool, now: string): (r: (Store, Reply))
    ensures r.1.Provisioned? ==> r.1.name !in AllNames(store)
    ensures |args| >= 4 && r.1.Provisioned? && NextName(store, args[3]) !in AllNames(store) ==>
      r == Create(store, admins, caller, args, ok, now)
  {
    CreateWith(store, admins, caller, args, ok, now, true)
  }

  // ---------------------------------------------------------------------
  // /delete_vps
  // ---------------------------------------------------------------------

  /** `del bot.vps_data[uid][n - 1]`, then the user's key dropped when the
      list is left empty. */
  function DropInstance(store: Store, uid: string, n: nat): (r: Store)
    requires 1 <= n <= |Instances(store, uid)|
    ensures var before := Instances(store, uid); var after := Instances(r, uid);
      |after| == |before| - 1
      && forall k :: 0 <= k < |after| ==> after[k] == before[if k < n - 1 then k else k + 1]
    ensures |Instances(store, uid)| == 1 <==> !HasKey(r, EntryKey, uid)
    ensures forall k :: k != uid ==> Get(r, k) == Get(store, k)
    ensures KeysUnique(store, EntryKey) ==> KeysUnique(r, EntryKey)
    ensures AllConsistent(store) ==> AllConsistent(r)
  {
    var before := Instances(store, uid);
    assert (uid, before) in store;
    var rest := before[..n - 1] + before[n..];
    if |rest| == 0 then
      Unset(store, uid)
    else
      var r := Assign(store, uid, rest);
      assert AllConsistent(store) ==> AllConsistent(r) by {
        if AllConsistent(store) {
          forall w | w in rest ensures Consistent(w) {
            assert w in before;
          }
          AssignConsistent(store, uid, rest);
        }
      }
      r
  }

  /** `/delete_vps <user_id> <vps_number>`: the number must name one of the
      user's instances, counting from 1; after the container is deleted
      the record goes. */
  function DeleteVps(store: Store, admins: Admins, caller: int, args: seq<string>, ok: bool): (r: (Store, Reply))
    ensures r.1 == Decommissioned <==>
      IsAdmin(admins, caller) && |args| >= 2 && ParseInt(args[1]).Some?
      && HasKey(store, EntryKey, args[0]) && 1 <= ParseInt(args[1]).value <= |Instances(store, args[0])| && ok
    ensures r.1 == Decommissioned ==> r.0 == DropInstance(store, args[0], ParseInt(args[1]).value)
    ensures r.1 != Decommissioned ==> r.0 == store
  {
    if !IsAdmin(admins, caller) then (store, Denied)
    else if |args| < 2 then (store, Usage)
    else match ParseInt(args[1])
      case None => (store, Failed)
      case Some(n) =>
        if !HasKey(store, EntryKey, args[0]) || n < 1 || n > |Instances(store, args[0])| then (store, InvalidReference)
        else if !ok then (store, Failed)
        else (DropInstance(store, args[0], n), Decommissioned)
  }

  /** Deleting the instance just created, by its number, gives the user
      back the list they had; nobody else's list changes. */
  lemma {:induction false} CreateThenDelete(store: Store, admins: Admins, caller: int, args: seq<string>, now: string)
    requires CreateAccepted(admins, caller, args)
    ensures var s1 := Create(store, admins, caller, args, true, now).0;
      var del := DeleteVps(s1, admins, caller, [args[3], NatToString(|Instances(s1, args[3])|)], true);
      del.1 == Decommissioned
      && Instances(del.0, args[3]) == Instances(store, args[3])
      && forall k :: k != args[3] ==> Get(del.0, k) == Get(store, k)
  {
    var uid := args[3];
    var s1 := Create(store, admins, caller, args, true, now).0;
    var n := |Instances(s1, uid)|;
    ParseIntToString(n);
    assert IntToString(n) == NatToString(n);
    assert Get(s1, uid).Some?;
    var s2 := DropInstance(s1, uid, n);
    var before := Instances(store, uid);
    assert Instances(s2, uid) == before by {
      var after := Instances(s2, uid);
      assert |after| == |before|;
      forall k | 0 <= k < |after| ensures after[k] == before[k] {
        assert after[k] == Instances(s1, uid)[k];
      }
    }
  }

  /** Instances named the way `/create` names them: the k-th is number k. */
  predicate NamedInOrder(uid: string, list: seq<Vps>) {
    forall k :: 0 <= k < |list| ==> list[k].name == InstanceName(uid, k + 1)
  }

  /** As written, after deleting any instance but the last, the next
      `/create` for the user picks the name of the user's last instance,
      which still exists: `lxc init` is asked for a container that is
      already there. */
  lemma {:induction false} NameTakenAfterDelete(store: Store, uid: string, n: nat)
    requires NamedInOrder(uid, Instances(store, uid))
    requires 1 <= n < |Instances(store, uid)|
    ensures var s1 := DropInstance(store, uid, n);
      NextName(s1, uid) == Instances(store, uid)[|Instances(store, uid)| - 1].name
      && NextName(s1, uid) in AllNames(s1)
  {
    var s1 := DropInstance(store, uid, n);
    var before := Instances(store, uid);
    var after := Instances(s1, uid);
    assert after[|after| - 1] == before[|before| - 1];
    assert (uid, after) in s1;
    assert after[|after| - 1] in after;
  }

  // ---------------------------------------------------------------------
  // Finding a record by container name
  // ---------------------------------------------------------------------

  /** The first record named `name`, searching the users from `i` in
      insertion order and each user's list from the front: the loop
      `for uid, lst in bot.vps_data.items(): for vps in lst: ...`. */
  function LocateFrom(store: Store, name: string, i: nat): (r: Option<(nat, nat)>)
    requires i <= |store|
    ensures r.Some? ==> i <= r.value.0 < |store| && r.value.1 < |store[r.value.0].1|
    ensures r.Some? ==> store[r.value.0].1[r.value.1].name == name
    ensures r.Some? ==> forall j :: 0 <= j < r.value.1 ==> store[r.value.0].1[j].name != name
    ensures r.Some? ==> forall u :: i <= u < r.value.0 ==> !HasKey(store[u].1, VpsName, name)
    ensures r.None? <==> forall u :: i <= u < |store| ==> !HasKey(store[u].1, VpsName, name)
    decreases |store| - i
  {
    if i == |store| then None
    else match IndexOfKey(store[i].1, VpsName, name)
      case Some(j) => Some((i, j))
      case None => LocateFrom(store, name, i + 1)
  }

  function Locate(store: Store, name: string): (r: Option<(nat, nat)>)
    ensures r.Some? ==> r.value.0 < |store| && r.value.1 < |store[r.value.0].1|
    ensures r.Some? ==> store[r.value.0].1[r.value.1].name == name
    ensures r.None? <==> name !in AllNames(store)
  {
    var r := LocateFrom(store, name, 0);
    if r.None? then
      assert name !in AllNames(store) by {
        forall e, v | e in store && v in e.1 ensures v.name != name {
          var u :| 0 <= u < |store| && store[u] == e;
          assert !HasKey(store[u].1, VpsName, name);
        }
      }
      r
    else
      assert store[r.value.0] in store;
      r
  }

  /** The store with the record at user `u`, position `j` replaced. */
  function SetRecord(store: Store, u: nat, j: nat, v: Vps): (r: Store)
    requires u < |store| && j < |store[u].1|
    ensures OnlyChanged(store, r, u, j) && r[u].1[j] == v
    ensures KeysUnique(store, EntryKey) ==> KeysUnique(r, EntryKey)
    ensures AllConsistent(store) && Consistent(v) ==> AllConsistent(r)
  {
    var r := store[u := (store[u].0, store[u].1[j := v])];
    assert AllConsistent(store) && Consistent(v) ==> AllConsistent(r) by {
      if AllConsistent(store) && Consistent(v) {
        forall e, w | e in r && w in e.1 ensures Consistent(w) {
          var x :| 0 <= x < |r| && r[x] == e;
          var y :| 0 <= y < |e.1| && e.1[y] == w;
          if (x, y) != (u, j) {
            assert store[x] in store && w == store[x].1[y] && w in store[x].1;
          }
        }
      }
    }
    assert KeysUnique(store, EntryKey) ==> KeysUnique(r, EntryKey) by {
      assert forall x :: 0 <= x < |r| ==> r[x].0 == store[x].0;
    }
    r
  }

  /** `b` is `a` with at most the record at (`u`, `j`) different: same
      users in the same order, same list lengths, every other record
      equal. */
  predicate OnlyChanged(a: Store, b: Store, u: nat, j: nat) {
    |b| == |a|
    && (forall x :: 0 <= x < |a| ==> b[x].0 == a[x].0 && |b[x].1| == |a[x].1|)
    && (forall x :: 0 <= x < |a| && x != u ==> b[x] == a[x])
    && (forall y :: u < |a| && 0 <= y < |a[u].1| && y != j ==> b[u].1[y] == a[u].1[y])
  }

  // ---------------------------------------------------------------------
  // /suspend_vps and /unsuspend_vps
  // ---------------------------------------------------------------------

  /** The reason `/suspend_vps` records: the second argument, or
      `"Administrative action"`. */
  function Reason(args: seq<string>): string {
    if |args| > 1 then args[1] else "Administrative action"
  }

  /** `/suspend_vps <container_name> [reason]`: the first record with that
      name must be running; after the container stops, the record becomes
      `'suspended'`, is flagged and gets one history entry. A failed stop
      changes nothing. */
  function Suspend(store: Store, admins: Admins, caller: int, args: seq<string>,
                   actor: string, now: string, ok: bool): (r: (Store, Reply))
    ensures r.1 == Isolated <==>
      IsAdmin(admins, caller) && |args| >= 1 && Locate(store, args[0]).Some?
      && store[Locate(store, args[0]).value.0].1[Locate(store, args[0]).value.1].status == "running" && ok
    ensures r.1 != Isolated ==> r.0 == store
    ensures r.1 == NotFound <==> IsAdmin(admins, caller) && |args| >= 1 && args[0] !in AllNames(store)
    ensures r.1 == Isolated ==>
      var (u, j) := Locate(store, args[0]).value;
      OnlyChanged(store, r.0, u, j)
      && var before := store[u].1[j];
      var after := r.0[u].1[j];
      after.status == "suspended" && after.suspended && after.name == before.name
      && after.history == before.history + [Suspension(now, Reason(args), actor)]
    ensures AllConsistent(store) ==> AllConsistent(r.0)
  {
    if !IsAdmin(admins, caller) then (store, Denied)
    else if |args| < 1 then (store, Usage)
    else match Locate(store, args[0])
      case None => (store, NotFound)
      case Some((u, j)) =>
        var v := store[u].1[j];
        if v.status != "running" then (store, CannotIsolate)
        else if !ok then (store, Failed)
        else
          var w := v.(status := "suspended", suspended := true,
                      history := v.history + [Suspension(now, Reason(args), actor)]);
          (SetRecord(store, u, j, w), Isolated)
  }

  /** A record taken out of isolation: flag cleared, status `'running'`. */
  function Reinstate(v: Vps): (r: Vps)
    ensures !r.suspended && r.status == "running" && Consistent(r)
    ensures r.name == v.name && r.history == v.history
  {
    v.(suspended := false, status := "running")
  }

  /** The `/unsuspend_vps` search loop from user `i` on. The record's flag
      and status are reset before `lxc start` runs; when the start fails,
      only the inner loop is left, so the search goes on with the next
      user and ends with "not found" as well. */
  function UnsuspendFrom(store: Store, name: string, ok: bool, i: nat): (r: (Store, seq<Reply>))
    requires i <= |store|
    ensures |r.0| == |store| && |r.1| >= 1
    ensures forall x :: 0 <= x < |store| ==> r.0[x].0 == store[x].0 && |r.0[x].1| == |store[x].1|
    ensures forall x :: 0 <= x < i ==> r.0[x] == store[x]
    ensures LocateFrom(store, name, i).None? ==> r == (store, [NotFound])
    ensures LocateFrom(store, name, i).Some? ==>
      var (u, j) := LocateFrom(store, name, i).value;
      (!store[u].1[j].suspended ==> r == (store, [NotIsolated]))
      && (store[u].1[j].suspended && ok ==> r == (SetRecord(store, u, j, Reinstate(store[u].1[j])), [Reinstated]))
      && (store[u].1[j].suspended && !ok ==> r.1[0] == Failed && r.0[u].1[j] == Reinstate(store[u].1[j])
                                               && (forall x :: 0 <= x <= u ==> r.0[x] == SetRecord(store, u, j, Reinstate(store[u].1[j]))[x]))
    ensures KeysUnique(store, EntryKey) ==> KeysUnique(r.0, EntryKey)
    ensures AllConsistent(store) ==> AllConsistent(r.0)
    decreases |store| - i
  {
    match LocateFrom(store, name, i)
    case None => (store, [NotFound])
    case Some((u, j)) =>
      var v := store[u].1[j];
      if !v.suspended then (store, [NotIsolated])
      else
        var s1 := SetRecord(store, u, j, Reinstate(v));
        if ok then (s1, [Reinstated])
        else
          var rest := UnsuspendFrom(s1, name, ok, u + 1);
          (rest.0, [Failed] + rest.1)
  }

  /** `/unsuspend_vps <container_name>` as written. */
  function Unsuspend(store: Store, admins: Admins, caller: int, args: seq<string>, ok: bool): (r: (Store, seq<Reply>))
    ensures !IsAdmin(admins, caller) || |args| < 1 ==> r.0 == store && |r.1| == 1
    ensures IsAdmin(admins, caller) && |args| >= 1 ==> r == UnsuspendFrom(store, args[0], ok, 0)
    ensures AllConsistent(store) ==> AllConsistent(r.0)
  {
    if !IsAdmin(admins, caller) then (store, [Denied])
    else if |args| < 1 then (store, [Usage])
    else UnsuspendFrom(store, args[0], ok, 0)
  }

  /** As written, when `lxc start` fails on an isolated instance whose name
      no later user has, the record is nevertheless marked running and not
      isolated, and the admin gets a failure and then "Instance Not Found". */
  lemma {:induction false} FailedStartReportsNotFound(store: Store, admins: Admins, caller: int, name: string)
    requires IsAdmin(admins, caller)
    requires Locate(store, name).Some?
    requires var (u, j) := Locate(store, name).value;
      store[u].1[j].suspended && forall x :: u < x < |store| ==> !HasKey(store[x].1, VpsName, name)
    ensures var (u, j) := Locate(store, name).value;
      var r := Unsuspend(store, admins, caller, [name], false);
      r.1 == [Failed, NotFound] && !r.0[u].1[j].suspended && r.0[u].1[j].status == "running"
  {
    var (u, j) := Locate(store, name).value;
    var s1 := SetRecord(store, u, j, Reinstate(store[u].1[j]));
    forall x | u + 1 <= x < |s1| ensures !HasKey(s1[x].1, VpsName, name) {
      assert s1[x] == store[x];
    }
    assert LocateFrom(s1, name, u + 1).None?;
  }

  /** `/unsuspend_vps` with the record reset only after the container has
      started and a single reply: a failed start leaves the store as it
      was, so the record still says isolated while the container is down. */
  function UnsuspendFixed(store: Store, admins: Admins, caller: int, args: seq<string>, ok: bool): (r: (Store, seq<Reply>))
    ensures |r.1| == 1
    ensures r.1 != [Reinstated] ==> r.0 == store
    ensures r.1 == [Reinstated] <==>
      IsAdmin(admins, caller) && |args| >= 1 && Locate(store, args[0]).Some?
      && store[Locate(store, args[0]).value.0].1[Locate(store, args[0]).value.1].suspended && ok
    ensures r.1 == [Reinstated] ==>
      var (u, j) := Locate(store, args[0]).value;
      r.0 == SetRecord(store, u, j, Reinstate(store[u].1[j]))
    ensures AllConsistent(store) ==> AllConsistent(r.0)
  {
    if !IsAdmin(admins, caller) then (store, [Denied])
    else if |args| < 1 then (store, [Usage])
    else match Locate(store, args[0])
      case None => (store, [NotFound])
      case Some((u, j)) =>
        var v := store[u].1[j];
        if !v.suspended then (store, [NotIsolated])
        else if !ok then (store, [Failed])
        else (SetRecord(store, u, j, Reinstate(v)), [Reinstated])
  }

  // ---------------------------------------------------------------------
  // /restart_vps
  // ---------------------------------------------------------------------

  /** In one user's list, the first record with the name reinstated. */
  function Revive(list: seq<Vps>, name: string): (r: seq<Vps>)
    ensures |r| == |list|
    ensures forall k :: 0 <= k < |list| ==>
      r[k] == (if IndexOfKey(list, VpsName, name) == Some(k) then Reinstate(list[k]) else list[k])
    ensures (forall v :: v in list ==> Consistent(v)) ==> forall v :: v in r ==> Consistent(v)
  {
    match IndexOfKey(list, VpsName, name)
    case None => list
    case Some(j) => list[j := Reinstate(list[j])]
  }

  /** `/restart_vps <container_name>`: after `lxc restart` succeeds, the
      first record with the name in each user's list is marked running and
      not isolated (the loop's `break` leaves only the inner loop); the
      command reports success whether or not a record matched. */
  function Restart(store: Store, admins: Admins, caller: int, args: seq<string>, ok: bool): (r: (Store, Reply))
    ensures r.1 == Restarted <==> IsAdmin(admins, caller) && |args| >= 1 && ok
    ensures r.1 != Restarted ==> r.0 == store
    ensures r.1 == Restarted ==> |r.0| == |store|
    ensures r.1 == Restarted ==>
      (forall x :: 0 <= x < |store| ==> r.0[x] == (store[x].0, Revive(store[x].1, args[0])))
    ensures AllConsistent(store) ==> AllConsistent(r.0)
  {
    if !IsAdmin(admins, caller) then (store, Denied)
    else if |args| < 1 then (store, Usage)
    else if !ok then (store, Failed)
    else
      var r := seq(|store|, x requires 0 <= x < |store| => (store[x].0, Revive(store[x].1, args[0])));
      assert AllConsistent(store) ==> AllConsistent(r) by {
        if AllConsistent(store) {
          forall e, w | e in r && w in e.1 ensures Consistent(w) {
            var x :| 0 <= x < |r| && r[x] == e;
            assert store[x] in store;
          }
        }
      }
      (r, Restarted)
  }

  // ---------------------------------------------------------------------
  // /serverstats
  // ---------------------------------------------------------------------

  /** Sums over some records: RAM, CPU and storage figures, and how many
      are counted as running and as isolated. */
  datatype Totals = Totals(ram: int, cpu: int, storage: int, running: nat, isolated: nat)

  const NoTotals := Totals(0, 0, 0, 0, 0)

  function Plus(a: Totals, b: Totals): Totals {
    Totals(a.ram + b.ram, a.cpu + b.cpu, a.storage + b.storage, a.running + b.running, a.isolated + b.isolated)
  }

  /** One record's share of the sums, or `None` when one of its `int()`
      conversions raises. As written (`countFlag` false) a record counts as
      running or as isolated only when its status is `'running'`; with
      `countFlag` every flagged record counts as isolated. */
  function Share(v: Vps, countFlag: bool): (r: Option<Totals>)
    ensures r.Some? <==> GbValue(v.ram).Some? && GbValue(v.storage).Some? && ParseInt(v.cpu).Some?
    ensures r.Some? ==> r.value.running + r.value.isolated <= 1
    ensures r.Some? ==> r.value.ram == GbValue(v.ram).value && r.value.cpu == ParseInt(v.cpu).value
                        && r.value.storage == GbValue(v.storage).value
    ensures r.Some? ==> (r.value.running == 1 <==> v.status == "running" && !v.suspended)
    ensures r.Some? && !countFlag ==> (r.value.isolated == 1 <==> v.status == "running" && v.suspended)
    ensures r.Some? && countFlag ==> (r.value.isolated == 1 <==> v.suspended)
  {
    match (GbValue(v.ram), GbValue(v.storage), ParseInt(v.cpu))
    case (Some(ram), Some(storage), Some(cpu)) =>
      var running := if v.status == "running" && !v.suspended then 1 else 0;
      var isolated :=
        if countFlag then (if v.suspended then 1 else 0)
        else (if v.status == "running" && v.suspended then 1 else 0);
      Some(Totals(ram, cpu, storage, running, isolated))
    case _ => None
  }

  function Combine(a: Option<Totals>, b: Option<Totals>): Option<Totals> {
    if a.Some? && b.Some? then Some(Plus(a.value, b.value)) else None
  }

  /** Each record's share, in order. */
  function Shares(vs: seq<Vps>, countFlag: bool): (r: seq<Option<Totals>>)
    ensures |r| == |vs| && forall i :: 0 <= i < |vs| ==> r[i] == Share(vs[i], countFlag)
  {
    seq(|vs|, i requires 0 <= i < |vs| => Share(vs[i], countFlag))
  }

  /** The running sum of the shares; `None` once one of them is. */
  function SumAll(xs: seq<Option<Totals>>): Option<Totals> {
    if |xs| == 0 then Some(NoTotals) else Combine(xs[0], SumAll(xs[1..]))
  }

  /** The sums over `vs`, or `None` when a conversion raises on any of
      them. */
  function Tally(vs: seq<Vps>, countFlag: bool): (r: Option<Totals>)
    ensures r.Some? ==> r.value.running + r.value.isolated <= |vs|
  {
    SumAllBound(Shares(vs, countFlag));
    SumAll(Shares(vs, countFlag))
  }

  lemma {:induction false} SumAllBound(xs: seq<Option<Totals>>)
    requires forall i :: 0 <= i < |xs| && xs[i].Some? ==> xs[i].value.running + xs[i].value.isolated <= 1
    ensures SumAll(xs).Some? ==> SumAll(xs).value.running + SumAll(xs).value.isolated <= |xs|
  {
    if |xs| > 0 {
      assert forall i :: 1 <= i < |xs| ==> xs[1..][i - 1] == xs[i];
      SumAllBound(xs[1..]);
    }
  }

  lemma {:induction false} SumAllAppend(xs: seq<Option<Totals>>, ys: seq<Option<Totals>>)
    ensures SumAll(xs + ys) == Combine(SumAll(xs), SumAll(ys))
  {
    if |xs| == 0 {
      assert xs + ys == ys;
    } else {
      assert (xs + ys)[1..] == xs[1..] + ys;
      SumAllAppend(xs[1..], ys);
      CombineAssoc(xs[0], SumAll(xs[1..]), SumAll(ys));
    }
  }

  /** The sums of no records, and of a first record and the rest. */
  lemma {:induction false} TallyNil(countFlag: bool)
    ensures Tally([], countFlag) == Some(NoTotals)
  {
  }

  lemma {:induction false} TallyCons(vs: seq<Vps>, countFlag: bool)
    requires |vs| > 0
    ensures Tally(vs, countFlag) == Combine(Share(vs[0], countFlag), Tally(vs[1..], countFlag))
  {
    assert Shares(vs, countFlag)[1..] == Shares(vs[1..], countFlag);
  }

  /** The sums exist exactly when every record's figures convert. */
  lemma {:induction false} TallyRaises(vs: seq<Vps>, countFlag: bool)
    ensures Tally(vs, countFlag).Some? <==> forall v :: v in vs ==> Share(v, countFlag).Some?
  {
    if |vs| > 0 {
      assert forall v :: v in vs <==> v == vs[0] || v in vs[1..];
      TallyCons(vs, countFlag);
      TallyRaises(vs[1..], countFlag);
    }
  }

  lemma {:induction false} TallyAppend(a: seq<Vps>, b: seq<Vps>, countFlag: bool)
    ensures Tally(a + b, countFlag) == Combine(Tally(a, countFlag), Tally(b, countFlag))
  {
    assert Shares(a + b, countFlag) == Shares(a, countFlag) + Shares(b, countFlag);
    SumAllAppend(Shares(a, countFlag), Shares(b, countFlag));
  }

  lemma {:induction false} CombineAssoc(x: Option<Totals>, y: Option<Totals>, z: Option<Totals>)
    ensures Combine(x, Combine(y, z)) == Combine(Combine(x, y), z)
  {
  }

  /** Every record of every user, in dictionary order. */
  function Flatten(store: Store): (r: seq<Vps>)
  {
    if |store| == 0 then [] else store[0].1 + Flatten(store[1..])
  }

  lemma {:induction false} FlattenMembers(store: Store, v: Vps)
    ensures v in Flatten(store) <==> exists e :: e in store && v in e.1
  {
    if |store| > 0 {
      FlattenMembers(store[1..], v);
      assert forall e :: e in store <==> e == store[0] || e in store[1..];
    }
  }

  lemma {:induction false} FlattenAppend(store: Store, e: (string, seq<Vps>))
    ensures Flatten(store + [e]) == Flatten(store) + e.1
  {
    if |store| == 0 {
      assert store + [e] == [e];
      assert [e][1..] == [];
    } else {
      assert (store + [e])[1..] == store[1..] + [e];
      FlattenAppend(store[1..], e);
    }
  }

  lemma {:induction false} FlattenSplit(store: Store, i: nat)
    requires i < |store|
    ensures Flatten(store) == Flatten(store[..i]) + store[i].1 + Flatten(store[i + 1..])
  {
    if i == 0 {
      assert store[..0] == [];
    } else {
      FlattenSplit(store[1..], i - 1);
      assert store[1..][..i - 1] == store[1..i];
      assert store[1..][i - 1 + 1..] == store[i + 1..];
      var front := store[..i];
      assert front[0] == store[0] && front[1..] == store[1..i];
    }
  }

  /** What `/serverstats` replies: nothing for a non-admin, the handler's
      exception when a record's figures do not convert, otherwise the user
      count, the administrator count (the list plus the main admin), the
      instance count and the sums. */
  datatype StatsReply = StatsDenied | StatsRaised | Stats(users: nat, administrators: nat, instances: nat, totals: Totals)

  function ServerStatsWith(store: Store, admins: Admins, caller: int, countFlag: bool): (r: StatsReply)
    ensures r.StatsDenied? <==> !IsAdmin(admins, caller)
    ensures r.Stats? <==> IsAdmin(admins, caller) && Tally(Flatten(store), countFlag).Some?
    ensures r.Stats? ==> r.users == |store| && r.instances == |Flatten(store)|
    ensures r.Stats? ==> r.administrators == |AdminList(admins)| + 1
    ensures r.Stats? ==> r.totals == Tally(Flatten(store), countFlag).value
    ensures r.Stats? ==> r.totals.running + r.totals.isolated <= r.instances
  {
    if !IsAdmin(admins, caller) then StatsDenied
    else match Tally(Flatten(store), countFlag)
      case None => StatsRaised
      case Some(t) => Stats(|store|, |AdminList(admins)| + 1, |Flatten(store)|, t)
  }

  /** `/serverstats` as written. */
  function ServerStats(store: Store, admins: Admins, caller: int): (r: StatsReply)
    ensures r.StatsDenied? <==> !IsAdmin(admins, caller)
    ensures r.Stats? <==> IsAdmin(admins, caller) && Tally(Flatten(store), false).Some?
    ensures r.Stats? ==> r.totals.running + r.totals.isolated <= r.instances
    ensures r.Stats? && AllConsistent(store) ==> r.totals.isolated == 0
  {
    var r := ServerStatsWith(store, admins, caller, false);
    assert r.Stats? && AllConsistent(store) ==> r.totals.isolated == 0 by {
      if r.Stats? && AllConsistent(store) {
        IsolatedNeverCounted(store);
      }
    }
    r
  }

  /** `/serverstats` counting every flagged record as isolated: the count
      is zero exactly when no instance is isolated. */
  function ServerStatsFixed(store: Store, admins: Admins, caller: int): (r: StatsReply)
    ensures r.Stats? ==> r.totals.running + r.totals.isolated <= r.instances
    ensures r.Stats? ==> (r.totals.isolated == 0 <==> forall v :: v in Flatten(store) ==> !v.suspended)
    ensures r.Stats? <==> ServerStats(store, admins, caller).Stats?
    ensures r.Stats? ==> var w := ServerStats(store, admins, caller);
      r.users == w.users && r.administrators == w.administrators && r.instances == w.instances && r.totals.ram == w.totals.ram
      && r.totals.cpu == w.totals.cpu && r.totals.storage == w.totals.storage && r.totals.running == w.totals.running
  {
    var r := ServerStatsWith(store, admins, caller, true);
    SameFigures(Flatten(store));
    assert r.Stats? ==> (r.totals.isolated == 0 <==> forall v :: v in Flatten(store) ==> !v.suspended) by {
      if r.Stats? {
        FlagCounted(Flatten(store));
      }
    }
    r
  }

  /** With every record consistent, the as-written count of isolated
      instances is zero whatever the records say. */
  lemma {:induction false} IsolatedNeverCounted(store: Store)
    requires AllConsistent(store) && Tally(Flatten(store), false).Some?
    ensures Tally(Flatten(store), false).value.isolated == 0
  {
    forall v | v in Flatten(store) ensures Consistent(v) {
      FlattenMembers(store, v);
    }
    ConsistentNotCounted(Flatten(store));
  }

  lemma {:induction false} ConsistentNotCounted(vs: seq<Vps>)
    requires forall v :: v in vs ==> Consistent(v)
    requires Tally(vs, false).Some?
    ensures Tally(vs, false).value.isolated == 0
  {
    if |vs| > 0 {
      assert vs[0] in vs;
      assert forall v :: v in vs[1..] ==> v in vs;
      TallyCons(vs, false);
      ConsistentNotCounted(vs[1..]);
    }
  }

  lemma {:induction false} FlagCounted(vs: seq<Vps>)
    requires Tally(vs, true).Some?
    ensures Tally(vs, true).value.isolated == 0 <==> forall v :: v in vs ==> !v.suspended
  {
    if |vs| > 0 {
      assert forall v :: v in vs <==> v == vs[0] || v in vs[1..];
      TallyCons(vs, true);
      FlagCounted(vs[1..]);
    }
  }

  /** The two readings differ only in the isolated count. */
  lemma {:induction false} SameFigures(vs: seq<Vps>)
    ensures Tally(vs, true).Some? <==> Tally(vs, false).Some?
    ensures Tally(vs, true).Some? ==>
      var a := Tally(vs, true).value; var b := Tally(vs, false).value;
      a.ram == b.ram && a.cpu == b.cpu && a.storage == b.storage && a.running == b.running
  {
    if |vs| > 0 {
      TallyCons(vs, true);
      TallyCons(vs, false);
      SameFigures(vs[1..]);
    }
  }

  /** Replacing one user's list changes the sums by that list only. */
  lemma {:induction false} TallyReplace(store: Store, i: nat, e: (string, seq<Vps>), countFlag: bool)
    requires i < |store|
    ensures Tally(Flatten(store[i := e]), countFlag) ==
      Combine(Combine(Tally(Flatten(store[..i]), countFlag), Tally(e.1, countFlag)), Tally(Flatten(store[i + 1..]), countFlag))
  {
    var s1 := store[i := e];
    FlattenSplit(s1, i);
    assert s1[..i] == store[..i] && s1[i + 1..] == store[i + 1..];
    TallyAppend(Flatten(store[..i]), e.1, countFlag);
    TallyAppend(Flatten(store[..i]) + e.1, Flatten(store[i + 1..]), countFlag);
  }

  /** Appending a record adds its share to the sums. */
  lemma {:induction false} TallyAppendInstance(store: Store, uid: string, v: Vps, countFlag: bool)
    ensures Tally(Flatten(AppendInstance(store, uid, v)), countFlag) ==
      Combine(Tally(Flatten(store), countFlag), Share(v, countFlag))
  {
    var before := Instances(store, uid);
    TallyOne(v, countFlag);
    TallyAppend(before, [v], countFlag);
    if HasKey(store, EntryKey, uid) {
      TallyAppendListed(store, uid, v, countFlag);
    } else {
      FlattenAppend(store, (uid, [v]));
      TallyAppend(Flatten(store), [v], countFlag);
    }
  }

  lemma {:induction false} TallyOne(v: Vps, countFlag: bool)
    ensures Tally([v], countFlag) == Share(v, countFlag)
  {
    TallyCons([v], countFlag);
    assert [v][1..] == [];
    TallyNil(countFlag);
    CombineNoTotals(Share(v, countFlag));
  }

  lemma {:induction false} CombineNoTotals(x: Option<Totals>)
    ensures Combine(x, Some(NoTotals)) == x
  {
  }

  lemma {:induction false} TallyAppendListed(store: Store, uid: string, v: Vps, countFlag: bool)
    requires HasKey(store, EntryKey, uid)
    requires Tally(Instances(store, uid) + [v], countFlag) == Combine(Tally(Instances(store, uid), countFlag), Share(v, countFlag))
    ensures Tally(Flatten(AppendInstance(store, uid, v)), countFlag) ==
      Combine(Tally(Flatten(store), countFlag), Share(v, countFlag))
  {
    var before := Instances(store, uid);
    var i := IndexOfKey(store, EntryKey, uid).value;
    assert store[i] == (uid, before);
    assert store[i := store[i]] == store;
    TallyReplace(store, i, (uid, before), countFlag);
    TallyReplace(store, i, (uid, before + [v]), countFlag);
    CombineShuffle(Tally(Flatten(store[..i]), countFlag), Tally(before, countFlag),
                   Tally(Flatten(store[i + 1..]), countFlag), Share(v, countFlag));
  }

  lemma {:induction false} CombineShuffle(x: Option<Totals>, b: Option<Totals>, y: Option<Totals>, s: Option<Totals>)
    ensures Combine(Combine(x, Combine(b, s)), y) == Combine(Combine(Combine(x, b), y), s)
  {
  }

  /** Each instance `/create` provisions adds its RAM, CPU and disk
      arguments to the sums and one to the running count. */
  lemma {:induction false} CreateAddsToTotals(store: Store, admins: Admins, caller: int, args: seq<string>,
                           now: string, countFlag: bool)
    requires CreateAccepted(admins, caller, args)
    requires Tally(Flatten(store), countFlag).Some?
    ensures Tally(Flatten(Create(store, admins, caller, args, true, now).0), countFlag) ==
      Some(Plus(Tally(Flatten(store), countFlag).value,
                Totals(ParseInt(args[0]).value, ParseInt(args[1]).value, ParseInt(args[2]).value, 1, 0)))
  {
    var uid := args[3];
    var r := CreateWith(store, admins, caller, args, true, now, false);
    var v := Instances(r.0, uid)[|Instances(store, uid)|];
    assert CreateAccepted(admins, caller, args) && Provides(v, args, r.1.name)
      && r.0 == AppendInstance(store, uid, v);
    ProvidedShare(v, args, r.1.name, countFlag);
    TallyAppendInstance(store, uid, v, countFlag);
  }

  /** The record `/create` appends adds its arguments and one running
      instance. */
  lemma {:induction false} ProvidedShare(v: Vps, args: seq<string>, name: string, countFlag: bool)
    requires |args| >= 3 && Provides(v, args, name)
    requires ParseInt(args[0]).Some? && ParseInt(args[1]).Some? && ParseInt(args[2]).Some?
    ensures Share(v, countFlag) ==
      Some(Totals(ParseInt(args[0]).value, ParseInt(args[1]).value, ParseInt(args[2]).value, 1, 0))
  {
  }
}
